=== FILE: README.md ===
# Eventful storage engine in Dafny

A model of the core of Eventful, a column-oriented, append-only event store.
It covers how the store is laid out on disk, how events are written, and how they are read back in their original order.

## The store

A store is a folder of files:

- `types.idx` is the **registry**: one entry per event type, a 16-bit id followed by the type's full name as a length-prefixed string.
  Both the writer and the reader load it into a dictionary from name to id.
- `sequence.log` at the root is the **tag log**: the 16-bit type id of every event, in write order.
- `<folder>\<FullName>\sequence.log` is a type's **sequence file**: the 32-bit global position of each of that type's events.
- `<folder>\<FullName>\<Property>.col` is a **column file**: one per public read/write property, holding that property's values, one per row.

`EventfulFileSystemWriter.Write` does four things:

1. It registers the event's type on first use.
2. It creates the type's writer on first use.
3. It writes the row: the global position into the type's sequence file, then each property into its column file.
4. It appends the tag and counts the event.

`EventfulFileSystemReader.Read` and `Invoke` do the reverse:

1. They build one type reader per requested type. Each reader owes the positions in its sequence file.
2. They merge those readers in position order through a small linked list. The list is kept ordered by removing its head and re-inserting it after a scan.
3. Each step yields the head type's next pooled instance, whose property getters read the column files lazily.

## Modules

Each module follows one source class:

- **Base**, **Streams**, **Schema** and **Words** hold the shared definitions:
  - the little-endian and 7-bit encodings;
  - files as a map from path to bytes, and streams over them;
  - event classes and their properties;
  - the word view of a byte file.
- **Registry** models the registry file format.
- **Writers** models ColumnWriter and TypeWriter.
- **StoreWriter** models EventfulFileSystemWriter.
- **MiscReader** models the column decoders.
- **DecimalReader**, **PrimitiveReader**, **UInt16Reader** and **UInt32Reader** model the block readers and their lazy bootstrappers.
- **TypeReader** models TypeReaderFactory. It reads sequence files through UInt32Reader as written. UInt32Reader also has a corrected build, which keeps a short block's whole words; only the Findings row uses it.
- **MergeJoin** models the linked list and the loops of Read and Invoke.
- **Store** models the reader's constructor, CreateTypeReaders, Read and Invoke.
- **Codec** pairs each column writer with its decoder and proves which values round-trip.
- **Replay** holds the headline theorems:
  - `Replay.SessionReplays`: after one writing session from an empty folder, a reader on that folder replays the events of any set of distinct types at least one of which was written, in the order they were written. The theorem assumes every requested type is one the proxy generator can subclass; `TypeReader.NewFactory` under Left out says which types are not. When none of them was written, Read as written throws a null reference; the corrected Read yields nothing.
  - `Replay.InvokeReplays` and `Replay.InvokeAsWrittenReplays`: Invoke hands each of those events to its type's handler, and as written it throws a null reference when no handled type was written.

The repository names no target framework. The model follows .NET Framework's base class library: a disposed `BinaryReader` drops its stream, and its 7-bit length decoder reads at most five groups.

Files, I/O faults and the .NET runtime become data:

- a file system is a `map<string, seq<byte>>`;
- an exception is a `Fault` value in a `Result`;
- a disposal is the list of handles it released, and the fault that ended it, if one did;
- proxy types generated with Reflection.Emit become a list of per-property getter slots.

## Behaviour worth knowing

The model follows the code, including where it does something its authors evidently did not want.

- **A type with no rows.**
  The list constructor gives a reader with no first position the key `UInt32.MaxValue` (EventfulFileSystemReader.cs:400), so that type yields one phantom row.
  The TODO on that line ("Remove if nothing left") shows the intent; `MergeJoin.Read` models it, and Findings records the difference.
  When none of the requested types is registered, the list head is null and is dereferenced (EventfulFileSystemReader.cs:63-64).
  Invoke builds the same list: it calls a handler once at the sentinel for a type with no rows, and throws a null reference when no handled type is registered (EventfulFileSystemReader.cs:130-131).
- **A fault in the middle of a read.**
  Each row is yielded, or handed to its handler, before the next position is read (EventfulFileSystemReader.cs:97-101, 164-169).
  A fault from that read therefore comes after the rows and calls already made; `MergeJoin.Delivered` and `MergeJoin.InvokeDelivered` keep them.
- **Exhausting the registry.**
  The writer array has 65535 slots (EventfulFileSystemWriter.cs:10), so id 65535 is an index error.
  Past that, the `(ushort)` cast at EventfulFileSystemWriter.cs:79 wraps.
- **A missing column file.**
  `MiscReader` opens a column with `FileMode.Open` (MiscReader.cs:33), which throws file-not-found.
  The bootstrappers therefore fail on their first read of a property added after older rows were written.
- **A sequence file that is not whole words.**
  A short last block whose length is not a multiple of 4 makes `Buffer.BlockCopy` throw an argument exception (UInt32Reader.cs:55-57).
  `ReadNextSequenceId` catches only end of stream (TypeReaderFactory.cs:105-115), so the read fails.
  The tag reader does the same on an odd-length log (UInt16Reader.cs:36-38).
- **Disposing a boolean column.**
  `PrimitiveReader.Dispose` disposes its binary reader and then its `BaseStream` (PrimitiveReader.cs:62-66).
  On .NET Framework the disposed reader's `BaseStream` is null, so this throws a null reference.
  After a read that touched a boolean property, the disposal loop (EventfulFileSystemReader.cs:119-122) stops there, after the last row, and the later readers stay open.
- **Round trips.** The writers and the decoders do not agree on:
  - decimals, whose getter always asks for row 0 (MiscReader.cs:149);
  - DateTimeOffset, which is read back with its time of day as its offset (MiscReader.cs:173);
  - nullable decimals, which use a different byte layout on each side (ColumnWriter.cs:189-197, MiscReader.cs:153), so that a value whose mid word is not a valid flags word, such as 4294967296m, fails to read with an IOException;
  - nullable enums: the decoder reads the flag and then a byte, short or int (MiscReader.cs:204-211), and hands the boxed integer to `SetValue` on a `Nullable<E>` property. Reflection converts a boxed integer only for an enum or primitive property, so a present value fails with an argument exception after its bytes are consumed, and only null reads back;
  - lists, whose count is written (ColumnWriter.cs:331) but never read;
  - nested reference objects.

  `Codec` proves each of these behaviours as written.

## Model

| member | source | states |
|---|---|---|
| Base.DecodeEncodeLE | Eventful.Core/Writers/ColumnWriter.cs:105-108 | An unsigned value written little-endian in its width reads back as itself; this is the integer layout of every BinaryWriter/BinaryReader pair in the store. |
| Base.EncodeDecodeLE | Eventful.Core/Readers/DataTypes/UInt32Reader.cs:47 | Every block of bytes is the little-endian encoding of the value read from it, so the word view of a file loses nothing. |
| Base.SignedRoundTrip | Eventful.Core/Readers/MiscReader.cs:85-88 | A signed integer stored as its two's-complement image and read as signed comes back unchanged. |
| Base.Read7Bit | Eventful.Core/Readers/EventfulFileSystemReader.cs:35 | The 7-bit length read either stops inside the bytes, past its start, or fails only with a format error (a sixth group) or end of stream. |
| Base.LengthPrefixRoundTrip | Eventful.Core/Readers/MiscReader.cs:179-182 | A string length written as a 7-bit prefix reads back as the same length, whatever bytes follow, and survives the reader's 32-bit accumulator. |
| Streams.OpenExisting | Eventful.Core/Readers/MiscReader.cs:29-34 | Opening with FileMode.Open succeeds exactly when the file exists, on its bytes from offset 0, and otherwise fails with file-not-found. |
| Streams.Touch | Eventful.Core/Writers/TypeWriter.cs:17 | Opening with a creating mode adds the file, empty, only when it was missing; every file already there keeps its bytes. |
| Streams.WordsAt | Eventful.Core/Readers/DataTypes/UInt32Reader.cs:47 | Word k of a byte string is the little-endian value of bytes 4k to 4k+4, and only complete words count. |
| Streams.WordsAppend | Eventful.Core/Readers/DataTypes/UInt32Reader.cs:41-61 | Cutting a file at a word boundary cuts its words there: block-by-block reads see the words of the whole file. |
| Schema.NameTextInjective | Eventful.Core/Writers/EventfulFileSystemWriter.cs:62 | Distinct full names give distinct folder names, compared as strings with case significant, so no two types share a folder. |
| Schema.Select | Eventful.Core/Writers/TypeWriter.cs:20-22 | The selected properties are exactly those that pass the filter, each once, in declaration order. |
| Registry.LoadFrom | Eventful.Core/Writers/EventfulFileSystemWriter.cs:32-42 | Loading keeps every entry already loaded, and fails only with end of stream, a format or length error, or a duplicate name. |
| Registry.RegistryRoundTrip | Eventful.Core/Readers/EventfulFileSystemReader.cs:27-39 | Registry entries written one after another load back as the dictionary of their pairs exactly when no name repeats; a repeated name fails the load with the duplicate-key error. |
| Registry.LoadAppend | Eventful.Core/Writers/EventfulFileSystemWriter.cs:79-83 | Appending one entry to a registry that loads grows the loaded dictionary by that pair, or fails the load if the name is already present. |
| Registry.LoadExtend | Eventful.Core/Writers/EventfulFileSystemWriter.cs:35-41 | Bytes appended after complete entries do not change how those entries load; the loop carries on from the dictionary loaded so far. |
| Registry.MapOf | Eventful.Core/Readers/EventfulFileSystemReader.cs:37 | A name is in the dictionary iff some entry holds it, and a name that no later entry repeats maps to its entry's id. |
| Writers.CreateWriter | Eventful.Core/Writers/ColumnWriter.cs:29-351 | A column gets an encoder exactly when its type is writable. A custom writer for the exact type wins. An unsupported enum width fails with the enum message, while a nullable enum of that width fails with the generic message. |
| Writers.NestedWriter | Eventful.Core/Writers/ColumnWriter.cs:305-348 | An array, list or reference column succeeds exactly when every column of its element class is writable. |
| Writers.NewColumn | Eventful.Core/Writers/ColumnWriter.cs:20-27 | The column file `<path><Name>.col` is opened before the encoder is chosen, so it exists even when the column's type then fails; the column succeeds iff its type is writable. |
| Writers.NewColumns | Eventful.Core/Writers/TypeWriter.cs:24 | The columns are built in the selected order, one per selected property, each on its own column file, and all succeed iff every selected type is writable. |
| Writers.ColumnIndices | Eventful.Core/Writers/TypeWriter.cs:20-22 | The columns are exactly the public instance read/write properties, in declaration order. |
| Writers.NewTypeWriter | Eventful.Core/Writers/TypeWriter.cs:15-25 | The sequence file is opened first. The writer succeeds iff every column type is writable, with one column per read/write property in order and its sequence position at 0. |
| Writers.ScalarBytes | Eventful.Core/Writers/ColumnWriter.cs:40-257 | A scalar is written iff the value fits its type: bool as one byte 1/0, integers in their width, Guid/decimal/double as their raw bytes, DateTimeOffset as 16 bytes. |
| Writers.WriteColumn | Eventful.Core/Writers/ColumnWriter.cs:305-348 | Writing a column only appends to column files, nested writers' files included; it never touches a sequence file, the registry or the tag log. |
| Writers.WriteObject | Eventful.Core/Writers/TypeWriter.cs:34-40 | Writing an object's columns only appends to column files and adds no sequence entry. |
| Writers.WriteRow | Eventful.Core/Writers/TypeWriter.cs:27-32 | A row is the 32-bit index written at the sequence file's position, then the object's columns; the sequence position moves on by four bytes. |
| Writers.Dispose | Eventful.Core/Writers/TypeWriter.cs:42-51 | Each column's writer and then its stream are released, in column order, and then the sequence file's writer and stream. |
| Writers.Splice | Eventful.Core/Writers/TypeWriter.cs:17 | A write at an offset replaces the bytes it covers and extends the file past its end; bytes before the offset and after the write are kept. |
| Writers.TouchAll | Eventful.Core/Writers/TypeWriter.cs:24 | Opening files in turn creates the missing ones empty and keeps every existing file's bytes. |
| MiscReader.CreateStream | Eventful.Core/Readers/MiscReader.cs:29-34 | The column file is opened for reading iff it exists; a missing file is file-not-found. |
| MiscReader.CreateReader | Eventful.Core/Readers/MiscReader.cs:46-250 | With no stream nothing is read; otherwise a decoder exists iff the type is readable. A custom reader comes first. Unsupported enum widths fail with the enum message and other value types with the plain exception. A decimal column gets a DecimalReader on the same stream. |
| MiscReader.New | Eventful.Core/Readers/MiscReader.cs:19-27 | The stream is opened before the decoder is chosen, so a missing column file fails the constructor; the reader exists iff the file exists and the type is readable. |
| MiscReader.ReadExact | Eventful.Core/Readers/MiscReader.cs:135 | A fixed-size read returns exactly the next n bytes and moves past them, or fails with end of stream when fewer remain. |
| MiscReader.ReadBool | Eventful.Core/Readers/MiscReader.cs:61-64 | ReadBoolean succeeds iff a byte remains, and gives true exactly when that byte is not zero. |
| MiscReader.ReadInt | Eventful.Core/Readers/MiscReader.cs:69-132 | An integer read succeeds iff its width in bytes remains, and moves past exactly that width. |
| MiscReader.ReadText | Eventful.Core/Readers/MiscReader.cs:179-182 | A string read that succeeds moves forward; its failures are a format error, end of stream or a negative-length I/O error. |
| MiscReader.Read | Eventful.Core/Readers/MiscReader.cs:46-213 | A reader with no stream leaves the property's value as it was and reads nothing; a nullable enum reader never sets a present value; every read keeps the stream's file. |
| Codec.StorableFits | Eventful.Core/Writers/ColumnWriter.cs:301-304 | The values the writer accepts for a round-tripping column type are the values of that type, less a null string. |
| Codec.FactoriesPickFlatCodec | Eventful.Core/Writers/ColumnWriter.cs:40-304 | With no custom codecs, the writer and the reader pick the matching single-file codec for every round-tripping column type. |
| Codec.EncodeOpened | Eventful.Core/Writers/ColumnWriter.cs:40-304 | The writer's bytes for a storable value are the codec's encoding of it. |
| Codec.IntRoundTrip | Eventful.Core/Readers/MiscReader.cs:101-104 | An integer written in its width reads back as itself and moves the reader past exactly its bytes. |
| Codec.ScalarRoundTrip | Eventful.Core/Readers/MiscReader.cs:61-170 | MiscReader.ReadScalar, the non-nullable scalar branches, reads a scalar of a round-tripping type written without a presence flag back as itself and consumes exactly its bytes. |
| Codec.ValueRoundTrip | Eventful.Core/Readers/MiscReader.cs:61-213 | For the single-file column types, a storable value written by its column reads back as itself through the reader's decoder, consuming exactly its bytes, whatever surrounds them; of a nullable enum only null does. |
| Codec.PlainRoundTrip | Eventful.Core/Readers/MiscReader.cs:61-170 | A plain scalar column value reads back as itself, the reader moving past exactly its bytes. |
| Codec.NullableRoundTrip | Eventful.Core/Readers/MiscReader.cs:65-169 | A nullable scalar, null or not, reads back as itself after its presence flag. |
| Codec.EnumRoundTrip | Eventful.Core/Readers/MiscReader.cs:183-198 | An enum of byte, short or int reads back as the same underlying value. |
| Codec.NullableEnumReadBack | Eventful.Core/Readers/MiscReader.cs:199-213 | A nullable enum of byte, short or int written by its column: null reads back as null; a present value consumes its flag and its integer and then fails with the argument error `SetValue` raises for a boxed integer on a `Nullable<E>` property. |
| Codec.NullableEnumColumnReads | Eventful.Core/Readers/MiscReader.cs:199-213 | A nullable enum column reads back whole exactly when every value in it is null; otherwise the read fails with the setter's argument error. |
| Codec.TextRoundTrip | Eventful.Core/Readers/MiscReader.cs:179-182 | A string reads back as the same bytes after its 7-bit length prefix. |
| Codec.ColumnRoundTrip | Eventful.Core/Readers/MiscReader.cs:19-27 | A column file holding the writer's bytes for a sequence of values: the reader the factory opens on it reads back exactly those values, one per read; for a nullable enum column, exactly when all of them are null, and otherwise it fails with an argument error. |
| Codec.OffsetReadsTimeOfDay | Eventful.Core/Readers/MiscReader.cs:171-174 | A DateTimeOffset column is read with its time of day as the offset. It comes back unchanged exactly when its offset equals its own time of day, and otherwise as that other value or an argument error. |
| Codec.AfternoonOffsetIsUnreadable | Eventful.Core/Writers/ColumnWriter.cs:239-247 | Three in the afternoon at offset zero is written with a fifteen-hour time of day, which no offset may span, so reading it fails. |
| Codec.NullableDecimalReadsOtherLayout | Eventful.Core/Readers/MiscReader.cs:151-154 | A nullable decimal is written as the decimal's memory image (flags, hi, lo, mid) and read by BinaryReader.ReadDecimal in MiscReader.ReadScalar as (lo, mid, hi, flags). It reads back as a value exactly when the image's mid word passes as a flags word (sign bit and a scale of at most 28 only), and otherwise fails with an IOException. |
| Codec.NullableTwoToThe32IsUnreadable | Eventful.Core/Readers/MiscReader.cs:153 | 4294967296m, whose mid word is 1, is written to a nullable decimal column and cannot be read back: the read fails with an IOException. |
| Codec.DecimalColumnRepeats | Eventful.Core/Readers/MiscReader.cs:141-150 | The decimal decoder always asks its DecimalReader for row 0, which never moves it, so every read gives the same value. |
| Codec.DecimalColumnReadsFirstValue | Eventful.Core/Readers/MiscReader.cs:141-150 | On a decimal column file of at least one value, every row read through the column reader is the file's first 16 bytes. |
| Codec.ListCountIsLeftUnread | Eventful.Core/Readers/MiscReader.cs:239-247 | A list column is written with a flag and a 16-bit count but read through the reference branch: an empty list comes back and the count bytes are left for the next row. |
| Codec.ArrayLengthRoundTrip | Eventful.Core/Readers/MiscReader.cs:214-238 | An array column stores its length mod 2^16 after the flag, and the reader builds an array of exactly that many unfilled elements, so lengths below 2^16 come back. |
| Codec.NullReferenceRoundTrip | Eventful.Core/Writers/ColumnWriter.cs:339-348 | A null array, list or reference is written as one zero byte and reads back as null, consuming that byte. |
| DecimalReader.New | Eventful.Core/Readers/DataTypes/DecimalReader.cs:54-61 | The constructor reads the first block at once; the reader starts at slot 0 of row 0, past up to 64 KiB of the stream. |
| DecimalReader.ReadDecimal | Eventful.Core/Readers/DataTypes/DecimalReader.cs:82-99 | A row id at or below the last one rereads the current slot. A higher id moves exactly one slot on, however far above it is, and leaving the last slot refills the array from the stream. |
| DecimalReader.StepRow | Eventful.Core/Readers/DataTypes/DecimalReader.cs:82-99 | When rows are read in turn, row i's read returns bytes 16i to 16i+16 of the column file, across block refills. |
| DecimalReader.SequentialRowsReadTheirValues | Eventful.Core/Readers/DataTypes/DecimalReader.cs:63-99 | Reading rows 0, 1, ..., k-1 in turn gives row i the i-th 16-byte value of the file. |
| DecimalReader.DisposeSlot | Eventful.Core/Readers/DataTypes/DecimalReader.cs:40-43 | A bootstrapper releases nothing unless its real reader was built. |
| DecimalReader.SlotReadsLikeReader | Eventful.Core/Readers/DataTypes/DecimalReader.cs:33-38 | A read through a fresh bootstrapper builds the real reader and patches the slot; the rows it returns are those a reader built directly on the stream returns. |
| DecimalReader.PooledRowsReadTheirValues | Eventful.Core/Readers/DataTypes/DecimalReader.cs:27-38 | Through the bootstrapper, rows 0..k-1 read in turn give the column's first k values. |
| DecimalReader.SkippedRowsReadTheNextSlot | Eventful.Core/Readers/DataTypes/DecimalReader.cs:84-89 | Skipping rows moves one slot only: a getter used at rows 0 and then 5 gets the values stored for rows 0 and 1. |
| PrimitiveReader.ReadBool | Eventful.Core/Readers/DataTypes/PrimitiveReader.cs:57-60 | A bool read succeeds iff a byte remains and is true when the byte is not zero; at the end it fails with end of stream and nothing moves. |
| PrimitiveReader.ReadManyFrom | Eventful.Core/Readers/DataTypes/PrimitiveReader.cs:57-60 | k reads deliver the next min(k, remaining) bytes as booleans and fail with end of stream exactly when k exceeds what remains. |
| PrimitiveReader.DisposeSlot | Eventful.Core/Readers/DataTypes/PrimitiveReader.cs:42-45 | A bootstrapper releases nothing and cannot throw unless its real reader was built. A built reader's PrimitiveReader.Dispose releases its binary reader and then throws a null reference (PrimitiveReader.cs:62-66 on .NET Framework), so its stream's second Dispose is never made. |
| PrimitiveReader.SlotReadsLikeReader | Eventful.Core/Readers/DataTypes/PrimitiveReader.cs:35-40 | The bootstrapper is invisible: k reads through it deliver what k reads of a reader over the provided stream deliver. |
| UInt16Reader.ReadUInt16s | Eventful.Core/Readers/DataTypes/UInt16Reader.cs:20-42 | One call consumes min(64 KiB, remaining) bytes. It fails with the block copy's argument error exactly when that block is short and of odd length; otherwise it returns the block's 16-bit words, in the shared array exactly when a full block was read. |
| UInt16Reader.ReadsAllWords | Eventful.Core/Readers/DataTypes/UInt16Reader.cs:20-42 | Calling until the empty batch yields every 16-bit word of a log of even length, in order; a log of odd length ends in the argument error instead. |
| UInt32Reader.New | Eventful.Core/Readers/DataTypes/UInt32Reader.cs:13-19 | The constructor reads the first block. It fails with end of stream exactly on an empty file, and as written with the block copy's argument error exactly on a file shorter than one block whose length is not a multiple of 4. |
| UInt32Reader.ReadBlock | Eventful.Core/Readers/DataTypes/UInt32Reader.cs:41-61 | A refill consumes min(64 KiB, remaining) bytes. It fails with end of stream on an empty read, and with the argument error on a full block into a short array or, as written, on a short block whose length is not a multiple of 4; otherwise the array becomes the block's words. |
| UInt32Reader.Next | Eventful.Core/Readers/DataTypes/UInt32Reader.cs:28-39 | A word left in the array is returned and the position moves by one; every read lowers what is still owed or fails. |
| UInt32Reader.ReadLength | Eventful.Core/Readers/DataTypes/UInt32Reader.cs:23-26 | The length is the file's size in whole 32-bit words, whatever has been read so far. |
| UInt32Reader.NewPendsAllWords | Eventful.Core/Readers/DataTypes/UInt32Reader.cs:13-19 | A new reader sits on a block boundary and still owes every word of the file. |
| UInt32Reader.AsWrittenReadsAllWords | Eventful.Core/Readers/DataTypes/UInt32Reader.cs:41-61 | As written, a file whose length is a multiple of 4 delivers every word and then end of stream; any other non-empty file delivers the words of its whole 64 KiB blocks and then fails with the argument error. |
| UInt32Reader.OneByteTailFails | Eventful.Core/Readers/DataTypes/UInt32Reader.cs:53-60 | A 65537-byte file delivers its 16384 words and then fails with the argument error where the corrected reader ends the stream; a 5-byte file fails in the constructor where the corrected reader delivers its one word. |
| UInt32Reader.ReadFileDelivers | Eventful.Core/Readers/DataTypes/UInt32Reader.cs:13-61 | Every file read through either build, in closed form: nothing from an empty file; the argument error after the whole blocks' words for an unaligned file as written; otherwise every word and then end of stream. |
| UInt32Reader.ReadsAllWords | Eventful.Core/Readers/DataTypes/UInt32Reader.cs:28-61 | The corrected reader delivers exactly floor(n/4) little-endian words in order, then end of stream, for every non-empty file. |
| UInt32Reader.ReadUInt32Pops | Eventful.Core/Readers/DataTypes/UInt32Reader.cs:28-39 | Each read hands out the first word still owed and owes the rest; with nothing owed it reports end of stream and stays exhausted. |
| UInt32Reader.AlignedAgree | Eventful.Core/Readers/DataTypes/UInt32Reader.cs:28-61 | On a file whose length is a multiple of 4 the reader as written and the corrected reader take the same step from every boundary state. |
| UInt32Reader.AsWrittenStep | Eventful.Core/Readers/DataTypes/UInt32Reader.cs:28-61 | One UInt32Reader.ReadUInt32AsWritten from a boundary state stays on a boundary; its only faults are end of stream with nothing unread and the argument error of an unaligned file, never the index error. |
| TypeReader.Placeholder | Eventful.Core/Readers/ProxyGeneration/TypeReaderFactory.cs:64-76 | A proxied bool property gets a bool bootstrapper and a decimal one a decimal bootstrapper, neither built yet. |
| TypeReader.NewFactory | Eventful.Core/Readers/ProxyGeneration/TypeReaderFactory.cs:29-62 | The sequence file is created if missing and its reader left unbuilt. The row counter starts at -1 and every relevant property gets its bootstrapper, in order. |
| TypeReader.ReadPooled | Eventful.Core/Readers/ProxyGeneration/TypeReaderFactory.cs:90-103 | A pooled read moves only the row counter, by one. |
| TypeReader.ReadNew | Eventful.Core/Readers/ProxyGeneration/TypeReaderFactory.cs:78-88 | ReadNew changes nothing in the factory. |
| TypeReader.Force | Eventful.Core/Readers/ProxyGeneration/TypeReaderFactory.cs:34 | Touching the lazy sequence reader builds it or caches its constructor's fault once; a built or faulted value is never rebuilt. |
| TypeReader.ForceKeepsQueue | Eventful.Core/Readers/ProxyGeneration/TypeReaderFactory.cs:23-34 | Building the lazy reader changes none of the positions the factory still owes. |
| TypeReader.NextIdPops | Eventful.Core/Readers/ProxyGeneration/TypeReaderFactory.cs:105-115 | On a sequence file of whole words, TypeReader.ReadNextSequenceId never fails from a reachable state. It returns the first position still owed and owes the rest, or none exactly when nothing is owed. |
| TypeReader.NextIdReaches | Eventful.Core/Readers/ProxyGeneration/TypeReaderFactory.cs:105-115 | From any reachable state, whatever the file's length, the factory stays reachable. The only fault that escapes is the argument error of a file whose length is not a multiple of 4, and a factory with a torn last word never reports the end of its positions. |
| TypeReader.ReadIdsAreQueue | Eventful.Core/Readers/ProxyGeneration/TypeReaderFactory.cs:105-115 | On a sequence file of whole words, calling ReadNextSequenceId until none delivers exactly the positions owed, in order. |
| TypeReader.CreatedIds | Eventful.Core/Readers/ProxyGeneration/TypeReaderFactory.cs:105-115 | Once the lazy reader is built, the ids read are the reader's own reads as written until its first fault, with end of stream read as none. |
| TypeReader.FreshIds | Eventful.Core/Readers/ProxyGeneration/TypeReaderFactory.cs:105-115 | From an unbuilt lazy reader, the ids read are those a reader constructed as written on the whole file delivers, with its constructor's fault rethrown. |
| TypeReader.SequenceIdsAreTheWords | Eventful.Core/Readers/ProxyGeneration/TypeReaderFactory.cs:33-34 | From a new factory, a sequence file whose length is a multiple of 4 gives its 32-bit little-endian words in file order and then none; any other file gives the words of its whole 64 KiB blocks and then the argument error. |
| TypeReader.ReadCountIsLengthOverFour | Eventful.Core/Readers/ProxyGeneration/TypeReaderFactory.cs:117-120 | TypeReader.ReadCount is the sequence file's length divided by four. It rethrows the reader constructor's fault: end of stream on an empty file, the argument error on a file shorter than one block whose length is not a multiple of 4. |
| TypeReader.Dispose | Eventful.Core/Readers/ProxyGeneration/TypeReaderFactory.cs:122-131 | The sequence reader is released only if the lazy value was built successfully, then every slot in order, until a slot's Dispose throws. |
| TypeReader.DisposeSlotsFault | Eventful.Core/Readers/ProxyGeneration/TypeReaderFactory.cs:127-130 | Disposing the slots throws exactly when a boolean property's reader was built, and what it throws is a null reference. |
| TypeReader.DisposeSlotsStop | Eventful.Core/Readers/ProxyGeneration/TypeReaderFactory.cs:127-130 | Disposal stops at the first built boolean reader: the slots before it are released, then its binary reader, and none after it. |
| TypeReader.PooledRowsShareOneInstance | Eventful.Core/Readers/ProxyGeneration/TypeReaderFactory.cs:90-94 | Every pooled row is the one reusable instance, and the k-th pooled row from a new factory is row k. |
| TypeReader.ReadBoolProperty | Eventful.Core/Readers/ProxyGeneration/TypeReaderFactory.cs:205-219 | The bool getter changes only its own slot, which stays a bool slot for the same property. |
| TypeReader.PooledBoolsReadTheColumn | Eventful.Core/Readers/ProxyGeneration/TypeReaderFactory.cs:205-219 | Reading a bool property once per pooled row gives the column's bytes as booleans in order, and end of stream once they run out. A missing column file fails the first read. |
| TypeReader.ReadDecimalProperty | Eventful.Core/Readers/ProxyGeneration/TypeReaderFactory.cs:186-203 | The decimal getter changes only its own slot, which stays a decimal slot for the same property. |
| TypeReader.PooledDecimalsReadTheColumn | Eventful.Core/Readers/ProxyGeneration/TypeReaderFactory.cs:186-203 | Reading a decimal property once per pooled row from a new factory gives row i the i-th 16-byte value of its column. |
| MergeJoin.InsertionPoint | Eventful.Core/Readers/EventfulFileSystemReader.cs:74-90 | The scan stops at the first node that is last or whose successor lies strictly after the moved position; every node it passes is at or before that position. |
| MergeJoin.Reinsert | Eventful.Core/Readers/EventfulFileSystemReader.cs:69-95 | Removing the head and adding it after the scan's node permutes the list. The head lands behind every node at or before its position and in front of a strictly later one, and the other nodes keep their order. |
| MergeJoin.ReinsertByScan | Eventful.Core/Readers/EventfulFileSystemReader.cs:74-90 | The loop that walks the list node by node computes exactly the reinsertion the functional definition describes. |
| MergeJoin.ReinsertSorts | Eventful.Core/Readers/EventfulFileSystemReader.cs:69-95 | A head followed by an ascending list becomes an ascending list after the reinsertion. |
| MergeJoin.Settle | Eventful.Core/Readers/EventfulFileSystemReader.cs:69-95 | The step's reorder is a permutation. It changes the list exactly when the second node is strictly earlier than the head, and keeps it ascending and free of repeated readers. |
| MergeJoin.InsertStableSorted | Eventful.Core/Readers/EventfulFileSystemReader.cs:402 | Stable insertion into an ascending list keeps it ascending. |
| MergeJoin.SortNodes | Eventful.Core/Readers/EventfulFileSystemReader.cs:397-402 | The list constructor's OrderBy is a stable sort: a permutation, ascending by position, with ties in reader order. |
| MergeJoin.SortedNodesDistinct | Eventful.Core/Readers/EventfulFileSystemReader.cs:395-418 | The list the constructor builds from one node per reader lists no reader twice. |
| MergeJoin.Step | Eventful.Core/Readers/EventfulFileSystemReader.cs:97-116 | A step yields the pooled row of the head that the reorder leaves. |
| MergeJoin.StepMoves | Eventful.Core/Readers/EventfulFileSystemReader.cs:97-116 | A step cannot fail. It yields the head's next pooled row, and then puts the head back at its next position or drops it when it has none; every other reader is unchanged. |
| MergeJoin.StepBasics | Eventful.Core/Readers/EventfulFileSystemReader.cs:66-117 | A step keeps the list well formed and lowers what the loop still owes by one row, so the loop terminates. |
| MergeJoin.StepDrains | Eventful.Core/Readers/EventfulFileSystemReader.cs:97-116 | A step that goes on keeps the list over the readers and strictly lowers what the readers still hold back plus the list's length, so the loop ends. |
| MergeJoin.MovedInv | Eventful.Core/Readers/EventfulFileSystemReader.cs:66-117 | A step keeps the run's invariant: the list behind the head ascends, each reader's owed positions ascend, and no position is owed twice. |
| MergeJoin.RunMerges | Eventful.Core/Readers/EventfulFileSystemReader.cs:66-117 | MergeJoin.Run, the loop, delivers every position each listed reader owes, on successive rows of its counter through its pooled instance; an unlisted reader delivers nothing; the positions yielded strictly ascend. |
| MergeJoin.RunFailsOnDirty | Eventful.Core/Readers/EventfulFileSystemReader.cs:66-117 | A run over a list holding a reader whose sequence file ends in a torn word fails with the block copy's argument error. |
| MergeJoin.Delivered | Eventful.Core/Readers/EventfulFileSystemReader.cs:97-103 | What the loop hands its caller: each row is yielded before the head's next position is read, so a fault comes only after at least one row, the row whose next read failed among them; every row is a listed reader's. |
| MergeJoin.RunDelivers | Eventful.Core/Readers/EventfulFileSystemReader.cs:66-117 | Run fails exactly when the loop stops on a fault, with that fault; otherwise Run's rows are all the rows the loop yields. |
| MergeJoin.DirtyDelivers | Eventful.Core/Readers/EventfulFileSystemReader.cs:97-103 | A run over a list holding a torn reader yields rows, then stops on the argument error after them. |
| MergeJoin.NodesAsWritten | Eventful.Core/Readers/EventfulFileSystemReader.cs:397-402 | As written, every reader is listed, at its first position or at UInt32.MaxValue when it has none. |
| MergeJoin.Nodes | Eventful.Core/Readers/EventfulFileSystemReader.cs:400 | As intended, exactly the readers with a first position are listed, at that position, in reader order. |
| MergeJoin.OpenAsWritten | Eventful.Core/Readers/EventfulFileSystemReader.cs:395-418 | The constructor as written lists one node per reader, in a well-formed list. |
| MergeJoin.Open | Eventful.Core/Readers/EventfulFileSystemReader.cs:395-418 | The corrected constructor gives a well-formed list. |
| MergeJoin.OpenedNodes | Eventful.Core/Readers/EventfulFileSystemReader.cs:395-418 | The corrected list holds one node per reader that has a position, at its first, in ascending order, and leaves the readers' row counters alone. |
| MergeJoin.OpenedInv | Eventful.Core/Readers/EventfulFileSystemReader.cs:395-418 | For readers whose queues ascend and share no position, the opened list satisfies the run's invariant, and each reader still owes its whole queue. |
| MergeJoin.Read | Eventful.Core/Readers/EventfulFileSystemReader.cs:58-123 | With no reader there are no rows and nothing to release. Every row comes from one of the readers. |
| MergeJoin.ReadMerges | Eventful.Core/Readers/EventfulFileSystemReader.cs:58-123 | For readers whose queues ascend and share no position, Read never fails. Every reader delivers exactly its queue, on successive rows through its pooled instance, and the positions yielded strictly ascend. |
| MergeJoin.ReadFailsOnDirty | Eventful.Core/Readers/EventfulFileSystemReader.cs:58-191 | Read and Invoke, as written and corrected, over readers one of which has a sequence file ending in a torn word all fail with the argument error. |
| MergeJoin.ReadAsWritten | Eventful.Core/Readers/EventfulFileSystemReader.cs:63-64 | With no reader, the read as written fails with a null dereference on the missing head. |
| MergeJoin.AsWrittenAgrees | Eventful.Core/Readers/EventfulFileSystemReader.cs:400 | When every reader has a first position the sentinel is never used, and the read as written equals the corrected read. |
| MergeJoin.EmptyStreamYieldsPhantomRow | Eventful.Core/Readers/EventfulFileSystemReader.cs:400 | A reader with no position yields, as written, one pooled row at position UInt32.MaxValue; the corrected read yields none. |
| MergeJoin.NoReaderFails | Eventful.Core/Readers/EventfulFileSystemReader.cs:63-64 | With no reader the read as written throws a null dereference, where the corrected read yields nothing. |
| MergeJoin.Invoke | Eventful.Core/Readers/EventfulFileSystemReader.cs:125-191 | The corrected Invoke, named by the EventfulFileSystemReader.cs:130-131 Findings row: with no reader it makes no call and releases nothing. |
| MergeJoin.InvokeAsWritten | Eventful.Core/Readers/EventfulFileSystemReader.cs:125-131 | Invoke as written: with no reader the list head is null and dereferenced, so Invoke throws a null reference. |
| MergeJoin.InvokeDelivered | Eventful.Core/Readers/EventfulFileSystemReader.cs:164-169 | What Invoke's loop does before it stops: each handler call is made before the head's next position is read, so a fault comes only after at least one call. |
| MergeJoin.InvokeRunCallsRows | Eventful.Core/Readers/EventfulFileSystemReader.cs:133-185 | MergeJoin.InvokeRun, Invoke's loop, makes exactly the calls of Read's loop's rows, each to its reader's handler, and leaves the readers as Read's does. |
| MergeJoin.InvokeCallsRead | Eventful.Core/Readers/EventfulFileSystemReader.cs:164-167 | Invoke hands every row Read yields to the handler of the reader it came from, in the same order, fails exactly when Read fails and with the same fault, and disposes the same. |
| MergeJoin.InvokeAsWrittenCallsRead | Eventful.Core/Readers/EventfulFileSystemReader.cs:164-167 | Invoke as written hands every row the read as written yields to its reader's handler, in order, fails exactly when that read fails and with the same fault, and disposes the same. |
| MergeJoin.InvokeDeliversRows | Eventful.Core/Readers/EventfulFileSystemReader.cs:164-169 | The calls Invoke's loop makes before it stops are the rows Read's loop yields before it stops, each handed to its reader's handler, and the two stop on the same fault. |
| MergeJoin.NoReaderFailsInvoke | Eventful.Core/Readers/EventfulFileSystemReader.cs:130-131 | With no reader Invoke as written throws a null reference, where the corrected Invoke calls nothing. |
| MergeJoin.EmptyStreamCallsHandlerOnce | Eventful.Core/Readers/EventfulFileSystemReader.cs:400 | A reader with no position has its handler called once, as written, with its pooled instance; the corrected Invoke never calls it. |
| MergeJoin.InvokeAsWrittenAgrees | Eventful.Core/Readers/EventfulFileSystemReader.cs:400 | When every reader has a first position, Invoke as written equals the corrected Invoke. |
| MergeJoin.DisposeAll | Eventful.Core/Readers/EventfulFileSystemReader.cs:119-122 | The readers are disposed in list order, one after another; a Dispose that throws ends the loop. |
| MergeJoin.DisposeAllFault | Eventful.Core/Readers/EventfulFileSystemReader.cs:119-122 | Disposing the readers after a read throws exactly when one of them built a boolean property's reader, and then it throws a null reference. |
| MergeJoin.FirstIdsKeepGood | Eventful.Core/Readers/EventfulFileSystemReader.cs:397-401 | MergeJoin.FirstIds, the constructor's first reads, take each reader's first position off its queue and change nothing else about it. |
| StoreWriter.New | Eventful.Core/Writers/EventfulFileSystemWriter.cs:20-43 | The registry and tag log are created if missing. The writer opens iff the registry loads, with the loaded dictionary, no type writers, count 0 and its registry handle at offset 0. |
| StoreWriter.RegisterWriter | Eventful.Core/Writers/EventfulFileSystemWriter.cs:48-51 | A custom writer is added iff its type has none yet; otherwise Dictionary.Add throws. |
| StoreWriter.GetOrCreateKnownType | Eventful.Core/Writers/EventfulFileSystemWriter.cs:74-90 | A known name keeps its id and nothing changes. A new name gets the dictionary's count cut to 16 bits, and its entry is written at the registry handle's position. |
| StoreWriter.Tag | Eventful.Core/Writers/EventfulFileSystemWriter.cs:69 | A tag is two bytes that read back as the type id. |
| StoreWriter.Dispose | Eventful.Core/Writers/EventfulFileSystemWriter.cs:92-107 | The tag log's writer and stream are released, then the registry's, then every type writer that was made, in id order. |
| StoreWriter.DisposeFrom | Eventful.Core/Writers/EventfulFileSystemWriter.cs:100-106 | Type writers are released in id order, skipping empty slots. |
| StoreWriter.NamesSpec | Eventful.Core/Writers/EventfulFileSystemWriter.cs:79 | The ids a session assigns go to exactly the names its events use, each once, in order of first use. |
| StoreWriter.StampsSpec | Eventful.Core/Writers/EventfulFileSystemWriter.cs:66 | The positions stamped into a type's sequence file are exactly those of its events, ascending. |
| StoreWriter.StampWords | Eventful.Core/Writers/EventfulFileSystemWriter.cs:66 | A sequence file of stamped positions, read back as 32-bit words, gives those positions. |
| StoreWriter.PathsApart | Eventful.Core/Writers/EventfulFileSystemWriter.cs:26-29 | The registry, the tag log and each type's sequence file are different files, and none is a column file. |
| StoreWriter.SeqPathInjective | Eventful.Core/Writers/EventfulFileSystemWriter.cs:62 | Distinct type names have distinct sequence files. |
| StoreWriter.AppendsKeep | Eventful.Core/Writers/ColumnWriter.cs:23 | Appends to column files leave the registry, the tag log and every sequence file unchanged. |
| StoreWriter.KnownStep | Eventful.Core/Writers/EventfulFileSystemWriter.cs:74-90 | Registering an event's type keeps a seen name's id and gives a new name the next id. The registry file grows by its entry and still loads as the grown dictionary, and no other file changes. |
| StoreWriter.RegistryGrows | Eventful.Core/Writers/EventfulFileSystemWriter.cs:79-87 | A new name's entry goes at the registry file's end, which then loads with the name added at its new id. |
| StoreWriter.WriterStep | Eventful.Core/Writers/EventfulFileSystemWriter.cs:58-64 | The type writer found is the one made at the type's first event, or a new one over an empty or missing sequence file; existing files keep their bytes. |
| StoreWriter.RowStep | Eventful.Core/Writers/EventfulFileSystemWriter.cs:66 | Writing the row appends the event's position to its type's sequence file; apart from that only column files change. |
| StoreWriter.TagAfter | Eventful.Core/Writers/EventfulFileSystemWriter.cs:69 | After the row, the tag log holds the type ids of all events written, the new one last. |
| StoreWriter.RowShape | Eventful.Core/Writers/EventfulFileSystemWriter.cs:66-71 | A row written without a fault is the row's writes then the tag. The writer keeps the type writer moved on and counts one more event, mod 2^32. |
| StoreWriter.WriteStep | Eventful.Core/Writers/EventfulFileSystemWriter.cs:55-72 | One event written by StoreWriter.Write without a fault keeps the store in the session state of the events before plus that one: registry, tag log, sequence files, type writers and count. |
| StoreWriter.EmptyStore | Eventful.Core/Writers/EventfulFileSystemWriter.cs:20-43 | The constructor on an empty folder opens, in the session state of no events. |
| StoreWriter.WriteAllInv | Eventful.Core/Writers/EventfulFileSystemWriter.cs:55-72 | Events written one after another without a fault, from the state of no events, leave the store in the session state of all of them. |
| StoreWriter.SessionInv | Eventful.Core/Writers/EventfulFileSystemWriter.cs:20-72 | A session from an empty folder, the constructor and then writes without a fault, leaves the files the session state describes. |
| StoreWriter.WriteKeepsFolder | Eventful.Core/Writers/EventfulFileSystemWriter.cs:55-72 | A write keeps the writer's folder. |
| Store.OpenReader | Eventful.Core/Readers/EventfulFileSystemReader.cs:21-40 | The reader opens iff the registry file exists and loads, with the loaded dictionary; a missing registry is file-not-found. |
| Store.SlotsFault | Eventful.Core/Readers/EventfulFileSystemReader.cs:201-222 | The loop fails exactly when a requested type is registered at id 65535, with the index error, and the files only gain empty sequence files. |
| Store.SlotsCover | Eventful.Core/Readers/EventfulFileSystemReader.cs:204-222 | Every registered requested type gets the slot of its id. |
| Store.SlotsHold | Eventful.Core/Readers/EventfulFileSystemReader.cs:204-222 | Each filled slot holds the new factory of a requested type registered at that id. |
| Store.MadeFresh | Eventful.Core/Readers/EventfulFileSystemReader.cs:216-219 | A new factory starts with no row read, rooted at the type's folder with the type's handler. Its reads never fail exactly when its sequence file's length is a multiple of 4, and it then owes that file's words; otherwise the file ends in a torn word. |
| Store.CreatedFault | Eventful.Core/Readers/EventfulFileSystemReader.cs:197-225 | CreateTypeReaders fails exactly when a requested type is registered at id 65535, and otherwise only adds empty sequence files. |
| Store.CreatedReaders | Eventful.Core/Readers/EventfulFileSystemReader.cs:197-225 | Otherwise Store.CreateTypeReaders makes one factory per registered id a request names, in ascending id order, each the new factory of a requested type. |
| Store.CreatedCover | Eventful.Core/Readers/EventfulFileSystemReader.cs:204-224 | Only unregistered types are skipped: every registered requested type has its factory. |
| Store.Created | Eventful.Core/Readers/EventfulFileSystemReader.cs:197-225 | The factories for requests: index error exactly when a requested type has id 65535, and no factory at all when no requested type is registered. |
| Store.InOrder | Eventful.Core/Readers/EventfulFileSystemReader.cs:224 | The non-null slots are listed in ascending slot order. |
| Store.Ignoring | Eventful.Core/Readers/EventfulFileSystemReader.cs:60 | Read's dictionary pairs each requested type with the handler that does nothing. |
| Store.Read | Eventful.Core/Readers/EventfulFileSystemReader.cs:58-123 | The corrected Read named by the EventfulFileSystemReader.cs:63-64 Findings row. A type given twice throws from the dictionary before anything is opened. Otherwise only empty sequence files are added, and a type at id 65535 gives the index error. |
| Store.ReadAsWritten | Eventful.Core/Readers/EventfulFileSystemReader.cs:58-123 | The same guarantees for the read with the list constructor as written. |
| Store.Invoke | Eventful.Core/Readers/EventfulFileSystemReader.cs:125-191 | The corrected Invoke named by the EventfulFileSystemReader.cs:130-131 Findings row. It only adds empty sequence files, and a handled type at id 65535 gives the index error. |
| Store.InvokeAsWritten | Eventful.Core/Readers/EventfulFileSystemReader.cs:125-131 | Invoke as written, with the list constructor as written: only empty sequence files are added, and a handled type at id 65535 gives the index error. |
| Store.NoneRegistered | Eventful.Core/Readers/EventfulFileSystemReader.cs:204-224 | With no requested type registered, no factory is made. |
| Store.NothingRegistered | Eventful.Core/Readers/EventfulFileSystemReader.cs:60-64 | A read as written of only unregistered types throws a null dereference, where the corrected read yields no rows. |
| Store.NothingHandled | Eventful.Core/Readers/EventfulFileSystemReader.cs:125-131 | An Invoke as written none of whose handled types is registered throws a null dereference, where the corrected Invoke calls nothing. |
| Store.TornSequenceFails | Eventful.Core/Readers/EventfulFileSystemReader.cs:58-123 | A read, as written or corrected, naming a registered type whose sequence file's length is not a multiple of 4 fails with the argument error. |
| Store.TornSequenceFailsInvoke | Eventful.Core/Readers/EventfulFileSystemReader.cs:125-191 | So does Invoke, as written and corrected, with a handler for such a type. |
| Replay.ReaderOpens | Eventful.Core/Readers/EventfulFileSystemReader.cs:21-40 | After a session the reader's constructor loads exactly the dictionary the writer kept. |
| Replay.KnownFacts | Eventful.Core/Writers/EventfulFileSystemWriter.cs:74-90 | After a session every event's type is registered and every registered type has an event. Ids fit the 65535-slot array and no two types share one. |
| Replay.KnownQueue | Eventful.Core/Readers/EventfulFileSystemReader.cs:213-216 | A registered type's sequence file is whole 32-bit words, and read as such gives the positions of its events. |
| Replay.StampsIncrease | Eventful.Core/Writers/EventfulFileSystemWriter.cs:66-71 | A type's positions strictly ascend. |
| Replay.StampsApart | Eventful.Core/Writers/EventfulFileSystemWriter.cs:66 | Two types share no position. |
| Replay.SessionReaders | Eventful.Core/Readers/EventfulFileSystemReader.cs:197-225 | After a session CreateTypeReaders succeeds for any requests, with fresh factories for distinct types, each owing its type's positions. |
| Replay.SessionCover | Eventful.Core/Readers/EventfulFileSystemReader.cs:204-222 | After a session, every requested type with events has its factory. |
| Replay.MergeReplays | Eventful.Core/Readers/EventfulFileSystemReader.cs:66-117 | The merge of fresh factories for distinct types succeeds, each row delivering its event, every event of those types in the rows, positions ascending. |
| Replay.MergedReplays | Eventful.Core/Readers/EventfulFileSystemReader.cs:58-123 | Those rows are exactly the rows a read of the requested types should give. |
| Replay.SessionMerge | Eventful.Core/Readers/EventfulFileSystemReader.cs:58-123 | After a session, the factories made for any requests merge to the rows a read of the requested types should give. |
| Replay.ReadReplays | Eventful.Core/Readers/EventfulFileSystemReader.cs:58-123 | After a session and the writer's Dispose, the corrected Read of any distinct types yields one row per event of those types, in write order, each delivering its event through its type's pooled instance. |
| Replay.SessionReplays | Eventful.Core/Readers/EventfulFileSystemReader.cs:58-123 | From an empty folder, the writer, then events written without a fault, then its Dispose: the reader opens on the folder, and the corrected Read of any distinct types replays exactly the events of those types, in the order written. Read as written gives the same rows when some requested type was written, and throws a null reference when none was. |
| Replay.WrittenIffRegistered | Eventful.Core/Writers/EventfulFileSystemWriter.cs:74-81 | After a session a requested type is registered exactly when some event of it was written. |
| Replay.SessionListed | Eventful.Core/Readers/EventfulFileSystemReader.cs:397-401 | After a session, when some request's type was written, CreateTypeReaders makes at least one factory and every factory has a first position, so the sentinel is never used. |
| Replay.AsWrittenInSession | Eventful.Core/Readers/EventfulFileSystemReader.cs:400 | After a session, when some requested type has been written, the read as written equals the corrected read. |
| Replay.ReadAsWrittenReplays | Eventful.Core/Readers/EventfulFileSystemReader.cs:58-123 | After a session and the writer's Dispose, Read as written of distinct types replays exactly the events of those types in write order when some of them was written, and throws a null reference when none was. |
| Replay.InvokeIs | Eventful.Core/Readers/EventfulFileSystemReader.cs:127-128 | Invoke is the merge's Invoke over the factories CreateTypeReaders makes. |
| Replay.CallsOfRows | Eventful.Core/Readers/EventfulFileSystemReader.cs:164-167 | The merge's rows handed to their factories' handlers are calls of each row's event type's handler. |
| Replay.InvokeReplays | Eventful.Core/Readers/EventfulFileSystemReader.cs:125-191 | After a session and the writer's Dispose, the corrected Invoke for handler types with distinct full names succeeds. Its calls hand each event of a handled type, in write order, to that type's handler through the type's pooled instance. |
| Replay.InvokeAsWrittenInSession | Eventful.Core/Readers/EventfulFileSystemReader.cs:400 | After a session, when some handled type has been written, Invoke as written equals the corrected Invoke. |
| Replay.InvokeAsWrittenReplays | Eventful.Core/Readers/EventfulFileSystemReader.cs:125-191 | After a session and the writer's Dispose, Invoke as written makes those calls when some handled type was written, and throws a null reference when none was. |

## Left out

- Reopening an existing store: the writer's registry handle writes from offset 0 and its counter restarts at 0. `StoreWriter.New` models this, but no theorem covers a second session.
- Directory creation: directories are implicit in paths.
- Write buffering: the column, sequence and tag-log files are written through buffered FileStreams, and only the registry is flushed after each write (EventfulFileSystemWriter.cs:87). The model's files hold each write's bytes at once, so they are the files as the writer's Dispose leaves them. A reader opened on a folder whose writer is still live may see shorter files; that case is not modelled.
- Store.Read: EventfulFileSystemReader.Read (lines 58-123) is a C# iterator, and the model evaluates it to the end. Nothing of it runs before the first MoveNext, neither the dictionary's duplicate-key check nor any file open. A consumer that stops early never reaches the disposal loop at lines 119-122, so the streams it opened stay open; `MergeJoin.Read` does not model that either.
- MergeJoin.Run: on a fault it returns the fault alone, and so do `MergeJoin.Read`, `MergeJoin.Invoke`, `Store.Read` and `Store.Invoke`. The rows yielded and the handler calls made before the fault are kept by `MergeJoin.Delivered` and `MergeJoin.InvokeDelivered` and tied to the loop by `MergeJoin.RunDelivers` and `MergeJoin.InvokeDeliversRows`. No lemma relates them to the rows the readers would give without the torn word, because the model has no reading of a torn sequence file past its fault.
- MiscReader.Dispose: nothing in the core disposes a MiscReader, since TypeReaderFactory uses only its CreateStream, so no theorem is stated about it.
- NameTextInjective: distinct names are distinct strings, but on Windows file names ignore case, so two full names that differ only in case share one folder. The model's paths are case-sensitive map keys.
- Other runtimes: on .NET Core and later a disposed BinaryReader keeps its stream, so PrimitiveReader.Dispose would not throw; the model follows .NET Framework only.
- Reflection.Emit proxy generation and the static proxy-type cache: a proxy is modelled as its list of getter slots.
- TypeReader.NewFactory: cannot fail. The constructor (TypeReaderFactory.cs:36-37, 61) subclasses the event type and compiles `new T()`, so it throws for a sealed class or a struct (TypeLoadException), for a class with no parameterless constructor (NotSupportedException) and for one whose parameterless constructor is not public (ArgumentException). The writer accepts such events, and they can never be read back. Every theorem built on the factory assumes each requested type is a non-sealed class with a public parameterless constructor. For any other type, CreateTypeReaders throws after creating that type's sequence file, and Read and Invoke throw with it.
- Store.SlotsFault: its "fails exactly when a requested type has id 65535" assumes every requested type can be proxied, as under `TypeReader.NewFactory`; otherwise the loop also throws at that type.
- Store.CreatedFault: assumes every requested type can be proxied, as under `TypeReader.NewFactory`; otherwise CreateTypeReaders also throws at that type.
- Store.Created: assumes every requested type can be proxied, as under `TypeReader.NewFactory`; an unproxyable type is a second way for it to throw.
- Replay.SessionReaders: "succeeds for any requests" assumes every requested type can be proxied, as under `TypeReader.NewFactory`.
- Replay.ReadReplays: assumes every requested type can be proxied, as under `TypeReader.NewFactory`; otherwise Read throws.
- Replay.ReadAsWrittenReplays: assumes every requested type can be proxied, as under `TypeReader.NewFactory`; otherwise Read throws.
- Replay.InvokeAsWrittenReplays: assumes every handled type can be proxied, as under `TypeReader.NewFactory`; otherwise Invoke throws.
- Floating point: doubles and decimals are opaque 8- and 16-byte images. Of the decimal constructor only its flags check, which ReadDecimal applies, is modelled.
- `DispatchHelperEx` is not part of this model; the handlers it builds are plain values here.
- `EventfulFileSystemReader` lines 228-386 are unreachable helpers and are not modelled.
- `knownProxies` is never filled in, so its branch is not modelled.
- Concurrency and file sharing modes.
- `EventfulFileSystemReader.RegisterReader`: the custom readers it registers reach each TypeReaderFactory, which stores them and never reads them, so they change nothing that is read.
- The 16-bit id wrap past 65536 registered types is modelled in `StoreWriter.GetOrCreateKnownType`, but no theorem is stated about it. A session with no fault stops short of it, because id 65535 already fails on the 65535-slot writer array.
- `UInt16Reader` is modelled on its own because nothing in the core uses it.
- Replay.InvokeReplays: requires the handler types' full names to be distinct, because two types with one full name share one folder and one registry id. It also assumes every handled type can be proxied, as under `TypeReader.NewFactory`; otherwise Invoke throws.
- Replay.SessionReplays: requires fewer than 2^32 events, names shorter than 2^31 bytes, and a session with no fault. Past those bounds, positions wrap and names cannot be written. It also assumes every requested type can be proxied, as under `TypeReader.NewFactory`; otherwise Read throws.
- Codec.ValueRoundTrip: states the round trip only for the column types it names, and for nullable enums only for null, since a present one cannot be set (`Codec.NullableEnumReadBack`). The other types fail as `Codec`'s as-written lemmas show. A string is modelled as its UTF-8 bytes, so the string case holds only for strings that encode without loss; BinaryWriter writes a lone surrogate as U+FFFD.

## Findings

| source | as written | input that shows it | evidently intended | confidence | as-written member | corrected member |
|---|---|---|---|---|---|---|
| Eventful.Core/Readers/DataTypes/UInt32Reader.cs:53-57 | A short last block whose length is not a multiple of 4 is copied into an array of n/4 words, which is too small, so the block copy throws an argument exception | a 5-byte or a 65537-byte sequence file | the block's whole words, then end of stream, as the n/4 array suggests | not executed; low impact, since the writer only writes whole words | UInt32Reader.OneByteTailFails | UInt32Reader.ReadsAllWords |
| Eventful.Core/Readers/EventfulFileSystemReader.cs:400 | A reader with no first position is listed at `UInt32.MaxValue` and read once | a registered type whose sequence file is empty | readers with no position are left out of the list | not executed | MergeJoin.EmptyStreamYieldsPhantomRow | MergeJoin.ReadMerges |
| Eventful.Core/Readers/EventfulFileSystemReader.cs:63-64 | With no type reader the list head is null and is dereferenced | Read of a type that was never written | no rows | not executed | Store.NothingRegistered | Store.Read |
| Eventful.Core/Readers/EventfulFileSystemReader.cs:130-131 | Invoke builds the same list; with no type reader its head is null and is dereferenced | Invoke with handlers only for types that were never written, or with an empty dictionary | no calls | not executed | Store.NothingHandled | Store.Invoke |

=== FILE: base.dfy ===
/** Shared vocabulary: bytes, the option/result wrappers used for the
    source's nulls and exceptions, and the little-endian and 7-bit
    length-prefix layouts that the binary readers and writers use. */
module Base {

  newtype byte = b: int | 0 <= b < 256

  /** The exceptions the storage engine can raise, as values. */
  datatype Fault =
    | EndOfStream            // a read past the end of a stream
    | IndexOutOfRange        // an array index past the end of a buffer
    | ArgumentError          // a bad argument to a library call (block copy, Guid, DateTime, ...)
    | ArgumentNull           // a null handed to a writer that cannot represent it
    | FormatError            // a 7-bit length prefix longer than five bytes
    | IOError                // a negative string length
    | DuplicateKey           // Dictionary.Add of a key that is already present
    | NullReference          // a member access through null
    | FileNotFound           // opening a file that does not exist
    | NotSupported(unsupportedEnum: bool) // schema error; true for the enum-width message
    | UnsupportedType        // the column reader's plain Exception for a type it cannot read
    | TargetMissing          // reading a property of a null object through reflection
    | InvalidCast            // unboxing a value as a type it does not have

  datatype Option<+T> = None | Some(value: T)

  datatype Result<+T> = Ok(value: T) | Err(fault: Fault) {
    predicate IsFailure() { Err? }
    function PropagateFailure<U>(): Result<U>
      requires Err?
    {
      Err(fault)
    }
    function Extract(): T
      requires Ok?
    {
      value
    }
  }

  function Pow256(n: nat): (r: nat)
    ensures r >= 1
  {
    if n == 0 then 1 else 256 * Pow256(n - 1)
  }

  function Pow2(n: nat): (r: nat)
    ensures r >= 1
  {
    if n == 0 then 1 else 2 * Pow2(n - 1)
  }

  const TwoTo16: nat := 0x1_0000
  const TwoTo32: nat := 0x1_0000_0000
  const TwoTo64: nat := 0x1_0000_0000_0000_0000

  /** Unsigned little-endian encoding of `v` in exactly `width` bytes. */
  function EncodeLE(v: nat, width: nat): (r: seq<byte>)
    requires v < Pow256(width)
    ensures |r| == width
  {
    if width == 0 then [] else [(v % 256) as byte] + EncodeLE(v / 256, width - 1)
  }

  /** Unsigned little-endian value of a byte block. */
  function DecodeLE(bs: seq<byte>): (v: nat)
    ensures v < Pow256(|bs|)
  {
    if |bs| == 0 then 0 else bs[0] as nat + 256 * DecodeLE(bs[1..])
  }

  lemma {:induction false} DecodeEncodeLE(v: nat, width: nat)
    requires v < Pow256(width)
    ensures DecodeLE(EncodeLE(v, width)) == v
  {
    if width > 0 {
      var r := EncodeLE(v, width);
      assert r[1..] == EncodeLE(v / 256, width - 1);
      DecodeEncodeLE(v / 256, width - 1);
    }
  }

  lemma {:induction false} EncodeDecodeLE(bs: seq<byte>)
    ensures EncodeLE(DecodeLE(bs), |bs|) == bs
  {
    if |bs| > 0 {
      EncodeDecodeLE(bs[1..]);
      assert (DecodeLE(bs) % 256) as byte == bs[0];
      assert DecodeLE(bs) / 256 == DecodeLE(bs[1..]);
    }
  }

  /** Two's-complement image of a signed value of `width` bytes. */
  function ToUnsigned(i: int, width: nat): (u: nat)
    requires width > 0
    requires -(Pow256(width) / 2) <= i < Pow256(width) / 2
    ensures u < Pow256(width)
  {
    if i >= 0 then i else i + Pow256(width)
  }

  /** Signed reading of an unsigned `width`-byte value. */
  function ToSigned(u: nat, width: nat): (i: int)
    requires width > 0
    requires u < Pow256(width)
    ensures -(Pow256(width) / 2) <= i < Pow256(width) / 2
  {
    PowEven(width);
    if u < Pow256(width) / 2 then u else u - Pow256(width)
  }

  lemma PowEven(width: nat)
    requires width > 0
    ensures Pow256(width) == 2 * (Pow256(width) / 2)
  {
    assert Pow256(width) == 2 * (128 * Pow256(width - 1));
  }

  lemma SignedRoundTrip(i: int, width: nat)
    requires width > 0
    requires -(Pow256(width) / 2) <= i < Pow256(width) / 2
    ensures ToSigned(ToUnsigned(i, width), width) == i
  {
    PowEven(width);
  }

  /** BinaryWriter.Write7BitEncodedInt: seven bits per byte, low group
      first, high bit set on every byte but the last. */
  function Encode7Bit(v: nat): (r: seq<byte>)
    ensures |r| >= 1
  {
    if v < 128 then [v as byte] else [(v % 128 + 128) as byte] + Encode7Bit(v / 128)
  }

  function Pow128(n: nat): (r: nat)
    ensures r >= 1
  {
    if n == 0 then 1 else 128 * Pow128(n - 1)
  }

  /** BinaryReader.Read7BitEncodedInt starting at `pos`, having already
      read `groups` groups that add up to `acc`: a sixth group is a format
      error, a missing byte is the end of the stream. The result is the
      raw (unbounded) sum of the groups and the position after them. */
  function Read7Bit(bs: seq<byte>, pos: nat, groups: nat, acc: nat): (r: Result<(nat, nat)>)
    requires groups <= 5
    ensures r.Ok? ==> pos < r.value.1 <= |bs|
    ensures r.Err? ==> r.fault in {FormatError, EndOfStream}
    decreases 5 - groups
  {
    if groups == 5 then Err(FormatError)
    else if pos >= |bs| then Err(EndOfStream)
    else
      var b := bs[pos] as nat;
      var acc' := acc + (b % 128) * Pow128(groups);
      if b >= 128 then Read7Bit(bs, pos + 1, groups + 1, acc') else Ok((acc', pos + 1))
  }

  /** The 32-bit signed length the reader ends up with: bits above the
      32nd are lost in the reader's `int` accumulator. */
  function AsInt32(raw: nat): int
  {
    var u := raw % TwoTo32;
    if u < TwoTo32 / 2 then u else u - TwoTo32
  }

  lemma GroupSplit(v: nat, p: nat)
    ensures (v / 128) * (128 * p) + (v % 128) * p == v * p
  {
    calc {
      (v / 128) * (128 * p) + (v % 128) * p;
      ((v / 128) * 128) * p + (v % 128) * p;
      ((v / 128) * 128 + v % 128) * p;
    }
  }

  lemma Read7BitEncode(v: nat, groups: nat, acc: nat, bs: seq<byte>, pos: nat)
    requires groups < 5
    requires v < Pow128(5 - groups)
    requires pos + |Encode7Bit(v)| <= |bs| && bs[pos..pos + |Encode7Bit(v)|] == Encode7Bit(v)
    ensures Read7Bit(bs, pos, groups, acc) == Ok((acc + v * Pow128(groups), pos + |Encode7Bit(v)|))
  {
    SliceEncoded(v, bs, pos);
    Read7BitEncoded(v, groups, acc, bs, pos);
  }

  /** `v`'s groups stand in `bs` from `pos` on. */
  ghost predicate EncodedAt(bs: seq<byte>, pos: nat, v: nat)
    decreases v
  {
    pos < |bs| &&
    if v < 128 then bs[pos] == v as byte
    else bs[pos] == (v % 128 + 128) as byte && EncodedAt(bs, pos + 1, v / 128)
  }

  lemma {:induction false} SliceEncoded(v: nat, bs: seq<byte>, pos: nat)
    requires pos + |Encode7Bit(v)| <= |bs| && bs[pos..pos + |Encode7Bit(v)|] == Encode7Bit(v)
    ensures EncodedAt(bs, pos, v)
    decreases v
  {
    var e := Encode7Bit(v);
    assert bs[pos] == bs[pos..pos + |e|][0] == e[0];
    if v >= 128 {
      var tail := Encode7Bit(v / 128);
      assert e == [e[0]] + tail;
      assert bs[pos + 1..pos + 1 + |tail|] == bs[pos..pos + |e|][1..] == tail;
      SliceEncoded(v / 128, bs, pos + 1);
    }
  }

  lemma {:induction false} Read7BitEncoded(v: nat, groups: nat, acc: nat, bs: seq<byte>, pos: nat)
    requires groups < 5 && v < Pow128(5 - groups)
    requires EncodedAt(bs, pos, v)
    ensures Read7Bit(bs, pos, groups, acc) == Ok((acc + v * Pow128(groups), pos + |Encode7Bit(v)|))
    decreases v
  {
    if v >= 128 {
      GroupsLeft(v, groups);
      HighGroup(v);
      assert bs[pos] as nat % 128 == v % 128;
      Read7BitStep(bs, pos, groups, acc);
      Read7BitEncoded(v / 128, groups + 1, acc + (v % 128) * Pow128(groups), bs, pos + 1);
      AccStep(acc, v, groups);
      assert |Encode7Bit(v)| == 1 + |Encode7Bit(v / 128)|;
    } else {
      assert bs[pos] as nat % 128 == v;
      assert |Encode7Bit(v)| == 1;
    }
  }

  lemma HighGroup(v: nat)
    requires v >= 128
    ensures var b := (v % 128 + 128) as byte; b as nat >= 128 && b as nat % 128 == v % 128
  {
  }

  /** A byte with the high bit set adds its group and goes on. */
  lemma Read7BitStep(bs: seq<byte>, pos: nat, groups: nat, acc: nat)
    requires groups < 5 && pos < |bs| && bs[pos] as nat >= 128
    ensures Read7Bit(bs, pos, groups, acc) == Read7Bit(bs, pos + 1, groups + 1, acc + (bs[pos] as nat % 128) * Pow128(groups))
  {
  }

  /** A value of 128 or more needs another group, and the rest of it
      fits in the groups left. */
  lemma GroupsLeft(v: nat, groups: nat)
    requires groups < 5 && 128 <= v < Pow128(5 - groups)
    ensures groups < 4 && v / 128 < Pow128(5 - (groups + 1))
  {
    assert Pow128(1) == 128;
    assert Pow128(5 - groups) == 128 * Pow128(5 - (groups + 1));
  }

  lemma AccStep(acc: nat, v: nat, groups: nat)
    ensures acc + (v % 128) * Pow128(groups) + (v / 128) * Pow128(groups + 1) == acc + v * Pow128(groups)
  {
    GroupSplit(v, Pow128(groups));
  }

  /** A length written by BinaryWriter (a non-negative `int`) reads back
      as the same length, whatever follows it. */
  lemma LengthPrefixRoundTrip(v: nat, rest: seq<byte>)
    requires v < TwoTo32 / 2
    ensures Read7Bit(Encode7Bit(v) + rest, 0, 0, 0) == Ok((v, |Encode7Bit(v)|))
    ensures AsInt32(v) == v
  {
    assert Pow128(5) == 34359738368;
    var bs := Encode7Bit(v) + rest;
    assert bs[0..|Encode7Bit(v)|] == Encode7Bit(v);
    Read7BitEncode(v, 0, 0, bs, 0);
  }
}

=== FILE: codec.dfy ===
/** The column codec as a pair: what ColumnWriter writes for a value and
    what MiscReader reads back from those bytes. */
module Codec {
  import opened Base
  import opened Streams
  import opened Schema
  import Writers
  import MiscReader
  import DecimalReader

  /** The single-file column types with a codec on both sides: bool and
      integer scalars, Guid, double and DateTime, the nullable forms of
      these, enums of byte, short or int, nullable such enums, and
      strings. Decimals and DateTimeOffsets are read with another layout
      than they are written with; arrays, lists and references are read
      back as unfilled objects. */
  predicate FlatColumn(t: FieldType)
  {
    match t
    case Plain(s) => s !in {Decimal, DateTimeOffset}
    case Nullable(s) => s !in {Decimal, DateTimeOffset}
    case Enum(k) => k.EnumWidth()
    case NullableEnum(k) => k.EnumWidth()
    case Str => true
    case _ => false
  }

  /** The flat column types whose every value the reader rebuilds: all but
      the nullable enums, whose present values the reader cannot set. */
  predicate RoundTrips(t: FieldType)
  {
    FlatColumn(t) && !t.NullableEnum?
  }

  /** The values of such a type that the writer accepts: a null string is
      an argument error in BinaryWriter. */
  predicate Storable(t: FieldType, v: Value)
  {
    match t
    case Plain(s) => FitsScalar(s, v)
    case Nullable(s) => v.Null? || FitsScalar(s, v)
    case Enum(k) => v.IntV? && k.InRange(v.i)
    case NullableEnum(k) => v.Null? || (v.IntV? && k.InRange(v.i))
    case Str => v.Text? && |v.bytes| < TwoTo32 / 2
    case _ => false
  }

  /** Storable is the schema's fit for these types, less the null string. */
  lemma StorableFits(t: FieldType, v: Value)
    requires FlatColumn(t)
    ensures Storable(t, v) <==> Fits(t, v) && !(t == Str && v.Null?)
  {
  }

  /** The encoder and decoder the two sides pick for such a type when no
      custom codec is registered. */
  function FlatEncoder(t: FieldType): Writers.Encoder
    requires FlatColumn(t)
  {
    match t
    case Plain(s) => Writers.ScalarEnc(s)
    case Nullable(s) => Writers.NullableEnc(s)
    case Enum(k) => Writers.EnumEnc(k)
    case NullableEnum(k) => Writers.NullableEnumEnc(k)
    case Str => Writers.TextEnc
  }

  function FlatDecoder(t: FieldType): MiscReader.Decoder
    requires FlatColumn(t)
  {
    match t
    case Plain(s) => MiscReader.ScalarDec(s)
    case Nullable(s) => MiscReader.NullableDec(s)
    case Enum(k) => MiscReader.EnumDec(k)
    case NullableEnum(k) => MiscReader.NullableEnumDec(k)
    case Str => MiscReader.TextDec
  }

  /** Both factories choose the single-file codec for these types,
      whatever the column's path and stream. */
  lemma FactoriesPickFlatCodec(path: string, p: Property, s: Stream)
    requires FlatColumn(p.ftype) && s.Valid()
    ensures Writers.CreateWriter(map[], path, p) == ([], Ok(FlatEncoder(p.ftype)))
    ensures MiscReader.CreateReader(map[], path, p, Some(s)) == ([], Ok(FlatDecoder(p.ftype)))
  {
  }

  /** The bytes a column writes for `v`. */
  function Encode(t: FieldType, v: Value): (bs: seq<byte>)
    requires FlatColumn(t) && Storable(t, v)
    ensures |bs| >= 1
  {
    EncodeAt(t, v, 1)
  }

  /** Encode behind `depth` layers of definition. The layers add nothing
      to the function: they keep its body out of the solver's context in
      proofs about other values, and EncodeOpened opens them. */
  function EncodeAt(t: FieldType, v: Value, depth: nat): (bs: seq<byte>)
    requires FlatColumn(t) && Storable(t, v)
    ensures |bs| >= 1
    decreases depth
  {
    if depth > 0 then EncodeAt(t, v, depth - 1)
    else
      var r := Writers.FlatBytes(FlatEncoder(t), v);
      assert r.Ok? by { EncodeSucceeds(t, v); }
      r.value
  }

  /** What the column's writer produces for `v`. */
  lemma EncodeOpened(t: FieldType, v: Value)
    requires FlatColumn(t) && Storable(t, v)
    ensures Writers.FlatBytes(FlatEncoder(t), v) == Ok(Encode(t, v))
  {
    EncodeSucceeds(t, v);
    assert EncodeAt(t, v, 1) == EncodeAt(t, v, 0);
  }

  lemma EncodeSucceeds(t: FieldType, v: Value)
    requires FlatColumn(t) && Storable(t, v)
    ensures Writers.FlatBytes(FlatEncoder(t), v).Ok?
    ensures |Writers.FlatBytes(FlatEncoder(t), v).value| >= 1
  {
    if t.Plain? && t.scalar.Int? {
      assert |Writers.IntBytes(t.scalar.kind, v.i)| == t.scalar.kind.Width();
    }
  }

  /** The bytes of a column holding `vs`, one row after another. */
  function ColumnBytes(t: FieldType, vs: seq<Value>): (bs: seq<byte>)
    requires FlatColumn(t) && forall k :: 0 <= k < |vs| ==> Storable(t, vs[k])
    ensures |bs| >= |vs|
  {
    if |vs| == 0 then [] else Encode(t, vs[0]) + ColumnBytes(t, vs[1..])
  }

  /** `bs` lies in the stream at its read position. */
  ghost predicate HoldsAt(s: Stream, bs: seq<byte>)
  {
    s.Valid() && s.pos + |bs| <= |s.data| && s.data[s.pos..s.pos + |bs|] == bs
  }

  lemma HoldsAtSplit(s: Stream, a: seq<byte>, b: seq<byte>)
    requires HoldsAt(s, a + b)
    ensures HoldsAt(s, a) && HoldsAt(s.(pos := s.pos + |a|), b)
  {
    assert s.data[s.pos..s.pos + |a|] == (a + b)[..|a|];
    assert s.data[s.pos + |a|..s.pos + |a| + |b|] == (a + b)[|a|..];
  }

  // ---------------------------------------------------------------- one value

  lemma Pow256Eight()
    ensures Pow256(8) == TwoTo64
  {
    assert Pow256(1) == 256;
    assert Pow256(2) == 65536;
    assert Pow256(4) == 0x1_0000_0000 by { assert Pow256(3) == 256 * 65536; }
    assert Pow256(8) == TwoTo64 by {
      assert Pow256(5) == 256 * 0x1_0000_0000;
      assert Pow256(6) == 65536 * 0x1_0000_0000;
      assert Pow256(7) == 256 * 65536 * 0x1_0000_0000;
    }
  }

  /** An integer written in its width reads back as itself. */
  lemma IntRoundTrip(k: IntKind, i: int, s: Stream)
    requires k.InRange(i) && HoldsAt(s, Writers.IntBytes(k, i))
    ensures MiscReader.ReadInt(s, k) == (Ok(i), s.(pos := s.pos + k.Width()))
  {
    ReadExactHolds(s, Writers.IntBytes(k, i));
    IntDecodes(k, i);
  }

  lemma IntDecodes(k: IntKind, i: int)
    requires k.InRange(i)
    ensures var u := DecodeLE(Writers.IntBytes(k, i));
      (if k.Signed() then ToSigned(u, k.Width()) else u) == i
  {
    var w := k.Width();
    if k.Signed() {
      DecodeEncodeLE(ToUnsigned(i, w), w);
      SignedRoundTrip(i, w);
    } else {
      DecodeEncodeLE(i, w);
    }
  }

  /** Bytes lying at the read position are what an exact read of their
      length returns. */
  lemma ReadExactHolds(s: Stream, bs: seq<byte>)
    requires HoldsAt(s, bs)
    ensures MiscReader.ReadExact(s, |bs|) == (Ok(bs), s.(pos := s.pos + |bs|))
  {
  }

  /** A DateTime's ticks fit the signed 64-bit integer they are written as. */
  lemma TicksInRange(t: int)
    requires 0 <= t <= MaxTicks
    ensures I64.InRange(t) && Writers.Int64Bytes(t) == Writers.IntBytes(I64, t)
  {
    Pow256Eight();
  }

  /** A scalar of a round-tripping type, written without presence flag,
      reads back as itself and consumes exactly its bytes. */
  lemma {:induction false} ScalarRoundTrip(sc: Scalar, v: Value, s: Stream)
    requires sc !in {Decimal, DateTimeOffset} && FitsScalar(sc, v)
    requires HoldsAt(s, Writers.ScalarBytes(sc, v).value)
    ensures MiscReader.ReadScalar(s, sc) == (Ok(v), s.(pos := s.pos + |Writers.ScalarBytes(sc, v).value|))
  {
    match sc
    case Bool =>
    case Int(k) => IntRoundTrip(k, v.i, s);
    case Guid =>
    case Double => ReadExactHolds(s, v.bytes);
    case DateTime =>
      TicksInRange(v.ticks);
      IntRoundTrip(I64, v.ticks, s);
  }

  /** A reader with decoder `dec` on `s` reads `v` and moves `len`
      bytes on. */
  ghost predicate StepsTo(dec: MiscReader.Decoder, s: Stream, v: Value, len: nat)
    requires MiscReader.ColumnReader(s, dec).Valid()
  {
    StepsToAt(dec, s, v, len, 1)
  }

  /** StepsTo behind `depth` layers of definition, as EncodeAt. */
  ghost predicate StepsToAt(dec: MiscReader.Decoder, s: Stream, v: Value, len: nat, depth: nat)
    requires MiscReader.ColumnReader(s, dec).Valid()
    decreases depth
  {
    if depth > 0 then StepsToAt(dec, s, v, len, depth - 1)
    else
      MiscReader.Read(MiscReader.ColumnReader(s, dec), Null)
      == (Ok(v), MiscReader.ColumnReader(s.(pos := s.pos + len), dec))
  }

  lemma StepsToOpened(dec: MiscReader.Decoder, s: Stream, v: Value, len: nat)
    requires MiscReader.ColumnReader(s, dec).Valid()
    ensures StepsTo(dec, s, v, len) <==>
      MiscReader.Read(MiscReader.ColumnReader(s, dec), Null)
      == (Ok(v), MiscReader.ColumnReader(s.(pos := s.pos + len), dec))
  {
    assert StepsToAt(dec, s, v, len, 1) == StepsToAt(dec, s, v, len, 0);
  }

  /** A value written by its column reads back as itself, consuming
      exactly the bytes written for it, whatever precedes or follows
      them in the file; of a nullable enum, only null does. */
  lemma ValueRoundTrip(t: FieldType, v: Value, s: Stream)
    requires FlatColumn(t) && Storable(t, v) && HoldsAt(s, Encode(t, v))
    requires t.NullableEnum? ==> v.Null?
    ensures StepsTo(FlatDecoder(t), s, v, |Encode(t, v)|)
  {
    match t
    case Plain(sc) => PlainSteps(sc, v, s);
    case Nullable(sc) => NullableSteps(sc, v, s);
    case Enum(k) => EnumSteps(k, v, s);
    case NullableEnum(k) => NullableEnumSteps(k, v, s);
    case Str => TextSteps(v, s);
  }

  lemma PlainSteps(sc: Scalar, v: Value, s: Stream)
    requires sc !in {Decimal, DateTimeOffset} && FitsScalar(sc, v)
    requires HoldsAt(s, Encode(Plain(sc), v))
    ensures StepsTo(FlatDecoder(Plain(sc)), s, v, |Encode(Plain(sc), v)|)
  {
    PlainRoundTrip(sc, v, s);
    StepsToOpened(FlatDecoder(Plain(sc)), s, v, |Encode(Plain(sc), v)|);
  }

  lemma NullableSteps(sc: Scalar, v: Value, s: Stream)
    requires sc !in {Decimal, DateTimeOffset} && (v.Null? || FitsScalar(sc, v))
    requires HoldsAt(s, Encode(Nullable(sc), v))
    ensures StepsTo(FlatDecoder(Nullable(sc)), s, v, |Encode(Nullable(sc), v)|)
  {
    NullableRoundTrip(sc, v, s);
    StepsToOpened(FlatDecoder(Nullable(sc)), s, v, |Encode(Nullable(sc), v)|);
  }

  lemma EnumSteps(k: IntKind, v: Value, s: Stream)
    requires k.EnumWidth() && v.IntV? && k.InRange(v.i)
    requires HoldsAt(s, Encode(Enum(k), v))
    ensures StepsTo(FlatDecoder(Enum(k)), s, v, |Encode(Enum(k), v)|)
  {
    EnumRoundTrip(k, v, s);
    StepsToOpened(FlatDecoder(Enum(k)), s, v, |Encode(Enum(k), v)|);
  }

  lemma NullableEnumSteps(k: IntKind, v: Value, s: Stream)
    requires k.EnumWidth() && v.Null?
    requires HoldsAt(s, Encode(NullableEnum(k), v))
    ensures StepsTo(FlatDecoder(NullableEnum(k)), s, v, |Encode(NullableEnum(k), v)|)
  {
    NullableEnumReadBack(k, v, s);
    StepsToOpened(FlatDecoder(NullableEnum(k)), s, v, |Encode(NullableEnum(k), v)|);
  }

  lemma TextSteps(v: Value, s: Stream)
    requires v.Text? && |v.bytes| < TwoTo32 / 2
    requires HoldsAt(s, Encode(Str, v))
    ensures StepsTo(FlatDecoder(Str), s, v, |Encode(Str, v)|)
  {
    TextRoundTrip(v, s);
    StepsToOpened(FlatDecoder(Str), s, v, |Encode(Str, v)|);
  }

  lemma PlainRoundTrip(sc: Scalar, v: Value, s: Stream)
    requires sc !in {Decimal, DateTimeOffset} && FitsScalar(sc, v)
    requires HoldsAt(s, Encode(Plain(sc), v))
    ensures MiscReader.Read(MiscReader.ColumnReader(s, MiscReader.ScalarDec(sc)), Null)
      == (Ok(v), MiscReader.ColumnReader(s.(pos := s.pos + |Encode(Plain(sc), v)|), MiscReader.ScalarDec(sc)))
  {
    EncodeOpened(Plain(sc), v);
    ScalarRoundTrip(sc, v, s);
  }

  lemma EnumRoundTrip(k: IntKind, v: Value, s: Stream)
    requires k.EnumWidth() && v.IntV? && k.InRange(v.i)
    requires HoldsAt(s, Encode(Enum(k), v))
    ensures MiscReader.Read(MiscReader.ColumnReader(s, MiscReader.EnumDec(k)), Null)
      == (Ok(v), MiscReader.ColumnReader(s.(pos := s.pos + |Encode(Enum(k), v)|), MiscReader.EnumDec(k)))
  {
    EncodeOpened(Enum(k), v);
    IntRoundTrip(k, v.i, s);
  }

  lemma NullableRoundTrip(sc: Scalar, v: Value, s: Stream)
    requires sc !in {Decimal, DateTimeOffset} && (v.Null? || FitsScalar(sc, v))
    requires HoldsAt(s, Encode(Nullable(sc), v))
    ensures MiscReader.Read(MiscReader.ColumnReader(s, MiscReader.NullableDec(sc)), Null)
      == (Ok(v), MiscReader.ColumnReader(s.(pos := s.pos + |Encode(Nullable(sc), v)|), MiscReader.NullableDec(sc)))
  {
    EncodeOpened(Nullable(sc), v);
    if !v.Null? {
      var bs := Writers.ScalarBytes(sc, v).value;
      HoldsAtSplit(s, [1], bs);
      assert MiscReader.ReadBool(s) == (Ok(true), s.(pos := s.pos + 1));
      ScalarRoundTrip(sc, v, s.(pos := s.pos + 1));
    }
  }

  /** A nullable enum written by its column: null reads back as null, and
      a present value is read, flag and integer, and then refused by the
      property's setter with an argument error. */
  lemma NullableEnumReadBack(k: IntKind, v: Value, s: Stream)
    requires k.EnumWidth() && (v.Null? || (v.IntV? && k.InRange(v.i)))
    requires HoldsAt(s, Encode(NullableEnum(k), v))
    ensures MiscReader.Read(MiscReader.ColumnReader(s, MiscReader.NullableEnumDec(k)), Null)
      == (if v.Null? then Ok(Null) else Err(ArgumentError),
          MiscReader.ColumnReader(s.(pos := s.pos + |Encode(NullableEnum(k), v)|), MiscReader.NullableEnumDec(k)))
  {
    EncodeOpened(NullableEnum(k), v);
    if !v.Null? {
      HoldsAtSplit(s, [1], Writers.IntBytes(k, v.i));
      assert MiscReader.ReadBool(s) == (Ok(true), s.(pos := s.pos + 1));
      IntRoundTrip(k, v.i, s.(pos := s.pos + 1));
    }
  }

  lemma TextRoundTrip(v: Value, s: Stream)
    requires v.Text? && |v.bytes| < TwoTo32 / 2
    requires HoldsAt(s, Encode(Str, v))
    ensures MiscReader.Read(MiscReader.ColumnReader(s, MiscReader.TextDec), Null)
      == (Ok(v), MiscReader.ColumnReader(s.(pos := s.pos + |Encode(Str, v)|), MiscReader.TextDec))
  {
    EncodeOpened(Str, v);
    assert Encode(Str, v) == Encode7Bit(|v.bytes|) + v.bytes;
    TextReads(s, v.bytes);
  }

  /** A length prefix and that many bytes: the text comes back whole. */
  lemma TextReads(s: Stream, bytes: seq<byte>)
    requires |bytes| < TwoTo32 / 2 && HoldsAt(s, Encode7Bit(|bytes|) + bytes)
    ensures MiscReader.ReadText(s) == (Ok(bytes), s.(pos := s.pos + |Encode7Bit(|bytes|)| + |bytes|))
  {
    var n := |bytes|;
    var prefix := Encode7Bit(n);
    HoldsAtSplit(s, prefix, bytes);
    LengthPrefixAt(n, s);
    var s1 := s.(pos := s.pos + |prefix|);
    TextAfterPrefix(s, n, s1.pos);
    ReadExactHolds(s1, bytes);
  }

  lemma TextAfterPrefix(s: Stream, n: nat, p: nat)
    requires s.Valid() && p <= |s.data|
    requires Read7Bit(s.data, s.pos, 0, 0) == Ok((n, p)) && AsInt32(n) == n
    ensures MiscReader.ReadText(s) == MiscReader.ReadExact(s.(pos := p), n)
  {
  }

  /** The length prefix reads back as the length it encodes. */
  lemma LengthPrefixAt(n: nat, s: Stream)
    requires n < TwoTo32 / 2 && HoldsAt(s, Encode7Bit(n))
    ensures Read7Bit(s.data, s.pos, 0, 0) == Ok((n, s.pos + |Encode7Bit(n)|)) && AsInt32(n) == n
  {
    assert Pow128(5) == 34359738368;
    Read7BitEncode(n, 0, 0, s.data, s.pos);
  }

  // ---------------------------------------------------------------- a whole column

  /** `n` reads in turn from a column reader, each for a fresh object:
      the values until the first fault, or that fault. */
  function ReadColumn(r: MiscReader.ColumnReader, n: nat): (out: (Result<seq<Value>>, MiscReader.ColumnReader))
    requires r.Valid()
    ensures out.1.Valid()
    ensures out.0.Ok? ==> |out.0.value| == n
    decreases n
  {
    if n == 0 then (Ok([]), r)
    else
      var (v, r1) := MiscReader.Read(r, Null);
      if v.Err? then (Err(v.fault), r1)
      else
        var (rest, r2) := ReadColumn(r1, n - 1);
        (if rest.Err? then rest else Ok([v.value] + rest.value), r2)
  }

  lemma ReadColumnFrom(t: FieldType, vs: seq<Value>, s: Stream)
    requires RoundTrips(t) && forall k :: 0 <= k < |vs| ==> Storable(t, vs[k])
    requires HoldsAt(s, ColumnBytes(t, vs))
    ensures ReadColumn(MiscReader.ColumnReader(s, FlatDecoder(t)), |vs|).0 == Ok(vs)
  {
    ColumnReadsFrom(t, vs, s);
    ReadsAllOpened(FlatDecoder(t), s, vs);
  }

  /** A reader with decoder `dec` on `s` reads back `vs`. */
  ghost predicate ReadsAll(dec: MiscReader.Decoder, s: Stream, vs: seq<Value>)
    requires MiscReader.ColumnReader(s, dec).Valid()
  {
    ReadsAllAt(dec, s, vs, 1)
  }

  /** ReadsAll behind `depth` layers of definition, as EncodeAt. */
  ghost predicate ReadsAllAt(dec: MiscReader.Decoder, s: Stream, vs: seq<Value>, depth: nat)
    requires MiscReader.ColumnReader(s, dec).Valid()
    decreases depth
  {
    if depth > 0 then ReadsAllAt(dec, s, vs, depth - 1)
    else ReadColumn(MiscReader.ColumnReader(s, dec), |vs|).0 == Ok(vs)
  }

  lemma ReadsAllOpened(dec: MiscReader.Decoder, s: Stream, vs: seq<Value>)
    requires MiscReader.ColumnReader(s, dec).Valid()
    ensures ReadsAll(dec, s, vs) <==> ReadColumn(MiscReader.ColumnReader(s, dec), |vs|).0 == Ok(vs)
  {
    assert ReadsAllAt(dec, s, vs, 1) == ReadsAllAt(dec, s, vs, 0);
  }

  lemma {:induction false} ColumnReadsFrom(t: FieldType, vs: seq<Value>, s: Stream)
    requires RoundTrips(t) && forall k :: 0 <= k < |vs| ==> Storable(t, vs[k])
    requires HoldsAt(s, ColumnBytes(t, vs))
    ensures ReadsAll(FlatDecoder(t), s, vs)
    decreases |vs|
  {
    if |vs| == 0 {
      ReadsAllOpened(FlatDecoder(t), s, vs);
    } else {
      var len := |Encode(t, vs[0])|;
      ColumnBytesCons(t, vs);
      HoldsAtSplit(s, Encode(t, vs[0]), ColumnBytes(t, vs[1..]));
      ValueRoundTrip(t, vs[0], s);
      ColumnReadsFrom(t, vs[1..], s.(pos := s.pos + len));
      ColumnReadsCons(FlatDecoder(t), s, vs, len);
    }
  }

  /** The first value read back, then the rest from behind it. */
  lemma ColumnReadsCons(dec: MiscReader.Decoder, s: Stream, vs: seq<Value>, len: nat)
    requires |vs| > 0 && s.pos + len <= |s.data| && MiscReader.ColumnReader(s, dec).Valid()
    requires StepsTo(dec, s, vs[0], len)
    requires ReadsAll(dec, s.(pos := s.pos + len), vs[1..])
    ensures ReadsAll(dec, s, vs)
  {
    var s1 := s.(pos := s.pos + len);
    StepsToOpened(dec, s, vs[0], len);
    ReadsAllOpened(dec, s1, vs[1..]);
    ReadsAllOpened(dec, s, vs);
    ReadColumnCons(MiscReader.ColumnReader(s, dec), |vs|, vs[0], MiscReader.ColumnReader(s1, dec));
    assert [vs[0]] + vs[1..] == vs;
  }

  /** The first value's bytes, then the rest's; every value behind the
      first is storable too. */
  lemma ColumnBytesCons(t: FieldType, vs: seq<Value>)
    requires FlatColumn(t) && forall k :: 0 <= k < |vs| ==> Storable(t, vs[k])
    requires |vs| > 0
    ensures forall k :: 0 <= k < |vs[1..]| ==> Storable(t, vs[1..][k])
    ensures ColumnBytes(t, vs) == Encode(t, vs[0]) + ColumnBytes(t, vs[1..])
  {
    forall k | 0 <= k < |vs[1..]|
      ensures Storable(t, vs[1..][k])
    {
      assert vs[1..][k] == vs[k + 1];
    }
  }

  /** A successful first read followed by a successful rest. */
  lemma ReadColumnCons(r: MiscReader.ColumnReader, n: nat, v: Value, r1: MiscReader.ColumnReader)
    requires r.Valid() && n > 0 && MiscReader.Read(r, Null) == (Ok(v), r1)
    requires ReadColumn(r1, n - 1).0.Ok?
    ensures ReadColumn(r, n).0 == Ok([v] + ReadColumn(r1, n - 1).0.value)
  {
  }

  /** A column file holding the writer's bytes for `vs`: the reader the
      factory opens on it reads back exactly `vs`, one row per read; a
      nullable enum column does so exactly when every value is null, and
      otherwise fails with the setter's argument error. */
  lemma ColumnRoundTrip(files: Files, path: string, p: Property, vs: seq<Value>)
    requires FlatColumn(p.ftype) && forall k :: 0 <= k < |vs| ==> Storable(p.ftype, vs[k])
    requires path + p.name + ".col" in files && files[path + p.name + ".col"] == ColumnBytes(p.ftype, vs)
    ensures MiscReader.New(files, map[], path, p).1.Ok?
    ensures !p.ftype.NullableEnum? ==> ReadColumn(MiscReader.New(files, map[], path, p).1.value, |vs|).0 == Ok(vs)
    ensures p.ftype.NullableEnum? ==>
      ReadColumn(MiscReader.New(files, map[], path, p).1.value, |vs|).0
        == if AllNull(vs) then Ok(vs) else Err(ArgumentError)
  {
    var f := path + p.name + ".col";
    var s := Open(f, files[f]);
    FactoriesPickFlatCodec(path, p, s);
    assert s.data[0..|files[f]|] == files[f];
    FlatColumnReads(p.ftype, vs, s);
  }

  /** The column's bytes at the read position, read with its decoder. */
  lemma FlatColumnReads(t: FieldType, vs: seq<Value>, s: Stream)
    requires FlatColumn(t) && forall k :: 0 <= k < |vs| ==> Storable(t, vs[k])
    requires HoldsAt(s, ColumnBytes(t, vs))
    ensures !t.NullableEnum? ==> ReadColumn(MiscReader.ColumnReader(s, FlatDecoder(t)), |vs|).0 == Ok(vs)
    ensures t.NullableEnum? ==>
      ReadColumn(MiscReader.ColumnReader(s, FlatDecoder(t)), |vs|).0
        == if AllNull(vs) then Ok(vs) else Err(ArgumentError)
  {
    if t.NullableEnum? {
      NullableEnumColumnReads(t.underlying, vs, s);
    } else {
      ReadColumnFrom(t, vs, s);
    }
  }

  /** Every value of `vs` is null. */
  predicate AllNull(vs: seq<Value>)
  {
    forall k :: 0 <= k < |vs| ==> vs[k].Null?
  }

  /** The rows of a nullable enum column read back while they are null,
      and the first present one fails the read. */
  lemma NullableEnumColumnReads(k: IntKind, vs: seq<Value>, s: Stream)
    requires FlatColumn(NullableEnum(k)) && forall i :: 0 <= i < |vs| ==> Storable(NullableEnum(k), vs[i])
    requires HoldsAt(s, ColumnBytes(NullableEnum(k), vs))
    ensures ReadColumn(MiscReader.ColumnReader(s, MiscReader.NullableEnumDec(k)), |vs|).0
      == if AllNull(vs) then Ok(vs) else Err(ArgumentError)
  {
    var res := if AllNull(vs) then Ok(vs) else Err(ArgumentError);
    NullableEnumColumnOpened(k, vs, s);
    NullableEnumColumnYields(k, vs, s);
    YieldsOpened(MiscReader.NullableEnumDec(k), s, |vs|, res);
  }

  lemma {:induction false} NullableEnumColumnYields(k: IntKind, vs: seq<Value>, s: Stream)
    requires NullableEnumColumnAt(k, vs, s)
    ensures MiscReader.ColumnReader(s, MiscReader.NullableEnumDec(k)).Valid()
    ensures Yields(MiscReader.NullableEnumDec(k), s, |vs|, if AllNull(vs) then Ok(vs) else Err(ArgumentError))
    decreases |vs|
  {
    var dec := MiscReader.NullableEnumDec(k);
    NullableEnumColumnOpened(k, vs, s);
    if |vs| == 0 {
      YieldsOpened(dec, s, 0, Ok(vs));
    } else {
      var head: Result<Value> := if vs[0].Null? then Ok(Null) else Err(ArgumentError);
      var rest := if AllNull(vs[1..]) then Ok(vs[1..]) else Err(ArgumentError);
      var len := NullableEnumColumnHead(k, vs, s);
      NullableEnumColumnYields(k, vs[1..], s.(pos := s.pos + len));
      AllNullCons(vs);
      YieldsStep(dec, s, len, |vs|, head, rest);
      if vs[0].Null? && AllNull(vs[1..]) {
        assert [vs[0]] + vs[1..] == vs;
      }
    }
  }

  /** The writer's bytes for the nullable enums `vs` lie in `s` at its
      read position. */
  ghost predicate NullableEnumColumnAt(k: IntKind, vs: seq<Value>, s: Stream)
  {
    NullableEnumColumnAtDepth(k, vs, s, 1)
  }

  /** NullableEnumColumnAt behind `depth` layers of definition, as EncodeAt. */
  ghost predicate NullableEnumColumnAtDepth(k: IntKind, vs: seq<Value>, s: Stream, depth: nat)
    decreases depth
  {
    if depth > 0 then NullableEnumColumnAtDepth(k, vs, s, depth - 1)
    else
      FlatColumn(NullableEnum(k)) && (forall i :: 0 <= i < |vs| ==> Storable(NullableEnum(k), vs[i]))
      && HoldsAt(s, ColumnBytes(NullableEnum(k), vs))
  }

  lemma NullableEnumColumnOpened(k: IntKind, vs: seq<Value>, s: Stream)
    ensures NullableEnumColumnAt(k, vs, s) <==>
      FlatColumn(NullableEnum(k)) && (forall i :: 0 <= i < |vs| ==> Storable(NullableEnum(k), vs[i]))
      && HoldsAt(s, ColumnBytes(NullableEnum(k), vs))
  {
    assert NullableEnumColumnAtDepth(k, vs, s, 1) == NullableEnumColumnAtDepth(k, vs, s, 0);
  }

  /** The first row of a nullable enum column reads as null or fails, and
      the rest lie behind its bytes. */
  lemma NullableEnumColumnHead(k: IntKind, vs: seq<Value>, s: Stream) returns (len: nat)
    requires NullableEnumColumnAt(k, vs, s) && |vs| > 0
    ensures s.Valid() && s.pos + len <= |s.data|
    ensures ReadsAs(MiscReader.NullableEnumDec(k), s, if vs[0].Null? then Ok(Null) else Err(ArgumentError), len)
    ensures NullableEnumColumnAt(k, vs[1..], s.(pos := s.pos + len))
  {
    NullableEnumColumnOpened(k, vs, s);
    var t := NullableEnum(k);
    len := |Encode(t, vs[0])|;
    ColumnBytesCons(t, vs);
    HoldsAtSplit(s, Encode(t, vs[0]), ColumnBytes(t, vs[1..]));
    NullableEnumHead(k, vs[0], s);
    NullableEnumColumnOpened(k, vs[1..], s.(pos := s.pos + len));
  }

  /** `n` reads from a reader with decoder `dec` on `s` give `res`. */
  ghost predicate Yields(dec: MiscReader.Decoder, s: Stream, n: nat, res: Result<seq<Value>>)
    requires MiscReader.ColumnReader(s, dec).Valid()
  {
    YieldsAt(dec, s, n, res, 1)
  }

  /** Yields behind `depth` layers of definition, as EncodeAt. */
  ghost predicate YieldsAt(dec: MiscReader.Decoder, s: Stream, n: nat, res: Result<seq<Value>>, depth: nat)
    requires MiscReader.ColumnReader(s, dec).Valid()
    decreases depth
  {
    if depth > 0 then YieldsAt(dec, s, n, res, depth - 1)
    else ReadColumn(MiscReader.ColumnReader(s, dec), n).0 == res
  }

  lemma YieldsOpened(dec: MiscReader.Decoder, s: Stream, n: nat, res: Result<seq<Value>>)
    requires MiscReader.ColumnReader(s, dec).Valid()
    ensures Yields(dec, s, n, res) <==> ReadColumn(MiscReader.ColumnReader(s, dec), n).0 == res
  {
    assert YieldsAt(dec, s, n, res, 1) == YieldsAt(dec, s, n, res, 0);
  }

  /** A reader with decoder `dec` on `s` gives `head` and moves `len`
      bytes on. */
  ghost predicate ReadsAs(dec: MiscReader.Decoder, s: Stream, head: Result<Value>, len: nat)
    requires MiscReader.ColumnReader(s, dec).Valid()
  {
    ReadsAsAt(dec, s, head, len, 1)
  }

  /** ReadsAs behind `depth` layers of definition, as EncodeAt. */
  ghost predicate ReadsAsAt(dec: MiscReader.Decoder, s: Stream, head: Result<Value>, len: nat, depth: nat)
    requires MiscReader.ColumnReader(s, dec).Valid()
    decreases depth
  {
    if depth > 0 then ReadsAsAt(dec, s, head, len, depth - 1)
    else MiscReader.Read(MiscReader.ColumnReader(s, dec), Null) == (head, MiscReader.ColumnReader(s.(pos := s.pos + len), dec))
  }

  /** The first row of a nullable enum column. */
  lemma NullableEnumHead(k: IntKind, v: Value, s: Stream)
    requires k.EnumWidth() && (v.Null? || (v.IntV? && k.InRange(v.i)))
    requires HoldsAt(s, Encode(NullableEnum(k), v))
    ensures ReadsAs(MiscReader.NullableEnumDec(k), s, if v.Null? then Ok(Null) else Err(ArgumentError), |Encode(NullableEnum(k), v)|)
  {
    NullableEnumReadBack(k, v, s);
    var head: Result<Value> := if v.Null? then Ok(Null) else Err(ArgumentError);
    assert ReadsAsAt(MiscReader.NullableEnumDec(k), s, head, |Encode(NullableEnum(k), v)|, 1)
      == ReadsAsAt(MiscReader.NullableEnumDec(k), s, head, |Encode(NullableEnum(k), v)|, 0);
  }

  /** The first read of a column, then the rest from behind it. */
  lemma YieldsStep(dec: MiscReader.Decoder, s: Stream, len: nat, n: nat, head: Result<Value>, rest: Result<seq<Value>>)
    requires MiscReader.ColumnReader(s, dec).Valid() && s.pos + len <= |s.data| && n > 0
    requires ReadsAs(dec, s, head, len)
    requires Yields(dec, s.(pos := s.pos + len), n - 1, rest)
    ensures Yields(dec, s, n, if head.Err? then Err(head.fault) else if rest.Err? then rest else Ok([head.value] + rest.value))
  {
    var s1 := s.(pos := s.pos + len);
    assert ReadsAsAt(dec, s, head, len, 1) == ReadsAsAt(dec, s, head, len, 0);
    YieldsOpened(dec, s1, n - 1, rest);
    YieldsOpened(dec, s, n, if head.Err? then Err(head.fault) else if rest.Err? then rest else Ok([head.value] + rest.value));
  }

  lemma AllNullCons(vs: seq<Value>)
    requires |vs| > 0
    ensures AllNull(vs) <==> vs[0].Null? && AllNull(vs[1..])
  {
    if vs[0].Null? && AllNull(vs[1..]) {
      forall i | 0 < i < |vs| ensures vs[i].Null? { assert vs[i] == vs[1..][i - 1]; }
    }
  }

  // ---------------------------------------------------------------- asymmetric paths

  /** A DateTimeOffset column writes the clock ticks and then the time of
      day, and the reader takes that time of day as the offset: what
      comes back is the value whose offset is its own time of day, or an
      argument error when that is no valid offset. */
  lemma OffsetReadsTimeOfDay(v: Value, s: Stream)
    requires FitsScalar(DateTimeOffset, v)
    requires HoldsAt(s, Writers.ScalarBytes(DateTimeOffset, v).value)
    ensures var t := v.clockTicks; var tod := Writers.TimeOfDay(t);
      MiscReader.ReadScalar(s, DateTimeOffset).0
        == if ValidOffset(t, tod) then Ok(Offset(t, tod)) else Err(ArgumentError)
    ensures MiscReader.ReadScalar(s, DateTimeOffset).0 == Ok(v) <==> v.offset == Writers.TimeOfDay(v.clockTicks)
  {
    var t := v.clockTicks;
    var tod := Writers.TimeOfDay(t);
    TicksInRange(t);
    TicksInRange(tod);
    HoldsAtSplit(s, Writers.Int64Bytes(t), Writers.Int64Bytes(tod));
    IntRoundTrip(I64, t, s);
    IntRoundTrip(I64, tod, s.(pos := s.pos + 8));
  }

  /** Three in the afternoon at offset zero: its time of day is fifteen
      hours, beyond the fourteen an offset may span, so it cannot be read
      back. */
  lemma AfternoonOffsetIsUnreadable(s: Stream)
    requires HoldsAt(s, Writers.ScalarBytes(DateTimeOffset, Offset(540_000_000_000, 0)).value)
    ensures MiscReader.ReadScalar(s, DateTimeOffset).0 == Err(ArgumentError)
  {
    OffsetReadsTimeOfDay(Offset(540_000_000_000, 0), s);
  }

  /** A nullable decimal is written as the decimal's memory image (flags,
      hi, lo, mid) and read as BinaryReader's own layout (lo, mid, hi,
      flags) of those bytes: it reads back as a value exactly when the
      image's mid word passes as a flags word, and otherwise fails with
      an IOException. */
  lemma NullableDecimalReadsOtherLayout(v: Value, s: Stream)
    requires FitsScalar(Decimal, v)
    requires HoldsAt(s, Writers.FlatBytes(Writers.NullableEnc(Decimal), v).value)
    ensures MiscReader.Read(MiscReader.ColumnReader(s, MiscReader.NullableDec(Decimal)), Null).0
      == if MiscReader.DecimalFlags(DecodeLE(v.bytes[12..])) then Ok(BinaryDecimal(v.bytes)) else Err(IOError)
  {
    HoldsAtSplit(s, [1], v.bytes);
  }

  /** The memory image of 4294967296m: zero flags, hi and lo, and a mid
      word of one. */
  const TwoToThe32Image: seq<byte> := [0, 0, 0, 0, 0, 0, 0, 0, 0, 0, 0, 0, 1, 0, 0, 0]

  /** 4294967296m written to a nullable column cannot be read back: its
      mid word 1 sets a bit below the scale. */
  lemma NullableTwoToThe32IsUnreadable(s: Stream)
    requires HoldsAt(s, Writers.FlatBytes(Writers.NullableEnc(Decimal), Raw(TwoToThe32Image)).value)
    ensures MiscReader.Read(MiscReader.ColumnReader(s, MiscReader.NullableDec(Decimal)), Null).0 == Err(IOError)
  {
    NullableDecimalReadsOtherLayout(Raw(TwoToThe32Image), s);
    assert TwoToThe32Image[12..] == [1, 0, 0, 0];
    assert DecodeLE([1, 0, 0, 0]) == 1 by { DecodeEncodeLE(1, 4); assert EncodeLE(1, 4) == [1, 0, 0, 0]; }
  }

  /** `n` copies of one value. */
  function Copies(x: Value, n: nat): (vs: seq<Value>)
    ensures |vs| == n && forall i :: 0 <= i < n ==> vs[i] == x
  {
    seq(n, _ => x)
  }

  /** `n` reads of a decimal column: the decimal decoder always asks its
      DecimalReader for row 0, which never advances it, so every read
      returns the first value of the column. */
  lemma {:induction false} DecimalColumnRepeats(r: MiscReader.ColumnReader, n: nat)
    requires r.Valid() && r.decoder.DecimalDec? && r.decoder.reader.lastRowId >= 0
    ensures ReadColumn(r, n)
      == (Ok(Copies(Raw(DecimalReader.ValueAt(r.decoder.reader.image, r.decoder.reader.offset)), n)), r)
    decreases n
  {
    if n > 0 {
      var d := r.decoder.reader;
      assert DecimalReader.ReadDecimal(d, 0).1 == d;
      assert MiscReader.Read(r, Null) == (Ok(Raw(DecimalReader.ValueAt(d.image, d.offset))), r);
      DecimalColumnRepeats(r, n - 1);
      var x := Raw(DecimalReader.ValueAt(d.image, d.offset));
      assert Copies(x, n) == [x] + Copies(x, n - 1);
    }
  }

  /** On a decimal column file of at least one value, every row read
      through the factory's reader is the column's first value. */
  lemma DecimalColumnReadsFirstValue(files: Files, path: string, p: Property, n: nat)
    requires p.ftype == Plain(Decimal)
    requires path + p.name + ".col" in files && |files[path + p.name + ".col"]| >= 16
    ensures MiscReader.New(files, map[], path, p).1.Ok?
    ensures ReadColumn(MiscReader.New(files, map[], path, p).1.value, n).0
      == Ok(Copies(Raw(files[path + p.name + ".col"][..16]), n))
  {
    var f := path + p.name + ".col";
    var r := MiscReader.New(files, map[], path, p).1.value;
    var d := r.decoder.reader;
    assert d == DecimalReader.New(Open(f, files[f]));
    var m := Min(BufferSize, |files[f]|);
    assert d.image[..m] == files[f][..m];
    assert DecimalReader.ValueAt(d.image, 0) == files[f][..16];
    DecimalColumnRepeats(r, n);
  }

  /** A list column is written as a presence flag and a 16-bit count, but
      read through the reference branch: the reader takes the flag, builds
      an empty list and leaves the count bytes where the next row's read
      will start. */
  lemma ListCountIsLeftUnread(path: string, p: Property, col: Writers.Column, items: seq<Value>, s: Stream)
    requires p.ftype.ListOf? && col.enc.SequenceEnc?
    requires HoldsAt(s, [1] + EncodeLE(|items| % TwoTo16, 2))
    ensures Writers.WriteColumn(col, Many(items)).writes[..2]
      == [Writers.Append(col.file, [1]), Writers.Append(col.file, EncodeLE(|items| % TwoTo16, 2))]
    ensures MiscReader.CreateReader(map[], path, p, Some(s)).1 == Ok(MiscReader.ReferenceDec(Many([])))
    ensures MiscReader.Read(MiscReader.ColumnReader(s, MiscReader.ReferenceDec(Many([]))), Null)
      == (Ok(Many([])), MiscReader.ColumnReader(s.(pos := s.pos + 1), MiscReader.ReferenceDec(Many([]))))
  {
    HoldsAtSplit(s, [1], EncodeLE(|items| % TwoTo16, 2));
  }

  /** An array column's count is the length modulo 2^16, and the reader
      builds an array of exactly the count it reads, of unfilled element
      objects: the length comes back whenever it is below 2^16. */
  lemma ArrayLengthRoundTrip(c: ClrType, col: Writers.Column, items: seq<Value>, s: Stream)
    requires col.enc.SequenceEnc?
    requires HoldsAt(s, [1] + EncodeLE(|items| % TwoTo16, 2))
    ensures Writers.WriteColumn(col, Many(items)).writes[..2]
      == [Writers.Append(col.file, [1]), Writers.Append(col.file, EncodeLE(|items| % TwoTo16, 2))]
    ensures var out := MiscReader.Read(MiscReader.ColumnReader(s, MiscReader.ArrayDec(c.fullName)), Null);
      && out.0 == Ok(Many(seq(|items| % TwoTo16, _ => Fresh(c.fullName))))
      && out.1.stream.pos == s.pos + 3
    ensures |items| < TwoTo16 ==> |items| % TwoTo16 == |items|
  {
    ArrayHeadWritten(col, items);
    ArrayLengthRead(c, |items| % TwoTo16, s);
  }

  /** The writer's first two appends for a non-null array: the flag and
      the 16-bit length. */
  lemma ArrayHeadWritten(col: Writers.Column, items: seq<Value>)
    requires col.enc.SequenceEnc?
    ensures Writers.WriteColumn(col, Many(items)).writes[..2]
      == [Writers.Append(col.file, [1]), Writers.Append(col.file, EncodeLE(|items| % TwoTo16, 2))]
  {
  }

  /** The array decoder reads the flag and the length, and builds that
      many unfilled elements. */
  lemma ArrayLengthRead(c: ClrType, n: nat, s: Stream)
    requires n < TwoTo16
    requires HoldsAt(s, [1] + EncodeLE(n, 2))
    ensures var out := MiscReader.Read(MiscReader.ColumnReader(s, MiscReader.ArrayDec(c.fullName)), Null);
      && out.0 == Ok(Many(seq(n, _ => Fresh(c.fullName))))
      && out.1.stream.pos == s.pos + 3
  {
    assert Pow256(2) == TwoTo16;
    HoldsAtSplit(s, [1], EncodeLE(n, 2));
    IntRoundTrip(U16, n, s.(pos := s.pos + 1));
  }

  /** A null array, list or reference is one zero byte, and reads back as
      null. */
  lemma NullReferenceRoundTrip(col: Writers.Column, d: MiscReader.Decoder, s: Stream)
    requires col.enc.SequenceEnc? || col.enc.ReferenceEnc?
    requires d.ArrayDec? || d.ReferenceDec?
    requires HoldsAt(s, [0])
    ensures Writers.WriteColumn(col, Null) == Writers.Done([Writers.Append(col.file, [0])])
    ensures MiscReader.Read(MiscReader.ColumnReader(s, d), Null) == (Ok(Null), MiscReader.ColumnReader(s.(pos := s.pos + 1), d))
  {
  }
}

=== FILE: decimalreader.dfy ===
/** DecimalReader: 16-byte decimal values of one column, served from a
    4096-slot array that is refilled 64 KiB at a time. The values are
    kept as their raw 16-byte images. */
module DecimalReader {
  import opened Base
  import opened Streams

  const DecimalWidth: nat := 16
  /** 65536 / 16 slots in the decimal array. */
  const Slots: nat := 4096

  /** The reader's state: the stream, the decimal array as its byte
      image, the current slot, and the last row id it advanced for. */
  datatype Reader = Reader(stream: Stream, image: seq<byte>, offset: nat, lastRowId: int) {
    ghost predicate Valid() { stream.Valid() && |image| == BufferSize && offset < Slots }
  }

  /** ReadDecimals: read up to a block and copy exactly the bytes read
      over the front of the array; slots past them keep their old
      contents, and an empty read changes nothing. */
  function Refill(s: Stream, image: seq<byte>): (out: (Stream, seq<byte>))
    requires s.Valid() && |image| == BufferSize
    ensures out.0.Valid() && out.0.data == s.data && out.0.path == s.path
    ensures var n := Min(BufferSize, s.Remaining());
      && out.0.pos == s.pos + n
      && out.1 == s.data[s.pos..s.pos + n] + image[n..]
  {
    var (chunk, s') := ReadUpTo(s, BufferSize);
    (s', chunk + image[|chunk|..])
  }

  /** The constructor eagerly fills a zeroed array from the stream. */
  function New(s: Stream): (r: Reader)
    requires s.Valid()
    ensures r.Valid() && r.offset == 0 && r.lastRowId == 0
    ensures r.stream.pos == s.pos + Min(BufferSize, s.Remaining())
  {
    var (s', image) := Refill(s, seq(BufferSize, _ => 0 as byte));
    Reader(s', image, 0, 0)
  }

  /** The 16-byte image in slot `k` of the array. */
  function ValueAt(image: seq<byte>, k: nat): (d: seq<byte>)
    requires |image| == BufferSize && k < Slots
    ensures |d| == DecimalWidth
  {
    image[k * DecimalWidth..k * DecimalWidth + DecimalWidth]
  }

  /** ReadDecimal(rowId): a row id above the last one moves one slot on,
      however far above it is; the last slot wraps to a refill. */
  function ReadDecimal(r: Reader, rowId: int): (out: (seq<byte>, Reader))
    requires r.Valid()
    ensures out.1.Valid() && out.1.stream.data == r.stream.data && out.1.stream.path == r.stream.path
    ensures out.0 == ValueAt(out.1.image, out.1.offset)
    ensures rowId <= r.lastRowId ==> out.1 == r
    ensures rowId > r.lastRowId ==>
      && out.1.lastRowId == rowId
      && out.1.offset == (r.offset + 1) % Slots
      && (r.offset + 1 < Slots ==> out.1.image == r.image && out.1.stream == r.stream)
      && (r.offset + 1 == Slots ==> (out.1.stream, out.1.image) == Refill(r.stream, r.image))
  {
    if rowId > r.lastRowId then
      if r.offset + 1 == Slots then
        var (s', image') := Refill(r.stream, r.image);
        var r' := Reader(s', image', 0, rowId);
        (ValueAt(image', 0), r')
      else
        var r' := r.(offset := r.offset + 1, lastRowId := rowId);
        (ValueAt(r'.image, r'.offset), r')
    else (ValueAt(r.image, r.offset), r)
  }

  /** Dispose closes the stream, then disposes it. */
  function Dispose(r: Reader): seq<Release>
  {
    [CloseStream(r.stream.path), CloseStream(r.stream.path)]
  }

  /** Reads the given row ids in order, collecting the values. */
  function ReadRows(r: Reader, rows: seq<int>): (out: (seq<seq<byte>>, Reader))
    requires r.Valid()
    ensures |out.0| == |rows| && out.1.Valid() && out.1.stream.data == r.stream.data
    decreases |rows|
  {
    if |rows| == 0 then ([], r)
    else
      var (vs, r') := ReadRows(r, rows[..|rows| - 1]);
      var (v, r'') := ReadDecimal(r', rows[|rows| - 1]);
      (vs + [v], r'')
  }

  /** The rows 0, 1, ..., k - 1. */
  function Upto(k: nat): (rows: seq<int>)
    ensures |rows| == k && forall i :: 0 <= i < k ==> rows[i] == i
  {
    seq(k, i => i)
  }

  /** The state the reader is in once row `i` has been read, when every
      row up to `i` was read in turn: slot i mod 4096 of block i / 4096,
      whose bytes the array holds. */
  ghost predicate AfterRow(r: Reader, data: seq<byte>, i: nat)
  {
    var c := i / Slots;
    && r.Valid() && r.stream.data == data
    && r.offset == i % Slots && r.lastRowId == i
    && r.stream.pos == Min(|data|, BufferSize * (c + 1))
    && forall j :: 0 <= j < BufferSize && BufferSize * c + j < |data| ==>
         r.image[j] == data[BufferSize * c + j]
  }

  lemma NewIsAfterRowZero(path: string, data: seq<byte>)
    ensures AfterRow(New(Streams.Open(path, data)), data, 0)
  {
  }

  lemma StepRow(r: Reader, data: seq<byte>, i: nat)
    requires i >= 1 && AfterRow(r, data, i - 1) && DecimalWidth * (i + 1) <= |data|
    ensures AfterRow(ReadDecimal(r, i).1, data, i)
    ensures ReadDecimal(r, i).0 == data[DecimalWidth * i..DecimalWidth * i + DecimalWidth]
  {
    if (i - 1) % Slots + 1 < Slots {
      StepWithinBlock(r, data, i);
    } else {
      StepToNextBlock(r, data, i);
    }
  }

  /** Byte offset of slot `o` of block `c` within the column file. */
  lemma SlotOffset(c: nat, o: nat, i: nat)
    requires i == Slots * c + o
    ensures BufferSize * c + DecimalWidth * o == DecimalWidth * i
  {
  }

  lemma StepWithinBlock(r: Reader, data: seq<byte>, i: nat)
    requires i >= 1 && AfterRow(r, data, i - 1) && DecimalWidth * (i + 1) <= |data|
    requires (i - 1) % Slots + 1 < Slots
    ensures AfterRow(ReadDecimal(r, i).1, data, i)
    ensures ReadDecimal(r, i).0 == data[DecimalWidth * i..DecimalWidth * i + DecimalWidth]
  {
    var (v, r') := ReadDecimal(r, i);
    var c := (i - 1) / Slots;
    var o := (i - 1) % Slots + 1;
    DivUnique(i, Slots, c, o);
    assert r'.offset == o && r'.image == r.image && r'.stream == r.stream;
    SlotOffset(c, o, i);
    forall j | 0 <= j < DecimalWidth
      ensures v[j] == data[DecimalWidth * i + j]
    {
      assert v[j] == r.image[DecimalWidth * o + j];
    }
  }

  lemma StepToNextBlock(r: Reader, data: seq<byte>, i: nat)
    requires i >= 1 && AfterRow(r, data, i - 1) && DecimalWidth * (i + 1) <= |data|
    requires (i - 1) % Slots + 1 == Slots
    ensures AfterRow(ReadDecimal(r, i).1, data, i)
    ensures ReadDecimal(r, i).0 == data[DecimalWidth * i..DecimalWidth * i + DecimalWidth]
  {
    var (v, r') := ReadDecimal(r, i);
    var c := (i - 1) / Slots + 1;
    DivUnique(i, Slots, c, 0);
    SlotOffset(c, 0, i);
    SlotOffset(c - 1, Slots - 1, i - 1);
    assert r.stream.pos == BufferSize * c;
    var n := Min(BufferSize, r.stream.Remaining());
    assert r'.image == data[BufferSize * c..BufferSize * c + n] + r.image[n..];
    assert r'.stream.pos == Min(|data|, BufferSize * (c + 1));
    forall j | 0 <= j < BufferSize && BufferSize * c + j < |data|
      ensures r'.image[j] == data[BufferSize * c + j]
    {
    }
    forall j | 0 <= j < DecimalWidth
      ensures v[j] == data[DecimalWidth * i + j]
    {
      assert v[j] == r'.image[j];
    }
  }

  lemma {:induction false} ReadUptoFrom(path: string, data: seq<byte>, k: nat)
    requires k >= 1 && DecimalWidth * k <= |data|
    ensures var (vs, r) := ReadRows(New(Streams.Open(path, data)), Upto(k));
      && AfterRow(r, data, k - 1)
      && forall i :: 0 <= i < k ==> vs[i] == data[DecimalWidth * i..DecimalWidth * i + DecimalWidth]
  {
    var r0 := New(Streams.Open(path, data));
    NewIsAfterRowZero(path, data);
    assert Upto(k)[..k - 1] == Upto(k - 1);
    if k == 1 {
      assert ReadRows(r0, Upto(0)) == ([], r0);
      assert ReadDecimal(r0, 0) == (ValueAt(r0.image, 0), r0);
      forall j | 0 <= j < DecimalWidth
        ensures ValueAt(r0.image, 0)[j] == data[j]
      {
      }
    } else {
      ReadUptoFrom(path, data, k - 1);
      var (vs, r) := ReadRows(r0, Upto(k - 1));
      StepRow(r, data, k - 1);
    }
  }

  /** When every row is read in turn, starting at row 0, row i gets the
      i-th 16-byte value of the column file. */
  lemma SequentialRowsReadTheirValues(path: string, data: seq<byte>, k: nat)
    requires DecimalWidth * k <= |data|
    ensures var vs := ReadRows(New(Streams.Open(path, data)), Upto(k)).0;
      forall i :: 0 <= i < k ==> vs[i] == data[DecimalWidth * i..DecimalWidth * i + DecimalWidth]
  {
    if k >= 1 {
      ReadUptoFrom(path, data, k);
    }
  }

  /** The proxy's field for a decimal property: the bootstrapper until
      the first read, the real reader from then on. */
  datatype Slot = Boot | Real(reader: Reader) {
    ghost predicate Valid() { Real? ==> reader.Valid() }
  }

  /** A read through the slot at the factory's current row. The
      bootstrapper asks for the column stream (which can fail, leaving
      the slot as it was), builds the reader, which fills its array at
      once, patches the slot with it and returns its value for the row. */
  function ReadSlot(slot: Slot, provide: Result<Stream>, rowId: int): (out: (Result<seq<byte>>, Slot))
    requires slot.Valid() && (provide.Ok? ==> provide.value.Valid())
    ensures out.1.Valid()
    ensures out.0.Err? <==> slot.Boot? && provide.Err?
    ensures out.0.Err? ==> out == (Err(provide.fault), Boot)
    ensures slot.Boot? && provide.Ok? ==> out.1.Real? && (out.0.value, out.1.reader) == ReadDecimal(New(provide.value), rowId)
    ensures slot.Real? ==> out.1.Real? && (out.0.value, out.1.reader) == ReadDecimal(slot.reader, rowId)
  {
    match slot
    case Boot =>
      if provide.Err? then (Err(provide.fault), Boot)
      else
        var (v, r') := ReadDecimal(New(provide.value), rowId);
        (Ok(v), Real(r'))
    case Real(r) =>
      var (v, r') := ReadDecimal(r, rowId);
      (Ok(v), Real(r'))
  }

  /** The bootstrapper's Dispose: the real reader only if it was built. */
  function DisposeSlot(slot: Slot): (rs: seq<Release>)
    ensures slot.Boot? <==> rs == []
  {
    match slot
    case Boot => []
    case Real(r) => Dispose(r)
  }

  /** Reads through the slot at the given rows in order. */
  function ReadSlotRows(slot: Slot, provide: Result<Stream>, rows: seq<int>): (out: (Result<seq<seq<byte>>>, Slot))
    requires slot.Valid() && (provide.Ok? ==> provide.value.Valid())
    ensures out.1.Valid()
    ensures out.0.Ok? ==> |out.0.value| == |rows|
    decreases |rows|
  {
    if |rows| == 0 then (Ok([]), slot)
    else
      var (vs, slot') := ReadSlotRows(slot, provide, rows[..|rows| - 1]);
      if vs.Err? then (vs, slot')
      else
        var (v, slot'') := ReadSlot(slot', provide, rows[|rows| - 1]);
        if v.Err? then (Err(v.fault), slot'')
        else (Ok(vs.value + [v.value]), slot'')
  }

  /** Through a bootstrapped slot the rows read are those of a reader
      built on the stream: the bootstrapper changes nothing the getter
      returns. */
  lemma {:induction false} SlotReadsLikeReader(provide: Result<Stream>, rows: seq<int>)
    requires provide.Ok? && provide.value.Valid() && |rows| > 0
    ensures var (vs, slot) := ReadSlotRows(Boot, provide, rows);
      && vs.Ok? && slot.Real?
      && (vs.value, slot.reader) == ReadRows(New(provide.value), rows)
    decreases |rows|
  {
    if |rows| > 1 {
      SlotReadsLikeReader(provide, rows[..|rows| - 1]);
    } else {
      assert rows[..0] == [];
      assert ReadRows(New(provide.value), rows[..0]) == ([], New(provide.value));
    }
  }

  /** When the getter is used on every row from row 0 on, row i reads the
      i-th 16-byte value of the column file. */
  lemma PooledRowsReadTheirValues(path: string, data: seq<byte>, k: nat)
    requires 1 <= k && DecimalWidth * k <= |data|
    ensures var vs := ReadSlotRows(Boot, Ok(Streams.Open(path, data)), Upto(k)).0;
      && vs.Ok?
      && forall i :: 0 <= i < k ==> vs.value[i] == data[DecimalWidth * i..DecimalWidth * i + DecimalWidth]
  {
    SlotReadsLikeReader(Ok(Streams.Open(path, data)), Upto(k));
    SequentialRowsReadTheirValues(path, data, k);
  }

  /** A row id more than one above the last moves one slot only: a getter
      read at row 0 and then at row 5 gets the value stored for row 1 the
      second time. */
  lemma SkippedRowsReadTheNextSlot(path: string, data: seq<byte>)
    requires 6 * DecimalWidth <= |data|
    ensures var vs := ReadSlotRows(Boot, Ok(Streams.Open(path, data)), [0, 5]).0;
      && vs.Ok?
      && vs.value[0] == data[..DecimalWidth]
      && vs.value[1] == data[DecimalWidth..2 * DecimalWidth]
  {
    var p := Ok(Streams.Open(path, data));
    SlotReadsLikeReader(p, [0, 5]);
    assert [0, 5][..1] == [0];
    assert [0][..0] == [];
    var r0 := New(Streams.Open(path, data));
    assert ReadRows(r0, [0]).1 == r0;
  }
}

=== FILE: mergejoin.dfy ===
/** The merge join of EventfulFileSystemReader.Read and Invoke: a singly
    linked list of type readers, kept ascending by the global position
    each will hand out next, whose head is the reader of the earliest
    pending event. A list is a sequence of nodes in link order; a node
    names its reader by slot, the reader's index in the list
    CreateTypeReaders returned. */
module MergeJoin {
  import opened Base
  import opened Streams
  import opened TypeReader

  /** UInt32.MaxValue: the position the list constructor gives a reader
      whose first sequence read yields none. */
  const Sentinel: nat := TwoTo32 - 1

  /** A ReaderProgress record: a reader and its next global position. */
  datatype Node = Node(slot: nat, id: nat)

  /** One row of the replay: the pooled instance yielded, with the reader
      it came from, that reader's row counter and the row's position. */
  datatype Row = Row(slot: nat, instance: Instance, rowId: int, pos: nat)

  /** One call Invoke makes: a handler and the instance it receives. */
  datatype Call = Call(handler: Handler, instance: Instance)

  predicate Sorted(list: seq<Node>)
  {
    forall i, j :: 0 <= i < j < |list| ==> list[i].id <= list[j].id
  }

  /** No reader appears in the list twice. */
  predicate Distinct(list: seq<Node>)
  {
    forall i, j :: 0 <= i < j < |list| ==> list[i].slot != list[j].slot
  }

  /** Position first, then slot: the order a stable sort by position
      gives nodes listed in slot order. */
  predicate Before(a: Node, b: Node)
  {
    a.id < b.id || (a.id == b.id && a.slot < b.slot)
  }

  predicate StrictlySorted(list: seq<Node>)
  {
    forall i, j :: 0 <= i < j < |list| ==> Before(list[i], list[j])
  }

  // ---------------------------------------------------------------- the reorder step

  /** The scan for a new place of a head with position `x` among the
      remaining nodes: from node `j` on, the first node that is last or
      whose successor's position is strictly greater than `x`. */
  function InsertionPoint(x: nat, rest: seq<Node>, j: nat): (k: nat)
    requires j < |rest|
    ensures j <= k < |rest|
    ensures k + 1 == |rest| || x < rest[k + 1].id
    ensures forall i :: j < i <= k ==> rest[i].id <= x
    decreases |rest| - j
  {
    if j + 1 == |rest| then j
    else if x < rest[j + 1].id then j
    else InsertionPoint(x, rest, j + 1)
  }

  /** RemoveFirst followed by AddAfter the scan's node. The head ends up
      behind every node up to and including the scan's stop, all of them
      at or before its position, and in front of a strictly later node
      or at the end; the other nodes keep their order. */
  function Reinsert(list: seq<Node>): (r: seq<Node>)
    requires |list| >= 2 && list[0].id > list[1].id
    ensures |r| == |list| && multiset(r) == multiset(list)
    ensures var k := InsertionPoint(list[0].id, list[1..], 0) + 1;
      && r[k] == list[0]
      && r[..k] + r[k + 1..] == list[1..]
      && (forall i :: 0 <= i < k ==> r[i].id <= list[0].id)
      && (k + 1 < |r| ==> list[0].id < r[k + 1].id)
  {
    var j := InsertionPoint(list[0].id, list[1..], 0);
    Reinserted(list, j);
    list[1..][..j + 1] + [list[0]] + list[1..][j + 1..]
  }

  /** Reinsert's contract, for the head spliced in behind node `j` of the
      rest, `j` being where the scan stops. */
  lemma Reinserted(list: seq<Node>, j: nat)
    requires |list| >= 2 && list[0].id > list[1].id && j == InsertionPoint(list[0].id, list[1..], 0)
    ensures var r := list[1..][..j + 1] + [list[0]] + list[1..][j + 1..];
      && |r| == |list| && multiset(r) == multiset(list)
      && r[j + 1] == list[0]
      && r[..j + 1] + r[j + 2..] == list[1..]
      && (forall i :: 0 <= i < j + 1 ==> r[i].id <= list[0].id)
      && (j + 2 < |r| ==> list[0].id < r[j + 2].id)
  {
    SpliceParts(list[1..], list[0], j);
    SpliceMultiset(list[1..], list[0], j);
    assert list == [list[0]] + list[1..];
    SpliceBehind(list, j);
  }

  /** `x` put behind node `j` of `rest`. */
  lemma SpliceParts(rest: seq<Node>, x: Node, j: nat)
    requires j < |rest|
    ensures var r := rest[..j + 1] + [x] + rest[j + 1..];
      && |r| == |rest| + 1 && r[j + 1] == x
      && r[..j + 1] + r[j + 2..] == rest
      && (forall i :: 0 <= i <= j ==> r[i] == rest[i])
      && (j + 2 < |r| ==> r[j + 2] == rest[j + 1])
  {
    var r := rest[..j + 1] + [x] + rest[j + 1..];
    assert r[..j + 1] == rest[..j + 1] && r[j + 2..] == rest[j + 1..];
    assert rest == rest[..j + 1] + rest[j + 1..];
  }

  lemma SpliceMultiset(rest: seq<Node>, x: Node, j: nat)
    requires j < |rest|
    ensures multiset(rest[..j + 1] + [x] + rest[j + 1..]) == multiset(rest) + multiset{x}
  {
    assert rest == rest[..j + 1] + rest[j + 1..];
  }

  /** The nodes the scan passes are at or before the head's position. */
  lemma SpliceBehind(list: seq<Node>, j: nat)
    requires |list| >= 2 && list[0].id > list[1].id
    requires j == InsertionPoint(list[0].id, list[1..], 0)
    ensures var r := list[1..][..j + 1] + [list[0]] + list[1..][j + 1..];
      forall i :: 0 <= i < j + 1 ==> r[i].id <= list[0].id
  {
    var rest := list[1..];
    var r := rest[..j + 1] + [list[0]] + rest[j + 1..];
    SpliceParts(rest, list[0], j);
    forall i | 0 <= i < j + 1
      ensures r[i].id <= list[0].id
    {
      assert r[i] == rest[i];
      if i == 0 {
        assert rest[0] == list[1];
      }
    }
  }

  /** Where each node of the reinserted list stood before the move. */
  lemma ReinsertAt(list: seq<Node>, i: nat)
    requires |list| >= 2 && list[0].id > list[1].id && i < |list|
    ensures Reinsert(list)[i] == list[Origin(i, InsertionPoint(list[0].id, list[1..], 0) + 1)]
  {
    var r := Reinsert(list);
    var k := InsertionPoint(list[0].id, list[1..], 0) + 1;
    if i < k {
      assert r[i] == (r[..k] + r[k + 1..])[i];
    } else if i > k {
      assert r[i] == (r[..k] + r[k + 1..])[i - 1];
    }
  }

  /** The same reorder with the scan written as the source's loop over
      the list's links. */
  method ReinsertByScan(list: seq<Node>) returns (r: seq<Node>)
    requires |list| >= 2 && list[0].id > list[1].id
    ensures r == Reinsert(list)
  {
    var head := list[0];
    var rest := list[1..];
    var node := 0;
    while true
      invariant 0 <= node < |rest|
      invariant InsertionPoint(head.id, rest, node) == InsertionPoint(head.id, rest, 0)
      decreases |rest| - node
    {
      if node + 1 == |rest| || head.id < rest[node + 1].id {
        r := rest[..node + 1] + [head] + rest[node + 1..];
        return;
      }
      node := node + 1;
    }
  }

  /** Reinsertion restores order: a head followed by an ascending list
      gives an ascending list. */
  lemma ReinsertSorts(list: seq<Node>)
    requires |list| >= 2 && list[0].id > list[1].id
    ensures Sorted(list[1..]) ==> Sorted(Reinsert(list))
  {
    if Sorted(list[1..]) {
      var r := Reinsert(list);
      forall i, j | 0 <= i < j < |r|
        ensures r[i].id <= r[j].id
      {
        ReinsertPair(list, i, j);
      }
    }
  }

  lemma ReinsertPair(list: seq<Node>, i: nat, j: nat)
    requires |list| >= 2 && list[0].id > list[1].id && Sorted(list[1..])
    requires i < j < |list|
    ensures Reinsert(list)[i].id <= Reinsert(list)[j].id
  {
    var k := InsertionPoint(list[0].id, list[1..], 0) + 1;
    if i == k {
      ReinsertHeadBefore(list, j);
    } else if j != k {
      ReinsertAt(list, i);
      ReinsertAt(list, j);
      SortedTail(list, Origin(i, k), Origin(j, k));
    }
  }

  /** The moved head is at or before every node behind it. */
  lemma ReinsertHeadBefore(list: seq<Node>, j: nat)
    requires |list| >= 2 && list[0].id > list[1].id && Sorted(list[1..])
    requires InsertionPoint(list[0].id, list[1..], 0) + 1 < j < |list|
    ensures list[0].id <= Reinsert(list)[j].id
  {
    var k := InsertionPoint(list[0].id, list[1..], 0) + 1;
    ReinsertAt(list, j);
    ReinsertAt(list, k + 1);
    SortedTail(list, k + 1, j);
  }

  lemma SortedTail(list: seq<Node>, a: nat, b: nat)
    requires |list| >= 1 && Sorted(list[1..])
    requires 1 <= a <= b < |list|
    ensures list[a].id <= list[b].id
  {
    if a < b {
      assert list[1..][a - 1] == list[a] && list[1..][b - 1] == list[b];
    }
  }

  lemma ReinsertDistinct(list: seq<Node>)
    requires |list| >= 2 && list[0].id > list[1].id
    ensures Distinct(list) ==> Distinct(Reinsert(list))
  {
    if Distinct(list) {
      var r := Reinsert(list);
      var k := InsertionPoint(list[0].id, list[1..], 0) + 1;
      forall i, j | 0 <= i < j < |r|
        ensures r[i].slot != r[j].slot
      {
        ReinsertAt(list, i);
        ReinsertAt(list, j);
        OriginDiffers(i, j, k);
      }
    }
  }

  lemma OriginDiffers(i: nat, j: nat, k: nat)
    requires i < j
    ensures Origin(i, k) != Origin(j, k)
  {
  }

  /** Where node `i` of the reinserted list stood before the move. */
  function Origin(i: nat, k: nat): nat
  {
    if i < k then i + 1 else if i == k then 0 else i
  }

  /** The check at the top of each step: the head moves only when the
      second node's position is strictly smaller. */
  function Settle(list: seq<Node>): (r: seq<Node>)
    requires |list| >= 1
    ensures |r| == |list| && multiset(r) == multiset(list)
    ensures (|list| >= 2 && list[0].id > list[1].id) <==> r != list
    ensures Sorted(list[1..]) ==> Sorted(r)
    ensures Distinct(list) ==> Distinct(r)
  {
    if |list| >= 2 && list[0].id > list[1].id then
      ReinsertSorts(list);
      ReinsertDistinct(list);
      assert Reinsert(list)[0] != list[0] by {
        var k := InsertionPoint(list[0].id, list[1..], 0) + 1;
        assert Reinsert(list)[0] == (Reinsert(list)[..k] + Reinsert(list)[k + 1..])[0];
      }
      Reinsert(list)
    else
      assert |list| >= 2 ==> list[1..][0] == list[1];
      list
  }

  // ---------------------------------------------------------------- the initial order

  /** Stable insertion: `x` goes in front of the first node with a
      strictly greater position, so behind every node it ties with. */
  function InsertStable(x: Node, sorted: seq<Node>): (r: seq<Node>)
    ensures |r| == |sorted| + 1 && multiset(r) == multiset(sorted) + multiset{x}
  {
    if |sorted| == 0 then [x]
    else if x.id < sorted[0].id then [x] + sorted
    else
      assert sorted == [sorted[0]] + sorted[1..];
      [sorted[0]] + InsertStable(x, sorted[1..])
  }

  lemma InsertStableMembers(x: Node, sorted: seq<Node>, n: Node)
    requires n in InsertStable(x, sorted)
    ensures n in sorted || n == x
  {
    assert n in multiset(InsertStable(x, sorted));
  }

  lemma {:induction false} InsertStableSorted(x: Node, sorted: seq<Node>)
    requires Sorted(sorted)
    ensures Sorted(InsertStable(x, sorted))
  {
    var r := InsertStable(x, sorted);
    if |sorted| > 0 && x.id >= sorted[0].id {
      var tail := InsertStable(x, sorted[1..]);
      InsertStableSorted(x, sorted[1..]);
      forall j | 0 <= j < |tail| ensures sorted[0].id <= tail[j].id {
        InsertStableMembers(x, sorted[1..], tail[j]);
      }
      forall i, j | 0 <= i < j < |r| ensures r[i].id <= r[j].id {
        assert r[j] == tail[j - 1];
        if i > 0 {
          assert r[i] == tail[i - 1];
        }
      }
    } else if |sorted| > 0 {
      forall i, j | 0 <= i < j < |r| ensures r[i].id <= r[j].id {
        assert r[j] == sorted[j - 1];
        if i > 0 {
          assert r[i] == sorted[i - 1];
        }
      }
    }
  }

  lemma {:induction false} InsertStableStrict(x: Node, sorted: seq<Node>)
    requires StrictlySorted(sorted) && forall n :: n in sorted ==> n.slot < x.slot
    ensures StrictlySorted(InsertStable(x, sorted))
  {
    var r := InsertStable(x, sorted);
    if |sorted| > 0 && x.id >= sorted[0].id {
      var tail := InsertStable(x, sorted[1..]);
      InsertStableStrict(x, sorted[1..]);
      forall j | 0 <= j < |tail| ensures Before(sorted[0], tail[j]) {
        InsertStableMembers(x, sorted[1..], tail[j]);
        if tail[j] != x {
          var k :| 0 <= k < |sorted[1..]| && sorted[1..][k] == tail[j];
          assert sorted[k + 1] == tail[j];
        }
      }
      forall i, j | 0 <= i < j < |r| ensures Before(r[i], r[j]) {
        assert r[j] == tail[j - 1];
        if i > 0 {
          assert r[i] == tail[i - 1];
        }
      }
    } else if |sorted| > 0 {
      forall i, j | 0 <= i < j < |r| ensures Before(r[i], r[j]) {
        assert r[j] == sorted[j - 1];
        if i > 0 {
          assert r[i] == sorted[i - 1];
        } else if j > 1 {
          assert Before(sorted[0], sorted[j - 1]);
        }
      }
    }
  }

  /** Nodes listed in slot order, as the list constructor builds them. */
  predicate SlotOrdered(nodes: seq<Node>)
  {
    forall i, j :: 0 <= i < j < |nodes| ==> nodes[i].slot < nodes[j].slot
  }

  lemma SlotOrderedFront(nodes: seq<Node>)
    requires SlotOrdered(nodes) && |nodes| > 0
    ensures SlotOrdered(nodes[..|nodes| - 1])
    ensures forall n :: n in nodes[..|nodes| - 1] ==> n.slot < nodes[|nodes| - 1].slot
  {
    var front := nodes[..|nodes| - 1];
    forall n | n in front ensures n.slot < nodes[|nodes| - 1].slot {
      var k :| 0 <= k < |front| && front[k] == n;
      assert nodes[k] == n;
    }
  }

  /** The list constructor's OrderBy, a stable sort by position. */
  function SortNodes(nodes: seq<Node>): (r: seq<Node>)
    ensures |r| == |nodes| && multiset(r) == multiset(nodes)
    ensures Sorted(r)
    ensures SlotOrdered(nodes) ==> StrictlySorted(r)
  {
    if |nodes| == 0 then []
    else
      var front := nodes[..|nodes| - 1];
      var x := nodes[|nodes| - 1];
      var sorted := SortNodes(front);
      assert nodes == front + [x];
      InsertStableSorted(x, sorted);
      if SlotOrdered(nodes) then
        SlotOrderedFront(nodes);
        assert forall n :: n in sorted ==> n.slot < x.slot by {
          forall n | n in sorted ensures n.slot < x.slot {
            assert n in multiset(sorted);
          }
        }
        InsertStableStrict(x, sorted);
        InsertStable(x, sorted)
      else InsertStable(x, sorted)
  }

  /** Over nodes listed in slot order, the stable sort lists no reader
      twice. */
  lemma SortedNodesDistinct(nodes: seq<Node>)
    requires SlotOrdered(nodes)
    ensures Distinct(SortNodes(nodes))
  {
    var r := SortNodes(nodes);
    forall i, j | 0 <= i < j < |r| ensures r[i].slot != r[j].slot
    {
      assert r[i] in multiset(nodes) && r[j] in multiset(nodes);
      var a :| 0 <= a < |nodes| && nodes[a] == r[i];
      var b :| 0 <= b < |nodes| && nodes[b] == r[j];
      assert Before(r[i], r[j]);
      assert a != b;
      if a < b {
        assert nodes[a].slot < nodes[b].slot;
      } else {
        assert nodes[b].slot < nodes[a].slot;
      }
    }
  }

  // ---------------------------------------------------------------- one step and the run

  ghost predicate AllValid(readers: seq<Factory>)
  {
    forall s :: 0 <= s < |readers| ==> readers[s].SequenceValid()
  }

  ghost predicate AllGood(readers: seq<Factory>)
  {
    forall s :: 0 <= s < |readers| ==> Good(readers[s])
  }

  ghost predicate AllReachable(readers: seq<Factory>)
  {
    forall s :: 0 <= s < |readers| ==> Reachable(readers[s])
  }

  /** A list over `readers`: every node names a reader, none twice. The
      loop runs over any such list. */
  ghost predicate Over(list: seq<Node>, readers: seq<Factory>)
  {
    && AllValid(readers)
    && (forall n :: n in list ==> n.slot < |readers|)
    && Distinct(list)
  }

  /** A list over readers in states reads reach on sequence files of
      whole words, whose reads never fail. */
  ghost predicate Wf(list: seq<Node>, readers: seq<Factory>)
  {
    Over(list, readers) && AllGood(readers)
  }

  datatype StepOut = StepOut(row: Row, next: Result<Option<nat>>, list: seq<Node>, readers: seq<Factory>)

  /** One turn of the loop: reorder, take a pooled row from the head,
      then either give the head its next position or drop it. */
  function Step(list: seq<Node>, readers: seq<Factory>): (st: StepOut)
    requires Over(list, readers) && |list| > 0
    ensures |st.readers| == |readers|
    ensures st.row.slot == Settle(list)[0].slot && st.row.pos == Settle(list)[0].id
  {
    var list1 := Settle(list);
    assert list1[0] in multiset(list);
    var head := list1[0];
    var t := head.slot;
    var (inst, f1) := ReadPooled(readers[t]);
    var (nid, f2) := ReadNextSequenceId(f1);
    var readers' := readers[t := f2];
    var list' := if nid.Ok? && nid.value.Some? then [Node(t, nid.value.value)] + list1[1..] else list1[1..];
    StepOut(Row(t, inst, f1.rowId, head.id), nid, list', readers')
  }

  /** Some node of the list is the reader's. */
  ghost predicate Listed(list: seq<Node>, s: nat)
  {
    exists n :: n in list && n.slot == s
  }

  /** What every reader's sequence still holds back, slot by slot. */
  ghost function Owes(readers: seq<Factory>): (ws: seq<nat>)
    requires AllValid(readers)
    ensures |ws| == |readers| && forall s :: 0 <= s < |readers| ==> ws[s] == Owed(readers[s])
  {
    seq(|readers|, s requires 0 <= s < |readers| => Owed(readers[s]))
  }

  ghost function Sum(ws: seq<nat>): nat
  {
    if |ws| == 0 then 0 else Sum(ws[..|ws| - 1]) + ws[|ws| - 1]
  }

  /** Two weightings that differ at one slot only: their sums differ by
      what that slot differs by. */
  lemma {:induction false} SumChangesAt(a: seq<nat>, b: seq<nat>, t: nat)
    requires |a| == |b| && t < |a|
    requires forall s :: 0 <= s < |a| && s != t ==> a[s] == b[s]
    ensures Sum(b) + a[t] == Sum(a) + b[t]
  {
    var n := |a| - 1;
    if t == n {
      assert a[..n] == b[..n];
    } else {
      SumChangesAt(a[..n], b[..n], t);
    }
  }

  /** What the run still owes: a row for each node of the list, and
      what the readers' sequences hold back. Every step that goes on
      lowers it. */
  ghost function Drain(list: seq<Node>, readers: seq<Factory>): nat
    requires AllValid(readers)
  {
    |list| + Sum(Owes(readers))
  }

  lemma SameSlotSameNode(list: seq<Node>, a: Node, b: Node)
    requires Distinct(list) && a in list && b in list && a.slot == b.slot
    ensures a == b
  {
    var i :| 0 <= i < |list| && list[i] == a;
    var j :| 0 <= j < |list| && list[j] == b;
  }

  /** The head's reader on its turn: one pooled row, then its next
      position off the queue. */
  lemma HeadAdvance(f: Factory)
    requires Good(f)
    ensures var f1 := ReadPooled(f).1;
      var (nid, f2) := ReadNextSequenceId(f1);
      && nid.Ok? && Good(f2)
      && f2 == f.(rowId := f.rowId + 1, sequence := f2.sequence)
      && (nid.value.None? <==> Queue(f) == [])
      && (nid.value.Some? ==> nid.value.value == Queue(f)[0] && Queue(f2) == Queue(f)[1..])
      && (nid.value.None? ==> Queue(f2) == [])
  {
    NextIdPops(ReadPooled(f).1);
  }

  lemma SettleMembers(list: seq<Node>)
    requires |list| > 0
    ensures forall n :: n in Settle(list) <==> n in list
  {
    forall n ensures n in Settle(list) <==> n in list {
      assert n in Settle(list) <==> n in multiset(Settle(list));
    }
  }

  /** Behind the head of a list that names no reader twice: other
      nodes, of other readers. */
  lemma TailApart(list: seq<Node>)
    requires Distinct(list) && |list| > 0
    ensures Distinct(list[1..])
    ensures forall n :: n in list[1..] ==> n in list && n.slot != list[0].slot
  {
    forall n | n in list[1..] ensures n in list && n.slot != list[0].slot {
      var i :| 0 <= i < |list[1..]| && list[1..][i] == n;
      assert list[i + 1] == n;
    }
  }

  lemma ConsDistinct(x: Node, tail: seq<Node>)
    requires Distinct(tail) && forall n :: n in tail ==> n.slot != x.slot
    ensures Distinct([x] + tail)
  {
    forall i, j | 0 <= i < j < |[x] + tail| ensures ([x] + tail)[i].slot != ([x] + tail)[j].slot {
      assert ([x] + tail)[j] == tail[j - 1];
      if i > 0 {
        assert ([x] + tail)[i] == tail[i - 1];
      } else {
        assert tail[j - 1] in tail;
      }
    }
  }

  /** One step as the proofs below see it: after the reorder the head's
      reader is advanced by one position, either back into the list at
      its next position or out of it, and every other reader is left as
      it was. */
  ghost predicate Moved(list: seq<Node>, readers: seq<Factory>, list': seq<Node>, readers': seq<Factory>)
    requires Wf(list, readers) && |list| > 0
  {
    Settle(list)[0].slot < |readers| && |readers'| == |readers| && MovedAt(list, readers, list', readers', 1)
  }

  /** Moved behind `depth` layers of definition, as TypeReader.Folded;
      MovedOpened opens it. */
  ghost predicate MovedAt(list: seq<Node>, readers: seq<Factory>, list': seq<Node>, readers': seq<Factory>, depth: nat)
    requires Wf(list, readers) && |list| > 0
    decreases depth
  {
    if depth > 0 then MovedAt(list, readers, list', readers', depth - 1)
    else
      var list1 := Settle(list);
      var t := list1[0].slot;
      && t < |readers| && |readers'| == |readers|
      && (forall s :: 0 <= s < |readers| && s != t ==> readers'[s] == readers[s])
      && Good(readers'[t])
      && var q := Queue(readers[t]);
         if q == [] then list' == list1[1..] && Queue(readers'[t]) == []
         else list' == [Node(t, q[0])] + list1[1..] && Queue(readers'[t]) == q[1..]
  }

  lemma MovedOpened(list: seq<Node>, readers: seq<Factory>, list': seq<Node>, readers': seq<Factory>)
    requires Wf(list, readers) && |list| > 0
    ensures Moved(list, readers, list', readers') <==>
      && Settle(list)[0].slot < |readers| && |readers'| == |readers|
      && var list1 := Settle(list);
      var t := list1[0].slot;
      && t < |readers| && |readers'| == |readers|
      && (forall s :: 0 <= s < |readers| && s != t ==> readers'[s] == readers[s])
      && Good(readers'[t])
      && var q := Queue(readers[t]);
         if q == [] then list' == list1[1..] && Queue(readers'[t]) == []
         else list' == [Node(t, q[0])] + list1[1..] && Queue(readers'[t]) == q[1..]
  {
    if Settle(list)[0].slot < |readers| && |readers'| == |readers| {
      assert MovedAt(list, readers, list', readers', 1) == MovedAt(list, readers, list', readers', 0);
    }
  }

  /** A step cannot fail, and yields the head's pooled row on the next
      row of its counter. */
  lemma StepRow(list: seq<Node>, readers: seq<Factory>)
    requires Wf(list, readers) && |list| > 0
    ensures var st := Step(list, readers);
      && st.next.Ok?
      && st.row.slot < |readers|
      && st.readers[st.row.slot] == readers[st.row.slot].(rowId := readers[st.row.slot].rowId + 1, sequence := st.readers[st.row.slot].sequence)
      && st.row.rowId == readers[st.row.slot].rowId + 1
      && st.row.instance == Pooled(readers[st.row.slot].path)
  {
    SettleMembers(list);
    var t := Settle(list)[0].slot;
    assert Settle(list)[0] in list;
    HeadAdvance(readers[t]);
  }

  /** A step moves the list so. */
  lemma StepMoved(list: seq<Node>, readers: seq<Factory>)
    requires Wf(list, readers) && |list| > 0
    ensures var st := Step(list, readers); Moved(list, readers, st.list, st.readers)
  {
    SettleMembers(list);
    var t := Settle(list)[0].slot;
    assert Settle(list)[0] in list;
    HeadAdvance(readers[t]);
    MovedOpened(list, readers, Step(list, readers).list, Step(list, readers).readers);
  }

  /** A step moves the list so, cannot fail, and yields the head's pooled
      row on the next row of its counter. */
  lemma StepMoves(list: seq<Node>, readers: seq<Factory>)
    requires Wf(list, readers) && |list| > 0
    ensures var st := Step(list, readers);
      && st.next.Ok? && Moved(list, readers, st.list, st.readers)
      && st.row.slot < |readers|
      && st.readers[st.row.slot] == readers[st.row.slot].(rowId := readers[st.row.slot].rowId + 1, sequence := st.readers[st.row.slot].sequence)
      && st.row.rowId == readers[st.row.slot].rowId + 1
      && st.row.instance == Pooled(readers[st.row.slot].path)
  {
    StepRow(list, readers);
    StepMoved(list, readers);
  }

  /** The reordered list: its head, and behind it the other nodes, none
      of the head's reader. */
  lemma SettledParts(list: seq<Node>)
    requires Distinct(list) && |list| > 0
    ensures var head := Settle(list)[0]; var tail := Settle(list)[1..];
      && head in list && Distinct(tail)
      && (forall n :: n in tail ==> n in list && n.slot != head.slot && n != head)
      && (forall n :: n in list ==> n == head || n in tail)
  {
    var list1 := Settle(list);
    SettleMembers(list);
    TailApart(list1);
    assert list1 == [list1[0]] + list1[1..];
  }

  /** The readers after a move are all in reachable states. */
  lemma MovedGood(list: seq<Node>, readers: seq<Factory>, list': seq<Node>, readers': seq<Factory>)
    requires Wf(list, readers) && |list| > 0 && Moved(list, readers, list', readers')
    ensures var t := Settle(list)[0].slot; var q := Queue(readers[t]);
      && AllGood(readers')
      && (forall s :: 0 <= s < |readers| && s != t ==> readers'[s] == readers[s])
      && Queue(readers'[t]) == (if q == [] then [] else q[1..])
  {
    MovedOpened(list, readers, list', readers');
  }

  /** The list a move leaves: the nodes behind the head, and the head's
      reader back at its next position if it has one. */
  lemma MovedList(list: seq<Node>, readers: seq<Factory>, list': seq<Node>, readers': seq<Factory>)
    requires Wf(list, readers) && |list| > 0 && Moved(list, readers, list', readers')
    ensures var head := Settle(list)[0]; var tail := Settle(list)[1..]; var q := Queue(readers[head.slot]);
      && (forall n :: n in list' <==> n in tail || (q != [] && n == Node(head.slot, q[0])))
      && Distinct(list')
  {
    MovedOpened(list, readers, list', readers');
    SettledParts(list);
    var head := Settle(list)[0];
    var tail := Settle(list)[1..];
    var q := Queue(readers[head.slot]);
    if q != [] {
      ConsDistinct(Node(head.slot, q[0]), tail);
    }
  }

  /** A move keeps the list well formed. */
  lemma MovedWf(list: seq<Node>, readers: seq<Factory>, list': seq<Node>, readers': seq<Factory>)
    requires Wf(list, readers) && |list| > 0 && Moved(list, readers, list', readers')
    ensures Wf(list', readers')
  {
    SettledParts(list);
    MovedGood(list, readers, list', readers');
    MovedList(list, readers, list', readers');
  }

  /** A step that goes on keeps the list over the readers and lowers
      the run's drain: a node whose reader is given a next position has
      lowered what that reader holds back, and a node that leaves the
      list shortens it. */
  lemma StepDrains(list: seq<Node>, readers: seq<Factory>)
    requires Over(list, readers) && |list| > 0
    ensures var st := Step(list, readers);
      st.next.Ok? ==> Over(st.list, st.readers) && Drain(st.list, st.readers) < Drain(list, readers)
  {
    var st := Step(list, readers);
    SettledParts(list);
    var head := Settle(list)[0];
    var t := head.slot;
    if st.next.Ok? {
      assert AllValid(st.readers);
      if st.next.value.Some? {
        ConsDistinct(Node(t, st.next.value.value), Settle(list)[1..]);
      }
      SumChangesAt(Owes(readers), Owes(st.readers), t);
    }
  }

  /** A step keeps the list well formed and lowers the run's drain;
      under a list of readers in reachable states on sequence files of
      whole words the head's next read cannot fail. */
  lemma StepBasics(list: seq<Node>, readers: seq<Factory>)
    requires Wf(list, readers) && |list| > 0
    ensures var st := Step(list, readers);
      && st.next.Ok? && Wf(st.list, st.readers)
      && Drain(st.list, st.readers) < Drain(list, readers)
  {
    StepMoves(list, readers);
    var st := Step(list, readers);
    MovedWf(list, readers, st.list, st.readers);
    StepDrains(list, readers);
  }

  /** The loop of Read and Invoke from a given list: the rows it yields
      until the list is empty, or the fault that stopped it, and the
      readers' final states. */
  function Run(list: seq<Node>, readers: seq<Factory>): (out: (Result<seq<Row>>, seq<Factory>))
    requires Over(list, readers)
    ensures |out.1| == |readers|
    ensures out.0.Ok? ==> forall r :: r in out.0.value ==> r.slot < |readers|
    decreases Drain(list, readers)
  {
    if |list| == 0 then (Ok([]), readers)
    else
      var st := Step(list, readers);
      if st.next.Err? then (Err(st.next.fault), st.readers)
      else
        StepDrains(list, readers);
        var (rest, final) := Run(st.list, st.readers);
        assert Settle(list)[0] in multiset(list);
        (if rest.Err? then rest else Ok([st.row] + rest.value), final)
  }

  /** The loop as its caller sees it: each row is yielded before the
      head's next position is read, so a fault that ends the loop comes
      after the rows yielded so far, the row whose next read failed
      among them. */
  function Delivered(list: seq<Node>, readers: seq<Factory>): (out: (seq<Row>, Option<Fault>))
    requires Over(list, readers)
    ensures forall r :: r in out.0 ==> r.slot < |readers|
    ensures out.1.Some? ==> |out.0| > 0
    decreases Drain(list, readers)
  {
    if |list| == 0 then ([], None)
    else
      var st := Step(list, readers);
      assert Settle(list)[0] in multiset(list);
      if st.next.Err? then ([st.row], Some(st.next.fault))
      else
        StepDrains(list, readers);
        var (rest, fault) := Delivered(st.list, st.readers);
        ([st.row] + rest, fault)
  }

  /** Run ends in a fault exactly when the loop does; when it does not,
      its rows are all the loop yields, and when it does, the fault is
      the one that followed the rows yielded. */
  lemma {:induction false} RunDelivers(list: seq<Node>, readers: seq<Factory>)
    requires Over(list, readers)
    ensures Run(list, readers).0.Ok? <==> Delivered(list, readers).1.None?
    ensures Run(list, readers).0.Ok? ==> Run(list, readers).0.value == Delivered(list, readers).0
    ensures Run(list, readers).0.Err? ==> Delivered(list, readers).1 == Some(Run(list, readers).0.fault)
    decreases Drain(list, readers)
  {
    if |list| > 0 {
      var st := Step(list, readers);
      if st.next.Ok? {
        StepDrains(list, readers);
        RunDelivers(st.list, st.readers);
      }
    }
  }

  // ---------------------------------------------------------------- opening the list

  /** ReadNextSequenceId behind `depth` layers of definition, as the list
      constructor calls it: the layers keep the sequence reader's
      definitions out of proofs about whole lists of readers, and NextIdOpen
      opens them. */
  function NextIdAt(f: Factory, depth: nat): (out: (Result<Option<nat>>, Factory))
    requires f.SequenceValid()
    ensures out.1.SequenceValid() && out.1 == f.(sequence := out.1.sequence)
    decreases depth
  {
    if depth > 0 then NextIdAt(f, depth - 1) else ReadNextSequenceId(f)
  }

  lemma NextIdOpen(f: Factory)
    requires f.SequenceValid()
    ensures NextIdAt(f, 1).0 == ReadNextSequenceId(f).0 && NextIdAt(f, 1).1 == ReadNextSequenceId(f).1
  {
    assert NextIdAt(f, 1) == NextIdAt(f, 0);
  }

  /** The list constructor's first ReadNextSequenceId on each of the
      first `n` readers, in order. */
  function FirstIds(readers: seq<Factory>, n: nat): (out: (Result<seq<Option<nat>>>, seq<Factory>))
    requires n <= |readers| && AllValid(readers)
    ensures |out.1| == |readers| && AllValid(out.1)
    ensures out.0.Ok? ==> |out.0.value| == n
    decreases n
  {
    if n == 0 then (Ok([]), readers)
    else
      var (ids, rs) := FirstIds(readers, n - 1);
      if ids.Err? then (ids, rs)
      else
        var (id, f) := NextIdAt(rs[n - 1], 1);
        var rs' := rs[n - 1 := f];
        if id.Err? then (Err(id.fault), rs')
        else (Ok(ids.value + [id.value]), rs')
  }

  /** The nodes as written: a reader whose first read yields none is
      listed at the sentinel position. */
  function NodesAsWritten(ids: seq<Option<nat>>): (nodes: seq<Node>)
    ensures |nodes| == |ids|
    ensures forall s :: 0 <= s < |ids| ==> nodes[s] == Node(s, if ids[s].Some? then ids[s].value else Sentinel)
  {
    seq(|ids|, s requires 0 <= s < |ids| => Node(s, if ids[s].Some? then ids[s].value else Sentinel))
  }

  /** The nodes as intended: a reader whose first read yields none is
      left out of the list. */
  function Nodes(ids: seq<Option<nat>>): (nodes: seq<Node>)
    ensures forall n :: n in nodes <==> n.slot < |ids| && ids[n.slot] == Some(n.id)
    ensures SlotOrdered(nodes)
    ensures forall i :: 0 <= i < |nodes| ==> nodes[i].slot < |ids|
  {
    if |ids| == 0 then []
    else
      var front := Nodes(ids[..|ids| - 1]);
      var s := |ids| - 1;
      assert forall k :: 0 <= k < s ==> ids[..s][k] == ids[k];
      if ids[s].Some? then front + [Node(s, ids[s].value)] else front
  }

  /** The readers disposed in slot order; a Dispose that throws ends the
      loop, and the exception leaves the enumeration after its last row. */
  function DisposeAll(readers: seq<Factory>): (d: Disposal)
    ensures |readers| > 0 ==> d == Then(TypeReader.Dispose(readers[0]), DisposeAll(readers[1..]))
  {
    if |readers| == 0 then Releasing([]) else Then(TypeReader.Dispose(readers[0]), DisposeAll(readers[1..]))
  }

  /** A reader that built a boolean property's reader. */
  predicate BuiltBool(f: Factory)
  {
    exists k :: 0 <= k < |f.slots| && TypeReader.BoolBuilt(f.slots[k])
  }

  /** Disposing the readers throws exactly when one of them built a
      boolean property's reader, and what it throws is a null reference. */
  lemma {:induction false} DisposeAllFault(readers: seq<Factory>)
    ensures DisposeAll(readers).fault.Some? <==> exists s :: 0 <= s < |readers| && BuiltBool(readers[s])
    ensures DisposeAll(readers).fault.Some? ==> DisposeAll(readers).fault == Some(NullReference)
  {
    if |readers| > 0 {
      DisposeAllFault(readers[1..]);
      TypeReader.DisposeSlotsFault(readers[0].slots);
      assert TypeReader.Dispose(readers[0]).fault == TypeReader.DisposeSlots(readers[0].slots).fault;
      forall s | 1 <= s < |readers| ensures readers[1..][s - 1] == readers[s] {}
    }
  }

  /** The loop over an opened list; when it ends the readers are disposed
      in slot order. */
  function Finish(list: seq<Node>, readers: seq<Factory>): (out: (Result<seq<Row>>, Disposal))
    requires Over(list, readers)
    ensures out.0.Ok? ==> forall r :: r in out.0.value ==> r.slot < |readers|
  {
    var (rows, final) := Run(list, readers);
    if rows.Err? then (rows, Releasing([])) else (rows, DisposeAll(final))
  }

  /** The list constructor as written: every reader's first read, each
      reader listed at its first position or at the sentinel, sorted by
      position with ties in slot order. */
  function OpenAsWritten(readers: seq<Factory>): (out: Result<(seq<Node>, seq<Factory>)>)
    requires AllValid(readers)
    ensures out.Ok? ==> Over(out.value.0, out.value.1) && |out.value.1| == |readers| && |out.value.0| == |readers|
  {
    var (ids, rs) := FirstIds(readers, |readers|);
    if ids.Err? then Err(ids.fault)
    else
      var nodes := NodesAsWritten(ids.value);
      SortedNodesDistinct(nodes);
      var list := SortNodes(nodes);
      assert forall n :: n in list ==> n in nodes by {
        forall n | n in list ensures n in nodes { assert n in multiset(list); }
      }
      Ok((list, rs))
  }

  /** The list constructor as intended: a reader whose first read yields
      none is left out. */
  function Open(readers: seq<Factory>): (out: Result<(seq<Node>, seq<Factory>)>)
    requires AllValid(readers)
    ensures out.Ok? ==> Over(out.value.0, out.value.1) && |out.value.1| == |readers|
  {
    var (ids, rs) := FirstIds(readers, |readers|);
    if ids.Err? then Err(ids.fault)
    else
      var nodes := Nodes(ids.value);
      SortedNodesDistinct(nodes);
      var list := SortNodes(nodes);
      assert forall n :: n in list ==> n in nodes by {
        forall n | n in list ensures n in nodes { assert n in multiset(list); }
      }
      Ok((list, rs))
  }

  // ---------------------------------------------------------------- what the list constructor's reads do

  // Each fact below is carried across one read by a ...Step lemma, and a
  // loop over the readers strings the steps together.

  /** The read of reader `k` leaves the readers after it as they were. */
  lemma AheadStep(readers: seq<Factory>, k: nat, s: nat)
    requires AllValid(readers) && k < s < |readers|
    ensures FirstIds(readers, k + 1).1[s] == FirstIds(readers, k).1[s]
  {
  }

  /** The list constructor's reads leave the readers they have not come
      to as they were. */
  lemma FirstIdsAhead(readers: seq<Factory>, n: nat, s: nat)
    requires AllValid(readers) && n <= s < |readers|
    ensures FirstIds(readers, n).1[s] == readers[s]
  {
    for k := 0 to n
      invariant FirstIds(readers, k).1[s] == readers[s]
    {
      AheadStep(readers, k, s);
    }
  }

  /** `g` is `f` but for its sequence, field by field. */
  ghost predicate SameButSequence(g: Factory, f: Factory)
  {
    && g.path == f.path && g.cls == f.cls && g.sequenceFile == f.sequenceFile
    && g.rowId == f.rowId && g.slots == f.slots && g.handler == f.handler
  }

  /** The read of reader `k` changes nothing of a reader but its sequence. */
  lemma TouchStep(readers: seq<Factory>, k: nat, s: nat)
    requires AllValid(readers) && k < |readers| && s < |readers|
    ensures SameButSequence(FirstIds(readers, k + 1).1[s], FirstIds(readers, k).1[s])
  {
  }

  /** The list constructor's reads touch nothing of a reader but its
      sequence. */
  lemma FirstIdsTouchSequences(readers: seq<Factory>, n: nat)
    requires n <= |readers| && AllValid(readers)
    ensures var rs := FirstIds(readers, n).1;
      forall s :: 0 <= s < |readers| ==> rs[s] == readers[s].(sequence := rs[s].sequence)
  {
    forall s | 0 <= s < |readers|
      ensures FirstIds(readers, n).1[s] == readers[s].(sequence := FirstIds(readers, n).1[s].sequence)
    {
      FirstIdsTouch(readers, n, s);
    }
  }

  /** FirstIdsTouchSequences for one reader. */
  lemma FirstIdsTouch(readers: seq<Factory>, n: nat, s: nat)
    requires n <= |readers| && AllValid(readers) && s < |readers|
    ensures FirstIds(readers, n).1[s] == readers[s].(sequence := FirstIds(readers, n).1[s].sequence)
  {
    for k := 0 to n
      invariant SameButSequence(FirstIds(readers, k).1[s], readers[s])
    {
      TouchStep(readers, k, s);
    }
  }

  /** The read of reader `k`, when reader `k` is reachable, fails only
      with the argument fault. */
  lemma FaultStep(readers: seq<Factory>, k: nat)
    requires AllValid(readers) && k < |readers| && Reachable(FirstIds(readers, k).1[k])
    requires FirstIds(readers, k).0.Err? ==> FirstIds(readers, k).0.fault == ArgumentError
    ensures FirstIds(readers, k + 1).0.Err? ==> FirstIds(readers, k + 1).0.fault == ArgumentError
  {
    var (ids, rs) := FirstIds(readers, k);
    if ids.Ok? {
      NextIdReaches(rs[k]);
      NextIdOpen(rs[k]);
    }
  }

  /** Over reachable readers the list constructor's reads fail only with
      the block copy's argument fault. */
  lemma FirstIdsFault(readers: seq<Factory>, n: nat)
    requires AllValid(readers) && AllReachable(readers) && n <= |readers|
    ensures FirstIds(readers, n).0.Err? ==> FirstIds(readers, n).0.fault == ArgumentError
  {
    for k := 0 to n
      invariant FirstIds(readers, k).0.Err? ==> FirstIds(readers, k).0.fault == ArgumentError
    {
      FirstIdsAhead(readers, k, k);
      FaultStep(readers, k);
    }
  }

  /** The read of reader `k` keeps reader `s` reachable and, when reader
      `s` is dirty, gives it a position without reaching its torn word. */
  lemma SlotStep(readers: seq<Factory>, k: nat, s: nat)
    requires AllValid(readers) && k < |readers| && s < |readers|
    requires var (ids, rs) := FirstIds(readers, k);
      && Reachable(rs[s])
      && (s == k ==> rs[s] == readers[s])
      && (s < k && Dirty(readers[s]) && ids.Ok? ==> ids.value[s].Some? && Dirty(rs[s]))
    ensures var (ids, rs) := FirstIds(readers, k + 1);
      && Reachable(rs[s])
      && (s < k + 1 && Dirty(readers[s]) && ids.Ok? ==> ids.value[s].Some? && Dirty(rs[s]))
  {
    var (ids, rs) := FirstIds(readers, k);
    if ids.Ok? && s == k {
      NextIdReaches(rs[s]);
      NextIdOpen(rs[s]);
    }
  }

  /** The list constructor's reads keep a reachable reader reachable, and
      give one whose sequence file ends in a torn word a first position
      without reaching the torn word. */
  lemma FirstIdsSlot(readers: seq<Factory>, n: nat, s: nat)
    requires AllValid(readers) && n <= |readers| && s < |readers| && Reachable(readers[s])
    ensures var (ids, rs) := FirstIds(readers, n);
      && Reachable(rs[s])
      && (s < n && Dirty(readers[s]) && ids.Ok? ==> ids.value[s].Some? && Dirty(rs[s]))
  {
    for k := 0 to n
      invariant var (ids, rs) := FirstIds(readers, k);
        && Reachable(rs[s])
        && (s < k && Dirty(readers[s]) && ids.Ok? ==> ids.value[s].Some? && Dirty(rs[s]))
    {
      if s == k {
        FirstIdsAhead(readers, k, s);
      }
      SlotStep(readers, k, s);
    }
  }

  /** Hence they keep every reader reachable. */
  lemma FirstIdsReach(readers: seq<Factory>)
    requires AllValid(readers) && AllReachable(readers)
    ensures AllReachable(FirstIds(readers, |readers|).1)
  {
    forall s | 0 <= s < |readers|
      ensures Reachable(FirstIds(readers, |readers|).1[s])
    {
      FirstIdsSlot(readers, |readers|, s);
    }
  }

  /** The read of a reader of whole words does not fail. */
  lemma SucceedStep(readers: seq<Factory>, k: nat)
    requires AllValid(readers) && k < |readers| && Good(FirstIds(readers, k).1[k]) && FirstIds(readers, k).0.Ok?
    ensures FirstIds(readers, k + 1).0.Ok?
  {
    NextIdPops(FirstIds(readers, k).1[k]);
    NextIdOpen(FirstIds(readers, k).1[k]);
  }

  /** Over readers of whole words the list constructor's reads never fail. */
  lemma FirstIdsSucceed(readers: seq<Factory>, n: nat)
    requires AllGood(readers) && n <= |readers|
    ensures FirstIds(readers, n).0.Ok?
  {
    for k := 0 to n
      invariant FirstIds(readers, k).0.Ok?
    {
      FirstIdsAhead(readers, k, k);
      SucceedStep(readers, k);
    }
  }

  /** The read of reader `k` takes the first position off its queue when
      it is of whole words, and leaves the others' positions alone. */
  lemma PopsStep(readers: seq<Factory>, k: nat, s: nat)
    requires AllValid(readers) && k < |readers| && s < |readers| && Good(readers[s])
    requires var (ids, rs) := FirstIds(readers, k);
      && Good(rs[s])
      && (s == k ==> rs[s] == readers[s])
      && (s < k && ids.Ok? ==>
           && ids.value[s] == FirstOf(readers[s])
           && Queue(rs[s]) == if Queue(readers[s]) == [] then [] else Queue(readers[s])[1..])
    ensures var (ids, rs) := FirstIds(readers, k + 1);
      && Good(rs[s])
      && (s < k + 1 && ids.Ok? ==>
           && ids.value[s] == FirstOf(readers[s])
           && Queue(rs[s]) == if Queue(readers[s]) == [] then [] else Queue(readers[s])[1..])
  {
    var (ids, rs) := FirstIds(readers, k);
    if ids.Ok? && s == k {
      NextIdPops(rs[s]);
      NextIdOpen(rs[s]);
    }
  }

  /** One reader of whole words under the list constructor's reads: its
      first position is taken off its queue. */
  lemma FirstIdsPops(readers: seq<Factory>, n: nat, s: nat)
    requires AllValid(readers) && n <= |readers| && s < |readers| && Good(readers[s])
    ensures var (ids, rs) := FirstIds(readers, n);
      && Good(rs[s])
      && (s < n && ids.Ok? ==>
           && ids.value[s] == FirstOf(readers[s])
           && Queue(rs[s]) == if Queue(readers[s]) == [] then [] else Queue(readers[s])[1..])
  {
    for k := 0 to n
      invariant var (ids, rs) := FirstIds(readers, k);
        && Good(rs[s])
        && (s < k && ids.Ok? ==>
             && ids.value[s] == FirstOf(readers[s])
             && Queue(rs[s]) == if Queue(readers[s]) == [] then [] else Queue(readers[s])[1..])
    {
      if s == k {
        FirstIdsAhead(readers, k, s);
      }
      PopsStep(readers, k, s);
    }
  }

  /** The list constructor's reads take each reader's first position off
      its queue and change nothing else about it. */
  lemma FirstIdsKeepGood(readers: seq<Factory>, n: nat)
    requires AllGood(readers) && n <= |readers|
    ensures var (ids, rs) := FirstIds(readers, n);
      && ids.Ok? && AllGood(rs)
      && (forall s :: 0 <= s < |readers| ==>
            && rs[s] == readers[s].(sequence := rs[s].sequence)
            && (s >= n ==> rs[s] == readers[s])
            && (s < n ==>
                 && ids.value[s] == FirstOf(readers[s])
                 && Queue(rs[s]) == if Queue(readers[s]) == [] then [] else Queue(readers[s])[1..]))
  {
    FirstIdsSucceed(readers, n);
    FirstIdsTouchSequences(readers, n);
    var (ids, rs) := FirstIds(readers, n);
    forall s | 0 <= s < |readers|
      ensures Good(rs[s]) && (s >= n ==> rs[s] == readers[s])
      ensures s < n ==>
        && ids.value[s] == FirstOf(readers[s])
        && Queue(rs[s]) == if Queue(readers[s]) == [] then [] else Queue(readers[s])[1..]
    {
      FirstIdsPops(readers, n, s);
      if s >= n {
        FirstIdsAhead(readers, n, s);
      }
    }
  }

  /** Read as written: an empty list fails on the head's successor, and a
      reader with no first position is merged in at the sentinel. */
  function ReadAsWritten(readers: seq<Factory>): (out: (Result<seq<Row>>, Disposal))
    requires AllValid(readers)
    ensures |readers| == 0 ==> out.0 == Err(NullReference)
  {
    match OpenAsWritten(readers)
    case Err(e) => (Err(e), Releasing([]))
    case Ok((list, rs)) => if |list| == 0 then (Err(NullReference), Releasing([])) else Finish(list, rs)
  }

  /** Read: the readers with a first position, merged in position order;
      no reader gives no rows. */
  function Read(readers: seq<Factory>): (out: (Result<seq<Row>>, Disposal))
    requires AllValid(readers)
    ensures |readers| == 0 ==> out == (Ok([]), Releasing([]))
    ensures out.0.Ok? ==> forall r :: r in out.0.value ==> r.slot < |readers|
  {
    match Open(readers)
    case Err(e) => (Err(e), Releasing([]))
    case Ok((list, rs)) => Finish(list, rs)
  }

  /** The loop of Invoke: the loop of Read, with each pooled row handed
      to the handler of the reader it came from as soon as it is read. */
  function InvokeRun(list: seq<Node>, readers: seq<Factory>): (out: (Result<seq<Call>>, seq<Factory>))
    requires Over(list, readers)
    ensures |out.1| == |readers|
    decreases Drain(list, readers)
  {
    if |list| == 0 then (Ok([]), readers)
    else
      var st := Step(list, readers);
      if st.next.Err? then (Err(st.next.fault), st.readers)
      else
        StepDrains(list, readers);
        assert Settle(list)[0] in multiset(list);
        var call := Call(readers[st.row.slot].handler, st.row.instance);
        var (rest, final) := InvokeRun(st.list, st.readers);
        (if rest.Err? then rest else Ok([call] + rest.value), final)
  }

  /** Invoke: the list constructor, the loop, then the readers disposed in
      slot order. */
  function Invoke(readers: seq<Factory>): (out: (Result<seq<Call>>, Disposal))
    requires AllValid(readers)
    ensures |readers| == 0 ==> out == (Ok([]), Releasing([]))
  {
    match Open(readers)
    case Err(e) => (Err(e), Releasing([]))
    case Ok((list, rs)) =>
      var (calls, final) := InvokeRun(list, rs);
      if calls.Err? then (calls, Releasing([])) else (calls, DisposeAll(final))
  }

  /** Invoke as written: with the list constructor as written, an empty
      list fails on the head's successor, and a reader with no first
      position is handed to its handler once, at the sentinel. */
  function InvokeAsWritten(readers: seq<Factory>): (out: (Result<seq<Call>>, Disposal))
    requires AllValid(readers)
    ensures |readers| == 0 ==> out.0 == Err(NullReference)
  {
    match OpenAsWritten(readers)
    case Err(e) => (Err(e), Releasing([]))
    case Ok((list, rs)) =>
      if |list| == 0 then (Err(NullReference), Releasing([]))
      else
        var (calls, final) := InvokeRun(list, rs);
        if calls.Err? then (calls, Releasing([])) else (calls, DisposeAll(final))
  }

  /** Invoke's loop as its caller sees it: each handler call is made
      before the head's next position is read, so a fault comes after the
      calls made so far. */
  function InvokeDelivered(list: seq<Node>, readers: seq<Factory>): (out: (seq<Call>, Option<Fault>))
    requires Over(list, readers)
    ensures out.1.Some? ==> |out.0| > 0
    decreases Drain(list, readers)
  {
    if |list| == 0 then ([], None)
    else
      var st := Step(list, readers);
      assert Settle(list)[0] in multiset(list);
      var call := Call(readers[st.row.slot].handler, st.row.instance);
      if st.next.Err? then ([call], Some(st.next.fault))
      else
        StepDrains(list, readers);
        var (rest, fault) := InvokeDelivered(st.list, st.readers);
        ([call] + rest, fault)
  }

  function Handlers(readers: seq<Factory>): (hs: seq<Handler>)
    ensures |hs| == |readers| && forall s :: 0 <= s < |readers| ==> hs[s] == readers[s].handler
  {
    seq(|readers|, s requires 0 <= s < |readers| => readers[s].handler)
  }

  /** Each row handed to the handler of its reader. */
  function Calls(rows: seq<Row>, hs: seq<Handler>): (cs: seq<Call>)
    requires forall r :: r in rows ==> r.slot < |hs|
    ensures |cs| == |rows|
  {
    if |rows| == 0 then [] else [Call(hs[rows[0].slot], rows[0].instance)] + Calls(rows[1..], hs)
  }

  /** A step changes no reader's handler. */
  lemma StepKeepsHandlers(list: seq<Node>, readers: seq<Factory>)
    requires Over(list, readers) && |list| > 0
    ensures Handlers(Step(list, readers).readers) == Handlers(readers)
  {
    SettledParts(list);
  }

  /** Invoke's loop makes exactly the calls of Read's loop's rows, each to
      its reader's handler, and leaves the readers as Read's does. */
  lemma {:induction false} InvokeRunCallsRows(list: seq<Node>, readers: seq<Factory>)
    requires Over(list, readers)
    ensures var (calls, final) := InvokeRun(list, readers);
      var (rows, final') := Run(list, readers);
      && final == final'
      && (calls.Ok? <==> rows.Ok?)
      && (calls.Ok? ==> calls.value == Calls(rows.value, Handlers(readers)))
      && (calls.Err? ==> calls.fault == rows.fault)
    decreases Drain(list, readers)
  {
    if |list| > 0 {
      var st := Step(list, readers);
      SettledParts(list);
      StepDrains(list, readers);
      StepKeepsHandlers(list, readers);
      if st.next.Ok? {
        InvokeRunCallsRows(st.list, st.readers);
        var rest := Run(st.list, st.readers).0;
        if rest.Ok? {
          var rows := [st.row] + rest.value;
          assert rows[1..] == rest.value;
        }
      }
    }
  }

  /** Invoke hands every row Read yields to the handler of the reader it
      came from, in the same order, and disposes the same. */
  lemma InvokeCallsRead(readers: seq<Factory>)
    requires AllValid(readers)
    ensures Invoke(readers).1 == Read(readers).1
    ensures Invoke(readers).0.Ok? <==> Read(readers).0.Ok?
    ensures Invoke(readers).0.Ok? ==> Invoke(readers).0.value == Calls(Read(readers).0.value, Handlers(readers))
    ensures Invoke(readers).0.Err? ==> Invoke(readers).0.fault == Read(readers).0.fault
  {
    if Open(readers).Ok? {
      var (list, rs) := Open(readers).value;
      InvokeRunCallsRows(list, rs);
      FirstIdsTouchSequences(readers, |readers|);
      assert Handlers(rs) == Handlers(readers);
    }
  }

  /** Invoke as written stands to Read as written as Invoke to Read: the
      calls of its rows to their readers' handlers, and the same
      disposal. */
  lemma InvokeAsWrittenCallsRead(readers: seq<Factory>)
    requires AllValid(readers)
    ensures InvokeAsWritten(readers).1 == ReadAsWritten(readers).1
    ensures InvokeAsWritten(readers).0.Ok? <==> ReadAsWritten(readers).0.Ok?
    ensures InvokeAsWritten(readers).0.Ok? ==> InvokeAsWritten(readers).0.value == Calls(ReadAsWritten(readers).0.value, Handlers(readers))
    ensures InvokeAsWritten(readers).0.Err? ==> InvokeAsWritten(readers).0.fault == ReadAsWritten(readers).0.fault
  {
    if OpenAsWritten(readers).Ok? {
      var (list, rs) := OpenAsWritten(readers).value;
      InvokeRunCallsRows(list, rs);
      FirstIdsTouchSequences(readers, |readers|);
      assert Handlers(rs) == Handlers(readers);
    }
  }

  /** The calls Invoke's loop makes before it stops are the rows the loop
      yields before it stops, each handed to its reader's handler, and
      the two stop on the same fault. */
  lemma {:induction false} InvokeDeliversRows(list: seq<Node>, readers: seq<Factory>)
    requires Over(list, readers)
    ensures InvokeDelivered(list, readers).0 == Calls(Delivered(list, readers).0, Handlers(readers))
    ensures InvokeDelivered(list, readers).1 == Delivered(list, readers).1
    decreases Drain(list, readers)
  {
    if |list| > 0 {
      var st := Step(list, readers);
      SettledParts(list);
      StepKeepsHandlers(list, readers);
      if st.next.Ok? {
        StepDrains(list, readers);
        InvokeDeliversRows(st.list, st.readers);
        var rows := [st.row] + Delivered(st.list, st.readers).0;
        assert rows[1..] == Delivered(st.list, st.readers).0;
      } else {
        assert [st.row][1..] == [];
      }
    }
  }

  // ---------------------------------------------------------------- what the run delivers

  /** A reader's pending positions as a node of the list sees them. */
  function NodePending(n: Node, readers: seq<Factory>): seq<nat>
    requires n.slot < |readers| && Good(readers[n.slot])
  {
    [n.id] + Queue(readers[n.slot])
  }

  /** Strictly ascending. Like TypeReader.Folded this sits behind one
      layer of definition, so that the run's invariant, which states it of
      every node, does not open it wherever it is assumed;
      IncreasingOpened opens it. */
  predicate Increasing(xs: seq<nat>)
  {
    IncreasingAt(xs, 1)
  }

  /** Increasing behind `depth` layers of definition, as TypeReader.Folded. */
  predicate IncreasingAt(xs: seq<nat>, depth: nat)
    decreases depth
  {
    if depth > 0 then IncreasingAt(xs, depth - 1)
    else forall i, j :: 0 <= i < j < |xs| ==> xs[i] < xs[j]
  }

  lemma IncreasingOpened(xs: seq<nat>)
    ensures Increasing(xs) <==> forall i, j :: 0 <= i < j < |xs| ==> xs[i] < xs[j]
  {
    assert IncreasingAt(xs, 1) == IncreasingAt(xs, 0);
  }

  /** No value in both; behind one layer of definition, as Increasing. */
  predicate Apart(xs: seq<nat>, ys: seq<nat>)
  {
    ApartAt(xs, ys, 1)
  }

  /** Apart behind `depth` layers of definition, as TypeReader.Folded. */
  predicate ApartAt(xs: seq<nat>, ys: seq<nat>, depth: nat)
    decreases depth
  {
    if depth > 0 then ApartAt(xs, ys, depth - 1)
    else forall x :: x in xs ==> x !in ys
  }

  lemma ApartOpened(xs: seq<nat>, ys: seq<nat>)
    ensures Apart(xs, ys) <==> forall x :: x in xs ==> x !in ys
  {
    assert ApartAt(xs, ys, 1) == ApartAt(xs, ys, 0);
  }

  /** Past the first of an ascending sequence: the rest ascends and lies
      beyond it. */
  lemma IncreasingRest(xs: seq<nat>)
    requires Increasing(xs) && |xs| > 0
    ensures Increasing(xs[1..]) && forall x :: x in xs[1..] ==> xs[0] < x
  {
    IncreasingOpened(xs);
    IncreasingOpened(xs[1..]);
    forall x | x in xs[1..] ensures xs[0] < x {
      var i :| 0 <= i < |xs[1..]| && xs[1..][i] == x;
      assert xs[i + 1] == x;
    }
  }

  /** What is apart from a sequence is apart from its rest, either way
      round, and does not hold its first. */
  lemma ApartRest(xs: seq<nat>, ys: seq<nat>)
    requires Apart(xs, ys) && |xs| > 0
    ensures Apart(xs[1..], ys) && Apart(ys, xs[1..]) && xs[0] !in ys
  {
    ApartOpened(xs, ys);
    ApartOpened(xs[1..], ys);
    ApartOpened(ys, xs[1..]);
    assert xs[0] in xs;
  }

  /** The run's invariant: the list past its head is ascending, each
      node's pending positions ascend strictly, and no position is
      pending at two nodes. It sits behind one layer of definition, as
      Increasing does; the lemmas below take it apart. */
  ghost predicate Inv(list: seq<Node>, readers: seq<Factory>)
  {
    Wf(list, readers) && InvAt(list, readers, 1)
  }

  /** The invariant behind `depth` layers of definition, as TypeReader.Folded. */
  ghost predicate InvAt(list: seq<Node>, readers: seq<Factory>, depth: nat)
    requires Wf(list, readers)
    decreases depth
  {
    if depth > 0 then InvAt(list, readers, depth - 1)
    else
      && (|list| > 0 ==> Sorted(list[1..]))
      && (forall n :: n in list ==> Increasing(NodePending(n, readers)))
      && (forall n, m :: n in list && m in list && n != m ==> Apart(NodePending(n, readers), NodePending(m, readers)))
  }

  lemma InvOpened(list: seq<Node>, readers: seq<Factory>)
    ensures Inv(list, readers) <==>
      && Wf(list, readers)
      && (|list| > 0 ==> Sorted(list[1..]))
      && (forall n :: n in list ==> Increasing(NodePending(n, readers)))
      && (forall n, m :: n in list && m in list && n != m ==> Apart(NodePending(n, readers), NodePending(m, readers)))
  {
    if Wf(list, readers) {
      assert InvAt(list, readers, 1) == InvAt(list, readers, 0);
    }
  }

  lemma InvSorted(list: seq<Node>, readers: seq<Factory>)
    requires Inv(list, readers)
    ensures |list| > 0 ==> Sorted(list[1..])
  {
    InvOpened(list, readers);
  }

  lemma InvNode(list: seq<Node>, readers: seq<Factory>, n: Node)
    requires Inv(list, readers) && n in list
    ensures Increasing(NodePending(n, readers))
  {
    InvOpened(list, readers);
  }

  lemma InvApart(list: seq<Node>, readers: seq<Factory>, n: Node, m: Node)
    requires Inv(list, readers) && n in list && m in list && n != m
    ensures Apart(NodePending(n, readers), NodePending(m, readers))
  {
    InvOpened(list, readers);
  }

  /** The positions a reader still contributes to the run. */
  ghost function PendingOf(list: seq<Node>, readers: seq<Factory>, s: nat): seq<nat>
    requires Wf(list, readers)
  {
    if Listed(list, s) then
      var n :| n in list && n.slot == s;
      NodePending(n, readers)
    else []
  }

  lemma PendingOfNode(list: seq<Node>, readers: seq<Factory>, n: Node)
    requires Wf(list, readers) && n in list
    ensures PendingOf(list, readers, n.slot) == NodePending(n, readers)
  {
    var m :| m in list && m.slot == n.slot;
    SameSlotSameNode(list, n, m);
  }

  function Filter(rows: seq<Row>, s: nat): (fs: seq<Row>)
    ensures forall r :: r in fs ==> r in rows && r.slot == s
  {
    if |rows| == 0 then []
    else (if rows[0].slot == s then [rows[0]] else []) + Filter(rows[1..], s)
  }

  function Positions(rows: seq<Row>): (ps: seq<nat>)
    ensures |ps| == |rows| && forall i :: 0 <= i < |rows| ==> ps[i] == rows[i].pos
  {
    seq(|rows|, i requires 0 <= i < |rows| => rows[i].pos)
  }

  lemma FilterHolds(rows: seq<Row>, r: Row)
    requires r in rows
    ensures r in Filter(rows, r.slot)
  {
    if rows[0] != r {
      FilterHolds(rows[1..], r);
    }
  }

  /** The rows a reader contributes: its pending positions, on successive
      rows of its counter, all through its one pooled instance. */
  ghost predicate Delivers(fs: seq<Row>, pending: seq<nat>, f: Factory)
  {
    && Positions(fs) == pending
    && forall i :: 0 <= i < |fs| ==> fs[i].rowId == f.rowId + 1 + i && fs[i].instance == Pooled(f.path)
  }

  /** The reordered list: its head, and behind it the other nodes, in
      ascending order, none of the head's reader, none before it. */
  lemma SettledOrder(list: seq<Node>)
    requires Distinct(list) && |list| > 0 && Sorted(list[1..])
    ensures var head := Settle(list)[0]; var tail := Settle(list)[1..];
      && head in list && Sorted(tail)
      && (forall n :: n in tail ==> n in list && n.slot != head.slot && n != head && head.id <= n.id)
      && (forall n :: n in list ==> n == head || n in tail)
  {
    var list1 := Settle(list);
    SettleMembers(list);
    TailApart(list1);
    var head := list1[0];
    var tail := list1[1..];
    assert list1 == [head] + tail;
    SortedBehindHead(list1);
  }

  /** Behind the head of a sorted list: a sorted list, of nodes no earlier
      than the head. */
  lemma SortedBehindHead(list: seq<Node>)
    requires Sorted(list) && |list| > 0
    ensures Sorted(list[1..]) && forall n :: n in list[1..] ==> list[0].id <= n.id
  {
    var tail := list[1..];
    SortedRest(list);
    forall n | n in tail ensures list[0].id <= n.id {
      var i :| 0 <= i < |tail| && tail[i] == n;
      assert list[i + 1] == n;
    }
  }

  /** The reordered head's own queue ascends, beyond the head's position. */
  lemma HeadQueue(list: seq<Node>, readers: seq<Factory>)
    requires Inv(list, readers) && |list| > 0
    ensures var head := Settle(list)[0];
      && head.slot < |readers|
      && Increasing(Queue(readers[head.slot]))
      && (forall x :: x in Queue(readers[head.slot]) ==> head.id < x)
  {
    SettleMembers(list);
    var head := Settle(list)[0];
    assert head in list;
    var hp := NodePending(head, readers);
    assert hp[1..] == Queue(readers[head.slot]) && hp[0] == head.id;
    InvNode(list, readers, head);
    IncreasingRest(hp);
  }

  /** Two sequences apart, the second ascending from no lower a start:
      all of the second lies beyond the first's start, and the first's
      rest is apart from it either way round. */
  lemma BeyondFirst(hp: seq<nat>, np: seq<nat>, lo: nat)
    requires |hp| > 0 && |np| > 0 && Apart(hp, np) && Increasing(np) && hp[0] == lo <= np[0]
    ensures forall x :: x in np ==> lo < x
    ensures Apart(hp[1..], np) && Apart(np, hp[1..])
  {
    ApartRest(hp, np);
    IncreasingRest(np);
    assert np == [np[0]] + np[1..];
  }

  /** A node behind the reordered head: its pending positions lie beyond
      the head's, and share none with the head's queue. */
  lemma BehindHead(list: seq<Node>, readers: seq<Factory>, n: Node)
    requires Inv(list, readers) && |list| > 0 && n in Settle(list)[1..]
    ensures var head := Settle(list)[0];
      && head.slot < |readers| && n.slot < |readers|
      && Apart(Queue(readers[head.slot]), NodePending(n, readers))
      && Apart(NodePending(n, readers), Queue(readers[head.slot]))
      && (forall x :: x in NodePending(n, readers) ==> head.id < x)
  {
    InvSorted(list, readers);
    SettledOrder(list);
    var head := Settle(list)[0];
    InvApart(list, readers, head, n);
    InvNode(list, readers, n);
    var hp := NodePending(head, readers);
    assert hp[1..] == Queue(readers[head.slot]) && hp[0] == head.id;
    BeyondFirst(hp, NodePending(n, readers), head.id);
  }

  lemma SortedRest(list: seq<Node>)
    requires Sorted(list) && |list| > 0
    ensures Sorted(list[1..])
  {
    forall i, j | 0 <= i < j < |list[1..]| ensures list[1..][i].id <= list[1..][j].id {
      assert list[1..][i] == list[i + 1] && list[1..][j] == list[j + 1];
    }
  }

  /** The pending positions after a move: unchanged at the nodes behind
      the head, the rest of the head's queue at its new node. */
  lemma MovedNodes(list: seq<Node>, readers: seq<Factory>, list': seq<Node>, readers': seq<Factory>)
    requires Wf(list, readers) && |list| > 0 && Moved(list, readers, list', readers')
    ensures AllGood(readers')
    ensures var head := Settle(list)[0]; var q := Queue(readers[head.slot]);
      && (forall n :: n in Settle(list)[1..] ==> n in list && NodePending(n, readers') == NodePending(n, readers))
      && (q != [] ==> NodePending(Node(head.slot, q[0]), readers') == q)
  {
    MovedHeadPending(list, readers, list', readers');
    MovedOthersPending(list, readers, list', readers');
  }

  lemma MovedHeadPending(list: seq<Node>, readers: seq<Factory>, list': seq<Node>, readers': seq<Factory>)
    requires Wf(list, readers) && |list| > 0 && Moved(list, readers, list', readers')
    ensures AllGood(readers')
    ensures var head := Settle(list)[0]; var q := Queue(readers[head.slot]);
      q != [] ==> NodePending(Node(head.slot, q[0]), readers') == q
  {
    SettledParts(list);
    MovedGood(list, readers, list', readers');
    var q := Queue(readers[Settle(list)[0].slot]);
    if q != [] {
      assert q == [q[0]] + q[1..];
    }
  }

  lemma MovedOthersPending(list: seq<Node>, readers: seq<Factory>, list': seq<Node>, readers': seq<Factory>)
    requires Wf(list, readers) && |list| > 0 && Moved(list, readers, list', readers')
    ensures AllGood(readers')
    ensures forall n :: n in Settle(list)[1..] ==> n in list && NodePending(n, readers') == NodePending(n, readers)
  {
    SettledParts(list);
    MovedGood(list, readers, list', readers');
    forall n | n in Settle(list)[1..] ensures NodePending(n, readers') == NodePending(n, readers) {
      assert readers'[n.slot] == readers[n.slot];
    }
  }

  /** A move keeps the run's invariant. */
  lemma MovedInv(list: seq<Node>, readers: seq<Factory>, list': seq<Node>, readers': seq<Factory>)
    requires Inv(list, readers) && |list| > 0 && Moved(list, readers, list', readers')
    ensures Inv(list', readers')
  {
    InvSorted(list, readers);
    SettledOrder(list);
    MovedWf(list, readers, list', readers');
    MovedList(list, readers, list', readers');
    MovedNodes(list, readers, list', readers');
    HeadQueue(list, readers);
    var head := Settle(list)[0];
    var tail := Settle(list)[1..];
    var q := Queue(readers[head.slot]);
    InvOpened(list', readers');
    forall n | n in list' ensures Increasing(NodePending(n, readers')) {
      if n in tail {
        InvNode(list, readers, n);
      }
    }
    forall n, m | n in list' && m in list' && n != m
      ensures Apart(NodePending(n, readers'), NodePending(m, readers'))
    {
      if n in tail && m in tail {
        InvApart(list, readers, n, m);
      } else if n in tail {
        BehindHead(list, readers, n);
      } else {
        BehindHead(list, readers, m);
      }
    }
    if q != [] {
      assert list' == [Node(head.slot, q[0])] + tail && list'[1..] == tail;
    } else if |tail| > 0 {
      SortedRest(tail);
    }
  }

  /** A move takes the head's position off its reader's pending ones. */
  lemma MovedPendingHead(list: seq<Node>, readers: seq<Factory>, list': seq<Node>, readers': seq<Factory>)
    requires Wf(list, readers) && |list| > 0 && Moved(list, readers, list', readers') && Wf(list', readers')
    ensures PendingOf(list, readers, Settle(list)[0].slot) == [Settle(list)[0].id] + PendingOf(list', readers', Settle(list)[0].slot)
  {
    SettledParts(list);
    MovedList(list, readers, list', readers');
    MovedNodes(list, readers, list', readers');
    var head := Settle(list)[0];
    var q := Queue(readers[head.slot]);
    PendingOfNode(list, readers, head);
    if q != [] {
      PendingOfNode(list', readers', Node(head.slot, q[0]));
    } else {
      assert !Listed(list', head.slot);
    }
  }

  /** A move leaves every other reader's pending positions alone. */
  lemma MovedPendingKept(list: seq<Node>, readers: seq<Factory>, list': seq<Node>, readers': seq<Factory>, s: nat)
    requires Wf(list, readers) && |list| > 0 && Moved(list, readers, list', readers') && Wf(list', readers')
    requires s != Settle(list)[0].slot
    ensures PendingOf(list', readers', s) == PendingOf(list, readers, s)
  {
    SettledParts(list);
    MovedList(list, readers, list', readers');
    MovedNodes(list, readers, list', readers');
    if Listed(list, s) {
      var n :| n in list && n.slot == s;
      assert n in Settle(list)[1..] && n in list';
      PendingOfNode(list, readers, n);
      PendingOfNode(list', readers', n);
    } else {
      assert !Listed(list', s);
    }
  }

  /** What a move does to the pending positions: the head's reader gives
      up its first, and every other reader keeps its own. */
  lemma MovedPending(list: seq<Node>, readers: seq<Factory>, list': seq<Node>, readers': seq<Factory>)
    requires Wf(list, readers) && |list| > 0 && Moved(list, readers, list', readers') && Wf(list', readers')
    ensures var head := Settle(list)[0];
      && PendingOf(list, readers, head.slot) == [head.id] + PendingOf(list', readers', head.slot)
      && forall s :: s != head.slot ==> PendingOf(list', readers', s) == PendingOf(list, readers, s)
  {
    MovedPendingHead(list, readers, list', readers');
    forall s | s != Settle(list)[0].slot
      ensures PendingOf(list', readers', s) == PendingOf(list, readers, s)
    {
      MovedPendingKept(list, readers, list', readers', s);
    }
  }

  /** Every position still pending after a move lies beyond the one it
      delivered. */
  lemma MovedBeyond(list: seq<Node>, readers: seq<Factory>, list': seq<Node>, readers': seq<Factory>)
    requires Inv(list, readers) && |list| > 0 && Moved(list, readers, list', readers') && Wf(list', readers')
    ensures forall s, x :: x in PendingOf(list', readers', s) ==> Settle(list)[0].id < x
  {
    forall s, x | x in PendingOf(list', readers', s)
      ensures Settle(list)[0].id < x
    {
      MovedBeyondAt(list, readers, list', readers', s);
    }
  }

  lemma MovedBeyondAt(list: seq<Node>, readers: seq<Factory>, list': seq<Node>, readers': seq<Factory>, s: nat)
    requires Inv(list, readers) && |list| > 0 && Moved(list, readers, list', readers') && Wf(list', readers')
    ensures forall x :: x in PendingOf(list', readers', s) ==> Settle(list)[0].id < x
  {
    if Listed(list', s) {
      MovedList(list, readers, list', readers');
      MovedNodes(list, readers, list', readers');
      var n :| n in list' && n.slot == s;
      PendingOfNode(list', readers', n);
      if n in Settle(list)[1..] {
        BehindHead(list, readers, n);
      } else {
        HeadQueue(list, readers);
      }
    }
  }

  /** One turn of the run: the head's row, then the run from the list
      the step leaves. */
  lemma RunStep(list: seq<Node>, readers: seq<Factory>)
    requires Wf(list, readers) && |list| > 0
    ensures var st := Step(list, readers);
      && Wf(st.list, st.readers)
      && var rest := Run(st.list, st.readers).0;
         Run(list, readers).0 == if rest.Err? then rest else Ok([st.row] + rest.value)
  {
    StepBasics(list, readers);
  }

  /** A row in front of the rows of its own reader: that reader delivers
      one position more, on the row before. */
  lemma DeliversHead(row: Row, rest: seq<Row>, pending: seq<nat>, f: Factory, f': Factory)
    requires Delivers(Filter(rest, row.slot), pending, f')
    requires f'.rowId == f.rowId + 1 && f'.path == f.path
    requires row.rowId == f.rowId + 1 && row.instance == Pooled(f.path)
    ensures Delivers(Filter([row] + rest, row.slot), [row.pos] + pending, f)
  {
    assert ([row] + rest)[1..] == rest;
    var tail := Filter(rest, row.slot);
    var fs := Filter([row] + rest, row.slot);
    assert fs == [row] + tail;
    forall i | 0 <= i < |fs|
      ensures fs[i].rowId == f.rowId + 1 + i && fs[i].instance == Pooled(f.path)
      ensures Positions(fs)[i] == ([row.pos] + pending)[i]
    {
      if i > 0 {
        assert fs[i] == tail[i - 1];
        assert Positions(tail)[i - 1] == tail[i - 1].pos;
      }
    }
    assert Positions(fs) == [row.pos] + pending;
  }

  /** A row in front of another reader's rows changes nothing they
      deliver. */
  lemma DeliversOther(row: Row, rest: seq<Row>, s: nat, pending: seq<nat>, f: Factory)
    requires s != row.slot && Delivers(Filter(rest, s), pending, f)
    ensures Delivers(Filter([row] + rest, s), pending, f)
  {
    assert ([row] + rest)[1..] == rest;
    assert Filter([row] + rest, s) == Filter(rest, s);
  }

  /** A row delivered for a reader carries one of its pending positions. */
  lemma DeliveredPending(rows: seq<Row>, r: Row, pending: seq<nat>, f: Factory)
    requires r in rows && Delivers(Filter(rows, r.slot), pending, f)
    ensures r.pos in pending
  {
    FilterHolds(rows, r);
    var fs := Filter(rows, r.slot);
    var i :| 0 <= i < |fs| && fs[i] == r;
    assert Positions(fs)[i] == r.pos;
  }

  /** A row ahead of ascending rows, at a lower position: still ascending. */
  lemma PositionsCons(row: Row, rest: seq<Row>)
    requires Increasing(Positions(rest)) && forall r :: r in rest ==> row.pos < r.pos
    ensures Increasing(Positions([row] + rest))
  {
    var rows := [row] + rest;
    IncreasingOpened(Positions(rest));
    IncreasingOpened(Positions(rows));
    forall i, j | 0 <= i < j < |rows| ensures Positions(rows)[i] < Positions(rows)[j]
    {
      assert rows[j] == rest[j - 1];
      if i == 0 {
        assert rows[j] in rest;
      } else {
        assert rows[i] == rest[i - 1];
      }
    }
  }

  /** The run merges: each reader in the list delivers exactly its
      pending positions, on successive rows, through its pooled
      instance; a reader outside the list delivers nothing; and the
      positions the run yields ascend strictly. */
  lemma {:induction false} RunMerges(list: seq<Node>, readers: seq<Factory>)
    requires Inv(list, readers)
    ensures var rows := Run(list, readers).0;
      && rows.Ok?
      && (forall s :: 0 <= s < |readers| ==> Delivers(Filter(rows.value, s), PendingOf(list, readers, s), readers[s]))
      && Increasing(Positions(rows.value))
    decreases Drain(list, readers)
  {
    if |list| == 0 {
      forall s | 0 <= s < |readers| ensures PendingOf(list, readers, s) == [] { }
      IncreasingOpened([]);
    } else {
      StepBasics(list, readers);
      StepMoves(list, readers);
      var st := Step(list, readers);
      MovedInv(list, readers, st.list, st.readers);
      RunMerges(st.list, st.readers);
      MergesStep(list, readers);
    }
  }

  /** One step of RunMerges: the head's row put in front of what the run
      over the stepped list merges. */
  lemma MergesStep(list: seq<Node>, readers: seq<Factory>)
    requires Inv(list, readers) && |list| > 0
    requires var st := Step(list, readers);
      && st.next.Ok? && Inv(st.list, st.readers)
      && var rows := Run(st.list, st.readers).0;
      && rows.Ok?
      && (forall s :: 0 <= s < |st.readers| ==> Delivers(Filter(rows.value, s), PendingOf(st.list, st.readers, s), st.readers[s]))
      && Increasing(Positions(rows.value))
    ensures var rows := Run(list, readers).0;
      && rows.Ok?
      && (forall s :: 0 <= s < |readers| ==> Delivers(Filter(rows.value, s), PendingOf(list, readers, s), readers[s]))
      && Increasing(Positions(rows.value))
  {
    StepBasics(list, readers);
    StepMoves(list, readers);
    RunStep(list, readers);
    var st := Step(list, readers);
    MovedPending(list, readers, st.list, st.readers);
    MovedBeyond(list, readers, st.list, st.readers);
    var rest := Run(st.list, st.readers).0.value;
    var t := st.row.slot;
    forall s | 0 <= s < |readers|
      ensures Delivers(Filter([st.row] + rest, s), PendingOf(list, readers, s), readers[s])
    {
      if s == t {
        DeliversHead(st.row, rest, PendingOf(st.list, st.readers, s), readers[s], st.readers[s]);
      } else {
        DeliversOther(st.row, rest, s, PendingOf(st.list, st.readers, s), readers[s]);
      }
    }
    forall r | r in rest ensures st.row.pos < r.pos
    {
      DeliveredPending(rest, r, PendingOf(st.list, st.readers, r.slot), st.readers[r.slot]);
    }
    PositionsCons(st.row, rest);
  }

  // ---------------------------------------------------------------- opening, proved

  /** The first read of a reader: its first pending position, if any. */
  function FirstOf(f: Factory): Option<nat>
    requires Good(f)
  {
    if Queue(f) == [] then None else Some(Queue(f)[0])
  }

  /** What the list constructor's reads leave for one reader. */
  lemma FirstIdsAt(readers: seq<Factory>, s: nat)
    requires AllGood(readers) && s < |readers|
    ensures var (ids, rs) := FirstIds(readers, |readers|);
      && ids.Ok? && AllGood(rs) && |ids.value| == |readers|
      && rs[s].rowId == readers[s].rowId && rs[s].path == readers[s].path
      && ids.value[s] == FirstOf(readers[s])
      && Queue(rs[s]) == if Queue(readers[s]) == [] then [] else Queue(readers[s])[1..]
  {
    FirstIdsSucceed(readers, |readers|);
    FirstIdsGood(readers);
    FirstIdsPops(readers, |readers|, s);
    FirstIdsTouch(readers, |readers|, s);
  }

  /** The list constructor's reads keep every reader of whole words so. */
  lemma FirstIdsGood(readers: seq<Factory>)
    requires AllGood(readers)
    ensures AllGood(FirstIds(readers, |readers|).1)
  {
    forall s | 0 <= s < |readers|
      ensures Good(FirstIds(readers, |readers|).1[s])
    {
      FirstIdsPops(readers, |readers|, s);
    }
  }

  /** The nodes the list constructor lists: one per reader with a pending
      position, at its first. */
  lemma FirstNodes(readers: seq<Factory>)
    requires AllGood(readers)
    ensures var (ids, rs) := FirstIds(readers, |readers|);
      && ids.Ok?
      && forall n :: n in Nodes(ids.value) <==> n.slot < |readers| && Queue(readers[n.slot]) != [] && n.id == Queue(readers[n.slot])[0]
  {
    FirstIdsKeepGood(readers, |readers|);
    var ids := FirstIds(readers, |readers|).0.value;
    forall n ensures n in Nodes(ids) <==> n.slot < |readers| && Queue(readers[n.slot]) != [] && n.id == Queue(readers[n.slot])[0] {
      if n.slot < |readers| {
        FirstIdsAt(readers, n.slot);
      }
    }
  }

  lemma OpenIs(readers: seq<Factory>)
    requires AllGood(readers)
    ensures var (ids, rs) := FirstIds(readers, |readers|);
      ids.Ok? && Open(readers) == Ok((SortNodes(Nodes(ids.value)), rs))
    ensures Wf(Open(readers).value.0, Open(readers).value.1)
  {
    FirstIdsKeepGood(readers, |readers|);
  }

  /** The list Read opens: one node per reader with a pending position,
      at its first, the rest still queued behind it, and the readers'
      counters untouched. */
  lemma OpenedNodes(readers: seq<Factory>)
    requires AllGood(readers)
    ensures Open(readers).Ok?
    ensures var (list, rs) := Open(readers).value;
      && |rs| == |readers|
      && (forall s :: 0 <= s < |readers| ==> rs[s].rowId == readers[s].rowId && rs[s].path == readers[s].path)
      && (forall n :: n in list <==> n.slot < |readers| && Queue(readers[n.slot]) != [] && n.id == Queue(readers[n.slot])[0])
      && Sorted(list)
      && Wf(list, rs)
  {
    OpenIs(readers);
    FirstNodes(readers);
    var (ids, rs) := FirstIds(readers, |readers|);
    var nodes := Nodes(ids.value);
    var list := SortNodes(nodes);
    forall n ensures n in list <==> n in nodes {
      assert n in list <==> n in multiset(list);
    }
    forall s | 0 <= s < |readers| ensures rs[s].rowId == readers[s].rowId && rs[s].path == readers[s].path {
      FirstIdsAt(readers, s);
    }
  }

  /** Behind each node of the list Read opens, its reader's whole queue. */
  lemma OpenedPending(readers: seq<Factory>)
    requires AllGood(readers)
    ensures Open(readers).Ok?
    ensures var (list, rs) := Open(readers).value;
      Wf(list, rs) && forall n :: n in list ==> NodePending(n, rs) == Queue(readers[n.slot])
  {
    OpenedNodes(readers);
    var (list, rs) := Open(readers).value;
    forall n | n in list ensures NodePending(n, rs) == Queue(readers[n.slot]) {
      OpenedNode(readers, n);
    }
  }

  lemma OpenedNode(readers: seq<Factory>, n: Node)
    requires AllGood(readers) && n.slot < |readers| && Queue(readers[n.slot]) != [] && n.id == Queue(readers[n.slot])[0]
    ensures Open(readers).Ok? && var rs := Open(readers).value.1;
      |rs| == |readers| && AllGood(rs) && NodePending(n, rs) == Queue(readers[n.slot])
  {
    FirstIdsSucceed(readers, |readers|);
    FirstIdsGood(readers);
    FirstIdsPops(readers, |readers|, n.slot);
    var rs := FirstIds(readers, |readers|).1;
    assert Open(readers).value.1 == rs;
    var q := Queue(readers[n.slot]);
    assert q == [q[0]] + q[1..];
  }

  /** Given readers whose queues ascend strictly and share no position,
      the list Read opens satisfies the run's invariant, and each
      reader's pending positions in it are its whole queue. */
  lemma OpenedInv(readers: seq<Factory>)
    requires AllGood(readers)
    requires forall s :: 0 <= s < |readers| ==> Increasing(Queue(readers[s]))
    requires forall s, u :: 0 <= s < |readers| && 0 <= u < |readers| && s != u ==> Apart(Queue(readers[s]), Queue(readers[u]))
    ensures Open(readers).Ok?
    ensures var (list, rs) := Open(readers).value;
      && Inv(list, rs)
      && forall s :: 0 <= s < |readers| ==> PendingOf(list, rs, s) == Queue(readers[s])
  {
    OpenedNodes(readers);
    OpenedPending(readers);
    var (list, rs) := Open(readers).value;
    InvOpened(list, rs);
    if |list| > 0 {
      SortedRest(list);
    }
    forall n, m | n in list && m in list && n != m
      ensures Apart(NodePending(n, rs), NodePending(m, rs))
    {
      if n.slot == m.slot {
        SameSlotSameNode(list, n, m);
      }
    }
    forall s | 0 <= s < |readers|
      ensures PendingOf(list, rs, s) == Queue(readers[s])
    {
      if Queue(readers[s]) != [] {
        PendingOfNode(list, rs, Node(s, Queue(readers[s])[0]));
      } else {
        assert !Listed(list, s);
      }
    }
  }

  /** Read merges: given readers whose queues ascend strictly and share
      no position, every reader delivers exactly its queue, on successive
      rows of its counter through its pooled instance, and the positions
      yielded ascend strictly. A reader with an empty queue yields
      nothing. */
  lemma ReadMerges(readers: seq<Factory>)
    requires AllGood(readers)
    requires forall s :: 0 <= s < |readers| ==> Increasing(Queue(readers[s]))
    requires forall s, u :: 0 <= s < |readers| && 0 <= u < |readers| && s != u ==> Apart(Queue(readers[s]), Queue(readers[u]))
    ensures var rows := Read(readers).0;
      && rows.Ok?
      && (forall s :: 0 <= s < |readers| ==> Delivers(Filter(rows.value, s), Queue(readers[s]), readers[s]))
      && Increasing(Positions(rows.value))
  {
    OpenedNodes(readers);
    OpenedInv(readers);
    var (list, rs) := Open(readers).value;
    RunMerges(list, rs);
    var rows := Run(list, rs).0.value;
    assert Read(readers).0 == Ok(rows);
    forall s | 0 <= s < |readers|
      ensures Delivers(Filter(rows, s), Queue(readers[s]), readers[s])
    {
      assert Delivers(Filter(rows, s), PendingOf(list, rs, s), rs[s]);
    }
  }

  /** Where no reader's queue is empty, the list as written and as
      intended are the same, and so are the two reads. */
  lemma AsWrittenAgrees(readers: seq<Factory>)
    requires AllGood(readers) && |readers| > 0
    requires forall s :: 0 <= s < |readers| ==> Queue(readers[s]) != []
    ensures ReadAsWritten(readers) == Read(readers)
  {
    FirstIdsKeepGood(readers, |readers|);
    var ids := FirstIds(readers, |readers|).0.value;
    NodesAgree(ids);
    assert OpenAsWritten(readers) == Open(readers);
  }

  lemma {:induction false} NodesAgree(ids: seq<Option<nat>>)
    requires forall s :: 0 <= s < |ids| ==> ids[s].Some?
    ensures Nodes(ids) == NodesAsWritten(ids)
  {
    if |ids| > 0 {
      var s := |ids| - 1;
      NodesAgree(ids[..s]);
      assert NodesAsWritten(ids) == NodesAsWritten(ids[..s]) + [NodesAsWritten(ids)[s]];
    }
  }

  /** The run over a single node whose reader has nothing more queued: the
      one pooled row at the node's position, then the end. */
  lemma RunSingle(node: Node, readers: seq<Factory>)
    requires Wf([node], readers) && Queue(readers[node.slot]) == []
    ensures Run([node], readers).0 == Ok([Row(node.slot, Pooled(readers[node.slot].path), readers[node.slot].rowId + 1, node.id)])
  {
    var list := [node];
    assert Settle(list) == list;
    StepMoves(list, readers);
    RunStep(list, readers);
    var st := Step(list, readers);
    MovedList(list, readers, st.list, st.readers);
    assert Settle(list)[1..] == [];
    assert st.list == [];
    assert Run(st.list, st.readers).0 == Ok([]);
    assert st.row == Row(node.slot, Pooled(readers[node.slot].path), readers[node.slot].rowId + 1, node.id);
    assert [st.row] + [] == [st.row];
  }

  /** A reader with no position at all: as written it still yields one
      pooled row, at the sentinel position; as intended it yields none. */
  lemma EmptyStreamYieldsPhantomRow(f: Factory)
    requires Good(f) && Queue(f) == []
    ensures ReadAsWritten([f]).0 == Ok([Row(0, Pooled(f.path), f.rowId + 1, Sentinel)])
    ensures Read([f]).0 == Ok([])
  {
    PhantomRow(f);
    NoFirstId(f);
    var readers := [f];
    var (ids, rs) := FirstIds(readers, 1);
    assert Nodes(ids.value) == [];
  }

  /** The list constructor's read finds no position for such a reader
      and leaves it where it was. */
  lemma NoFirstId(f: Factory)
    requires Good(f) && Queue(f) == []
    ensures FirstIds([f], 1).0 == Ok([None])
    ensures var g := FirstIds([f], 1).1[0];
      Good(g) && Queue(g) == [] && g.rowId == f.rowId && g.path == f.path
  {
    var readers := [f];
    assert readers[0] == f;
    assert AllGood(readers);
    FirstIdsSucceed(readers, 1);
    FirstIdsPops(readers, 1, 0);
    FirstIdsTouch(readers, 1, 0);
    var (ids, rs) := FirstIds(readers, 1);
    assert ids.value[0] == None;
    assert ids.value == [None];
  }

  lemma PhantomRow(f: Factory)
    requires Good(f) && Queue(f) == []
    ensures ReadAsWritten([f]).0 == Ok([Row(0, Pooled(f.path), f.rowId + 1, Sentinel)])
  {
    var readers := [f];
    NoFirstId(f);
    PhantomOpen(f);
    var rs := FirstIds(readers, 1).1;
    PhantomRun(rs, f);
    assert ReadAsWritten(readers).0 == Run([Node(0, Sentinel)], rs).0;
  }

  lemma {:induction false} PhantomRun(rs: seq<Factory>, f: Factory)
    requires |rs| == 1 && AllValid(rs) && Good(rs[0]) && Queue(rs[0]) == []
    requires rs[0].path == f.path && rs[0].rowId == f.rowId
    ensures Run([Node(0, Sentinel)], rs).0 == Ok([Row(0, Pooled(f.path), f.rowId + 1, Sentinel)])
  {
    RunSingle(Node(0, Sentinel), rs);
  }

  lemma PhantomOpen(f: Factory)
    requires Good(f) && Queue(f) == []
    ensures OpenAsWritten([f]) == Ok(([Node(0, Sentinel)], FirstIds([f], 1).1))
  {
    var readers := [f];
    NoFirstId(f);
    var (ids, rs) := FirstIds(readers, 1);
    assert NodesAsWritten(ids.value) == [Node(0, Sentinel)];
    assert SortNodes([Node(0, Sentinel)]) == [Node(0, Sentinel)];
  }

  /** A request none of whose types has a reader: as written the list
      constructor leaves no head and the read fails; as intended it
      yields nothing. */
  lemma NoReaderFails()
    ensures ReadAsWritten([]).0 == Err(NullReference)
    ensures Read([]).0 == Ok([])
  {
  }

  /** Invoke with no reader: as written it fails on the empty list; as
      intended it calls nothing. */
  lemma NoReaderFailsInvoke()
    ensures InvokeAsWritten([]).0 == Err(NullReference)
    ensures Invoke([]).0 == Ok([])
  {
  }

  /** A reader with no position at all: as written its handler is called
      once, with the pooled instance; as intended it is never called. */
  lemma EmptyStreamCallsHandlerOnce(f: Factory)
    requires Good(f) && Queue(f) == []
    ensures InvokeAsWritten([f]).0 == Ok([Call(f.handler, Pooled(f.path))])
    ensures Invoke([f]).0 == Ok([])
  {
    EmptyStreamYieldsPhantomRow(f);
    InvokeAsWrittenCallsRead([f]);
    InvokeCallsRead([f]);
    var row := Row(0, Pooled(f.path), f.rowId + 1, Sentinel);
    assert Handlers([f])[0] == f.handler;
    assert Calls([row], Handlers([f])) == [Call(f.handler, Pooled(f.path))];
  }

  /** Where no reader's queue is empty, Invoke as written and as intended
      are the same. */
  lemma InvokeAsWrittenAgrees(readers: seq<Factory>)
    requires AllGood(readers) && |readers| > 0
    requires forall s :: 0 <= s < |readers| ==> Queue(readers[s]) != []
    ensures InvokeAsWritten(readers) == Invoke(readers)
  {
    AsWrittenAgrees(readers);
    InvokeAsWrittenCallsRead(readers);
    InvokeCallsRead(readers);
  }

  // ---------------------------------------------------------------- sequence files with a torn last word

  /** Some node of the list stands for a reader whose sequence file ends
      in a fragment of a word its reads have not yet reached. */
  ghost predicate AnyDirty(list: seq<Node>, readers: seq<Factory>)
    requires Over(list, readers)
  {
    exists n :: n in list && Dirty(readers[n.slot])
  }

  /** A step keeps every reader in a reachable state, fails only with the
      block copy's argument fault, and, when it goes on, still holds a
      node for a reader whose torn word lies ahead. */
  lemma StepReaches(list: seq<Node>, readers: seq<Factory>)
    requires Over(list, readers) && |list| > 0 && AllReachable(readers)
    ensures var st := Step(list, readers);
      && AllReachable(st.readers)
      && (st.next.Err? ==> st.next.fault == ArgumentError)
      && (st.next.Ok? ==> Over(st.list, st.readers))
      && (st.next.Ok? && AnyDirty(list, readers) ==> AnyDirty(st.list, st.readers))
  {
    var st := Step(list, readers);
    var t := Settle(list)[0].slot;
    HeadReaches(list, readers);
    StepDrains(list, readers);
    if st.next.Ok? && AnyDirty(list, readers) {
      StepKeepsDirty(list, readers);
    }
  }

  /** The head's reader stays reachable, and its read fails only with the
      argument fault. */
  lemma HeadReaches(list: seq<Node>, readers: seq<Factory>)
    requires Over(list, readers) && |list| > 0 && AllReachable(readers)
    ensures var st := Step(list, readers);
      && AllReachable(st.readers)
      && (st.next.Err? ==> st.next.fault == ArgumentError)
  {
    var head := Settle(list)[0];
    assert head in multiset(list);
    var f1 := ReadPooled(readers[head.slot]).1;
    NextIdReaches(f1);
  }

  /** A step that goes on keeps a node for a reader whose torn word lies
      ahead. */
  lemma StepKeepsDirty(list: seq<Node>, readers: seq<Factory>)
    requires Over(list, readers) && |list| > 0 && AllReachable(readers) && AnyDirty(list, readers)
    requires Step(list, readers).next.Ok? && Over(Step(list, readers).list, Step(list, readers).readers)
    ensures AnyDirty(Step(list, readers).list, Step(list, readers).readers)
  {
    var st := Step(list, readers);
    SettledParts(list);
    var head := Settle(list)[0];
    var t := head.slot;
    var n :| n in list && Dirty(readers[n.slot]);
    if n == head {
      NextIdReaches(ReadPooled(readers[t]).1);
      var x := st.next.value.value;
      assert Node(t, x) in st.list && Dirty(st.readers[t]);
    } else {
      assert n in st.list && st.readers[n.slot] == readers[n.slot];
    }
  }

  /** A run over a list holding a reader whose sequence file ends in a
      torn word fails, with the block copy's argument fault, once that
      reader's reads reach the short block. */
  lemma {:induction false} RunFailsOnDirty(list: seq<Node>, readers: seq<Factory>)
    requires Over(list, readers) && AllReachable(readers) && AnyDirty(list, readers)
    ensures Run(list, readers).0 == Err(ArgumentError)
    decreases Drain(list, readers)
  {
    var st := Step(list, readers);
    StepReaches(list, readers);
    if st.next.Ok? {
      StepDrains(list, readers);
      RunFailsOnDirty(st.list, st.readers);
    }
  }

  /** Opening over readers one of which has a torn last word either fails
      with the argument fault or lists that reader, still ahead of its
      torn word. */
  lemma OpenedDirty(readers: seq<Factory>, d: nat)
    requires AllValid(readers) && AllReachable(readers) && d < |readers| && Dirty(readers[d])
    ensures Open(readers).Err? ==> Open(readers).fault == ArgumentError
    ensures Open(readers).Ok? ==> var (list, rs) := Open(readers).value;
      AllReachable(rs) && AnyDirty(list, rs)
    ensures OpenAsWritten(readers).Err? ==> OpenAsWritten(readers).fault == ArgumentError
    ensures OpenAsWritten(readers).Ok? ==> var (list, rs) := OpenAsWritten(readers).value;
      AllReachable(rs) && AnyDirty(list, rs)
  {
    FirstIdsReach(readers);
    FirstIdsFault(readers, |readers|);
    FirstIdsSlot(readers, |readers|, d);
    var (ids, rs) := FirstIds(readers, |readers|);
    if ids.Ok? {
      var node := Node(d, ids.value[d].value);
      assert node in Nodes(ids.value);
      assert node in multiset(SortNodes(Nodes(ids.value)));
      assert NodesAsWritten(ids.value)[d] == node;
      assert node in multiset(SortNodes(NodesAsWritten(ids.value)));
    }
  }

  /** A read over readers one of which has a sequence file that ends in a
      torn word fails with the block copy's argument fault, in both
      builds, and so does Invoke. */
  lemma ReadFailsOnDirty(readers: seq<Factory>, d: nat)
    requires AllValid(readers) && AllReachable(readers) && d < |readers| && Dirty(readers[d])
    ensures Read(readers).0 == Err(ArgumentError)
    ensures ReadAsWritten(readers).0 == Err(ArgumentError)
    ensures Invoke(readers).0 == Err(ArgumentError)
    ensures InvokeAsWritten(readers).0 == Err(ArgumentError)
  {
    OpenedDirty(readers, d);
    if Open(readers).Ok? {
      var (list, rs) := Open(readers).value;
      RunFailsOnDirty(list, rs);
    }
    if OpenAsWritten(readers).Ok? {
      var (list, rs) := OpenAsWritten(readers).value;
      RunFailsOnDirty(list, rs);
    }
    InvokeCallsRead(readers);
    InvokeAsWrittenCallsRead(readers);
  }

  /** Such a run yields rows, then stops on the argument fault. */
  lemma DirtyDelivers(list: seq<Node>, readers: seq<Factory>)
    requires Over(list, readers) && AllReachable(readers) && AnyDirty(list, readers)
    ensures Delivered(list, readers).1 == Some(ArgumentError)
    ensures |Delivered(list, readers).0| > 0
  {
    RunFailsOnDirty(list, readers);
    RunDelivers(list, readers);
  }
}

=== FILE: miscreader.dfy ===
/** MiscReader: the column reader chosen from a property's type, reading
    one value per call from the column file `<path><Name>.col`. */
module MiscReader {
  import opened Base
  import opened Streams
  import opened Schema
  import DecimalReader

  /** A reader registered for an exact property type: the value it reads
      at a position of the column and the number of bytes it consumes. */
  type CustomReader = (seq<byte>, nat) -> (Result<Value>, nat)
  type CustomReaders = map<FieldType, CustomReader>

  /** The decoder CreateReader picks for a column. */
  datatype Decoder =
    | NoOp                                   // no column stream
    | CustomDec(read: CustomReader)
    | ScalarDec(scalar: Scalar)              // every scalar but decimal
    | DecimalDec(reader: DecimalReader.Reader)
    | NullableDec(scalar: Scalar)
    | EnumDec(kind: IntKind)
    | NullableEnumDec(kind: IntKind)
    | TextDec
    | ArrayDec(elementName: TypeName)
    | ReferenceDec(built: Value)             // what the nested reader's ReadNew builds

  /** A column reader: the binary reader's stream and the decoder. */
  datatype ColumnReader = ColumnReader(stream: Stream, decoder: Decoder) {
    ghost predicate Valid() { stream.Valid() && (decoder.DecimalDec? ==> decoder.reader.Valid()) }
  }

  /** CreateStream: the column file `<path><Name>.col`, opened for
      reading only if it exists. */
  function CreateStream(files: Files, path: string, p: Property): (r: Result<Stream>)
    ensures r.Ok? <==> path + p.name + ".col" in files
    ensures r.Ok? ==> r.value == Streams.Open(path + p.name + ".col", files[path + p.name + ".col"])
    ensures r.Err? ==> r.fault == FileNotFound
  {
    OpenExisting(files, path + p.name + ".col")
  }

  /** Whether CreateReader accepts a property type (given a stream): a
      custom reader, any scalar or nullable scalar, a string, an enum or
      nullable enum of byte, short or int, or any reference type. */
  predicate Readable(custom: CustomReaders, t: FieldType)
  {
    t in custom || !(t.OtherValue? || ((t.Enum? || t.NullableEnum?) && !t.underlying.EnumWidth()))
  }

  /** CreateReader: the decoder for a property, and the files the nested
      type readers it builds create (their sequence files). With no
      stream nothing is read; a custom reader for the exact type comes
      first; an unsupported enum width, plain or nullable, is rejected
      with the enum message; other value types with a plain exception.
      A decimal column gets a DecimalReader on the same stream, which
      reads its first block at once. */
  function CreateReader(custom: CustomReaders, path: string, p: Property, stream: Option<Stream>): (out: (seq<string>, Result<Decoder>))
    requires stream.Some? ==> stream.value.Valid()
    ensures stream.None? ==> out == ([], Ok(NoOp))
    ensures stream.Some? ==> (out.1.Ok? <==> Readable(custom, p.ftype))
    ensures stream.Some? && p.ftype in custom ==> out == ([], Ok(CustomDec(custom[p.ftype])))
    ensures out.1.Err? && (p.ftype.Enum? || p.ftype.NullableEnum?) ==> out.1.fault == NotSupported(true)
    ensures out.1.Err? && p.ftype.OtherValue? ==> out.1.fault == UnsupportedType
    ensures out.1.Ok? && out.1.value.DecimalDec? ==> out.1.value.reader == DecimalReader.New(stream.value)
  {
    if stream.None? then ([], Ok(NoOp))
    else
      var t := p.ftype;
      var nested := [path + p.name + "." + "sequence.log"];
      if t in custom then ([], Ok(CustomDec(custom[t])))
      else match t
        case Plain(s) => if s == Decimal then ([], Ok(DecimalDec(DecimalReader.New(stream.value)))) else ([], Ok(ScalarDec(s)))
        case Nullable(s) => ([], Ok(NullableDec(s)))
        case Str => ([], Ok(TextDec))
        case Enum(k) => if k.EnumWidth() then ([], Ok(EnumDec(k))) else ([], Err(NotSupported(true)))
        case NullableEnum(k) => if k.EnumWidth() then ([], Ok(NullableEnumDec(k))) else ([], Err(NotSupported(true)))
        case ArrayOf(c) => (nested, Ok(ArrayDec(c.fullName)))
        case ListOf(c) => (nested, Ok(ReferenceDec(Many([]))))
        case Ref(c) => (nested, Ok(ReferenceDec(Fresh(c.fullName))))
        case OtherValue(_) => ([], Err(UnsupportedType))
  }

  /** new MiscReader: the stream is opened before the decoder is chosen,
      so a missing column file fails the constructor and the no-stream
      decoder is never the one built. */
  function New(files: Files, custom: CustomReaders, path: string, p: Property): (out: (seq<string>, Result<ColumnReader>))
    ensures path + p.name + ".col" !in files ==> out.1 == Err(FileNotFound)
    ensures out.1.Ok? ==> out.1.value.Valid() && !out.1.value.decoder.NoOp?
    ensures out.1.Ok? <==> path + p.name + ".col" in files && Readable(custom, p.ftype)
  {
    var s := CreateStream(files, path, p);
    if s.Err? then ([], Err(s.fault))
    else
      var (touched, d) := CreateReader(custom, path, p, Some(s.value));
      (touched, if d.Err? then Err(d.fault) else Ok(ColumnReader(s.value, d.value)))
  }

  // ---------------------------------------------------------------- BinaryReader

  /** A fixed-size read: exactly `n` bytes, or end-of-stream (the reader
      has then consumed what was left). */
  function ReadExact(s: Stream, n: nat): (out: (Result<seq<byte>>, Stream))
    requires s.Valid()
    ensures out.1.Valid() && out.1.data == s.data && out.1.path == s.path
    ensures out.0.Ok? <==> n <= s.Remaining()
    ensures out.0.Ok? ==> out.0.value == s.data[s.pos..s.pos + n] && out.1.pos == s.pos + n
    ensures out.0.Err? ==> out.0.fault == EndOfStream
  {
    var (bs, s') := ReadUpTo(s, n);
    if |bs| < n then (Err(EndOfStream), s') else (Ok(bs), s')
  }

  /** ReadBoolean: one byte, true when not zero. */
  function ReadBool(s: Stream): (out: (Result<bool>, Stream))
    requires s.Valid()
    ensures out.1.Valid() && out.1.data == s.data && out.1.path == s.path
    ensures out.0.Ok? <==> s.pos < |s.data|
    ensures out.0.Ok? ==> out.0.value == (s.data[s.pos] != 0) && out.1.pos == s.pos + 1
  {
    var (bs, s') := ReadExact(s, 1);
    if bs.Err? then (Err(bs.fault), s') else (Ok(bs.value[0] != 0), s')
  }

  /** An integer of kind `k`, little-endian, sign-extended when signed. */
  function ReadInt(s: Stream, k: IntKind): (out: (Result<int>, Stream))
    requires s.Valid()
    ensures out.1.Valid() && out.1.data == s.data && out.1.path == s.path
    ensures out.0.Ok? <==> k.Width() <= s.Remaining()
    ensures out.0.Ok? ==> out.1.pos == s.pos + k.Width()
  {
    var (bs, s') := ReadExact(s, k.Width());
    if bs.Err? then (Err(bs.fault), s')
    else
      var u := DecodeLE(bs.value);
      (Ok(if k.Signed() then ToSigned(u, k.Width()) else u), s')
  }

  /** ReadString: a 7-bit length prefix, then that many bytes. A length
      that comes out negative in 32 bits is an I/O error. */
  function ReadText(s: Stream): (out: (Result<seq<byte>>, Stream))
    requires s.Valid()
    ensures out.1.Valid() && out.1.data == s.data && out.1.path == s.path
    ensures out.0.Ok? ==> s.pos < out.1.pos
    ensures out.0.Err? ==> out.0.fault in {FormatError, EndOfStream, IOError}
  {
    var prefix := Read7Bit(s.data, s.pos, 0, 0);
    if prefix.Err? then (Err(prefix.fault), s.(pos := |s.data|))
    else
      var (raw, p) := prefix.value;
      var n := AsInt32(raw);
      if n < 0 then (Err(IOError), s.(pos := p))
      else ReadExact(s.(pos := p), n)
  }

  /** The flags word of .NET Framework's decimal constructor, which
      BinaryReader.ReadDecimal takes from bytes 12..16 little-endian: only
      the sign bit and a scale of at most 28 in bits 16..23 may be set.
      ReadDecimal rethrows the constructor's rejection of any other word as
      an IOException. */
  predicate DecimalFlags(w: nat)
  {
    w % 0x1_0000 == 0 && (w / 0x1_0000) % 0x100 <= 28 && (w / 0x100_0000) % 0x80 == 0
  }

  /** One scalar, as the non-nullable branch of its type reads it. The
      Guid constructor rejects a short read; DateTime and DateTimeOffset
      reject tick counts and offsets out of their ranges. A decimal here
      is BinaryReader.ReadDecimal, assembling the value from its own
      16-byte layout and rejecting a word in the flags place that is not
      a flags word. */
  function ReadScalar(s: Stream, sc: Scalar): (out: (Result<Value>, Stream))
    requires s.Valid()
    ensures out.1.Valid() && out.1.data == s.data && out.1.path == s.path
  {
    match sc
    case Bool =>
      var (b, s') := ReadBool(s);
      (if b.Err? then Err(b.fault) else Ok(BoolV(b.value)), s')
    case Int(k) =>
      var (i, s') := ReadInt(s, k);
      (if i.Err? then Err(i.fault) else Ok(IntV(i.value)), s')
    case Guid =>
      var (bs, s') := ReadUpTo(s, 16);
      (if |bs| != 16 then Err(ArgumentError) else Ok(Raw(bs)), s')
    case Decimal =>
      var (bs, s') := ReadExact(s, 16);
      (if bs.Err? then Err(bs.fault)
       else if DecimalFlags(DecodeLE(bs.value[12..])) then Ok(BinaryDecimal(bs.value))
       else Err(IOError), s')
    case Double =>
      var (bs, s') := ReadExact(s, 8);
      (if bs.Err? then Err(bs.fault) else Ok(Raw(bs.value)), s')
    case DateTime =>
      var (t, s') := ReadInt(s, I64);
      (if t.Err? then Err(t.fault) else if 0 <= t.value <= MaxTicks then Ok(Ticks(t.value)) else Err(ArgumentError), s')
    case DateTimeOffset =>
      var (t, s1) := ReadInt(s, I64);
      if t.Err? then (Err(t.fault), s1)
      else
        var (o, s2) := ReadInt(s1, I64);
        (if o.Err? then Err(o.fault) else if ValidOffset(t.value, o.value) then Ok(Offset(t.value, o.value)) else Err(ArgumentError), s2)
  }

  /** After a presence flag: null when it is false, otherwise `then`. */
  function Flagged(s: Stream, then_: Stream -> (Result<Value>, Stream)): (out: (Result<Value>, Stream))
    requires s.Valid()
    requires forall s1: Stream :: s1.Valid() && s1.data == s.data && s1.path == s.path ==>
      then_(s1).1.Valid() && then_(s1).1.data == s.data && then_(s1).1.path == s.path
    ensures out.1.Valid() && out.1.data == s.data && out.1.path == s.path
  {
    var (flag, s') := ReadBool(s);
    if flag.Err? then (Err(flag.fault), s')
    else if !flag.value then (Ok(Null), s')
    else then_(s')
  }

  // ---------------------------------------------------------------- reading

  /** Read(o): the next value of the column for object `o`'s property,
      whose current value is `current`. */
  function Read(r: ColumnReader, current: Value): (out: (Result<Value>, ColumnReader))
    requires r.Valid()
    ensures out.1.Valid() && out.1.stream.data == r.stream.data && out.1.stream.path == r.stream.path
    ensures r.decoder.NoOp? ==> out == (Ok(current), r)
    ensures r.decoder.NullableEnumDec? && out.0.Ok? ==> out.0.value == Null
  {
    var s := r.stream;
    match r.decoder
    case NoOp => (Ok(current), r)
    case CustomDec(f) =>
      var (v, n) := f(s.data, s.pos);
      (v, r.(stream := s.(pos := s.pos + Min(n, s.Remaining()))))
    case ScalarDec(sc) =>
      var (v, s') := ReadScalar(s, sc);
      (v, r.(stream := s'))
    case DecimalDec(d) =>
      var (bs, d') := DecimalReader.ReadDecimal(d, 0);
      (Ok(Raw(bs)), r.(decoder := DecimalDec(d')))
    case NullableDec(sc) =>
      var (flag, s1) := ReadBool(s);
      if flag.Err? then (Err(flag.fault), r.(stream := s1))
      else if !flag.value then (Ok(Null), r.(stream := s1))
      else
        var (v, s2) := ReadScalar(s1, sc);
        (v, r.(stream := s2))
    case EnumDec(k) =>
      var (i, s') := ReadInt(s, k);
      (if i.Err? then Err(i.fault) else Ok(IntV(i.value)), r.(stream := s'))
    case NullableEnumDec(k) =>
      // The boxed integer is handed to a Nullable<E> property, which is
      // no enum or primitive: reflection refuses it.
      var (flag, s1) := ReadBool(s);
      if flag.Err? then (Err(flag.fault), r.(stream := s1))
      else if !flag.value then (Ok(Null), r.(stream := s1))
      else
        var (i, s2) := ReadInt(s1, k);
        (if i.Err? then Err(i.fault) else Err(ArgumentError), r.(stream := s2))
    case TextDec =>
      var (bs, s') := ReadText(s);
      (if bs.Err? then Err(bs.fault) else Ok(Text(bs.value)), r.(stream := s'))
    case ArrayDec(name) =>
      var (flag, s1) := ReadBool(s);
      if flag.Err? then (Err(flag.fault), r.(stream := s1))
      else if !flag.value then (Ok(Null), r.(stream := s1))
      else
        var (n, s2) := ReadInt(s1, U16);
        (if n.Err? then Err(n.fault) else Ok(Many(seq(n.value, _ => Fresh(name)))), r.(stream := s2))
    case ReferenceDec(built) =>
      var (flag, s1) := ReadBool(s);
      (if flag.Err? then Err(flag.fault) else if flag.value then Ok(built) else Ok(Null), r.(stream := s1))
  }

  /** Dispose: the binary reader, then the stream. */
  function Dispose(r: ColumnReader): seq<Release>
  {
    [CloseWrapper(r.stream.path), CloseStream(r.stream.path)]
  }
}

=== FILE: primitivereader.dfy ===
/** PrimitiveReader: a boolean column read one byte at a time, and the
    bootstrapper that stands in for it until the property is first read. */
module PrimitiveReader {
  import opened Base
  import opened Streams

  datatype Reader = Reader(stream: Stream) {
    ghost predicate Valid() { stream.Valid() }
  }

  /** The reader wraps the stream it is given and reads nothing yet. */
  function New(s: Stream): (r: Reader)
    requires s.Valid()
    ensures r.Valid() && r.stream == s
  {
    Reader(s)
  }

  /** ReadBool: one byte, true when it is not zero; at the end of the
      stream the read fails with end-of-stream and nothing moves. */
  function ReadBool(r: Reader): (out: (Result<bool>, Reader))
    requires r.Valid()
    ensures out.1.Valid() && out.1.stream.data == r.stream.data && out.1.stream.path == r.stream.path
    ensures out.0.Ok? <==> r.stream.pos < |r.stream.data|
    ensures out.0.Ok? ==> out.0.value == (r.stream.data[r.stream.pos] != 0) && out.1.stream.pos == r.stream.pos + 1
    ensures out.0.Err? ==> out.0.fault == EndOfStream && out.1 == r
  {
    var (b, s') := ReadUpTo(r.stream, 1);
    if |b| == 0 then (Err(EndOfStream), r)
    else (Ok(b[0] != 0), Reader(s'))
  }

  /** Dispose disposes the binary reader, which closes the stream, and
      then disposes the stream again through the reader's BaseStream. On
      .NET Framework a disposed binary reader has dropped its stream, so
      BaseStream is null there and the second call throws a null
      reference. */
  function Dispose(r: Reader): Disposal
  {
    Disposal([CloseWrapper(r.stream.path)], Some(NullReference))
  }

  /** The booleans a byte string holds, one per byte. */
  function Bools(bs: seq<byte>): (vs: seq<bool>)
    ensures |vs| == |bs| && forall i :: 0 <= i < |bs| ==> vs[i] == (bs[i] != 0)
  {
    seq(|bs|, i requires 0 <= i < |bs| => bs[i] != 0)
  }

  /** `k` reads in turn: the values delivered until the first fault, and
      that fault if one happened. */
  function ReadMany(r: Reader, k: nat): (out: (seq<bool>, Option<Fault>, Reader))
    requires r.Valid()
    ensures out.2.Valid() && out.2.stream.data == r.stream.data
    decreases k
  {
    if k == 0 then ([], None, r)
    else
      var (v, r') := ReadBool(r);
      match v
      case Err(f) => ([], Some(f), r')
      case Ok(b) =>
        var (rest, f, r'') := ReadMany(r', k - 1);
        ([b] + rest, f, r'')
  }

  /** Each read consumes exactly one byte: `k` reads from a fresh reader
      deliver the first `k` bytes as booleans, or every byte and then
      end-of-stream when the column holds fewer. */
  lemma ReadManyFrom(r: Reader, k: nat)
    requires r.Valid()
    ensures var (vs, f, r') := ReadMany(r, k);
      var n := Min(k, r.stream.Remaining());
      && vs == Bools(r.stream.data[r.stream.pos..r.stream.pos + n])
      && r'.stream.pos == r.stream.pos + n
      && (f.Some? <==> k > r.stream.Remaining())
      && (f.Some? ==> f.value == EndOfStream)
  {
    ReadManyValues(r, k);
    ReadManyStops(r, k);
    assert Ahead(r, k) == r.stream.data[r.stream.pos..r.stream.pos + Min(k, r.stream.Remaining())];
  }

  lemma {:induction false} ReadManyValues(r: Reader, k: nat)
    requires r.Valid()
    ensures ReadMany(r, k).0 == Bools(Ahead(r, k))
    decreases k
  {
    if k > 0 && r.stream.pos < |r.stream.data| {
      ReadManyStep(r, k);
      ReadManyValues(ReadBool(r).1, k - 1);
      AheadStep(r, k);
    }
  }

  /** The bytes the next `k` reads will consume. */
  ghost function Ahead(r: Reader, k: nat): seq<byte>
    requires r.Valid()
  {
    r.stream.data[r.stream.pos..r.stream.pos + Min(k, r.stream.Remaining())]
  }

  lemma AheadStep(r: Reader, k: nat)
    requires r.Valid() && k > 0 && r.stream.pos < |r.stream.data|
    ensures Bools(Ahead(r, k)) == [r.stream.data[r.stream.pos] != 0] + Bools(Ahead(ReadBool(r).1, k - 1))
  {
    var d, p, n := r.stream.data, r.stream.pos, Min(k, r.stream.Remaining());
    assert Ahead(ReadBool(r).1, k - 1) == d[p + 1..p + n];
    BoolsSlice(d, p, p + n);
  }

  lemma {:induction false} ReadManyStops(r: Reader, k: nat)
    requires r.Valid()
    ensures var (_, f, r') := ReadMany(r, k);
      && r'.stream.pos == r.stream.pos + Min(k, r.stream.Remaining())
      && (f.Some? <==> k > r.stream.Remaining())
      && (f.Some? ==> f.value == EndOfStream)
    decreases k
  {
    if k > 0 && r.stream.pos < |r.stream.data| {
      ReadManyStep(r, k);
      ReadManyStops(ReadBool(r).1, k - 1);
    }
  }

  /** One successful read followed by the remaining `k - 1`. */
  lemma ReadManyStep(r: Reader, k: nat)
    requires r.Valid() && k > 0 && r.stream.pos < |r.stream.data|
    ensures var r1 := ReadBool(r).1;
      && r1.Valid() && r1.stream.data == r.stream.data && r1.stream.pos == r.stream.pos + 1
      && var (rest, f, r2) := ReadMany(r1, k - 1);
      ReadMany(r, k) == ([r.stream.data[r.stream.pos] != 0] + rest, f, r2)
  {
  }

  lemma BoolsSlice(d: seq<byte>, p: nat, m: nat)
    requires p < m <= |d|
    ensures Bools(d[p..m]) == [d[p] != 0] + Bools(d[p + 1..m])
  {
    assert d[p..m] == [d[p]] + d[p + 1..m];
  }

  /** The proxy's field for a boolean property: the bootstrapper until
      the first read, the real reader from then on. */
  datatype Slot = Boot | Real(reader: Reader) {
    ghost predicate Valid() { Real? ==> reader.Valid() }
  }

  /** A read through the slot. The bootstrapper asks for the column
      stream (which can fail, leaving the slot as it was), builds the
      reader, patches the slot with it and returns its first value;
      later reads go straight to the real reader. */
  function ReadSlot(slot: Slot, provide: Result<Stream>): (out: (Result<bool>, Slot))
    requires slot.Valid() && (provide.Ok? ==> provide.value.Valid())
    ensures out.1.Valid()
    ensures slot.Boot? && provide.Err? ==> out == (Err(provide.fault), Boot)
    ensures slot.Boot? && provide.Ok? ==> out.1.Real? && out == (ReadBool(New(provide.value)).0, Real(ReadBool(New(provide.value)).1))
    ensures slot.Real? ==> out.1.Real? && (out.0, out.1.reader) == ReadBool(slot.reader)
  {
    match slot
    case Boot =>
      if provide.Err? then (Err(provide.fault), Boot)
      else
        var (v, r') := ReadBool(New(provide.value));
        (v, Real(r'))
    case Real(r) =>
      var (v, r') := ReadBool(r);
      (v, Real(r'))
  }

  /** The bootstrapper's Dispose: the real reader only if it was built. */
  function DisposeSlot(slot: Slot): (d: Disposal)
    ensures slot.Boot? <==> d.fault.None?
    ensures slot.Boot? ==> d.released == []
    ensures slot.Real? ==> d.fault == Some(NullReference) && d.released == [CloseWrapper(slot.reader.stream.path)]
  {
    match slot
    case Boot => Releasing([])
    case Real(r) => Dispose(r)
  }

  /** `k` reads through the slot. */
  function ReadSlotMany(slot: Slot, provide: Result<Stream>, k: nat): (out: (seq<bool>, Option<Fault>, Slot))
    requires slot.Valid() && (provide.Ok? ==> provide.value.Valid())
    ensures out.2.Valid()
    decreases k
  {
    if k == 0 then ([], None, slot)
    else
      var (v, slot') := ReadSlot(slot, provide);
      match v
      case Err(f) => ([], Some(f), slot')
      case Ok(b) =>
        var (rest, f, slot'') := ReadSlotMany(slot', provide, k - 1);
        ([b] + rest, f, slot'')
  }

  /** The bootstrapper is invisible: once the stream is provided, `k`
      reads through a fresh slot deliver what `k` reads of a reader
      over that stream deliver. */
  lemma {:induction false} SlotReadsLikeReader(slot: Slot, provide: Result<Stream>, k: nat)
    requires slot.Valid() && provide.Ok? && provide.value.Valid()
    ensures var r := if slot.Real? then slot.reader else New(provide.value);
      && ReadSlotMany(slot, provide, k).0 == ReadMany(r, k).0
      && ReadSlotMany(slot, provide, k).1 == ReadMany(r, k).1
    decreases k
  {
    if k > 0 {
      var (v, slot') := ReadSlot(slot, provide);
      if v.Ok? {
        SlotReadsLikeReader(slot', provide, k - 1);
      }
    }
  }
}

=== FILE: registry.dfy ===
/** The store's type registry, `types.idx`: one entry per registered event
    type, its 16-bit id (BinaryWriter.Write(ushort)) followed by its full
    name (BinaryWriter.Write(string): a 7-bit length prefix, then the
    bytes). EventfulFileSystemWriter appends entries; both its constructor
    and EventfulFileSystemReader's load them back into a dictionary from
    name to id. */
module Registry {
  import opened Base
  import opened Streams
  import opened Schema
  import MiscReader
  import Codec

  /** A type id: a ushort. */
  type Id = i: nat | i < 0x1_0000

  /** The loaded dictionary: each registered name and its id. */
  type Known = map<TypeName, Id>

  /** One registry entry. */
  function Entry(id: Id, name: TypeName): (bs: seq<byte>)
    ensures |bs| == 2 + |Encode7Bit(|name|)| + |name|
  {
    assert Pow256(2) == TwoTo16;
    EncodeLE(id, 2) + Encode7Bit(|name|) + name
  }

  /** The constructors' loop: until the position reaches the length, a
      ReadUInt16, a ReadString and Dictionary.Add of the pair, which fails
      on a name already loaded. A file that ends inside an entry fails
      with the read that ran out. */
  function LoadFrom(s: Stream, known: Known): (r: Result<Known>)
    requires s.Valid()
    ensures r.Ok? ==> known.Keys <= r.value.Keys && forall n :: n in known ==> r.value[n] == known[n]
    ensures r.Err? ==> r.fault in {EndOfStream, FormatError, IOError, DuplicateKey}
    decreases s.Remaining()
  {
    if s.pos == |s.data| then Ok(known)
    else
      var (id, s1) := MiscReader.ReadExact(s, 2);
      if id.Err? then Err(id.fault)
      else
        var (name, s2) := MiscReader.ReadText(s1);
        if name.Err? then Err(name.fault)
        else if name.value in known then Err(DuplicateKey)
        else
          assert Pow256(2) == TwoTo16;
          LoadFrom(s2, known[name.value := DecodeLE(id.value)])
  }

  /** Loading a registry file opened at its start. */
  function Load(s: Stream): (r: Result<Known>)
    requires s.Valid()
  {
    LoadFrom(s, map[])
  }

  // ---------------------------------------------------------------- registries of entries

  /** Names short enough for BinaryWriter's non-negative `int` length. */
  predicate NamesFit(pairs: seq<(Id, TypeName)>)
  {
    forall i :: 0 <= i < |pairs| ==> |pairs[i].1| < TwoTo32 / 2
  }

  predicate DistinctNames(pairs: seq<(Id, TypeName)>)
  {
    forall i, j :: 0 <= i < j < |pairs| ==> pairs[i].1 != pairs[j].1
  }

  /** The registry file holding the entries of `pairs`, in order. */
  function Entries(pairs: seq<(Id, TypeName)>): (bs: seq<byte>)
  {
    if |pairs| == 0 then []
    else Entries(pairs[..|pairs| - 1]) + Entry(pairs[|pairs| - 1].0, pairs[|pairs| - 1].1)
  }

  /** The dictionary of `pairs`, each name to its id. */
  function MapOf(pairs: seq<(Id, TypeName)>): (m: Known)
    ensures forall n :: n in m <==> exists i :: 0 <= i < |pairs| && pairs[i].1 == n
    ensures forall i :: 0 <= i < |pairs| && (forall j :: i < j < |pairs| ==> pairs[j].1 != pairs[i].1) ==> m[pairs[i].1] == pairs[i].0
  {
    if |pairs| == 0 then map[]
    else
      var front := pairs[..|pairs| - 1];
      var last := pairs[|pairs| - 1];
      var m := MapOf(front)[last.1 := last.0];
      assert forall n :: n in m <==> exists i :: 0 <= i < |pairs| && pairs[i].1 == n by {
        forall n ensures n in m <==> exists i :: 0 <= i < |pairs| && pairs[i].1 == n {
          if n in MapOf(front) && n != last.1 {
            var i :| 0 <= i < |front| && front[i].1 == n;
            assert pairs[i].1 == n;
          }
          if exists i :: 0 <= i < |pairs| && pairs[i].1 == n {
            var i :| 0 <= i < |pairs| && pairs[i].1 == n;
            if i < |front| { assert front[i].1 == n; }
          }
        }
      }
      m
  }

  /** Entries written one after another load back as the dictionary of
      their pairs exactly when no name repeats; a repeated name makes the
      load fail on Dictionary.Add. */
  lemma {:induction false} RegistryRoundTrip(path: string, pairs: seq<(Id, TypeName)>)
    requires NamesFit(pairs)
    ensures Load(Open(path, Entries(pairs))).Ok? <==> DistinctNames(pairs)
    ensures DistinctNames(pairs) ==> Load(Open(path, Entries(pairs))) == Ok(MapOf(pairs))
    ensures !DistinctNames(pairs) ==> Load(Open(path, Entries(pairs))) == Err(DuplicateKey)
  {
    if |pairs| > 0 {
      var front := pairs[..|pairs| - 1];
      var (id, name) := pairs[|pairs| - 1];
      assert NamesFit(front);
      RegistryRoundTrip(path, front);
      DistinctSnoc(pairs);
      var bs := Entries(front);
      assert Entries(pairs) == bs + Entry(id, name);
      if DistinctNames(front) {
        LoadAppend(path, bs, MapOf(front), id, name);
      } else {
        LoadExtend(Open(path, bs), Entry(id, name), map[]);
      }
    }
  }

  /** A last pair keeps the names distinct exactly when the names before
      it are distinct and do not hold its own. */
  lemma DistinctSnoc(pairs: seq<(Id, TypeName)>)
    requires |pairs| > 0
    ensures var front := pairs[..|pairs| - 1];
      DistinctNames(pairs) <==> DistinctNames(front) && pairs[|pairs| - 1].1 !in MapOf(front)
  {
    var front := pairs[..|pairs| - 1];
    var name := pairs[|pairs| - 1].1;
    DistinctSplit(pairs);
    assert name in MapOf(front) <==> exists i :: 0 <= i < |front| && front[i].1 == name;
  }

  /** DistinctSnoc with the last name's absence spelled out. */
  lemma DistinctSplit(pairs: seq<(Id, TypeName)>)
    requires |pairs| > 0
    ensures var front := pairs[..|pairs| - 1];
      DistinctNames(pairs) <==>
        DistinctNames(front) && forall i :: 0 <= i < |front| ==> front[i].1 != pairs[|pairs| - 1].1
  {
    var front := pairs[..|pairs| - 1];
    var name := pairs[|pairs| - 1].1;
    assert forall i :: 0 <= i < |front| ==> front[i] == pairs[i];
    if DistinctNames(pairs) {
      forall i, j | 0 <= i < j < |front| ensures front[i].1 != front[j].1 {
        assert front[i] == pairs[i] && front[j] == pairs[j];
      }
      forall i | 0 <= i < |front| ensures front[i].1 != name {
        assert front[i] == pairs[i];
      }
    }
    if DistinctNames(front) && forall i :: 0 <= i < |front| ==> front[i].1 != name {
      forall i, j | 0 <= i < j < |pairs| ensures pairs[i].1 != pairs[j].1 {
        if j < |front| {
          assert front[i] == pairs[i] && front[j] == pairs[j];
        } else {
          assert pairs[i] == front[i];
        }
      }
    }
  }

  /** One more entry on a registry that loads: the dictionary gains the
      pair, or the load fails if the name is already registered. */
  lemma LoadAppend(path: string, bs: seq<byte>, known: Known, id: Id, name: TypeName)
    requires Load(Open(path, bs)) == Ok(known)
    requires |name| < TwoTo32 / 2
    ensures Load(Open(path, bs + Entry(id, name))) ==
      if name in known then Err(DuplicateKey) else Ok(known[name := id])
  {
    var e := Entry(id, name);
    var s := Open(path, bs);
    LoadExtend(s, e, map[]);
    assert Open(path, bs + e) == s.(data := s.data + e);
    var t := Stream(path, bs + e, |bs|);
    AtEnd(path, bs, e);
    EntryLoads(t, id, name, known);
  }

  /** Bytes appended to a file are found at its old length. */
  lemma AtEnd(path: string, bs: seq<byte>, e: seq<byte>)
    ensures Codec.HoldsAt(Stream(path, bs + e, |bs|), e)
  {
    assert (bs + e)[|bs|..|bs| + |e|] == e;
  }

  /** A last entry read at its start. */
  lemma EntryLoads(s: Stream, id: Id, name: TypeName, known: Known)
    requires |name| < TwoTo32 / 2
    requires Codec.HoldsAt(s, Entry(id, name)) && s.pos + |Entry(id, name)| == |s.data|
    ensures LoadFrom(s, known) == if name in known then Err(DuplicateKey) else Ok(known[name := id])
  {
    assert Pow256(2) == TwoTo16;
    var head := EncodeLE(id, 2);
    var text := Encode7Bit(|name|) + name;
    assert Entry(id, name) == head + text;
    Codec.HoldsAtSplit(s, head, text);
    Codec.ReadExactHolds(s, head);
    DecodeEncodeLE(id, 2);
    var s1 := s.(pos := s.pos + 2);
    Codec.TextReads(s1, name);
    var s2 := s1.(pos := s1.pos + |Encode7Bit(|name|)| + |name|);
    assert s2.pos == |s2.data|;
  }

  /** Bytes appended to a file change nothing about how the entries
      already there load: after them, the load goes on with the new bytes
      from the dictionary loaded so far. A duplicate found stays found. */
  lemma {:induction false} LoadExtend(s: Stream, e: seq<byte>, known: Known)
    requires s.Valid()
    requires LoadFrom(s, known).Ok? || LoadFrom(s, known) == Err(DuplicateKey)
    ensures LoadFrom(s.(data := s.data + e), known) ==
      if LoadFrom(s, known).Ok?
      then LoadFrom(Stream(s.path, s.data + e, |s.data|), LoadFrom(s, known).value)
      else Err(DuplicateKey)
    decreases s.Remaining()
  {
    var t := s.(data := s.data + e);
    if s.pos < |s.data| {
      var (id, s1) := MiscReader.ReadExact(s, 2);
      ReadExactExtend(s, e, 2);
      var (name, s2) := MiscReader.ReadText(s1);
      ReadTextExtend(s1, e);
      assert MiscReader.ReadText(MiscReader.ReadExact(t, 2).1) == (name, s2.(data := s.data + e));
      if name.value !in known {
        LoadExtend(s2, e, known[name.value := DecodeLE(id.value)]);
      }
    }
  }

  lemma ReadExactExtend(s: Stream, e: seq<byte>, n: nat)
    requires s.Valid() && n <= s.Remaining()
    ensures MiscReader.ReadExact(s.(data := s.data + e), n)
      == (MiscReader.ReadExact(s, n).0, MiscReader.ReadExact(s, n).1.(data := s.data + e))
  {
    assert (s.data + e)[s.pos..s.pos + n] == s.data[s.pos..s.pos + n];
  }

  /** A string read that succeeds reads the same with bytes appended. */
  lemma ReadTextExtend(s: Stream, e: seq<byte>)
    requires s.Valid() && MiscReader.ReadText(s).0.Ok?
    ensures MiscReader.ReadText(s.(data := s.data + e))
      == (MiscReader.ReadText(s).0, MiscReader.ReadText(s).1.(data := s.data + e))
  {
    Read7BitExtend(s.data, e, s.pos, 0, 0);
    var (raw, p) := Read7Bit(s.data, s.pos, 0, 0).value;
    ReadExactExtend(s.(pos := p), e, AsInt32(raw));
  }

  lemma {:induction false} Read7BitExtend(bs: seq<byte>, e: seq<byte>, pos: nat, groups: nat, acc: nat)
    requires groups <= 5 && Read7Bit(bs, pos, groups, acc).Ok?
    ensures Read7Bit(bs + e, pos, groups, acc) == Read7Bit(bs, pos, groups, acc)
    decreases 5 - groups
  {
    assert (bs + e)[pos] == bs[pos];
    var b := bs[pos] as nat;
    if b >= 128 {
      Read7BitExtend(bs, e, pos + 1, groups + 1, acc + (b % 128) * Pow128(groups));
    }
  }
}

=== FILE: replay.dfy ===
/** What a reader gets back from a store one writer session wrote: every
    event of the requested types, once, in the order the events were
    written, each read through its type's pooled instance at the row its
    type's files hold it in. */
module Replay {
  import opened Base
  import opened Streams
  import opened Schema
  import StoreWriter
  import TypeReader
  import MergeJoin
  import Store

  type Event = StoreWriter.Event

  function NameOf(e: Event): TypeName { StoreWriter.NameOf(e) }

  /** Some requested type has full name `n`. */
  ghost predicate Requested(types: seq<ClrType>, n: TypeName)
  {
    exists j :: 0 <= j < |types| && types[j].fullName == n
  }

  /** A row that delivers the event at its position: read through the
      pooled instance of that event's type, as the row of the type's
      files whose position entry is the event's position. */
  ghost predicate RowOf(r: MergeJoin.Row, es: seq<Event>, folder: string)
  {
    && r.pos < |es|
    && var n := NameOf(es[r.pos]);
       && r.instance == TypeReader.Pooled(StoreWriter.TypePath(folder, n))
       && 0 <= r.rowId < |StoreWriter.Stamps(es, n)| && StoreWriter.Stamps(es, n)[r.rowId] == r.pos
  }

  /** The rows a read of `types` should give after `es`: one per event of
      a requested type, in write order, each delivering its event. */
  ghost predicate Replayed(rows: seq<MergeJoin.Row>, es: seq<Event>, folder: string, types: seq<ClrType>)
  {
    && MergeJoin.Increasing(MergeJoin.Positions(rows))
    && (forall k: nat :: k in MergeJoin.Positions(rows) <==> k < |es| && Requested(types, NameOf(es[k])))
    && (forall i :: 0 <= i < |rows| ==> RowOf(rows[i], es, folder))
  }

  // ---------------------------------------------------------------- the store a session leaves

  /** The reader's constructor loads the registry the writer kept. */
  lemma ReaderOpens(files: Files, w: StoreWriter.Writer, es: seq<Event>)
    requires StoreWriter.Inv(files, w, es)
    ensures Store.OpenReader(files, w.folder) == Ok(Store.Reader(w.folder, w.known))
  {
    StoreWriter.InvOpened(files, w, es);
  }

  /** The registry after a session: every event's type is registered,
      every registered type has an event, the ids fit the slot array and
      no two types share one. */
  lemma KnownFacts(files: Files, w: StoreWriter.Writer, es: seq<Event>)
    requires StoreWriter.Inv(files, w, es)
    ensures |es| < TwoTo32
    ensures forall k :: 0 <= k < |es| ==> NameOf(es[k]) in w.known
    ensures forall n :: n in w.known ==> w.known[n] < StoreWriter.WriterSlots
    ensures forall n :: n in w.known ==> exists k :: 0 <= k < |es| && NameOf(es[k]) == n
    ensures forall n, m :: n in w.known && m in w.known && w.known[n] == w.known[m] ==> n == m
  {
    StoreWriter.InvOpened(files, w, es);
    var ns := StoreWriter.Names(es);
    StoreWriter.NamesSpec(es);
    forall n | n in w.known ensures w.known[n] < StoreWriter.WriterSlots && n in ns {
      var i :| 0 <= i < |ns| && ns[i] == n;
    }
    forall n, m | n in w.known && m in w.known && w.known[n] == w.known[m] ensures n == m {
      var i :| 0 <= i < |ns| && ns[i] == n;
      var i' :| 0 <= i' < |ns| && ns[i'] == m;
    }
  }

  /** A registered type's sequence file is whole 32-bit words, and read
      as such gives the positions of its events. */
  lemma KnownQueue(files: Files, w: StoreWriter.Writer, es: seq<Event>, n: TypeName)
    requires StoreWriter.Inv(files, w, es) && n in w.known
    ensures Words(Store.FileOr(files, TypeReader.SequencePath(StoreWriter.TypePath(w.folder, n))), 4) == StoreWriter.Stamps(es, n)
    ensures |Store.FileOr(files, TypeReader.SequencePath(StoreWriter.TypePath(w.folder, n)))| % 4 == 0
  {
    StoreWriter.InvOpened(files, w, es);
    var ns := StoreWriter.Names(es);
    var i :| 0 <= i < |ns| && ns[i] == n;
    StoreWriter.SeqPathOpened(w.folder, n);
    StoreWriter.SeqBytesOpened(es, n);
    StoreWriter.StampWords(StoreWriter.Stamps(es, n));
  }

  /** Strictly ascending. */
  lemma StampsIncrease(es: seq<Event>, n: TypeName)
    ensures MergeJoin.Increasing(StoreWriter.Stamps(es, n))
  {
    StoreWriter.StampsSpec(es, n);
    MergeJoin.IncreasingOpened(StoreWriter.Stamps(es, n));
  }

  /** Two types share no position. */
  lemma StampsApart(es: seq<Event>, n: TypeName, m: TypeName)
    requires n != m
    ensures MergeJoin.Apart(StoreWriter.Stamps(es, n), StoreWriter.Stamps(es, m))
  {
    var ks := StoreWriter.Stamps(es, n);
    var ks' := StoreWriter.Stamps(es, m);
    StoreWriter.StampsSpec(es, n);
    StoreWriter.StampsSpec(es, m);
    MergeJoin.ApartOpened(ks, ks');
    forall x | x in ks ensures x !in ks' {
      var i :| 0 <= i < |ks| && ks[i] == x;
      assert forall i' :: 0 <= i' < |ks'| ==> ks'[i'] != x;
    }
  }

  /** A position of a type is one of its events'. */
  lemma StampHolds(es: seq<Event>, n: TypeName, i: nat)
    requires i < |StoreWriter.Stamps(es, n)|
    ensures StoreWriter.Stamps(es, n)[i] < |es| && NameOf(es[StoreWriter.Stamps(es, n)[i]]) == n
  {
    StoreWriter.StampsSpec(es, n);
  }

  /** Every event of a type has its position. */
  lemma StampCovers(es: seq<Event>, n: TypeName, k: nat)
    requires k < |es| && NameOf(es[k]) == n
    ensures k in StoreWriter.Stamps(es, n)
  {
    StoreWriter.StampsSpec(es, n);
  }

  // ---------------------------------------------------------------- the factories a session's reader makes

  /** A factory fresh for the type `f.cls` of a request: no row read yet,
      rooted at the type's folder, queued the positions of the type's
      events. */
  ghost predicate ReaderFor(f: TypeReader.Factory, es: seq<Event>, folder: string, reqs: seq<Store.Request>)
  {
    && TypeReader.Good(f) && f.rowId == -1
    && f.path == StoreWriter.TypePath(folder, f.cls.fullName)
    && TypeReader.Queue(f) == StoreWriter.Stamps(es, f.cls.fullName)
    && StoreWriter.Stamps(es, f.cls.fullName) != []
    && exists j :: 0 <= j < |reqs| && reqs[j] == (f.cls, f.handler)
  }

  /** Factories for distinct types, each fresh, that merge to the rows of
      their types' events. */
  ghost predicate ReadersFor(rs: seq<TypeReader.Factory>, es: seq<Event>, folder: string, reqs: seq<Store.Request>)
  {
    && MergeJoin.AllGood(rs)
    && (forall s :: 0 <= s < |rs| ==> ReaderFor(rs[s], es, folder, reqs))
    && (forall s, u :: 0 <= s < u < |rs| ==> rs[s].cls.fullName != rs[u].cls.fullName)
  }

  /** The factory CreateTypeReaders makes for a registered request. */
  lemma MadeForSession(files: Files, w: StoreWriter.Writer, es: seq<Event>, reqs: seq<Store.Request>, f: TypeReader.Factory)
    requires StoreWriter.Inv(files, w, es)
    requires exists j :: 0 <= j < |reqs| && Store.MadeFor(f, files, Store.Reader(w.folder, w.known), reqs[j])
    ensures ReaderFor(f, es, w.folder, reqs)
  {
    var rd := Store.Reader(w.folder, w.known);
    var j :| 0 <= j < |reqs| && Store.MadeFor(f, files, rd, reqs[j]);
    Store.MadeFresh(files, w.folder, reqs[j]);
    KnownQueue(files, w, es, reqs[j].0.fullName);
    KnownFacts(files, w, es);
    var k :| 0 <= k < |es| && NameOf(es[k]) == reqs[j].0.fullName;
    StampCovers(es, reqs[j].0.fullName, k);
  }

  /** After a session, CreateTypeReaders succeeds and makes fresh
      factories for distinct requested types. */
  lemma SessionReaders(files: Files, w: StoreWriter.Writer, es: seq<Event>, reqs: seq<Store.Request>)
    requires StoreWriter.Inv(files, w, es)
    ensures var created := Store.Created(files, Store.Reader(w.folder, w.known), reqs).1;
      created.Ok? && ReadersFor(created.value, es, w.folder, reqs)
  {
    var rd := Store.Reader(w.folder, w.known);
    KnownFacts(files, w, es);
    assert !Store.PastSlots(rd, reqs);
    var created := Store.Created(files, rd, reqs);
    Store.CreatedReaders(files, rd, reqs);
    var rs := Store.CreateTypeReaders(files, rd, reqs).1.value;
    forall s | 0 <= s < |rs| ensures ReaderFor(rs[s], es, w.folder, reqs) {
      MadeForSession(files, w, es, reqs, rs[s]);
    }
    forall s, u | 0 <= s < u < |rs| ensures rs[s].cls.fullName != rs[u].cls.fullName {
      assert rd.known[rs[s].cls.fullName] < rd.known[rs[u].cls.fullName];
    }
    ReadersIntro(rs, es, w.folder, reqs);
  }

  lemma ReadersIntro(rs: seq<TypeReader.Factory>, es: seq<Event>, folder: string, reqs: seq<Store.Request>)
    requires forall s :: 0 <= s < |rs| ==> ReaderFor(rs[s], es, folder, reqs)
    requires forall s, u :: 0 <= s < u < |rs| ==> rs[s].cls.fullName != rs[u].cls.fullName
    ensures ReadersFor(rs, es, folder, reqs)
  {
  }

  /** And every requested type that has events has its factory. */
  lemma SessionCover(files: Files, w: StoreWriter.Writer, es: seq<Event>, reqs: seq<Store.Request>)
    requires StoreWriter.Inv(files, w, es)
    ensures var created := Store.Created(files, Store.Reader(w.folder, w.known), reqs).1;
      created.Ok? ==>
        forall j, k :: 0 <= j < |reqs| && 0 <= k < |es| && NameOf(es[k]) == reqs[j].0.fullName ==>
          exists s :: 0 <= s < |created.value| && created.value[s].cls.fullName == reqs[j].0.fullName
  {
    var rd := Store.Reader(w.folder, w.known);
    KnownFacts(files, w, es);
    if Store.CreateTypeReaders(files, rd, reqs).1.Ok? {
      Store.CreatedCover(files, rd, reqs);
      var rs := Store.CreateTypeReaders(files, rd, reqs).1.value;
      forall j, k | 0 <= j < |reqs| && 0 <= k < |es| && NameOf(es[k]) == reqs[j].0.fullName
        ensures exists s :: 0 <= s < |rs| && rs[s].cls.fullName == reqs[j].0.fullName
      {
        var s :| 0 <= s < |rs| && rs[s].cls.fullName in rd.known && rd.known[rs[s].cls.fullName] == rd.known[reqs[j].0.fullName];
      }
    }
  }

  // ---------------------------------------------------------------- the merge of a session's factories

  /** A row of the merge delivers its event, through a factory of the
      event's type. */
  lemma RowFrom(rs: seq<TypeReader.Factory>, es: seq<Event>, folder: string, reqs: seq<Store.Request>, rows: seq<MergeJoin.Row>, r: MergeJoin.Row)
    requires ReadersFor(rs, es, folder, reqs) && r in rows && r.slot < |rs|
    requires MergeJoin.Delivers(MergeJoin.Filter(rows, r.slot), TypeReader.Queue(rs[r.slot]), rs[r.slot])
    ensures RowOf(r, es, folder) && rs[r.slot].cls.fullName == NameOf(es[r.pos])
  {
    var n := rs[r.slot].cls.fullName;
    var fs := MergeJoin.Filter(rows, r.slot);
    MergeJoin.FilterHolds(rows, r);
    var i :| 0 <= i < |fs| && fs[i] == r;
    assert ReaderFor(rs[r.slot], es, folder, reqs);
    assert MergeJoin.Positions(fs)[i] == r.pos;
    StampHolds(es, n, i);
  }

  /** Every event of a type that has a factory has its row. */
  lemma RowTo(rs: seq<TypeReader.Factory>, es: seq<Event>, folder: string, reqs: seq<Store.Request>, rows: seq<MergeJoin.Row>, s: nat, k: nat)
    requires ReadersFor(rs, es, folder, reqs) && s < |rs| && k < |es| && NameOf(es[k]) == rs[s].cls.fullName
    requires MergeJoin.Delivers(MergeJoin.Filter(rows, s), TypeReader.Queue(rs[s]), rs[s])
    ensures k in MergeJoin.Positions(rows)
  {
    var fs := MergeJoin.Filter(rows, s);
    assert ReaderFor(rs[s], es, folder, reqs);
    StampCovers(es, rs[s].cls.fullName, k);
    var i :| 0 <= i < |fs| && MergeJoin.Positions(fs)[i] == k;
    assert fs[i] in rows;
    var t :| 0 <= t < |rows| && rows[t] == fs[i];
    assert MergeJoin.Positions(rows)[t] == k;
  }

  /** The rows of a merge of `rs`: positions ascending, each row
      delivering its event through a factory of the event's type, and
      every event of a type with a factory in its rows. */
  ghost predicate Merged(rows: seq<MergeJoin.Row>, rs: seq<TypeReader.Factory>, es: seq<Event>, folder: string)
  {
    && MergeJoin.Increasing(MergeJoin.Positions(rows))
    && (forall i :: 0 <= i < |rows| ==>
          RowOf(rows[i], es, folder) && rows[i].slot < |rs| && rs[rows[i].slot].cls.fullName == NameOf(es[rows[i].pos]))
    && (forall s, k :: 0 <= s < |rs| && 0 <= k < |es| && NameOf(es[k]) == rs[s].cls.fullName ==> k in MergeJoin.Positions(rows))
  }

  /** The merge of fresh factories for distinct types succeeds, with the
      rows Merged describes. */
  lemma MergeReplays(rs: seq<TypeReader.Factory>, es: seq<Event>, folder: string, reqs: seq<Store.Request>)
    requires ReadersFor(rs, es, folder, reqs)
    ensures MergeJoin.Read(rs).0.Ok? && Merged(MergeJoin.Read(rs).0.value, rs, es, folder)
  {
    forall s | 0 <= s < |rs| ensures MergeJoin.Increasing(TypeReader.Queue(rs[s])) {
      assert ReaderFor(rs[s], es, folder, reqs);
      StampsIncrease(es, rs[s].cls.fullName);
    }
    forall s, u | 0 <= s < |rs| && 0 <= u < |rs| && s != u
      ensures MergeJoin.Apart(TypeReader.Queue(rs[s]), TypeReader.Queue(rs[u]))
    {
      assert ReaderFor(rs[s], es, folder, reqs) && ReaderFor(rs[u], es, folder, reqs);
      assert rs[s].cls.fullName != rs[u].cls.fullName;
      StampsApart(es, rs[s].cls.fullName, rs[u].cls.fullName);
    }
    MergeJoin.ReadMerges(rs);
    var rows := MergeJoin.Read(rs).0.value;
    forall i | 0 <= i < |rows|
      ensures RowOf(rows[i], es, folder) && rows[i].slot < |rs| && rs[rows[i].slot].cls.fullName == NameOf(es[rows[i].pos])
    {
      RowFrom(rs, es, folder, reqs, rows, rows[i]);
    }
    forall s, k | 0 <= s < |rs| && 0 <= k < |es| && NameOf(es[k]) == rs[s].cls.fullName
      ensures k in MergeJoin.Positions(rows)
    {
      RowTo(rs, es, folder, reqs, rows, s, k);
    }
  }

  /** The rows of a merge of factories for requests, where every
      requested type with events has a factory, are exactly the rows a
      read of the requested types should give. */
  lemma MergedReplays(rows: seq<MergeJoin.Row>, rs: seq<TypeReader.Factory>, es: seq<Event>, folder: string, reqs: seq<Store.Request>)
    requires Merged(rows, rs, es, folder) && ReadersFor(rs, es, folder, reqs)
    requires forall j, k :: 0 <= j < |reqs| && 0 <= k < |es| && NameOf(es[k]) == reqs[j].0.fullName ==>
               exists s :: 0 <= s < |rs| && rs[s].cls.fullName == reqs[j].0.fullName
    ensures Replayed(rows, es, folder, Store.Types(reqs))
  {
    var types := Store.Types(reqs);
    var ps := MergeJoin.Positions(rows);
    forall k: nat ensures k in ps <==> k < |es| && Requested(types, NameOf(es[k])) {
      if k in ps {
        RowRequested(rows, rs, es, folder, reqs, k);
      }
      if k < |es| && Requested(types, NameOf(es[k])) {
        var j :| 0 <= j < |types| && types[j].fullName == NameOf(es[k]);
        var s :| 0 <= s < |rs| && rs[s].cls.fullName == reqs[j].0.fullName;
      }
    }
  }

  /** A position of the merge is that of an event of a requested type. */
  lemma RowRequested(rows: seq<MergeJoin.Row>, rs: seq<TypeReader.Factory>, es: seq<Event>, folder: string, reqs: seq<Store.Request>, k: nat)
    requires Merged(rows, rs, es, folder) && ReadersFor(rs, es, folder, reqs)
    requires k in MergeJoin.Positions(rows)
    ensures k < |es| && Requested(Store.Types(reqs), NameOf(es[k]))
  {
    var ps := MergeJoin.Positions(rows);
    var i :| 0 <= i < |ps| && ps[i] == k;
    var s := rows[i].slot;
    assert ReaderFor(rs[s], es, folder, reqs);
    var j :| 0 <= j < |reqs| && reqs[j] == (rs[s].cls, rs[s].handler);
    assert Store.Types(reqs)[j].fullName == NameOf(es[k]);
  }

  /** After a session, the factories CreateTypeReaders makes for any
      requests merge to the rows a read of the requested types should
      give. */
  lemma SessionMerge(files: Files, w: StoreWriter.Writer, es: seq<Event>, reqs: seq<Store.Request>)
    requires StoreWriter.Inv(files, w, es)
    ensures var created := Store.Created(files, Store.Reader(w.folder, w.known), reqs).1;
      && created.Ok? && ReadersFor(created.value, es, w.folder, reqs)
      && MergeJoin.Read(created.value).0.Ok?
      && Merged(MergeJoin.Read(created.value).0.value, created.value, es, w.folder)
      && Replayed(MergeJoin.Read(created.value).0.value, es, w.folder, Store.Types(reqs))
  {
    SessionReaders(files, w, es, reqs);
    SessionCover(files, w, es, reqs);
    var rs := Store.Created(files, Store.Reader(w.folder, w.known), reqs).1.value;
    MergeReplays(rs, es, w.folder, reqs);
    MergedReplays(MergeJoin.Read(rs).0.value, rs, es, w.folder, reqs);
  }

  // ---------------------------------------------------------------- Read, ReadAsWritten and Invoke after a session

  /** Read after a session and the writer's Dispose: the reader opens on
      the writer's registry, and reading any distinct types yields one row
      per event of those types, in the order written, each delivering its
      event. */
  lemma ReadReplays(files: Files, w: StoreWriter.Writer, es: seq<Event>, types: seq<ClrType>)
    requires StoreWriter.Inv(files, w, es) && Store.Distinct(types)
    ensures Store.OpenReader(files, w.folder) == Ok(Store.Reader(w.folder, w.known))
    ensures var rows := Store.Read(files, Store.Reader(w.folder, w.known), types).1;
      rows.Ok? && Replayed(rows.value, es, w.folder, types)
  {
    ReaderOpens(files, w, es);
    var reqs := Store.Ignoring(types);
    SessionMerge(files, w, es, reqs);
    assert Store.Types(reqs) == types;
  }

  /** A session from an empty folder: the writer's constructor, then
      events written one after another without a fault, then the
      writer's Dispose, which flushes and closes every file (the model's
      files hold each write's bytes at once, so they are the files as
      Dispose leaves them). The reader then opens on the folder, and Read
      of any distinct types replays the session's events of those types,
      in the order written. */
  lemma SessionReplays(folder: string, es: seq<Event>, types: seq<ClrType>)
    requires |es| < TwoTo32 && forall k :: 0 <= k < |es| ==> |NameOf(es[k])| < TwoTo32 / 2
    requires StoreWriter.WriteAll(StoreWriter.New(map[], folder).0, StoreWriter.New(map[], folder).1.value, es).1.None?
    requires Store.Distinct(types)
    ensures var files := StoreWriter.WriteAll(StoreWriter.New(map[], folder).0, StoreWriter.New(map[], folder).1.value, es).0;
      var rd := Store.OpenReader(files, folder);
      && rd.Ok?
      && Store.Read(files, rd.value, types).1.Ok?
      && Replayed(Store.Read(files, rd.value, types).1.value, es, folder, types)
      && (Written(es, types) ==> Store.ReadAsWritten(files, rd.value, types).1 == Store.Read(files, rd.value, types).1)
      && (!Written(es, types) ==> Store.ReadAsWritten(files, rd.value, types).1 == Err(NullReference))
  {
    StoreWriter.SessionInv(folder, es);
    var w := StoreWriter.New(map[], folder).1.value;
    StoreWriter.WriteAllKeepsFolder(StoreWriter.New(map[], folder).0, w, es);
    var out := StoreWriter.WriteAll(StoreWriter.New(map[], folder).0, w, es);
    ReadReplays(out.0, out.2, es, types);
    WrittenIffRegistered(out.0, out.2, es, types);
    if Written(es, types) {
      AsWrittenInSession(out.0, out.2, es, types);
    } else {
      Store.NothingRegistered(out.0, Store.Reader(folder, out.2.known), types);
    }
  }

  /** Some event of the session is of a requested type. */
  ghost predicate Written(es: seq<Event>, types: seq<ClrType>)
  {
    exists k :: 0 <= k < |es| && Requested(types, NameOf(es[k]))
  }

  /** After a session, a requested type is registered exactly when it
      has been written. */
  lemma WrittenIffRegistered(files: Files, w: StoreWriter.Writer, es: seq<Event>, types: seq<ClrType>)
    requires StoreWriter.Inv(files, w, es)
    ensures Written(es, types) <==> exists j :: 0 <= j < |types| && types[j].fullName in w.known
  {
    KnownFacts(files, w, es);
    if exists j :: 0 <= j < |types| && types[j].fullName in w.known {
      var j :| 0 <= j < |types| && types[j].fullName in w.known;
      var k :| 0 <= k < |es| && NameOf(es[k]) == types[j].fullName;
      assert Requested(types, NameOf(es[k]));
    }
  }

  /** After a session, where some request's type has been written, the
      factories CreateTypeReaders makes are not none, and each has a
      position to hand out: the list as written leaves none at the
      sentinel, and the list is not empty. */
  lemma SessionListed(files: Files, w: StoreWriter.Writer, es: seq<Event>, reqs: seq<Store.Request>)
    requires StoreWriter.Inv(files, w, es)
    requires exists j :: 0 <= j < |reqs| && reqs[j].0.fullName in w.known
    ensures var created := Store.Created(files, Store.Reader(w.folder, w.known), reqs).1;
      && created.Ok? && MergeJoin.AllGood(created.value) && |created.value| > 0
      && forall s :: 0 <= s < |created.value| ==> TypeReader.Queue(created.value[s]) != []
  {
    var rd := Store.Reader(w.folder, w.known);
    SessionReaders(files, w, es, reqs);
    SessionCover(files, w, es, reqs);
    KnownFacts(files, w, es);
    var rs := Store.Created(files, rd, reqs).1.value;
    var j :| 0 <= j < |reqs| && reqs[j].0.fullName in w.known;
    var k :| 0 <= k < |es| && NameOf(es[k]) == reqs[j].0.fullName;
    forall s | 0 <= s < |rs| ensures TypeReader.Queue(rs[s]) != [] {
      assert ReaderFor(rs[s], es, w.folder, reqs);
    }
  }

  /** Where a requested type has been written, Read as written and Read
      agree. */
  lemma AsWrittenInSession(files: Files, w: StoreWriter.Writer, es: seq<Event>, types: seq<ClrType>)
    requires StoreWriter.Inv(files, w, es) && Store.Distinct(types)
    requires exists j :: 0 <= j < |types| && types[j].fullName in w.known
    ensures var rd := Store.Reader(w.folder, w.known);
      Store.ReadAsWritten(files, rd, types) == Store.Read(files, rd, types)
  {
    var rd := Store.Reader(w.folder, w.known);
    var reqs := Store.Ignoring(types);
    var j :| 0 <= j < |types| && types[j].fullName in w.known;
    assert reqs[j].0.fullName == types[j].fullName;
    SessionListed(files, w, es, reqs);
    var created := Store.Created(files, rd, reqs);
    MergeJoin.AsWrittenAgrees(created.1.value);
    assert Store.Read(files, rd, types) == (created.0, MergeJoin.Read(created.1.value).0, MergeJoin.Read(created.1.value).1);
  }

  /** Read as written after a session and the writer's Dispose: where
      some requested type has been written, it yields one row per event
      of the requested types, in the order written, each delivering its
      event; where none has, it throws a null reference. */
  lemma ReadAsWrittenReplays(files: Files, w: StoreWriter.Writer, es: seq<Event>, types: seq<ClrType>)
    requires StoreWriter.Inv(files, w, es) && Store.Distinct(types)
    ensures var rows := Store.ReadAsWritten(files, Store.Reader(w.folder, w.known), types).1;
      && (Written(es, types) ==> rows.Ok? && Replayed(rows.value, es, w.folder, types))
      && (!Written(es, types) ==> rows == Err(NullReference))
  {
    WrittenIffRegistered(files, w, es, types);
    if Written(es, types) {
      AsWrittenInSession(files, w, es, types);
      ReadReplays(files, w, es, types);
    } else {
      Store.NothingRegistered(files, Store.Reader(w.folder, w.known), types);
    }
  }

  /** The handler `h` is that of every request for type name `n`. */
  ghost predicate HandledBy(h: TypeReader.Handler, reqs: seq<Store.Request>, n: TypeName)
  {
    forall j :: 0 <= j < |reqs| && reqs[j].0.fullName == n ==> reqs[j].1 == h
  }

  /** No two requested types share a full name. */
  predicate DistinctNames(reqs: seq<Store.Request>)
    ensures DistinctNames(reqs) ==> Store.Distinct(Store.Types(reqs))
  {
    forall i, j :: 0 <= i < j < |reqs| ==> reqs[i].0.fullName != reqs[j].0.fullName
  }

  /** The calls hand each of the rows, in order, to the handler of the
      type of the row's event. */
  ghost predicate CallsOf(calls: seq<MergeJoin.Call>, rows: seq<MergeJoin.Row>, es: seq<Event>, reqs: seq<Store.Request>)
  {
    && |calls| == |rows|
    && forall i :: 0 <= i < |rows| ==>
         && calls[i].instance == rows[i].instance
         && rows[i].pos < |es| && HandledBy(calls[i].handler, reqs, NameOf(es[rows[i].pos]))
  }

  /** Invoke after a session and the writer's Dispose, for types with
      distinct full names: each event of a handled type, in the order
      written, handed to its type's handler through the type's pooled
      instance; the calls are those of the rows a read of the types
      should give. */
  lemma InvokeReplays(files: Files, w: StoreWriter.Writer, es: seq<Event>, handlers: seq<Store.Request>)
    requires StoreWriter.Inv(files, w, es) && DistinctNames(handlers)
    ensures var calls := Store.Invoke(files, Store.Reader(w.folder, w.known), handlers).1;
      && calls.Ok?
      && exists rows: seq<MergeJoin.Row> :: Replayed(rows, es, w.folder, Store.Types(handlers)) && CallsOf(calls.value, rows, es, handlers)
  {
    var rd := Store.Reader(w.folder, w.known);
    SessionMerge(files, w, es, handlers);
    var rs := Store.Created(files, rd, handlers).1.value;
    var rows := MergeJoin.Read(rs).0.value;
    MergeJoin.InvokeCallsRead(rs);
    InvokeIs(files, rd, handlers);
    CallsOfRows(rs, rows, es, w.folder, handlers);
  }

  /** Invoke as written after a session and the writer's Dispose: where
      some handled type has been written, it makes the calls Invoke makes;
      where none has, it throws a null reference. */
  lemma InvokeAsWrittenReplays(files: Files, w: StoreWriter.Writer, es: seq<Event>, handlers: seq<Store.Request>)
    requires StoreWriter.Inv(files, w, es) && DistinctNames(handlers)
    ensures var rd := Store.Reader(w.folder, w.known);
      var calls := Store.InvokeAsWritten(files, rd, handlers).1;
      && (Written(es, Store.Types(handlers)) ==>
            calls.Ok? && calls == Store.Invoke(files, rd, handlers).1
            && exists rows: seq<MergeJoin.Row> :: Replayed(rows, es, w.folder, Store.Types(handlers)) && CallsOf(calls.value, rows, es, handlers))
      && (!Written(es, Store.Types(handlers)) ==> calls == Err(NullReference))
  {
    var types := Store.Types(handlers);
    WrittenIffRegistered(files, w, es, types);
    if Written(es, types) {
      InvokeAsWrittenInSession(files, w, es, handlers);
      InvokeReplays(files, w, es, handlers);
    } else {
      Store.NothingHandled(files, Store.Reader(w.folder, w.known), handlers);
    }
  }

  /** Where a handled type has been written, Invoke as written and Invoke
      agree. */
  lemma InvokeAsWrittenInSession(files: Files, w: StoreWriter.Writer, es: seq<Event>, handlers: seq<Store.Request>)
    requires StoreWriter.Inv(files, w, es) && DistinctNames(handlers)
    requires exists j :: 0 <= j < |handlers| && handlers[j].0.fullName in w.known
    ensures var rd := Store.Reader(w.folder, w.known);
      Store.InvokeAsWritten(files, rd, handlers) == Store.Invoke(files, rd, handlers)
  {
    SessionListed(files, w, es, handlers);
    MergeJoin.InvokeAsWrittenAgrees(Store.Created(files, Store.Reader(w.folder, w.known), handlers).1.value);
  }

  /** Invoke is the merge's Invoke over the factories CreateTypeReaders
      makes. */
  lemma InvokeIs(files: Files, rd: Store.Reader, handlers: seq<Store.Request>)
    requires Store.Distinct(Store.Types(handlers)) && Store.Created(files, rd, handlers).1.Ok?
    ensures Store.Invoke(files, rd, handlers).1 == MergeJoin.Invoke(Store.Created(files, rd, handlers).1.value).0
  {
  }

  /** The merge's rows handed to the handlers of their factories are the
      calls CallsOf describes. */
  lemma CallsOfRows(rs: seq<TypeReader.Factory>, rows: seq<MergeJoin.Row>, es: seq<Event>, folder: string, handlers: seq<Store.Request>)
    requires Merged(rows, rs, es, folder) && ReadersFor(rs, es, folder, handlers) && DistinctNames(handlers)
    ensures forall r :: r in rows ==> r.slot < |MergeJoin.Handlers(rs)|
    ensures CallsOf(MergeJoin.Calls(rows, MergeJoin.Handlers(rs)), rows, es, handlers)
  {
    var hs := MergeJoin.Handlers(rs);
    assert forall r :: r in rows ==> r.slot < |hs| by {
      forall r | r in rows ensures r.slot < |hs| {
        var i :| 0 <= i < |rows| && rows[i] == r;
      }
    }
    var calls := MergeJoin.Calls(rows, hs);
    forall i | 0 <= i < |rows|
      ensures calls[i].instance == rows[i].instance && rows[i].pos < |es| && HandledBy(calls[i].handler, handlers, NameOf(es[rows[i].pos]))
    {
      CallsAt(rows, hs, i);
      var s := rows[i].slot;
      assert ReaderFor(rs[s], es, folder, handlers);
      var j :| 0 <= j < |handlers| && handlers[j] == (rs[s].cls, rs[s].handler);
    }
  }

  /** The i-th call is the i-th row handed to its reader's handler. */
  lemma {:induction false} CallsAt(rows: seq<MergeJoin.Row>, hs: seq<TypeReader.Handler>, i: nat)
    requires forall r :: r in rows ==> r.slot < |hs|
    requires i < |rows|
    ensures MergeJoin.Calls(rows, hs)[i] == MergeJoin.Call(hs[rows[i].slot], rows[i].instance)
  {
    if i > 0 {
      assert forall r :: r in rows[1..] ==> r in rows;
      CallsAt(rows[1..], hs, i - 1);
    }
  }
}

=== FILE: schema.dfy ===
/** The shapes of event types as the storage engine sees them through
    reflection: property types, accessor flags, and the values an event's
    properties hold. */
module Schema {
  import opened Base

  /** The integer types: column types and enums' underlying types. */
  datatype IntKind = U8 | I8 | I16 | U16 | I32 | U32 | I64 | U64 {
    function Width(): (w: nat)
      ensures w in {1, 2, 4, 8}
    {
      match this
      case U8 => 1
      case I8 => 1
      case I16 => 2
      case U16 => 2
      case I32 => 4
      case U32 => 4
      case I64 => 8
      case U64 => 8
    }

    predicate Signed() { this in {I8, I16, I32, I64} }

    predicate InRange(i: int)
    {
      if Signed() then -(Pow256(Width()) / 2) <= i < Pow256(Width()) / 2
      else 0 <= i < Pow256(Width())
    }

    /** byte, short and int: the only enum underlying types the column
        codec accepts. */
    predicate EnumWidth() { this in {U8, I16, I32} }
  }

  /** The fixed-layout value types with a built-in column encoding. */
  datatype Scalar = Bool | Int(kind: IntKind) | Guid | Decimal | Double | DateTime | DateTimeOffset

  /** A property's type, as the codec's type tests classify it. */
  datatype FieldType =
    | Plain(scalar: Scalar)
    | Nullable(scalar: Scalar)
    | Enum(underlying: IntKind)
    | NullableEnum(underlying: IntKind)
    | Str
    | ArrayOf(element: ClrType)
    | ListOf(element: ClrType)          // List<T> or Collection<T>
    | Ref(cls: ClrType)                 // any other reference type
    | OtherValue(typeName: string)      // any other value type (char, float, TimeSpan, a struct)

  /** What reflection reports about a property and its getter. */
  datatype Accessors = Accessors(
    isPublic: bool, isStatic: bool, canRead: bool, canWrite: bool,
    getterVirtual: bool, getterFinal: bool)

  datatype Property = Property(name: string, ftype: FieldType, access: Accessors)

  /** A type's full name, as the UTF-8 bytes BinaryWriter stores for it. */
  type TypeName = seq<byte>

  /** The text of a name inside a path: one character per byte, which
      keeps distinct names distinct and a backslash a backslash. */
  function NameText(n: TypeName): (t: string)
    ensures |t| == |n| && forall i :: 0 <= i < |n| ==> t[i] == (n[i] as int) as char
  {
    seq(|n|, i requires 0 <= i < |n| => (n[i] as int) as char)
  }

  lemma NameTextInjective(a: TypeName, b: TypeName)
    requires NameText(a) == NameText(b)
    ensures a == b
  {
    assert |a| == |b|;
    forall i | 0 <= i < |a| ensures a[i] == b[i] {
      assert NameText(a)[i] == NameText(b)[i];
    }
  }

  /** A class: its full name and its properties in declaration order. */
  datatype ClrType = ClrType(fullName: TypeName, props: seq<Property>)

  /** The properties TypeWriter turns into columns: public instance
      properties that can be both read and written. */
  predicate IsColumn(p: Property)
  {
    p.access.isPublic && !p.access.isStatic && p.access.canRead && p.access.canWrite
  }

  /** The properties the reading proxy overrides: columns whose getter is
      virtual and not sealed, of type bool or decimal. */
  predicate IsProxied(p: Property)
  {
    IsColumn(p) && p.access.getterVirtual && !p.access.getterFinal
    && p.ftype in {Plain(Bool), Plain(Decimal)}
  }

  /** Positions of the properties of `props` satisfying `keep`, in order. */
  function Select(props: seq<Property>, keep: Property -> bool): (ix: seq<nat>)
    ensures forall k :: 0 <= k < |ix| ==> ix[k] < |props| && keep(props[ix[k]])
    ensures forall i :: 0 <= i < |props| && keep(props[i]) ==> i in ix
    ensures forall k, l :: 0 <= k < l < |ix| ==> ix[k] < ix[l]
  {
    if |props| == 0 then []
    else
      var front := Select(props[..|props| - 1], keep);
      if keep(props[|props| - 1]) then front + [|props| - 1] else front
  }

  /** Ticks of 100 ns in a day, a minute and fourteen hours, and the
      largest tick count a DateTime can hold. */
  const TicksPerDay: nat := 864_000_000_000
  const TicksPerMinute: nat := 600_000_000
  const MaxOffsetTicks: nat := 504_000_000_000
  const MaxTicks: nat := 3_155_378_975_999_999_999

  /** A DateTimeOffset the library accepts: clock ticks and the UTC
      instant both in range, the offset whole minutes within 14 hours. */
  predicate ValidOffset(ticks: int, offset: int)
  {
    && 0 <= ticks <= MaxTicks
    && offset % TicksPerMinute == 0 && -(MaxOffsetTicks as int) <= offset <= MaxOffsetTicks
    && 0 <= ticks - offset <= MaxTicks
  }

  /** The value of one property. Guids, decimals and doubles are kept as
      their raw byte images; strings as their encoded bytes. */
  datatype Value =
    | Null
    | BoolV(b: bool)
    | IntV(i: int)                          // integers and enum members
    | Raw(bytes: seq<byte>)                 // Guid (16), decimal memory image (16), double (8)
    | BinaryDecimal(bytes: seq<byte>)       // a decimal BinaryReader assembled from these 16 bytes
    | Ticks(ticks: int)                     // DateTime
    | Offset(clockTicks: int, offset: int)  // DateTimeOffset
    | Text(bytes: seq<byte>)                // string
    | Many(items: seq<Value>)               // array or list
    | Nested(fields: seq<Value>)            // an object: one value per property
    | Fresh(typeName: TypeName)               // an object a reader built with `new` and left unfilled

  /** The values a property of type `t` can hold. */
  predicate Fits(t: FieldType, v: Value)
    decreases v
  {
    match t
    case Plain(s) => FitsScalar(s, v)
    case Nullable(s) => v.Null? || FitsScalar(s, v)
    case Enum(k) => v.IntV? && k.InRange(v.i)
    case NullableEnum(k) => v.Null? || (v.IntV? && k.InRange(v.i))
    case Str => v.Null? || (v.Text? && |v.bytes| < TwoTo32 / 2)
    case ArrayOf(c) => v.Null? || (v.Many? && forall k :: 0 <= k < |v.items| ==> FitsItem(c, v.items[k]))
    case ListOf(c) => v.Null? || (v.Many? && forall k :: 0 <= k < |v.items| ==> FitsItem(c, v.items[k]))
    case Ref(c) => v.Null? || FitsObject(c, v)
    case OtherValue(_) => true
  }

  predicate FitsItem(c: ClrType, v: Value)
    decreases v, 1
  {
    v.Null? || FitsObject(c, v)
  }

  predicate FitsObject(c: ClrType, v: Value)
    decreases v, 0
  {
    v.Nested? && |v.fields| == |c.props|
    && forall i :: 0 <= i < |c.props| ==> Fits(c.props[i].ftype, v.fields[i])
  }

  predicate FitsScalar(s: Scalar, v: Value)
  {
    match s
    case Bool => v.BoolV?
    case Int(k) => v.IntV? && k.InRange(v.i)
    case Guid => v.Raw? && |v.bytes| == 16
    case Decimal => v.Raw? && |v.bytes| == 16
    case Double => v.Raw? && |v.bytes| == 8
    case DateTime => v.Ticks? && 0 <= v.ticks <= MaxTicks
    case DateTimeOffset => v.Offset? && ValidOffset(v.clockTicks, v.offset)
  }
}

=== FILE: store.dfy ===
/** EventfulFileSystemReader: the registry loaded by the constructor,
    CreateTypeReaders, and Read and Invoke over the merge join; and what
    a store written by one session replays. */
module Store {
  import opened Base
  import opened Streams
  import opened Schema
  import Registry
  import StoreWriter
  import TypeReader
  import MergeJoin

  /** A reader: its folder and the `_typeIdsMap` its constructor loaded. */
  datatype Reader = Reader(folder: string, known: Registry.Known)

  /** The constructor: `types.idx` opened with FileMode.Open (a missing
      registry throws) and read entry by entry to its end, as the
      writer's constructor reads it. */
  function OpenReader(files: Files, folder: string): (r: Result<Reader>)
    ensures r.Ok? <==>
      StoreWriter.RegistryPath(folder) in files
      && Registry.Load(Open(StoreWriter.RegistryPath(folder), files[StoreWriter.RegistryPath(folder)])).Ok?
    ensures r.Ok? ==>
      && r.value.folder == folder
      && r.value.known == Registry.Load(Open(StoreWriter.RegistryPath(folder), files[StoreWriter.RegistryPath(folder)])).value
    ensures StoreWriter.RegistryPath(folder) !in files ==> r == Err(FileNotFound)
  {
    var handle := OpenExisting(files, StoreWriter.RegistryPath(folder));
    if handle.Err? then Err(handle.fault)
    else
      var loaded := Registry.Load(handle.value);
      if loaded.Err? then Err(loaded.fault) else Ok(Reader(folder, loaded.value))
  }

  // ---------------------------------------------------------------- CreateTypeReaders

  /** A requested type and the handler its rows go to. */
  type Request = (ClrType, TypeReader.Handler)

  /** The file as a reader finds it: its bytes, or nothing if absent. */
  function FileOr(files: Files, p: string): seq<byte>
  {
    if p in files then files[p] else []
  }

  /** `files'` is `files` with at most some empty files added. */
  ghost predicate TouchedOnly(files: Files, files': Files)
  {
    && (forall p :: p in files ==> p in files')
    && (forall p :: p in files' ==> FileOr(files', p) == FileOr(files, p))
  }

  /** The factory a request's type gets, with the files as the reader
      found them. */
  function Made(files: Files, folder: string, req: Request): (f: TypeReader.Factory)
  {
    TypeReader.NewFactory(files, StoreWriter.TypePath(folder, req.0.fullName), req.0, req.1).1
  }

  /** The loop of CreateTypeReaders over the first requests: a type
      whose full name is not registered is skipped; a registered one gets
      a new factory at its id's slot of the 65535-slot array, replacing
      what was there, and id 65535 is an index past the array's end. */
  function Slots(files: Files, rd: Reader, reqs: seq<Request>): (out: (Files, Result<map<nat, TypeReader.Factory>>))
  {
    if |reqs| == 0 then (files, Ok(map[]))
    else
      var before := Slots(files, rd, reqs[..|reqs| - 1]);
      var c := reqs[|reqs| - 1].0;
      if before.1.Err? || c.fullName !in rd.known then before
      else
        var id := rd.known[c.fullName];
        if id >= StoreWriter.WriterSlots then (before.0, Err(IndexOutOfRange))
        else
          var made := TypeReader.NewFactory(before.0, StoreWriter.TypePath(rd.folder, c.fullName), c, reqs[|reqs| - 1].1);
          (made.0, Ok(before.1.value[id := made.1]))
  }

  /** The ids of the filled slots from `from` on, ascending. */
  function IdsFrom(m: map<nat, TypeReader.Factory>, from: nat): (ids: seq<nat>)
    ensures forall i :: 0 <= i < |ids| ==> from <= ids[i] < StoreWriter.WriterSlots && ids[i] in m
    ensures forall id :: from <= id < StoreWriter.WriterSlots && id in m ==> id in ids
    ensures forall i, j :: 0 <= i < j < |ids| ==> ids[i] < ids[j]
    decreases StoreWriter.WriterSlots - from
  {
    if from >= StoreWriter.WriterSlots then []
    else (if from in m then [from] else []) + IdsFrom(m, from + 1)
  }

  /** The ids of the filled slots, ascending; behind one layer of
      definition, so that proofs about them see only this contract. */
  function Ids(m: map<nat, TypeReader.Factory>): (ids: seq<nat>)
    ensures forall i :: 0 <= i < |ids| ==> ids[i] < StoreWriter.WriterSlots && ids[i] in m
    ensures forall i, j :: 0 <= i < j < |ids| ==> ids[i] < ids[j]
  {
    IdsAt(m, 1)
  }

  /** Ids behind `depth` layers of definition, as TypeReader.Folded. */
  function IdsAt(m: map<nat, TypeReader.Factory>, depth: nat): (ids: seq<nat>)
    ensures forall i :: 0 <= i < |ids| ==> ids[i] < StoreWriter.WriterSlots && ids[i] in m
    ensures forall i, j :: 0 <= i < j < |ids| ==> ids[i] < ids[j]
    decreases depth
  {
    if depth > 0 then IdsAt(m, depth - 1) else IdsFrom(m, 0)
  }

  /** Every filled slot's id is listed. */
  lemma IdsHas(m: map<nat, TypeReader.Factory>, id: nat)
    requires id in m && id < StoreWriter.WriterSlots
    ensures id in Ids(m)
  {
    assert IdsAt(m, 1) == IdsAt(m, 0);
  }

  /** CreateTypeReaders: the loop, then the array's non-null factories
      in slot order, that is, in id order. */
  function CreateTypeReaders(files: Files, rd: Reader, reqs: seq<Request>): (out: (Files, Result<seq<TypeReader.Factory>>))
  {
    var slots := Slots(files, rd, reqs);
    if slots.1.Err? then (slots.0, Err(slots.1.fault))
    else
      (slots.0, Ok(InOrder(slots.1.value)))
  }

  /** The factories of the filled slots, in slot order. */
  function InOrder(m: map<nat, TypeReader.Factory>): (rs: seq<TypeReader.Factory>)
    ensures |rs| == |Ids(m)| && forall s :: 0 <= s < |rs| ==> rs[s] == m[Ids(m)[s]]
  {
    Pick(m, Ids(m))
  }

  function Pick(m: map<nat, TypeReader.Factory>, ids: seq<nat>): (rs: seq<TypeReader.Factory>)
    requires forall i :: 0 <= i < |ids| ==> ids[i] in m
    ensures |rs| == |ids| && forall s :: 0 <= s < |rs| ==> rs[s] == m[ids[s]]
  {
    if |ids| == 0 then [] else [m[ids[0]]] + Pick(m, ids[1..])
  }

  // ---------------------------------------------------------------- what CreateTypeReaders makes

  /** A factory made on files that only gained empty files since is the
      one made on the files as they were. */
  lemma MadeAgrees(files: Files, now: Files, folder: string, req: Request)
    requires TouchedOnly(files, now)
    ensures var made := TypeReader.NewFactory(now, StoreWriter.TypePath(folder, req.0.fullName), req.0, req.1);
      made.1 == Made(files, folder, req) && TouchedOnly(files, made.0)
  {
    var sp := TypeReader.SequencePath(StoreWriter.TypePath(folder, req.0.fullName));
    assert FileOr(now, sp) == FileOr(files, sp);
  }

  /** The loop fails exactly when a requested type is registered at id
      65535, with the index error; the files only gain empty sequence
      files. */
  lemma {:induction false} SlotsFault(files: Files, rd: Reader, reqs: seq<Request>)
    ensures var (files', r) := Slots(files, rd, reqs);
      && TouchedOnly(files, files')
      && (r.Ok? <==> forall j :: 0 <= j < |reqs| && reqs[j].0.fullName in rd.known ==> rd.known[reqs[j].0.fullName] < StoreWriter.WriterSlots)
      && (r.Err? ==> r.fault == IndexOutOfRange)
  {
    if |reqs| > 0 {
      var front := reqs[..|reqs| - 1];
      assert forall j :: 0 <= j < |front| ==> front[j] == reqs[j];
      SlotsFault(files, rd, front);
      var before := Slots(files, rd, front);
      var c := reqs[|reqs| - 1].0;
      if before.1.Ok? && c.fullName in rd.known && rd.known[c.fullName] < StoreWriter.WriterSlots {
        MadeAgrees(files, before.0, rd.folder, reqs[|reqs| - 1]);
      }
    }
  }

  /** Every registered requested type has its slot. */
  lemma {:induction false} SlotsCover(files: Files, rd: Reader, reqs: seq<Request>)
    ensures var r := Slots(files, rd, reqs).1;
      r.Ok? ==> forall j :: 0 <= j < |reqs| && reqs[j].0.fullName in rd.known ==> rd.known[reqs[j].0.fullName] in r.value
  {
    if |reqs| > 0 {
      var front := reqs[..|reqs| - 1];
      assert forall j :: 0 <= j < |front| ==> front[j] == reqs[j];
      SlotsCover(files, rd, front);
    }
  }

  /** Each filled slot holds the factory of a requested type registered
      at that id, made as on the files the reader found. */
  lemma {:induction false} SlotsHold(files: Files, rd: Reader, reqs: seq<Request>)
    ensures var r := Slots(files, rd, reqs).1;
      r.Ok? ==> forall id :: id in r.value ==>
        && id < StoreWriter.WriterSlots
        && exists j :: 0 <= j < |reqs| && reqs[j].0.fullName in rd.known && rd.known[reqs[j].0.fullName] == id
             && r.value[id] == Made(files, rd.folder, reqs[j])
  {
    if |reqs| > 0 {
      var front := reqs[..|reqs| - 1];
      var last := |reqs| - 1;
      assert forall j :: 0 <= j < |front| ==> front[j] == reqs[j];
      SlotsHold(files, rd, front);
      SlotsFault(files, rd, front);
      var before := Slots(files, rd, front);
      var c := reqs[last].0;
      if before.1.Ok? && c.fullName in rd.known && rd.known[c.fullName] < StoreWriter.WriterSlots {
        MadeAgrees(files, before.0, rd.folder, reqs[last]);
      }
    }
  }

  /** A new factory: in a state reads reach, with its type, handler and
      folder and no row read yet. Its reads never fail exactly when its
      sequence file, as the reader found it, is whole words, and then it
      queues those words; otherwise the file ends in a torn word. */
  lemma MadeFresh(files: Files, folder: string, req: Request)
    ensures var f := Made(files, folder, req);
      var bytes := FileOr(files, TypeReader.SequencePath(f.path));
      && TypeReader.Reachable(f) && f.cls == req.0 && f.handler == req.1 && f.rowId == -1
      && f.path == StoreWriter.TypePath(folder, req.0.fullName)
      && (TypeReader.Good(f) <==> |bytes| % 4 == 0)
      && (TypeReader.Dirty(f) <==> |bytes| % 4 != 0)
      && (TypeReader.Good(f) ==> TypeReader.Queue(f) == Words(bytes, 4))
  {
    var f := Made(files, folder, req);
    TypeReader.ReachedFolded(f);
    if TypeReader.Good(f) {
      TypeReader.QueueOpened(f);
    }
  }

  /** A factory CreateTypeReaders makes for a request: the request's
      type is registered, and the factory is the new one for it. */
  ghost predicate MadeFor(f: TypeReader.Factory, files: Files, rd: Reader, req: Request)
  {
    req.0.fullName in rd.known && f == Made(files, rd.folder, req)
  }

  /** The factory in a filled slot. */
  lemma SlotAt(files: Files, rd: Reader, reqs: seq<Request>, id: nat)
    requires Slots(files, rd, reqs).1.Ok? && id in Slots(files, rd, reqs).1.value
    ensures var f := Slots(files, rd, reqs).1.value[id];
      && id < StoreWriter.WriterSlots
      && TypeReader.Reachable(f) && f.cls.fullName in rd.known && rd.known[f.cls.fullName] == id
      && exists j :: 0 <= j < |reqs| && MadeFor(f, files, rd, reqs[j])
  {
    SlotsHold(files, rd, reqs);
    var m := Slots(files, rd, reqs).1.value;
    var j :| 0 <= j < |reqs| && reqs[j].0.fullName in rd.known && rd.known[reqs[j].0.fullName] == id
      && m[id] == Made(files, rd.folder, reqs[j]);
    MadeFresh(files, rd.folder, reqs[j]);
  }

  /** CreateTypeReaders fails exactly when a requested type is registered
      at id 65535, and only gains empty sequence files. */
  lemma CreatedFault(files: Files, rd: Reader, reqs: seq<Request>)
    ensures var (files', r) := CreateTypeReaders(files, rd, reqs);
      && TouchedOnly(files, files')
      && (r.Ok? <==> forall j :: 0 <= j < |reqs| && reqs[j].0.fullName in rd.known ==> rd.known[reqs[j].0.fullName] < StoreWriter.WriterSlots)
      && (r.Err? ==> r.fault == IndexOutOfRange)
  {
    SlotsFault(files, rd, reqs);
  }

  /** Otherwise it makes, in id order, one factory per registered id a
      request names: each the new factory of a requested type, in a state
      reads reach. */
  lemma CreatedReaders(files: Files, rd: Reader, reqs: seq<Request>)
    requires CreateTypeReaders(files, rd, reqs).1.Ok?
    ensures var rs := CreateTypeReaders(files, rd, reqs).1.value;
      && MergeJoin.AllValid(rs) && MergeJoin.AllReachable(rs)
      && (forall s :: 0 <= s < |rs| ==> rs[s].cls.fullName in rd.known)
      && (forall s :: 0 <= s < |rs| ==> exists j :: 0 <= j < |reqs| && MadeFor(rs[s], files, rd, reqs[j]))
      && (forall s, u :: 0 <= s < u < |rs| ==> rd.known[rs[s].cls.fullName] < rd.known[rs[u].cls.fullName])
  {
    CreatedIs(files, rd, reqs);
    var m := Slots(files, rd, reqs).1.value;
    var rs := InOrder(m);
    forall s | 0 <= s < |rs|
      ensures && TypeReader.Reachable(rs[s]) && rs[s].SequenceValid() && rs[s].cls.fullName in rd.known
              && exists j :: 0 <= j < |reqs| && MadeFor(rs[s], files, rd, reqs[j])
    {
      InOrderAt(files, rd, reqs, s);
    }
    assert MergeJoin.AllValid(rs);
    assert MergeJoin.AllReachable(rs);
    forall s, u | 0 <= s < u < |rs|
      ensures rd.known[rs[s].cls.fullName] < rd.known[rs[u].cls.fullName]
    {
      InOrderAt(files, rd, reqs, s);
      InOrderAt(files, rd, reqs, u);
    }
  }

  /** The factory at a place of the list: that of the slot whose id is at
      the same place of the ascending ids. */
  lemma InOrderAt(files: Files, rd: Reader, reqs: seq<Request>, s: nat)
    requires Slots(files, rd, reqs).1.Ok? && s < |InOrder(Slots(files, rd, reqs).1.value)|
    ensures var m := Slots(files, rd, reqs).1.value; var f := InOrder(m)[s];
      && TypeReader.Reachable(f) && f.cls.fullName in rd.known && rd.known[f.cls.fullName] == Ids(m)[s]
      && exists j :: 0 <= j < |reqs| && MadeFor(f, files, rd, reqs[j])
  {
    var m := Slots(files, rd, reqs).1.value;
    SlotAt(files, rd, reqs, Ids(m)[s]);
  }

  /** And it skips only the types not registered: every registered
      requested type's id has its factory. */
  lemma CreatedCover(files: Files, rd: Reader, reqs: seq<Request>)
    requires CreateTypeReaders(files, rd, reqs).1.Ok?
    ensures var rs := CreateTypeReaders(files, rd, reqs).1.value;
      forall j :: 0 <= j < |reqs| && reqs[j].0.fullName in rd.known ==>
        exists s :: 0 <= s < |rs| && rs[s].cls.fullName in rd.known && rd.known[rs[s].cls.fullName] == rd.known[reqs[j].0.fullName]
  {
    CreatedIs(files, rd, reqs);
    SlotsCover(files, rd, reqs);
    var m := Slots(files, rd, reqs).1.value;
    forall j | 0 <= j < |reqs| && reqs[j].0.fullName in rd.known
      ensures exists s :: 0 <= s < |InOrder(m)| && InOrder(m)[s].cls.fullName in rd.known
                && rd.known[InOrder(m)[s].cls.fullName] == rd.known[reqs[j].0.fullName]
    {
      var id := rd.known[reqs[j].0.fullName];
      SlotAt(files, rd, reqs, id);
      InOrderHas(m, id);
    }
  }

  lemma CreatedIs(files: Files, rd: Reader, reqs: seq<Request>)
    requires Slots(files, rd, reqs).1.Ok?
    ensures CreateTypeReaders(files, rd, reqs).1 == Ok(InOrder(Slots(files, rd, reqs).1.value))
  {
  }

  /** Every filled slot's factory is in the list. */
  lemma InOrderHas(m: map<nat, TypeReader.Factory>, id: nat)
    requires id in m && id < StoreWriter.WriterSlots
    ensures exists s :: 0 <= s < |InOrder(m)| && InOrder(m)[s] == m[id]
  {
    var ids := Ids(m);
    IdsHas(m, id);
    var s :| 0 <= s < |ids| && ids[s] == id;
    assert InOrder(m)[s] == m[id];
  }

  // ---------------------------------------------------------------- Read and Invoke

  /** No type given twice. */
  predicate Distinct(types: seq<ClrType>)
  {
    forall i, j :: 0 <= i < j < |types| ==> types[i] != types[j]
  }

  /** The types of the requests, in order. */
  function Types(reqs: seq<Request>): (types: seq<ClrType>)
    ensures |types| == |reqs| && forall j :: 0 <= j < |reqs| ==> types[j] == reqs[j].0
  {
    seq(|reqs|, j requires 0 <= j < |reqs| => reqs[j].0)
  }

  /** Read's dictionary: each type with the handler that does nothing. */
  function Ignoring(types: seq<ClrType>): (reqs: seq<Request>)
    ensures |reqs| == |types| && forall j :: 0 <= j < |types| ==> reqs[j] == (types[j], TypeReader.Ignore)
  {
    seq(|types|, j requires 0 <= j < |types| => (types[j], TypeReader.Ignore))
  }

  /** Some request names a type registered at id 65535, which has no
      slot. */
  predicate PastSlots(rd: Reader, reqs: seq<Request>)
  {
    exists j :: 0 <= j < |reqs| && reqs[j].0.fullName in rd.known && rd.known[reqs[j].0.fullName] >= StoreWriter.WriterSlots
  }

  /** CreateTypeReaders, then `run` over the factories it made. */
  function Created(files: Files, rd: Reader, reqs: seq<Request>): (out: (Files, Result<seq<TypeReader.Factory>>))
    ensures out == CreateTypeReaders(files, rd, reqs)
    ensures TouchedOnly(files, out.0)
    ensures out.1.Err? <==> PastSlots(rd, reqs)
    ensures out.1.Err? ==> out.1.fault == IndexOutOfRange
    ensures out.1.Ok? ==> MergeJoin.AllValid(out.1.value) && MergeJoin.AllReachable(out.1.value)
    ensures out.1.Ok? && (forall j :: 0 <= j < |reqs| ==> reqs[j].0.fullName !in rd.known) ==> out.1.value == []
  {
    CreatedFault(files, rd, reqs);
    var out := CreateTypeReaders(files, rd, reqs);
    if out.1.Err? then out
    else
      CreatedReaders(files, rd, reqs);
      assert (forall j :: 0 <= j < |reqs| ==> reqs[j].0.fullName !in rd.known) ==> out.1.value == [] by {
        if forall j :: 0 <= j < |reqs| ==> reqs[j].0.fullName !in rd.known {
          NoneRegistered(files, rd, reqs);
        }
      }
      out
  }

  /** Read: the types into a dictionary, where a type given twice
      throws; the factories of the registered ones; then their rows
      merged in write order, with the list constructor corrected to leave
      out a factory that has no row (see MergeJoin.Read). */
  function Read(files: Files, rd: Reader, types: seq<ClrType>): (out: (Files, Result<seq<MergeJoin.Row>>, Disposal))
    ensures !Distinct(types) ==> out == (files, Err(ArgumentError), Releasing([]))
    ensures Distinct(types) ==> TouchedOnly(files, out.0)
    ensures Distinct(types) && PastSlots(rd, Ignoring(types)) ==> out.1 == Err(IndexOutOfRange)
  {
    if !Distinct(types) then (files, Err(ArgumentError), Releasing([]))
    else
      var (files', rs) := Created(files, rd, Ignoring(types));
      if rs.Err? then (files', Err(rs.fault), Releasing([]))
      else
        var (rows, releases) := MergeJoin.Read(rs.value);
        (files', rows, releases)
  }

  /** Read as written: the same, with the list constructor as written,
      so that a request with no registered type throws. */
  function ReadAsWritten(files: Files, rd: Reader, types: seq<ClrType>): (out: (Files, Result<seq<MergeJoin.Row>>, Disposal))
    ensures !Distinct(types) ==> out == (files, Err(ArgumentError), Releasing([]))
    ensures Distinct(types) ==> TouchedOnly(files, out.0)
    ensures Distinct(types) && PastSlots(rd, Ignoring(types)) ==> out.1 == Err(IndexOutOfRange)
  {
    if !Distinct(types) then (files, Err(ArgumentError), Releasing([]))
    else
      var reqs := Ignoring(types);
      var (files', rs) := Created(files, rd, reqs);
      if rs.Err? then (files', Err(rs.fault), Releasing([]))
      else
        var (rows, releases) := MergeJoin.ReadAsWritten(rs.value);
        (files', rows, releases)
  }

  /** Invoke: the handlers' dictionary, keyed by type; the factories of
      the registered types, each with its handler; then every row, in
      write order, handed to its type's handler. */
  function Invoke(files: Files, rd: Reader, handlers: seq<Request>): (out: (Files, Result<seq<MergeJoin.Call>>, Disposal))
    requires Distinct(Types(handlers))
    ensures TouchedOnly(files, out.0)
    ensures PastSlots(rd, handlers) ==> out.1 == Err(IndexOutOfRange)
  {
    var (files', rs) := Created(files, rd, handlers);
    if rs.Err? then (files', Err(rs.fault), Releasing([]))
    else
      var (calls, releases) := MergeJoin.Invoke(rs.value);
      (files', calls, releases)
  }

  /** Invoke as written: the same, with the list constructor as written,
      so that handlers none of whose types is registered throw, and a
      registered type with no position has its handler called once. */
  function InvokeAsWritten(files: Files, rd: Reader, handlers: seq<Request>): (out: (Files, Result<seq<MergeJoin.Call>>, Disposal))
    requires Distinct(Types(handlers))
    ensures TouchedOnly(files, out.0)
    ensures PastSlots(rd, handlers) ==> out.1 == Err(IndexOutOfRange)
  {
    var (files', rs) := Created(files, rd, handlers);
    if rs.Err? then (files', Err(rs.fault), Releasing([]))
    else
      var (calls, releases) := MergeJoin.InvokeAsWritten(rs.value);
      (files', calls, releases)
  }

  /** With no requested type registered, no slot is filled and there is
      no factory. */
  lemma NoneRegistered(files: Files, rd: Reader, reqs: seq<Request>)
    requires CreateTypeReaders(files, rd, reqs).1.Ok?
    requires forall j :: 0 <= j < |reqs| ==> reqs[j].0.fullName !in rd.known
    ensures CreateTypeReaders(files, rd, reqs).1.value == []
  {
    CreatedIs(files, rd, reqs);
    var m := Slots(files, rd, reqs).1.value;
    if |Ids(m)| > 0 {
      SlotAt(files, rd, reqs, Ids(m)[0]);
      assert false;
    }
  }

  /** A Read as written none of whose types is registered throws on the
      empty list, where Read yields nothing. */
  lemma NothingRegistered(files: Files, rd: Reader, types: seq<ClrType>)
    requires Distinct(types) && forall j :: 0 <= j < |types| ==> types[j].fullName !in rd.known
    ensures ReadAsWritten(files, rd, types).1 == Err(NullReference)
    ensures Read(files, rd, types).1 == Ok([])
  {
    var reqs := Ignoring(types);
    assert forall j :: 0 <= j < |reqs| ==> reqs[j].0.fullName !in rd.known;
    var rs := Created(files, rd, reqs).1;
    assert !PastSlots(rd, reqs);
    assert rs == Ok([]);
    assert ReadAsWritten(files, rd, types).1 == MergeJoin.ReadAsWritten([]).0;
    assert Read(files, rd, types).1 == MergeJoin.Read([]).0;
  }

  /** An Invoke as written none of whose handled types is registered
      throws on the empty list, where Invoke calls nothing. */
  lemma NothingHandled(files: Files, rd: Reader, handlers: seq<Request>)
    requires Distinct(Types(handlers)) && forall j :: 0 <= j < |handlers| ==> handlers[j].0.fullName !in rd.known
    ensures InvokeAsWritten(files, rd, handlers).1 == Err(NullReference)
    ensures Invoke(files, rd, handlers).1 == Ok([])
  {
    var rs := Created(files, rd, handlers).1;
    assert !PastSlots(rd, handlers);
    assert rs == Ok([]);
    assert InvokeAsWritten(files, rd, handlers).1 == MergeJoin.InvokeAsWritten([]).0;
    assert Invoke(files, rd, handlers).1 == MergeJoin.Invoke([]).0;
  }

  // ---------------------------------------------------------------- sequence files with a torn last word

  /** No two registered types share an id, as the registry keeps it. */
  predicate OneIdEach(rd: Reader)
  {
    forall n, m :: n in rd.known && m in rd.known && rd.known[n] == rd.known[m] ==> n == m
  }

  /** A registered requested type whose sequence file ends in a torn word
      gets a factory, among those CreateTypeReaders makes, that is ahead
      of that torn word. */
  lemma CreatedDirty(files: Files, rd: Reader, reqs: seq<Request>, j: nat)
    requires !PastSlots(rd, reqs) && OneIdEach(rd)
    requires j < |reqs| && reqs[j].0.fullName in rd.known
    requires |FileOr(files, TypeReader.SequencePath(StoreWriter.TypePath(rd.folder, reqs[j].0.fullName)))| % 4 != 0
    ensures var rs := Created(files, rd, reqs).1;
      && rs.Ok? && MergeJoin.AllValid(rs.value) && MergeJoin.AllReachable(rs.value)
      && exists s :: 0 <= s < |rs.value| && TypeReader.Dirty(rs.value[s])
  {
    var created := Created(files, rd, reqs).1;
    assert created.Ok?;
    var rs := created.value;
    CreatedReaders(files, rd, reqs);
    var s := CoveredAt(files, rd, reqs, j);
    var j' :| 0 <= j' < |reqs| && MadeFor(rs[s], files, rd, reqs[j']);
    MadeDirty(files, rd, reqs[j'], rs[s], reqs[j].0.fullName);
  }

  /** The place of a registered request's factory among those made. */
  lemma CoveredAt(files: Files, rd: Reader, reqs: seq<Request>, j: nat) returns (s: nat)
    requires CreateTypeReaders(files, rd, reqs).1.Ok? && OneIdEach(rd)
    requires j < |reqs| && reqs[j].0.fullName in rd.known
    ensures var rs := CreateTypeReaders(files, rd, reqs).1.value;
      s < |rs| && rs[s].cls.fullName == reqs[j].0.fullName
  {
    CreatedCover(files, rd, reqs);
    var rs := CreateTypeReaders(files, rd, reqs).1.value;
    s :| 0 <= s < |rs| && rs[s].cls.fullName in rd.known && rd.known[rs[s].cls.fullName] == rd.known[reqs[j].0.fullName];
  }

  /** The factory made for a type whose sequence file ends in a torn word
      is ahead of it. */
  lemma MadeDirty(files: Files, rd: Reader, req: Request, f: TypeReader.Factory, n: TypeName)
    requires MadeFor(f, files, rd, req) && f.cls.fullName == n
    requires |FileOr(files, TypeReader.SequencePath(StoreWriter.TypePath(rd.folder, n)))| % 4 != 0
    ensures f.SequenceValid() && TypeReader.Dirty(f)
  {
    MadeFresh(files, rd.folder, req);
  }

  /** A Read that names a registered type whose sequence file ends in a
      torn word fails with the block copy's argument fault, as written
      and as intended. */
  lemma TornSequenceFails(files: Files, rd: Reader, types: seq<ClrType>, j: nat)
    requires Distinct(types) && !PastSlots(rd, Ignoring(types)) && OneIdEach(rd)
    requires j < |types| && types[j].fullName in rd.known
    requires |FileOr(files, TypeReader.SequencePath(StoreWriter.TypePath(rd.folder, types[j].fullName)))| % 4 != 0
    ensures Read(files, rd, types).1 == Err(ArgumentError)
    ensures ReadAsWritten(files, rd, types).1 == Err(ArgumentError)
  {
    var reqs := Ignoring(types);
    CreatedDirty(files, rd, reqs, j);
    var rs := Created(files, rd, reqs).1.value;
    var s :| 0 <= s < |rs| && TypeReader.Dirty(rs[s]);
    MergeJoin.ReadFailsOnDirty(rs, s);
  }

  /** So does an Invoke whose handlers name such a type, in both
      builds. */
  lemma TornSequenceFailsInvoke(files: Files, rd: Reader, handlers: seq<Request>, j: nat)
    requires Distinct(Types(handlers)) && !PastSlots(rd, handlers) && OneIdEach(rd)
    requires j < |handlers| && handlers[j].0.fullName in rd.known
    requires |FileOr(files, TypeReader.SequencePath(StoreWriter.TypePath(rd.folder, handlers[j].0.fullName)))| % 4 != 0
    ensures Invoke(files, rd, handlers).1 == Err(ArgumentError)
    ensures InvokeAsWritten(files, rd, handlers).1 == Err(ArgumentError)
  {
    CreatedDirty(files, rd, handlers, j);
    var rs := Created(files, rd, handlers).1.value;
    var s :| 0 <= s < |rs| && TypeReader.Dirty(rs[s]);
    MergeJoin.ReadFailsOnDirty(rs, s);
  }
}

=== FILE: storewriter.dfy ===
/** EventfulFileSystemWriter: the store's writing side. It keeps the
    registry of event types (full name to 16-bit id, in `types.idx`), a
    TypeWriter per registered type under `<folder>\<FullName>\`, the
    store-wide tag log `<folder>\sequence.log` of the type id of every
    event in write order, and the count of events written so far, which
    is the global position stamped into each event's sequence file. */
module StoreWriter {
  import opened Base
  import opened Streams
  import opened Schema
  import Writers
  import Registry

  function RegistryPath(folder: string): string { folder + "\\types.idx" }
  function TagLogPath(folder: string): string { folder + "\\sequence.log" }
  /** The folder of a type's writer. */
  function TypePath(folder: string, name: TypeName): string
  {
    TypePathAt(folder, name, 1)
  }

  /** TypePath behind `depth` layers of definition, so that facts
      quantified over names do not unfold every path into its
      concatenations; TypePathOpened opens it. */
  function TypePathAt(folder: string, name: TypeName, depth: nat): string
    decreases depth
  {
    if depth > 0 then TypePathAt(folder, name, depth - 1) else folder + "\\" + NameText(name) + "\\"
  }

  lemma TypePathOpened(folder: string, name: TypeName)
    ensures TypePath(folder, name) == folder + "\\" + NameText(name) + "\\"
  {
    assert TypePathAt(folder, name, 1) == TypePathAt(folder, name, 0);
  }

  /** The sequence file of a type's writer. */
  function SeqPath(folder: string, name: TypeName): string
  {
    SeqPathAt(folder, name, 1)
  }

  /** SeqPath behind `depth` layers of definition, so that facts
      quantified over names do not unfold every path into its
      concatenations; SeqPathOpened opens it. */
  function SeqPathAt(folder: string, name: TypeName, depth: nat): string
    decreases depth
  {
    if depth > 0 then SeqPathAt(folder, name, depth - 1) else Writers.SequenceFile(TypePath(folder, name))
  }

  lemma SeqPathOpened(folder: string, name: TypeName)
    ensures SeqPath(folder, name) == Writers.SequenceFile(TypePath(folder, name))
  {
    assert SeqPathAt(folder, name, 1) == SeqPathAt(folder, name, 0);
  }

  /** The length of the type-writer array, ushort.MaxValue: id 65535
      has no slot. */
  const WriterSlots: nat := 65535

  /** An event: its runtime class and the object itself. */
  datatype Event = Event(cls: ClrType, value: Value)

  /** A uint. */
  type UInt32 = c: nat | c < 0x1_0000_0000

  function NameOf(e: Event): TypeName { e.cls.fullName }

  datatype Writer = Writer(
    folder: string,
    known: Registry.Known,                       // _knownTypes
    typeWriters: map<nat, Writers.TypeWriter>,   // the non-null entries of _typeWriters
    custom: Writers.CustomWriters,
    registryPos: nat,                            // the registry handle's write position
    count: UInt32)                               // writtenEventCount

  /** The constructor: the registry is opened for writing without
      truncation (so its handle writes from offset 0) and the tag log for
      appending, both created if missing; then the registry's entries
      are loaded, and a malformed registry makes the constructor throw. */
  function New(files: Files, folder: string): (out: (Files, Result<Writer>))
    ensures out.0 == Touch(Touch(files, RegistryPath(folder)), TagLogPath(folder))
    ensures out.1.Ok? <==> Registry.Load(Open(RegistryPath(folder), out.0[RegistryPath(folder)])).Ok?
    ensures out.1.Ok? ==> var w := out.1.value;
      && w.folder == folder && w.count == 0 && w.registryPos == 0
      && w.typeWriters == map[] && w.custom == map[]
      && w.known == Registry.Load(Open(RegistryPath(folder), out.0[RegistryPath(folder)])).value
  {
    var files' := Touch(Touch(files, RegistryPath(folder)), TagLogPath(folder));
    var loaded := Registry.Load(Open(RegistryPath(folder), files'[RegistryPath(folder)]));
    if loaded.Err? then (files', Err(loaded.fault))
    else (files', Ok(Writer(folder, loaded.value, map[], map[], 0, 0)))
  }

  /** RegisterWriter: Dictionary.Add of a custom writer for a type. */
  function RegisterWriter(w: Writer, t: FieldType, write: Writers.CustomWriter): (r: Result<Writer>)
    ensures r.Ok? <==> t !in w.custom
    ensures r.Ok? ==> r.value.custom.Keys == w.custom.Keys + {t} && r.value.known == w.known && r.value.count == w.count
  {
    if t in w.custom then Err(DuplicateKey) else Ok(w.(custom := w.custom[t := write]))
  }

  /** GetOrCreateKnownType: a known name's id; a new name gets the
      dictionary's count, cut to 16 bits, and its entry is written at the
      registry handle's position. */
  function GetOrCreateKnownType(files: Files, w: Writer, name: TypeName): (out: (Files, Registry.Id, Writer))
    ensures out.2 == w.(known := out.2.known, registryPos := out.2.registryPos)
    ensures name in w.known ==> out == (files, w.known[name], w)
    ensures name !in w.known ==>
      && out.1 == |w.known| % TwoTo16
      && out.2.known == w.known[name := out.1]
      && out.2.registryPos == w.registryPos + |Registry.Entry(out.1, name)|
      && out.0 == Writers.ApplyWrite(files, Writers.WriteAt(RegistryPath(w.folder), w.registryPos, Registry.Entry(out.1, name)))
  {
    if name in w.known then (files, w.known[name], w)
    else
      var id := |w.known| % TwoTo16;
      var entry := Registry.Entry(id, name);
      (Writers.ApplyWrite(files, Writers.WriteAt(RegistryPath(w.folder), w.registryPos, entry)),
       id,
       w.(known := w.known[name := id], registryPos := w.registryPos + |entry|))
  }

  /** The type writer for a registered id: the one made for it before, or
      a new one rooted at `<folder>\<FullName>\`, whose constructor
      creates its files. */
  function TypeWriterFor(files: Files, w: Writer, id: nat, e: Event): (out: (Files, Result<Writers.TypeWriter>))
  {
    if id in w.typeWriters then (files, Ok(w.typeWriters[id]))
    else
      var (touched, tw) := Writers.NewTypeWriter(w.custom, TypePath(w.folder, NameOf(e)), e.cls);
      (Writers.TouchAll(files, touched), tw)
  }

  /** The tag-log entry of an event: its type id as a ushort. */
  function Tag(id: Registry.Id): (bs: seq<byte>)
    ensures |bs| == 2 && DecodeLE(bs) == id
  {
    assert Pow256(2) == TwoTo16;
    DecodeEncodeLE(id, 2);
    EncodeLE(id, 2)
  }

  /** Write: the type's id (registering the type if new); its type writer
      (made on first use; id 65535 has no slot in the array); the row,
      stamped with the event count, into that writer's sequence and column
      files; then the id onto the tag log, and the count up by one, in 32
      bits. An exception leaves whatever was written before it in the
      files, and the count unchanged. */
  function Write(files: Files, w: Writer, e: Event): (out: (Files, Option<Fault>, Writer))
  {
    WriteFrom(files, w, e, 1)
  }

  /** Write behind `depth` layers of definition, so that a proof about a
      sequence of writes does not unfold each of them; WriteOpened opens
      it. */
  function WriteFrom(files: Files, w: Writer, e: Event, depth: nat): (out: (Files, Option<Fault>, Writer))
    decreases depth
  {
    if depth > 0 then WriteFrom(files, w, e, depth - 1)
    else
      var got := GetOrCreateKnownType(files, w, NameOf(e));
      if got.1 >= WriterSlots then (got.0, Some(IndexOutOfRange), got.2)
      else WriteWith(got.0, got.2, got.1, e)
  }

  lemma WriteOpened(files: Files, w: Writer, e: Event)
    ensures Write(files, w, e) == WriteFrom(files, w, e, 0)
  {
    assert WriteFrom(files, w, e, 1) == WriteFrom(files, w, e, 0);
  }

  /** Write once the type has an id with a slot. */
  function WriteWith(files: Files, w: Writer, id: Registry.Id, e: Event): (out: (Files, Option<Fault>, Writer))
  {
    var found := TypeWriterFor(files, w, id, e);
    if found.1.Err? then (found.0, Some(found.1.fault), w)
    else WriteRowWith(found.0, w, id, found.1.value, e)
  }

  /** Write once the type's writer is found. */
  function WriteRowWith(files: Files, w: Writer, id: Registry.Id, tw: Writers.TypeWriter, e: Event): (out: (Files, Option<Fault>, Writer))
  {
    WriteRowAt(files, w, id, tw, e, 1)
  }

  function WriteRowAt(files: Files, w: Writer, id: Registry.Id, tw: Writers.TypeWriter, e: Event, depth: nat): (out: (Files, Option<Fault>, Writer))
    ensures out.2.folder == w.folder
    decreases depth
  {
    if depth > 0 then WriteRowAt(files, w, id, tw, e, depth - 1)
    else
      var row := Writers.WriteRow(tw, e.value, w.count);
      var files' := Writers.Apply(files, row.0.writes);
      var w' := w.(typeWriters := w.typeWriters[id := row.1]);
      if row.0.fault.Some? then (files', row.0.fault, w')
      else (Writers.ApplyWrite(files', Writers.Append(TagLogPath(w.folder), Tag(id))), None, w'.(count := (w'.count + 1) % TwoTo32))
  }

  /** Events written one after another, up to the first exception. */
  function WriteAll(files: Files, w: Writer, es: seq<Event>): (out: (Files, Option<Fault>, Writer))
  {
    if |es| == 0 then (files, None, w)
    else
      var before := WriteAll(files, w, es[..|es| - 1]);
      if before.1.Some? then before else Write(before.0, before.2, es[|es| - 1])
  }

  /** Dispose: the tag log's writer and stream, the registry's, then
      every type writer that was made, in id order. */
  function Dispose(w: Writer): (rs: seq<Release>)
    ensures |rs| >= 4 && rs[..4] == [CloseWrapper(TagLogPath(w.folder)), CloseStream(TagLogPath(w.folder)),
                                     CloseWrapper(RegistryPath(w.folder)), CloseStream(RegistryPath(w.folder))]
    ensures rs[4..] == DisposeFrom(w.typeWriters, 0)
  {
    [CloseWrapper(TagLogPath(w.folder)), CloseStream(TagLogPath(w.folder)),
     CloseWrapper(RegistryPath(w.folder)), CloseStream(RegistryPath(w.folder))] + DisposeFrom(w.typeWriters, 0)
  }

  /** The type writers of ids `id` and up, in id order, skipping empty
      slots. */
  function DisposeFrom(tws: map<nat, Writers.TypeWriter>, id: nat): (rs: seq<Release>)
    ensures (forall i :: i in tws ==> i < id) ==> rs == []
    decreases WriterSlots - id
  {
    if id >= WriterSlots then []
    else (if id in tws then Writers.Dispose(tws[id]) else []) + DisposeFrom(tws, id + 1)
  }

  // ---------------------------------------------------------------- what a session writes

  /** The distinct type names of `es`, in order of first occurrence: the
      ids a store started empty gives them. NamesSpec states what it
      holds. */
  function Names(es: seq<Event>): (ns: seq<TypeName>)
    ensures |ns| <= |es|
    decreases |es|, 2
  {
    NamesAt(es, 1)
  }

  /** Names behind `depth` layers of definition, so that indexing into
      the names does not unfold them; NamesOpened opens it. */
  function NamesAt(es: seq<Event>, depth: nat): (ns: seq<TypeName>)
    ensures |ns| <= |es|
    decreases |es|, depth
  {
    if depth > 0 then NamesAt(es, depth - 1)
    else if |es| == 0 then []
    else
      var front := Names(es[..|es| - 1]);
      var n := NameOf(es[|es| - 1]);
      if n in front then front else front + [n]
  }

  lemma NamesOpened(es: seq<Event>)
    ensures Names(es) == if |es| == 0 then [] else
      var front := Names(es[..|es| - 1]);
      if NameOf(es[|es| - 1]) in front then front else front + [NameOf(es[|es| - 1])]
  {
    assert NamesAt(es, 1) == NamesAt(es, 0);
  }

  /** Every event's name is among the names, each name is some event's,
      and none repeats. */
  lemma {:induction false} NamesSpec(es: seq<Event>)
    ensures var ns := Names(es);
      && (forall k :: 0 <= k < |es| ==> NameOf(es[k]) in ns)
      && (forall n :: n in ns ==> exists k :: 0 <= k < |es| && NameOf(es[k]) == n)
      && (forall i, j :: 0 <= i < j < |ns| ==> ns[i] != ns[j])
  {
    NamesOpened(es);
    if |es| > 0 {
      var front := es[..|es| - 1];
      NamesSpec(front);
      assert forall k :: 0 <= k < |front| ==> front[k] == es[k];
    }
  }

  /** The positions of the events of type `n` in `es`, ascending.
      StampsSpec states which they are. */
  function Stamps(es: seq<Event>, n: TypeName): (ks: seq<nat>)
    ensures forall i :: 0 <= i < |ks| ==> ks[i] < |es|
  {
    if |es| == 0 then []
    else
      var front := Stamps(es[..|es| - 1], n);
      if NameOf(es[|es| - 1]) == n then front + [|es| - 1] else front
  }

  /** Exactly the events of type `n`, in increasing order. */
  lemma {:induction false} StampsSpec(es: seq<Event>, n: TypeName)
    ensures var ks := Stamps(es, n);
      && (forall i :: 0 <= i < |ks| ==> NameOf(es[ks[i]]) == n)
      && (forall k :: 0 <= k < |es| && NameOf(es[k]) == n ==> k in ks)
      && (forall i, j :: 0 <= i < j < |ks| ==> ks[i] < ks[j])
  {
    if |es| > 0 {
      var front := es[..|es| - 1];
      StampsSpec(front, n);
      var ks := Stamps(front, n);
      assert forall k :: 0 <= k < |front| ==> front[k] == es[k];
      if NameOf(es[|es| - 1]) == n {
        var ks' := ks + [|es| - 1];
        assert Stamps(es, n) == ks';
        assert forall k :: 0 <= k < |es| - 1 && k in ks ==> k in ks';
        assert forall i :: 0 <= i < |ks'| ==> NameOf(es[ks'[i]]) == n;
      } else {
        assert Stamps(es, n) == ks;
        assert forall i :: 0 <= i < |ks| ==> NameOf(es[ks[i]]) == n;
      }
    }
  }

  /** Positions as a sequence file holds them: 32-bit little-endian
      words, one after another. */
  function StampBytes(ks: seq<nat>): (bs: seq<byte>)
    requires forall i :: 0 <= i < |ks| ==> ks[i] < TwoTo32
    ensures |bs| == 4 * |ks|
  {
    if |ks| == 0 then []
    else
      Pow256Four();
      StampBytes(ks[..|ks| - 1]) + EncodeLE(ks[|ks| - 1], 4)
  }

  /** The tag log of `es`: each event's type id, in write order. */
  function TagBytes(es: seq<Event>, known: Registry.Known): (bs: seq<byte>)
    requires forall k :: 0 <= k < |es| ==> NameOf(es[k]) in known
    ensures |bs| == 2 * |es|
  {
    if |es| == 0 then []
    else
      assert forall k :: 0 <= k < |es| - 1 ==> es[..|es| - 1][k] == es[k];
      TagBytes(es[..|es| - 1], known) + Tag(known[NameOf(es[|es| - 1])])
  }

  /** The sequence file of type `n` after `es` from an empty store. */
  function SeqBytes(es: seq<Event>, n: TypeName): seq<byte>
    requires |es| <= TwoTo32
  {
    SeqBytesAt(es, n, 1)
  }

  /** SeqBytes behind `depth` layers of definition, so that facts
      quantified over names do not unfold every file into its words;
      SeqBytesOpened opens it. */
  function SeqBytesAt(es: seq<Event>, n: TypeName, depth: nat): seq<byte>
    requires |es| <= TwoTo32
    decreases depth
  {
    if depth > 0 then SeqBytesAt(es, n, depth - 1) else StampBytes(Stamps(es, n))
  }

  lemma SeqBytesOpened(es: seq<Event>, n: TypeName)
    requires |es| <= TwoTo32
    ensures SeqBytes(es, n) == StampBytes(Stamps(es, n))
  {
    assert SeqBytesAt(es, n, 1) == SeqBytesAt(es, n, 0);
  }

  /** One more event: its type's file gains its position; no other
      type's file changes. */
  lemma SeqBytesSnoc(es: seq<Event>, e: Event, n: TypeName)
    requires |es| < TwoTo32
    ensures SeqBytes(es + [e], n) == if NameOf(e) == n then SeqBytes(es, n) + EncodeLE(|es|, 4) else SeqBytes(es, n)
  {
    SeqBytesOpened(es, n);
    SeqBytesOpened(es + [e], n);
    StampsSnoc(es, e, n);
    StampBytesSnoc(Stamps(es, n), |es|);
  }

  lemma Pow256Four()
    ensures Pow256(4) == TwoTo32
  {
    assert Pow256(2) == 65536;
    assert Pow256(4) == 65536 * 65536 by { assert Pow256(3) == 256 * 65536; }
  }

  lemma NamesSnoc(es: seq<Event>, e: Event)
    ensures Names(es + [e]) == if NameOf(e) in Names(es) then Names(es) else Names(es) + [NameOf(e)]
  {
    NamesOpened(es + [e]);
    assert (es + [e])[..|es|] == es;
  }

  lemma StampsSnoc(es: seq<Event>, e: Event, n: TypeName)
    ensures Stamps(es + [e], n) == if NameOf(e) == n then Stamps(es, n) + [|es|] else Stamps(es, n)
  {
    assert (es + [e])[..|es|] == es;
  }

  lemma StampBytesSnoc(ks: seq<nat>, k: nat)
    requires forall i :: 0 <= i < |ks| ==> ks[i] < TwoTo32
    requires k < TwoTo32
    ensures Pow256(4) == TwoTo32 && StampBytes(ks + [k]) == StampBytes(ks) + EncodeLE(k, 4)
  {
    Pow256Four();
    assert (ks + [k])[..|ks|] == ks;
  }

  /** A type with no event has no position. */
  lemma {:induction false} NoStamps(es: seq<Event>, n: TypeName)
    requires n !in Names(es)
    ensures Stamps(es, n) == []
  {
    if |es| > 0 {
      var front := es[..|es| - 1];
      assert es == front + [es[|es| - 1]];
      NamesSnoc(front, es[|es| - 1]);
      NoStamps(front, n);
    }
  }

  /** The tag log only reads the ids of the names `es` uses. */
  lemma {:induction false} TagBytesAgree(es: seq<Event>, known: Registry.Known, known': Registry.Known)
    requires forall k :: 0 <= k < |es| ==> NameOf(es[k]) in known && NameOf(es[k]) in known' && known[NameOf(es[k])] == known'[NameOf(es[k])]
    ensures TagBytes(es, known) == TagBytes(es, known')
  {
    if |es| > 0 {
      var front := es[..|es| - 1];
      assert forall k :: 0 <= k < |front| ==> front[k] == es[k];
      TagBytesAgree(front, known, known');
    }
  }

  lemma TagBytesSnoc(es: seq<Event>, e: Event, known: Registry.Known)
    requires forall k :: 0 <= k < |es| ==> NameOf(es[k]) in known
    requires NameOf(e) in known
    ensures TagBytes(es + [e], known) == TagBytes(es, known) + Tag(known[NameOf(e)])
  {
    assert (es + [e])[..|es|] == es;
  }

  // ---------------------------------------------------------------- the files of a store

  /** A file the same in two trees: in both, with the same bytes, or in
      neither. */
  ghost predicate Same(f: Files, g: Files, p: string)
  {
    (p in f <==> p in g) && (p in f ==> f[p] == g[p])
  }

  /** A folder's registry, tag log and type sequence files are distinct,
      and none of them is a column file. */
  lemma PathsApart(folder: string, n: TypeName)
    ensures RegistryPath(folder) != TagLogPath(folder)
    ensures SeqPath(folder, n) != RegistryPath(folder) && SeqPath(folder, n) != TagLogPath(folder)
    ensures !Writers.IsColumnFile(RegistryPath(folder)) && !Writers.IsColumnFile(TagLogPath(folder))
    ensures !Writers.IsColumnFile(SeqPath(folder, n))
  {
    var r := RegistryPath(folder);
    var t := TagLogPath(folder);
    var q := SeqPath(folder, n);
    SeqPathOpened(folder, n);
    TypePathOpened(folder, n);
    assert r[|r| - 4..] == ".idx";
    assert t[|t| - 4..] == ".log";
    assert q[|q| - 4..] == ".log";
    assert |q| == |t| + |n| + 1;
  }

  /** Distinct types have distinct sequence files. */
  lemma SeqPathInjective(folder: string, n: TypeName, m: TypeName)
    requires SeqPath(folder, n) == SeqPath(folder, m)
    ensures n == m
  {
    var a := |folder| + 1;
    SeqPathOpened(folder, n);
    SeqPathOpened(folder, m);
    TypePathOpened(folder, n);
    TypePathOpened(folder, m);
    assert |SeqPath(folder, n)| == a + |n| + 13;
    assert |SeqPath(folder, m)| == a + |m| + 13;
    assert SeqPath(folder, n)[a..a + |n|] == NameText(n);
    assert SeqPath(folder, m)[a..a + |m|] == NameText(m);
    NameTextInjective(n, m);
  }

  /** Appends to column files leave every other file as it was. */
  lemma {:induction false} AppendsKeep(files: Files, ws: seq<Writers.FileWrite>, p: string)
    requires Writers.ColumnAppends(ws) && !Writers.IsColumnFile(p)
    ensures Same(Writers.Apply(files, ws), files, p)
    decreases |ws|
  {
    if |ws| > 0 {
      assert Writers.ColumnAppends(ws[1..]) by {
        forall k | 0 <= k < |ws[1..]| ensures ws[1..][k].Append? && Writers.IsColumnFile(ws[1..][k].file) {
          assert ws[1..][k] == ws[k + 1];
        }
      }
      AppendsKeep(Writers.ApplyWrite(files, ws[0]), ws[1..], p);
    }
  }

  /** A write changes only its own file. */
  lemma WriteKeeps(files: Files, wr: Writers.FileWrite, p: string)
    requires p != wr.file
    ensures Same(Writers.ApplyWrite(files, wr), files, p)
  {
  }

  /** A write at a file's end is an append. */
  lemma SpliceAtEnd(prior: seq<byte>, bs: seq<byte>)
    ensures Writers.Splice(prior, |prior|, bs) == prior + bs
  {
    var r := Writers.Splice(prior, |prior|, bs);
    assert r[..|prior|] == prior[..|prior|] == prior;
    assert r == r[..|prior|] + r[|prior|..|prior| + |bs|];
  }

  // ---------------------------------------------------------------- the session invariant

  /** The registry: every name `es` used, at its first-seen index. */
  ghost predicate KnownInv(w: Writer, ns: seq<TypeName>)
  {
    && |ns| <= WriterSlots && |w.known| == |ns|
    && (forall n :: n in w.known <==> n in ns)
    && (forall i :: 0 <= i < |ns| ==> w.known[ns[i]] == i)
  }

  /** The type writer of type `n` after `es`: rooted at the type's
      folder, one sequence entry per event of the type, columns in column
      files. */
  ghost predicate WriterOf(tw: Writers.TypeWriter, folder: string, es: seq<Event>, n: TypeName)
  {
    |es| <= TwoTo32 && tw.path == TypePath(folder, n) && tw.sequencePos == |SeqBytes(es, n)| && Writers.ColumnFiles(tw)
  }

  ghost predicate WritersInv(w: Writer, es: seq<Event>, ns: seq<TypeName>)
  {
    && (forall id: nat :: id in w.typeWriters <==> id < |ns|)
    && (forall i :: 0 <= i < |ns| ==> WriterOf(w.typeWriters[i], w.folder, es, ns[i]))
  }

  ghost predicate RegistryInv(files: Files, w: Writer)
  {
    && RegistryPath(w.folder) in files
    && |files[RegistryPath(w.folder)]| == w.registryPos
    && Registry.Load(Open(RegistryPath(w.folder), files[RegistryPath(w.folder)])) == Ok(w.known)
  }

  ghost predicate TagInv(files: Files, w: Writer, es: seq<Event>)
  {
    && TagLogPath(w.folder) in files
    && (forall k :: 0 <= k < |es| ==> NameOf(es[k]) in w.known)
    && files[TagLogPath(w.folder)] == TagBytes(es, w.known)
  }

  /** Each registered type's sequence file holds the positions of its
      events. */
  ghost predicate SeqInv(files: Files, folder: string, es: seq<Event>, ns: seq<TypeName>)
  {
    && |es| <= TwoTo32
    && forall i :: 0 <= i < |ns| ==>
         SeqPath(folder, ns[i]) in files && files[SeqPath(folder, ns[i])] == SeqBytes(es, ns[i])
  }

  /** A type not registered has at most an empty sequence file. */
  ghost predicate FreshInv(files: Files, folder: string, ns: seq<TypeName>)
  {
    forall m :: m !in ns && SeqPath(folder, m) in files ==> files[SeqPath(folder, m)] == []
  }

  /** A store after a session that wrote `es`, started empty. */
  ghost predicate Inv(files: Files, w: Writer, es: seq<Event>)
  {
    InvAt(files, w, es, 1)
  }

  /** Inv behind `depth` layers of definition, so that a proof that only
      carries it along does not unfold it; InvOpened opens it. */
  ghost predicate InvAt(files: Files, w: Writer, es: seq<Event>, depth: nat)
    decreases depth
  {
    if depth > 0 then InvAt(files, w, es, depth - 1) else InvOf(files, w, es, Names(es))
  }

  lemma InvOpened(files: Files, w: Writer, es: seq<Event>)
    ensures Inv(files, w, es) == InvOf(files, w, es, Names(es))
  {
    assert InvAt(files, w, es, 1) == InvAt(files, w, es, 0);
  }

  /** Inv with the names given. */
  ghost predicate InvOf(files: Files, w: Writer, es: seq<Event>, ns: seq<TypeName>)
  {
    && w.count == |es|
    && KnownInv(w, ns) && WritersInv(w, es, ns)
    && RegistryInv(files, w) && TagInv(files, w, es)
    && SeqInv(files, w.folder, es, ns) && FreshInv(files, w.folder, ns)
  }

  /** `ns'` is `ns` after an event of type `n`: the same if `n` was seen,
      else with `n` added. */
  ghost predicate NamesStep(ns: seq<TypeName>, n: TypeName, ns': seq<TypeName>)
  {
    if n in ns then ns' == ns else ns' == ns + [n]
  }

  // ---------------------------------------------------------------- one write, stage by stage

  /** Registering an event's type: a name seen before keeps its id, a new
      one gets the next id, and the registry file grows by its entry and
      loads as the grown dictionary. No other file changes. */
  lemma KnownStep(files: Files, w: Writer, ns: seq<TypeName>, n: TypeName, ns': seq<TypeName>)
    requires KnownInv(w, ns) && RegistryInv(files, w) && NamesStep(ns, n, ns')
    requires |n| < TwoTo32 / 2
    ensures var (files1, id, w1) := GetOrCreateKnownType(files, w, n);
      && id < |ns'| && ns'[id] == n && (id < |ns| <==> n in ns)
      && (id < WriterSlots ==> KnownInv(w1, ns') && RegistryInv(files1, w1))
      && (forall p :: p != RegistryPath(w.folder) ==> Same(files1, files, p))
  {
    if n in w.known {
      var i :| 0 <= i < |ns| && ns[i] == n;
      assert w.known[n] == i;
    } else {
      RegistryGrows(files, w, n);
      NextId(w, ns);
      var entry := Registry.Entry(|ns|, n);
      forall p | p != RegistryPath(w.folder)
        ensures Same(GetOrCreateKnownType(files, w, n).0, files, p)
      {
        WriteKeeps(files, Writers.WriteAt(RegistryPath(w.folder), w.registryPos, entry), p);
      }
      if |ns| < WriterSlots {
        KnownGrows(w, ns, n);
      }
    }
  }

  /** A new name's entry goes at the registry file's end, which then
      loads with the name added at the next id. */
  lemma RegistryGrows(files: Files, w: Writer, n: TypeName)
    requires RegistryInv(files, w) && n !in w.known && |n| < TwoTo32 / 2
    ensures var (files1, id, w1) := GetOrCreateKnownType(files, w, n);
      RegistryInv(files1, w1)
  {
    var reg := RegistryPath(w.folder);
    var id := |w.known| % TwoTo16;
    var entry := Registry.Entry(id, n);
    SpliceAtEnd(files[reg], entry);
    Registry.LoadAppend(reg, files[reg], w.known, id, n);
  }

  /** The event count goes up by one while it stays below 2^32. */
  lemma CountUp(c: nat)
    requires c + 1 < TwoTo32
    ensures (c + 1) % TwoTo32 == c + 1
  {
  }

  /** The id a new name gets is the number of names seen so far. */
  lemma NextId(w: Writer, ns: seq<TypeName>)
    requires |w.known| == |ns| && |ns| <= WriterSlots
    ensures |w.known| % TwoTo16 == |ns|
  {
  }

  lemma KnownGrows(w: Writer, ns: seq<TypeName>, n: TypeName)
    requires KnownInv(w, ns) && n !in ns && |ns| < WriterSlots
    ensures KnownInv(w.(known := w.known[n := |ns|]), ns + [n])
  {
    var known' := w.known[n := |ns|];
    forall i | 0 <= i < |ns| ensures known'[ns[i]] == i {
      assert ns[i] != n;
    }
  }

  /** Finding the type writer: the one made at the type's first event, or
      a new one whose sequence file was empty or missing. Every file
      already there keeps its bytes. */
  lemma WriterStep(files: Files, w: Writer, id: nat, es: seq<Event>, e: Event, ns: seq<TypeName>, ns': seq<TypeName>)
    requires SeqInv(files, w.folder, es, ns) && WritersInv(w, es, ns) && FreshInv(files, w.folder, ns)
    requires NameOf(e) !in ns ==> SeqBytes(es, NameOf(e)) == []
    requires NamesStep(ns, NameOf(e), ns') && id < |ns'| && ns'[id] == NameOf(e) && (id < |ns| <==> NameOf(e) in ns)
    requires TypeWriterFor(files, w, id, e).1.Ok?
    ensures var (files2, tw) := TypeWriterFor(files, w, id, e);
      var n := NameOf(e);
      && WriterOf(tw.value, w.folder, es, n)
      && SeqPath(w.folder, n) in files2 && files2[SeqPath(w.folder, n)] == SeqBytes(es, n)
      && (forall p :: p in files ==> Same(files2, files, p))
      && FreshInv(files2, w.folder, ns')
  {
    var n := NameOf(e);
    if id < |ns| {
      assert ns[id] == n;
    } else {
      var (touched, tw) := Writers.NewTypeWriter(w.custom, TypePath(w.folder, n), e.cls);
      var files2 := Writers.TouchAll(files, touched);
      SeqPathOpened(w.folder, n);
      assert SeqPath(w.folder, n) == touched[0];
      forall m | m !in ns + [n] && SeqPath(w.folder, m) in files2
        ensures files2[SeqPath(w.folder, m)] == []
      {
        assert m !in ns;
      }
    }
  }

  /** Writing the row: the type's sequence file gains the event's
      position; otherwise only column files change. */
  lemma RowStep(files: Files, tw: Writers.TypeWriter, folder: string, es: seq<Event>, e: Event)
    requires WriterOf(tw, folder, es, NameOf(e)) && |es| < TwoTo32
    requires SeqPath(folder, NameOf(e)) in files
    requires files[SeqPath(folder, NameOf(e))] == SeqBytes(es, NameOf(e))
    ensures var (o, tw') := Writers.WriteRow(tw, e.value, |es|);
      var files3 := Writers.Apply(files, o.writes);
      var q := SeqPath(folder, NameOf(e));
      && WriterOf(tw', folder, es + [e], NameOf(e))
      && q in files3 && files3[q] == SeqBytes(es + [e], NameOf(e))
      && forall p :: p != q && !Writers.IsColumnFile(p) ==> Same(files3, files, p)
  {
    var n := NameOf(e);
    var q := SeqPath(folder, n);
    SeqPathOpened(folder, n);
    var (o, tw') := Writers.WriteRow(tw, e.value, |es|);
    SeqBytesSnoc(es, e, n);
    var head := Writers.WriteAt(q, tw.sequencePos, EncodeLE(|es|, 4));
    var rest := Writers.WriteObject(tw, e.value).writes;
    assert o.writes == [head] + rest;
    assert o.writes[1..] == rest;
    var files1 := Writers.ApplyWrite(files, head);
    SpliceAtEnd(files[q], EncodeLE(|es|, 4));
    assert files1[q] == SeqBytes(es + [e], n);
    PathsApart(folder, n);
    AppendsKeep(files1, rest, q);
    forall p | p != q && !Writers.IsColumnFile(p) ensures Same(Writers.Apply(files, o.writes), files, p) {
      AppendsKeep(files1, rest, p);
    }
  }

  /** Sequence files untouched keep the session's positions. */
  lemma SeqsKept(f: Files, g: Files, folder: string, es: seq<Event>, ns: seq<TypeName>)
    requires SeqInv(f, folder, es, ns)
    requires forall m :: SeqPath(folder, m) in f ==> Same(g, f, SeqPath(folder, m))
    ensures SeqInv(g, folder, es, ns)
  {
  }

  lemma FreshKept(f: Files, g: Files, folder: string, ns: seq<TypeName>)
    requires FreshInv(f, folder, ns)
    requires forall m :: Same(g, f, SeqPath(folder, m))
    ensures FreshInv(g, folder, ns)
  {
  }

  /** After the row: the event's type's sequence file holds its positions
      with the new one, the others are unchanged and still right. `ns'`
      is the names after the event: `ns`, or `ns` and the new name. */
  lemma SeqsAfter(f: Files, g: Files, folder: string, es: seq<Event>, e: Event, ns: seq<TypeName>, ns': seq<TypeName>)
    requires ns' == ns || ns' == ns + [NameOf(e)]
    requires SeqInv(f, folder, es, ns) && |es| < TwoTo32
    requires SeqPath(folder, NameOf(e)) in g && g[SeqPath(folder, NameOf(e))] == SeqBytes(es + [e], NameOf(e))
    requires forall m :: m != NameOf(e) ==> Same(g, f, SeqPath(folder, m))
    ensures SeqInv(g, folder, es + [e], ns')
  {
    forall i | 0 <= i < |ns'| && ns'[i] != NameOf(e)
      ensures SeqPath(folder, ns'[i]) in g && g[SeqPath(folder, ns'[i])] == SeqBytes(es + [e], ns'[i])
    {
      assert ns'[i] == ns[i];
      SeqBytesSnoc(es, e, ns[i]);
    }
  }

  /** Files of unregistered types stay empty while only the event's own
      type's sequence file changes. */
  lemma FreshAfter(f: Files, g: Files, folder: string, n: TypeName, ns': seq<TypeName>)
    requires FreshInv(f, folder, ns') && n in ns'
    requires forall m :: m != n ==> Same(g, f, SeqPath(folder, m))
    ensures FreshInv(g, folder, ns')
  {
  }

  /** After the row: the event's type's writer is the one the row moved
      on; the others are unchanged and still right. */
  lemma WritersAfter(w: Writer, id: nat, tw: Writers.TypeWriter, es: seq<Event>, e: Event, ns: seq<TypeName>, ns': seq<TypeName>)
    requires forall i, j :: 0 <= i < j < |ns| ==> ns[i] != ns[j]
    requires (ns' == ns && id < |ns| && ns[id] == NameOf(e)) || (ns' == ns + [NameOf(e)] && id == |ns| && NameOf(e) !in ns)
    requires WritersInv(w, es, ns) && WriterOf(tw, w.folder, es + [e], NameOf(e))
    ensures WritersInv(w.(typeWriters := w.typeWriters[id := tw]), es + [e], ns')
  {
    var tws := w.typeWriters[id := tw];
    KeysGrow(w.typeWriters, tws, |ns|, |ns'|, id, tw);
    forall i | 0 <= i < |ns'| ensures WriterOf(tws[i], w.folder, es + [e], ns'[i]) {
      if i == id {
        assert tws[i] == tw && ns'[i] == NameOf(e);
      } else {
        assert i < |ns| && ns'[i] == ns[i] && ns[i] != NameOf(e);
        assert tws[i] == w.typeWriters[i];
        WriterKept(tws[i], w.folder, es, e, ns[i]);
      }
    }
    WritersIntro(w.(typeWriters := tws), es + [e], ns');
  }

  lemma WritersIntro(w: Writer, es: seq<Event>, ns: seq<TypeName>)
    requires forall id: nat :: id in w.typeWriters <==> id < |ns|
    requires forall i :: 0 <= i < |ns| ==> WriterOf(w.typeWriters[i], w.folder, es, ns[i])
    ensures WritersInv(w, es, ns)
  {
  }

  /** Another type's event leaves a writer as it was. */
  lemma WriterKept(tw: Writers.TypeWriter, folder: string, es: seq<Event>, e: Event, n: TypeName)
    requires WriterOf(tw, folder, es, n) && NameOf(e) != n && |es| < TwoTo32
    ensures WriterOf(tw, folder, es + [e], n)
  {
    SeqBytesSnoc(es, e, n);
  }

  /** Slots `0..a` filled, and one more stored at a slot below `b`, where
      `b` is `a` or the slot is `a` itself: slots `0..b` filled. */
  lemma KeysGrow(tws: map<nat, Writers.TypeWriter>, tws': map<nat, Writers.TypeWriter>, a: nat, b: nat, id: nat, tw: Writers.TypeWriter)
    requires forall i: nat :: i in tws <==> i < a
    requires id < b && (b == a || id == a == b - 1) && tws' == tws[id := tw]
    ensures forall i: nat :: i in tws' <==> i < b
  {
  }

  /** After the tag append: the tag log holds one more id, the new
      event's. */
  lemma TagAfter(tags: seq<byte>, es: seq<Event>, e: Event, known: Registry.Known, known': Registry.Known, id: Registry.Id)
    requires forall k :: 0 <= k < |es| ==> NameOf(es[k]) in known
    requires tags == TagBytes(es, known)
    requires forall n :: n in known ==> n in known' && known'[n] == known[n]
    requires NameOf(e) in known' && known'[NameOf(e)] == id
    ensures forall k :: 0 <= k < |es + [e]| ==> NameOf((es + [e])[k]) in known'
    ensures tags + Tag(id) == TagBytes(es + [e], known')
  {
    TagBytesAgree(es, known, known');
    TagBytesSnoc(es, e, known');
  }

  /** One event written without a fault keeps a store in the session
      state: the state of the events before plus that one. */
  lemma WriteStep(files: Files, w: Writer, es: seq<Event>, e: Event)
    requires Inv(files, w, es) && |es| + 1 < TwoTo32 && |NameOf(e)| < TwoTo32 / 2
    requires Write(files, w, e).1.None?
    ensures Inv(Write(files, w, e).0, Write(files, w, e).2, es + [e])
  {
    var n := NameOf(e);
    InvOpened(files, w, es);
    InvOpened(Write(files, w, e).0, Write(files, w, e).2, es + [e]);
    NamesSnoc(es, e);
    NamesSpec(es);
    if n !in Names(es) {
      NoStamps(es, n);
      SeqBytesOpened(es, n);
    }
    StepWith(files, w, es, e, Names(es), Names(es + [e]));
  }

  /** WriteStep with the names before and after the event given. */
  lemma StepWith(files: Files, w: Writer, es: seq<Event>, e: Event, ns: seq<TypeName>, ns': seq<TypeName>)
    requires InvOf(files, w, es, ns) && NamesStep(ns, NameOf(e), ns')
    requires forall i, j :: 0 <= i < j < |ns| ==> ns[i] != ns[j]
    requires |es| + 1 < TwoTo32 && |NameOf(e)| < TwoTo32 / 2
    requires NameOf(e) !in ns ==> SeqBytes(es, NameOf(e)) == []
    requires Write(files, w, e).1.None?
    ensures InvOf(Write(files, w, e).0, Write(files, w, e).2, es + [e], ns')
  {
    var n := NameOf(e);
    var folder := w.folder;
    var reg := RegistryPath(folder);
    var tag := TagLogPath(folder);
    PathsApart(folder, n);
    WriteOpened(files, w, e);

    KnownStep(files, w, ns, n, ns');
    var (files1, id, w1) := GetOrCreateKnownType(files, w, n);
    assert Write(files, w, e) == WriteWith(files1, w1, id, e);
    forall m ensures Same(files1, files, SeqPath(folder, m)) {
      PathsApart(folder, m);
    }
    SeqsKept(files, files1, folder, es, ns);
    FreshKept(files, files1, folder, ns);
    TagBytesAgree(es, w.known, w1.known);

    WriterStep(files1, w1, id, es, e, ns, ns');
    var (files2, tw) := TypeWriterFor(files1, w1, id, e);
    assert Write(files, w, e) == WriteRowWith(files2, w1, id, tw.value, e);
    SeqsKept(files1, files2, folder, es, ns);
    assert files2[reg] == files1[reg] && files2[tag] == files[tag];
    RowFinish(files2, w1, id, tw.value, es, e, ns, ns');
  }

  /** The rest of a write, from the type's writer found: the row, then
      the tag. */
  lemma RowFinish(files: Files, w: Writer, id: Registry.Id, tw: Writers.TypeWriter, es: seq<Event>, e: Event, ns: seq<TypeName>, ns': seq<TypeName>)
    requires w.count == |es| && |es| + 1 < TwoTo32
    requires forall i, j :: 0 <= i < j < |ns| ==> ns[i] != ns[j]
    requires NamesStep(ns, NameOf(e), ns') && id < |ns'| && ns'[id] == NameOf(e) && (id < |ns| <==> NameOf(e) in ns)
    requires KnownInv(w, ns') && RegistryInv(files, w)
    requires TagLogPath(w.folder) in files && (forall k :: 0 <= k < |es| ==> NameOf(es[k]) in w.known)
    requires files[TagLogPath(w.folder)] == TagBytes(es, w.known)
    requires WritersInv(w, es, ns) && WriterOf(tw, w.folder, es, NameOf(e))
    requires SeqInv(files, w.folder, es, ns) && FreshInv(files, w.folder, ns')
    requires SeqPath(w.folder, NameOf(e)) in files && files[SeqPath(w.folder, NameOf(e))] == SeqBytes(es, NameOf(e))
    requires WriteRowWith(files, w, id, tw, e).1.None?
    ensures InvOf(WriteRowWith(files, w, id, tw, e).0, WriteRowWith(files, w, id, tw, e).2, es + [e], ns')
  {
    RowShape(files, w, id, tw, e);
    var row := Writers.WriteRow(tw, e.value, |es|);
    var files4 := Writers.ApplyWrite(Writers.Apply(files, row.0.writes), Writers.Append(TagLogPath(w.folder), Tag(id)));
    var w3 := w.(typeWriters := w.typeWriters[id := row.1], count := (w.count + 1) % TwoTo32);
    RowFiles(files, w, id, tw, es, e, ns, ns');
    WritersAfter(w, id, row.1, es, e, ns, ns');
    CountUp(w.count);
    RegistryKept(files4, w, w3, es + [e], ns');
    InvIntro(files4, w3, es + [e], ns');
  }

  /** The registry parts of Inv speak only of the folder, the dictionary
      and the registry position. */
  lemma RegistryKept(files: Files, w: Writer, w': Writer, es: seq<Event>, ns: seq<TypeName>)
    requires w'.folder == w.folder && w'.known == w.known && w'.registryPos == w.registryPos
    requires KnownInv(w, ns) && RegistryInv(files, w) && TagInv(files, w, es)
    ensures KnownInv(w', ns) && RegistryInv(files, w') && TagInv(files, w', es)
  {
  }

  lemma InvIntro(files: Files, w: Writer, es: seq<Event>, ns: seq<TypeName>)
    requires w.count == |es|
    requires KnownInv(w, ns) && WritersInv(w, es, ns)
    requires RegistryInv(files, w) && TagInv(files, w, es)
    requires SeqInv(files, w.folder, es, ns) && FreshInv(files, w.folder, ns)
    ensures InvOf(files, w, es, ns)
  {
  }

  /** The files after the row and the tag: the event's type's sequence
      file and the tag log grew by one entry each, nothing else that Inv
      speaks of changed. */
  lemma RowFiles(files: Files, w: Writer, id: Registry.Id, tw: Writers.TypeWriter, es: seq<Event>, e: Event, ns: seq<TypeName>, ns': seq<TypeName>)
    requires |es| + 1 < TwoTo32
    requires NamesStep(ns, NameOf(e), ns') && id < |ns'| && ns'[id] == NameOf(e)
    requires KnownInv(w, ns') && RegistryInv(files, w)
    requires TagLogPath(w.folder) in files && (forall k :: 0 <= k < |es| ==> NameOf(es[k]) in w.known)
    requires files[TagLogPath(w.folder)] == TagBytes(es, w.known)
    requires WriterOf(tw, w.folder, es, NameOf(e))
    requires SeqInv(files, w.folder, es, ns) && FreshInv(files, w.folder, ns')
    requires SeqPath(w.folder, NameOf(e)) in files && files[SeqPath(w.folder, NameOf(e))] == SeqBytes(es, NameOf(e))
    ensures var row := Writers.WriteRow(tw, e.value, |es|);
      var files4 := Writers.ApplyWrite(Writers.Apply(files, row.0.writes), Writers.Append(TagLogPath(w.folder), Tag(id)));
      && WriterOf(row.1, w.folder, es + [e], NameOf(e))
      && SeqInv(files4, w.folder, es + [e], ns') && FreshInv(files4, w.folder, ns')
      && RegistryInv(files4, w) && TagInv(files4, w, es + [e])
  {
    var n := NameOf(e);
    var folder := w.folder;
    var reg := RegistryPath(folder);
    var tag := TagLogPath(folder);
    var q := SeqPath(folder, n);
    PathsApart(folder, n);
    RowStep(files, tw, folder, es, e);
    var (o, tw') := Writers.WriteRow(tw, e.value, |es|);
    var files3 := Writers.Apply(files, o.writes);
    var files4 := Writers.ApplyWrite(files3, Writers.Append(tag, Tag(id)));
    forall m | m != n ensures Same(files4, files, SeqPath(folder, m)) {
      PathsApart(folder, m);
      if SeqPath(folder, m) == q {
        SeqPathInjective(folder, m, n);
      }
      WriteKeeps(files3, Writers.Append(tag, Tag(id)), SeqPath(folder, m));
    }
    WriteKeeps(files3, Writers.Append(tag, Tag(id)), q);
    SeqsAfter(files, files4, folder, es, e, ns, ns');
    FreshAfter(files, files4, folder, n, ns');
    WriteKeeps(files3, Writers.Append(tag, Tag(id)), reg);
    TagAfter(files[tag], es, e, w.known, w.known, id);
  }

  /** A row written without a fault: the row's writes, then the tag, and
      the writer moved on with the count one up. */
  lemma RowShape(files: Files, w: Writer, id: Registry.Id, tw: Writers.TypeWriter, e: Event)
    requires WriteRowWith(files, w, id, tw, e).1.None?
    ensures var row := Writers.WriteRow(tw, e.value, w.count);
      WriteRowWith(files, w, id, tw, e) ==
        (Writers.ApplyWrite(Writers.Apply(files, row.0.writes), Writers.Append(TagLogPath(w.folder), Tag(id))),
         None,
         w.(typeWriters := w.typeWriters[id := row.1], count := (w.count + 1) % TwoTo32))
  {
    assert WriteRowAt(files, w, id, tw, e, 1) == WriteRowAt(files, w, id, tw, e, 0);
  }

  // ---------------------------------------------------------------- a whole session

  /** A sequence file read back as 32-bit words gives the positions
      written into it. */
  lemma {:induction false} StampWords(ks: seq<nat>)
    requires forall i :: 0 <= i < |ks| ==> ks[i] < TwoTo32
    ensures Words(StampBytes(ks), 4) == ks
  {
    if |ks| > 0 {
      var front := ks[..|ks| - 1];
      var last := ks[|ks| - 1];
      Pow256Four();
      StampWords(front);
      var tail := EncodeLE(last, 4);
      assert |StampBytes(front)| % 4 == 0;
      WordsAppend(StampBytes(front), tail, 4);
      WordsLong(tail, 4);
      DecodeEncodeLE(last, 4);
      assert tail[..4] == tail && tail[4..] == [];
      assert ks == front + [last];
    }
  }

  /** The store a session starts from: the files the constructor makes
      in an empty folder, and its writer. */
  lemma EmptyStore(folder: string)
    ensures New(map[], folder).1.Ok?
    ensures Inv(New(map[], folder).0, New(map[], folder).1.value, [])
  {
    var reg := RegistryPath(folder);
    var tag := TagLogPath(folder);
    PathsApart(folder, []);
    var files := New(map[], folder).0;
    assert files == map[reg := [], tag := []];
    assert Registry.Load(Open(reg, [])) == Ok(map[]);
    NamesOpened([]);
    forall m ensures SeqPath(folder, m) !in files {
      PathsApart(folder, m);
    }
    var w := New(map[], folder).1.value;
    InvOpened(files, w, []);
    assert w.known == map[] && w.typeWriters == map[];
    assert KnownInv(w, []);
    assert WritersInv(w, [], []);
    assert RegistryInv(files, w);
    assert TagInv(files, w, []);
    assert SeqInv(files, folder, [], []);
    assert FreshInv(files, folder, []);
  }

  /** Events written one after another, up to the first fault, keep a
      store that starts in the session state with no events in the
      session state of all of them. */
  lemma {:induction false} WriteAllInv(files: Files, w: Writer, es: seq<Event>)
    requires Inv(files, w, [])
    requires |es| < TwoTo32 && forall k :: 0 <= k < |es| ==> |NameOf(es[k])| < TwoTo32 / 2
    ensures WriteAll(files, w, es).1.None? ==> Inv(WriteAll(files, w, es).0, WriteAll(files, w, es).2, es)
  {
    if |es| > 0 {
      var front := es[..|es| - 1];
      var e := es[|es| - 1];
      assert es == front + [e];
      assert forall k :: 0 <= k < |front| ==> front[k] == es[k];
      WriteAllInv(files, w, front);
      var before := WriteAll(files, w, front);
      if before.1.None? {
        var after := Write(before.0, before.2, e);
        assert WriteAll(files, w, es) == after;
        if after.1.None? {
          WriteStep(before.0, before.2, front, e);
          assert Inv(after.0, after.2, es);
        }
      }
    }
  }

  /** A session from an empty folder: the constructor, then events
      written one after another. Up to the first fault, the store holds
      what Inv describes. */
  lemma SessionInv(folder: string, es: seq<Event>)
    requires |es| < TwoTo32 && forall k :: 0 <= k < |es| ==> |NameOf(es[k])| < TwoTo32 / 2
    ensures New(map[], folder).1.Ok?
    ensures var out := WriteAll(New(map[], folder).0, New(map[], folder).1.value, es);
      out.1.None? ==> Inv(out.0, out.2, es)
  {
    EmptyStore(folder);
    WriteAllInv(New(map[], folder).0, New(map[], folder).1.value, es);
  }

  /** A write keeps the writer's folder. */
  lemma WriteKeepsFolder(files: Files, w: Writer, e: Event)
    ensures Write(files, w, e).2.folder == w.folder
  {
    WriteOpened(files, w, e);
    var got := GetOrCreateKnownType(files, w, NameOf(e));
  }

  lemma {:induction false} WriteAllKeepsFolder(files: Files, w: Writer, es: seq<Event>)
    ensures WriteAll(files, w, es).2.folder == w.folder
  {
    if |es| > 0 {
      WriteAllKeepsFolder(files, w, es[..|es| - 1]);
      var before := WriteAll(files, w, es[..|es| - 1]);
      if before.1.None? {
        WriteKeepsFolder(before.0, before.2, es[|es| - 1]);
      }
    }
  }
}

=== FILE: typereader.dfy ===
/** TypeReaderFactory: the reader of one event type. It hands out one
    pooled proxy instance per row, keeps the row counter the proxy's
    decimal getters read at, and reads the type's sequence file (the
    global positions of its events) through a lazily built UInt32Reader.
    Only bool and decimal properties the proxy can override get a slot;
    each slot starts as a bootstrapper and holds the real column reader
    from its first read on. */
module TypeReader {
  import opened Base
  import opened Streams
  import opened Schema
  import UInt32Reader
  import PrimitiveReader
  import DecimalReader
  import MiscReader

  /** The Lazy<UInt32Reader> over the sequence file: not built yet,
      built, or built with the constructor's exception, which the lazy
      value caches and rethrows on every later access. */
  datatype LazySequence = NotCreated | Created(reader: UInt32Reader.Reader) | Faulted(fault: Fault)

  /** A proxied property and the field holding its reader. */
  datatype PropertySlot =
    | BoolSlot(prop: Property, bools: PrimitiveReader.Slot)
    | DecimalSlot(prop: Property, decimals: DecimalReader.Slot)
  {
    ghost predicate Valid()
    {
      match this
      case BoolSlot(_, s) => s.Valid()
      case DecimalSlot(_, s) => s.Valid()
    }
  }

  /** The action a reader passes each row to: Read's no-op, or one of
      the handlers given to Invoke. */
  datatype Handler = Ignore | Handle(id: nat)

  /** What ReadPooled and ReadNew return: the factory's one reusable
      proxy, or a new unfilled instance of the type. */
  datatype Instance = Pooled(path: string) | New(obj: Value)

  datatype Factory = Factory(
    path: string,
    cls: ClrType,
    sequenceFile: Stream,        // opened by the constructor, read only through `sequence`
    sequence: LazySequence,
    rowId: int,
    slots: seq<PropertySlot>,
    handler: Handler)
  {
    ghost predicate SequenceValid()
    {
      sequenceFile.Valid() && (sequence.Created? ==> sequence.reader.Valid())
    }

    ghost predicate Valid()
    {
      SequenceValid() && forall k :: 0 <= k < |slots| ==> slots[k].Valid()
    }
  }

  function SequencePath(path: string): string { path + "sequence.log" }

  /** RelevantProperties: public instance read/write properties whose
      getter is virtual and not sealed, of type bool or decimal. */
  function RelevantProperties(c: ClrType): (ix: seq<nat>)
    ensures forall k :: 0 <= k < |ix| ==> ix[k] < |c.props| && IsProxied(c.props[ix[k]])
    ensures forall i :: 0 <= i < |c.props| && IsProxied(c.props[i]) ==> i in ix
    ensures forall k, l :: 0 <= k < l < |ix| ==> ix[k] < ix[l]
  {
    Select(c.props, IsProxied)
  }

  /** The placeholder for a proxied property: a bootstrapper of the
      property's kind. */
  function Placeholder(p: Property): (s: PropertySlot)
    requires IsProxied(p)
    ensures s.Valid() && s.prop == p
    ensures s.BoolSlot? <==> p.ftype == Plain(Bool)
    ensures s.BoolSlot? ==> s.bools.Boot?
    ensures s.DecimalSlot? ==> s.decimals.Boot?
  {
    if p.ftype == Plain(Bool) then BoolSlot(p, PrimitiveReader.Boot) else DecimalSlot(p, DecimalReader.Boot)
  }

  /** new TypeReaderFactory: the sequence file is opened (and so
      created), the sequence reader is left unbuilt, the row counter
      starts at -1, and every relevant property gets a bootstrapper. */
  function NewFactory(files: Files, path: string, c: ClrType, handler: Handler): (out: (Files, Factory))
    ensures out.0 == Touch(files, SequencePath(path))
    ensures var f := out.1;
      && f.Valid() && f.path == path && f.cls == c && f.handler == handler
      && f.sequence.NotCreated? && f.rowId == -1
      && f.sequenceFile == Open(SequencePath(path), out.0[SequencePath(path)])
      && |f.slots| == |RelevantProperties(c)|
      && forall k :: 0 <= k < |f.slots| ==> f.slots[k] == Placeholder(c.props[RelevantProperties(c)[k]])
  {
    var files' := Touch(files, SequencePath(path));
    var ix := RelevantProperties(c);
    var slots := seq(|ix|, k requires 0 <= k < |ix| => Placeholder(c.props[ix[k]]));
    (files', Factory(path, c, Open(SequencePath(path), files'[SequencePath(path)]), NotCreated, -1, slots, handler))
  }

  /** ReadPooled: the next row of the one reusable proxy. */
  function ReadPooled(f: Factory): (out: (Instance, Factory))
    ensures out.1 == f.(rowId := f.rowId + 1)
  {
    (Pooled(f.path), f.(rowId := f.rowId + 1))
  }

  /** ReadNew: a new instance of the type, with no column read into it. */
  function ReadNew(f: Factory): (out: (Instance, Factory))
    ensures out.1 == f
  {
    (New(Fresh(f.cls.fullName)), f)
  }

  /** What the factory's sequence still holds back: the whole file and
      the build while the lazy reader is unbuilt, what the reader holds
      back once built, and nothing after a cached fault. Every position
      ReadNextSequenceId hands out lowers it. */
  function Owed(f: Factory): nat
    requires f.SequenceValid()
  {
    match f.sequence
    case NotCreated => |f.sequenceFile.data| + 1
    case Created(r) => UInt32Reader.Owed(r)
    case Faulted(_) => 0
  }

  /** Accessing the lazy sequence reader: built on first access from the
      sequence file; a constructor fault (an empty file, or a file
      shorter than one block whose length is not a multiple of 4) leaves
      the cached exception in its place. */
  function Force(f: Factory): (f': Factory)
    requires f.SequenceValid()
    ensures f'.SequenceValid() && f' == f.(sequence := f'.sequence) && !f'.sequence.NotCreated?
    ensures !f.sequence.NotCreated? ==> f' == f
    ensures Owed(f') < Owed(f) || f' == f
  {
    if !f.sequence.NotCreated? then f
    else match UInt32Reader.New(f.sequenceFile.path, f.sequenceFile.data, UInt32Reader.AsWritten)
      case Ok(r) => f.(sequence := Created(r))
      case Err(e) => f.(sequence := Faulted(e))
  }

  /** ReadNextSequenceId: the next global position of the type, or none
      once the sequence reader reports end-of-stream (also when that
      came from the reader's constructor). Other faults propagate. */
  function ReadNextSequenceId(f: Factory): (out: (Result<Option<nat>>, Factory))
    requires f.SequenceValid()
    ensures out.1.SequenceValid() && out.1 == f.(sequence := out.1.sequence)
    ensures Owed(out.1) <= Owed(f)
    ensures out.0.Ok? && out.0.value.Some? ==> Owed(out.1) < Owed(f)
  {
    var f1 := Force(f);
    match f1.sequence
    case Faulted(e) => (if e == EndOfStream then Ok(None) else Err(e), f1)
    case Created(r) =>
      var (v, r') := UInt32Reader.ReadUInt32AsWritten(r);
      var f2 := f1.(sequence := Created(r'));
      (if v.Ok? then Ok(Some(v.value)) else if v.fault == EndOfStream then Ok(None) else Err(v.fault), f2)
  }

  /** ReadCount: the sequence file's length in whole words, read through
      the lazy reader, whose cached exception it rethrows. */
  function ReadCount(f: Factory): (out: (Result<nat>, Factory))
    requires f.SequenceValid()
    ensures out.1.SequenceValid() && out.1 == f.(sequence := out.1.sequence)
  {
    var f1 := Force(f);
    match f1.sequence
    case Faulted(e) => (Err(e), f1)
    case Created(r) => (Ok(UInt32Reader.ReadLength(r)), f1)
  }

  /** The proxy's bool getter: a read through the slot, with no row. */
  function ReadBoolProperty(f: Factory, files: Files, k: nat): (out: (Result<bool>, Factory))
    requires f.Valid() && k < |f.slots| && f.slots[k].BoolSlot?
    ensures out.1.Valid() && out.1 == f.(slots := out.1.slots) && |out.1.slots| == |f.slots|
    ensures out.1.slots[k].BoolSlot? && out.1.slots[k].prop == f.slots[k].prop
    ensures forall j :: 0 <= j < |f.slots| && j != k ==> out.1.slots[j] == f.slots[j]
  {
    var s := f.slots[k];
    var (v, b') := PrimitiveReader.ReadSlot(s.bools, MiscReader.CreateStream(files, f.path, s.prop));
    (v, f.(slots := f.slots[k := BoolSlot(s.prop, b')]))
  }

  /** The proxy's decimal getter: a read through the slot at the
      factory's current row. */
  function ReadDecimalProperty(f: Factory, files: Files, k: nat): (out: (Result<seq<byte>>, Factory))
    requires f.Valid() && k < |f.slots| && f.slots[k].DecimalSlot?
    ensures out.1.Valid() && out.1 == f.(slots := out.1.slots) && |out.1.slots| == |f.slots|
    ensures out.1.slots[k].DecimalSlot? && out.1.slots[k].prop == f.slots[k].prop
    ensures forall j :: 0 <= j < |f.slots| && j != k ==> out.1.slots[j] == f.slots[j]
  {
    var s := f.slots[k];
    var (v, d') := DecimalReader.ReadSlot(s.decimals, MiscReader.CreateStream(files, f.path, s.prop), f.rowId);
    (v, f.(slots := f.slots[k := DecimalSlot(s.prop, d')]))
  }

  /** Dispose: the sequence reader only if the lazy value was built
      successfully, then every slot in order, until one throws. The file
      stream the constructor opened is closed only through that reader. */
  function Dispose(f: Factory): (d: Disposal)
    ensures f.sequence.Created? ==> d == Then(Releasing(UInt32Reader.Dispose(f.sequence.reader)), DisposeSlots(f.slots))
    ensures !f.sequence.Created? ==> d == DisposeSlots(f.slots)
  {
    Then(Releasing(if f.sequence.Created? then UInt32Reader.Dispose(f.sequence.reader) else []), DisposeSlots(f.slots))
  }

  function DisposeSlots(slots: seq<PropertySlot>): (d: Disposal)
    ensures (forall k :: 0 <= k < |slots| ==> SlotBooting(slots[k])) ==> d == Releasing([])
  {
    if |slots| == 0 then Releasing([])
    else
      var head := match slots[0]
        case BoolSlot(_, s) => PrimitiveReader.DisposeSlot(s)
        case DecimalSlot(_, s) => Releasing(DecimalReader.DisposeSlot(s));
      Then(head, DisposeSlots(slots[1..]))
  }

  /** A boolean property whose reader was built. */
  predicate BoolBuilt(s: PropertySlot)
  {
    s.BoolSlot? && s.bools.Real?
  }

  /** Disposing the slots throws exactly when a boolean property's reader
      was built, and what it throws is a null reference. */
  lemma {:induction false} DisposeSlotsFault(slots: seq<PropertySlot>)
    ensures DisposeSlots(slots).fault.Some? <==> exists k :: 0 <= k < |slots| && BoolBuilt(slots[k])
    ensures DisposeSlots(slots).fault.Some? ==> DisposeSlots(slots).fault == Some(NullReference)
  {
    if |slots| > 0 {
      DisposeSlotsFault(slots[1..]);
      assert forall k :: 1 <= k < |slots| ==> slots[1..][k - 1] == slots[k];
    }
  }

  /** The first built boolean reader is where disposal stops: the slots
      before it are released, then its binary reader, and none after it. */
  lemma {:induction false} DisposeSlotsStop(slots: seq<PropertySlot>, k: nat)
    requires k < |slots| && BoolBuilt(slots[k])
    requires forall j :: 0 <= j < k ==> !BoolBuilt(slots[j])
    ensures DisposeSlots(slots).released == DisposeSlots(slots[..k]).released + [CloseWrapper(slots[k].bools.reader.stream.path)]
    decreases k
  {
    if k > 0 {
      DisposeSlotsStop(slots[1..], k - 1);
      assert slots[..k][1..] == slots[1..][..k - 1];
      assert slots[..k][0] == slots[0];
    }
  }

  predicate SlotBooting(s: PropertySlot)
  {
    match s
    case BoolSlot(_, b) => b.Boot?
    case DecimalSlot(_, d) => d.Boot?
  }

  // ---------------------------------------------------------------- the position queue

  /** Sequence reader states reached from the constructor by reads: the
      file is read from its start, the reader, if built, sits on a block
      boundary of a file its constructor accepts, and a cached fault is the end-of-stream of an
      empty file or the argument error of a file shorter than one block
      whose length is not a multiple of 4. */
  ghost predicate Reached(file: Stream, sequence: LazySequence)
  {
    && file.pos == 0
    && match sequence
       case NotCreated => true
       case Created(r) =>
         && UInt32Reader.OnBoundary(r) && r.stream.data == file.data
         && |file.data| > 0 && (|file.data| >= BufferSize || |file.data| % 4 == 0)
       case Faulted(e) =>
         || (e == EndOfStream && |file.data| == 0)
         || (e == ArgumentError && 0 < |file.data| < BufferSize && |file.data| % 4 != 0)
  }

  /** Factory states reached from the constructor by reads. */
  ghost predicate Reachable(f: Factory)
  {
    f.SequenceValid() && Reached(f.sequenceFile, f.sequence)
  }

  /** Reached on a sequence file whose length is a multiple of 4, behind
      `depth` layers of definition. The layers add nothing to the
      predicate: they keep its body out of the solver's context in proofs
      about whole lists of factories, and ReachedFolded opens them. The
      other `...At` folds of this model are there for the same reason. */
  ghost predicate Folded(file: Stream, sequence: LazySequence, depth: nat)
    decreases depth
  {
    if depth == 0 then Reached(file, sequence) && |file.data| % 4 == 0 else Folded(file, sequence, depth - 1)
  }

  /** Factory states reached from the constructor by reads on a sequence
      file of whole words: the reads never fail. */
  ghost predicate Good(f: Factory)
  {
    f.SequenceValid() && Folded(f.sequenceFile, f.sequence, 1)
  }

  lemma ReachedFolded(f: Factory)
    ensures Good(f) <==> Reachable(f) && |f.sequenceFile.data| % 4 == 0
  {
    assert Folded(f.sequenceFile, f.sequence, 1) == Folded(f.sequenceFile, f.sequence, 0);
  }

  /** The positions the factory has still to hand out. */
  function Queue(f: Factory): seq<nat>
    requires Good(f)
  {
    QueueAt(f, 1)
  }

  /** Queue behind `depth` layers of definition, for the same reason as
      Folded; QueueOpened opens it. */
  function QueueAt(f: Factory, depth: nat): seq<nat>
    requires Good(f)
    decreases depth
  {
    if depth > 0 then QueueAt(f, depth - 1)
    else
      match f.sequence
      case NotCreated => Words(f.sequenceFile.data, 4)
      case Created(r) => UInt32Reader.Pending(r)
      case Faulted(_) => []
  }

  lemma QueueOpened(f: Factory)
    requires Good(f)
    ensures Queue(f) == match f.sequence
      case NotCreated => Words(f.sequenceFile.data, 4)
      case Created(r) => UInt32Reader.Pending(r)
      case Faulted(_) => []
  {
    assert QueueAt(f, 1) == QueueAt(f, 0);
  }

  lemma ForceKeepsQueue(f: Factory)
    requires Good(f)
    ensures Good(Force(f)) && Queue(Force(f)) == Queue(f)
  {
    ReachedFolded(f);
    ReachedFolded(Force(f));
    QueueOpened(f);
    QueueOpened(Force(f));
    if f.sequence.NotCreated? {
      var data := f.sequenceFile.data;
      if |data| > 0 {
        UInt32Reader.NewPendsAllWords(f.sequenceFile.path, data, UInt32Reader.AsWritten);
      } else {
        assert Words(data, 4) == [];
      }
    }
  }

  /** ReadNextSequenceId pops the queue: the first pending position, or
      none exactly when nothing is pending, and the factory stays in a
      reachable state with the rest pending. On a sequence file of whole
      words it never fails. */
  lemma NextIdPops(f: Factory)
    requires Good(f)
    ensures var (id, f') := ReadNextSequenceId(f);
      && Good(f') && id.Ok?
      && (id.value.None? <==> Queue(f) == [])
      && (id.value.Some? ==> id.value.value == Queue(f)[0] && Queue(f') == Queue(f)[1..])
      && (id.value.None? ==> Queue(f') == [])
  {
    ForceKeepsQueue(f);
    var f1 := Force(f);
    ReachedFolded(f1);
    ReachedFolded(ReadNextSequenceId(f).1);
    QueueOpened(f1);
    QueueOpened(ReadNextSequenceId(f).1);
    if f1.sequence.Created? {
      UInt32Reader.AlignedAgree(f1.sequence.reader);
      UInt32Reader.ReadUInt32Pops(f1.sequence.reader);
    }
  }

  /** A factory that will fail before it reports the end of its
      positions: the sequence file's length is not a multiple of 4 and
      the short last block has not been read yet, or the lazy value holds
      the argument error. */
  ghost predicate Dirty(f: Factory)
    requires f.SequenceValid()
  {
    match f.sequence
    case NotCreated => |f.sequenceFile.data| % 4 != 0
    case Created(r) => r.stream.Remaining() % 4 != 0
    case Faulted(e) => e == ArgumentError
  }

  /** Building the lazy reader keeps the factory reachable and dirty. */
  lemma ForceReaches(f: Factory)
    requires Reachable(f)
    ensures Reachable(Force(f)) && (Dirty(f) ==> Dirty(Force(f)))
  {
    if f.sequence.NotCreated? {
      var data := f.sequenceFile.data;
      var n := UInt32Reader.New(f.sequenceFile.path, data, UInt32Reader.AsWritten);
      if n.Ok? {
        UInt32Reader.NewPendsAllWords(f.sequenceFile.path, data, UInt32Reader.AsWritten);
        if |data| % 4 != 0 {
          UInt32Reader.BlockShift(|data|);
        }
      }
    }
  }

  /** ReadNextSequenceId from any reachable state, whatever the file's
      length: the factory stays reachable; the only fault that escapes
      is the argument error of a sequence file whose length is not a
      multiple of 4; and a dirty factory never reports the end of its
      positions, and stays dirty after a position. */
  lemma NextIdReaches(f: Factory)
    requires Reachable(f)
    ensures var (id, f') := ReadNextSequenceId(f);
      && Reachable(f')
      && (id.Err? ==> id.fault == ArgumentError && |f.sequenceFile.data| % 4 != 0)
      && (Dirty(f) ==> id != Ok(None))
      && (Dirty(f) && id.Ok? ==> Dirty(f'))
  {
    ForceReaches(f);
    var f1 := Force(f);
    if f1.sequence.Created? {
      UInt32Reader.AsWrittenStep(f1.sequence.reader);
    }
  }

  /** Successive ReadNextSequenceId calls until the first none or fault:
      the positions delivered, and the fault if one stopped them. */
  function ReadIds(f: Factory): (out: (seq<nat>, Option<Fault>))
    requires f.SequenceValid()
    decreases Owed(f)
  {
    var (id, f') := ReadNextSequenceId(f);
    match id
    case Err(e) => ([], Some(e))
    case Ok(None) => ([], None)
    case Ok(Some(x)) =>
      var (rest, e) := ReadIds(f');
      ([x] + rest, e)
  }

  lemma {:induction false} ReadIdsAreQueue(f: Factory)
    requires Good(f)
    ensures ReadIds(f) == (Queue(f), None)
    decreases |Queue(f)|
  {
    NextIdPops(f);
    var (id, f') := ReadNextSequenceId(f);
    if id.value.Some? {
      ReadIdsAreQueue(f');
      var q := Queue(f);
      assert q == [q[0]] + q[1..];
      assert ReadIds(f).0 == Queue(f);
    }
  }

  /** The reader's own calls until their first fault, seen through
      ReadNextSequenceId: the end of the stream becomes none. */
  function Lift(out: (seq<nat>, Fault)): (seq<nat>, Option<Fault>)
  {
    (out.0, if out.1 == EndOfStream then None else Some(out.1))
  }

  /** Once the lazy reader is built, ReadIds are the reader's own reads
      until its first fault. */
  lemma {:induction false} CreatedIds(f: Factory)
    requires f.SequenceValid() && f.sequence.Created?
    ensures ReadIds(f) == Lift(UInt32Reader.ReadAll(f.sequence.reader, UInt32Reader.AsWritten))
    decreases Owed(f)
  {
    var r := f.sequence.reader;
    var (id, f') := ReadNextSequenceId(f);
    UInt32Reader.ReadAllUnfold(r, UInt32Reader.AsWritten);
    if id.Ok? && id.value.Some? {
      CreatedIds(f');
    }
  }

  /** From an unbuilt lazy reader, ReadIds are a constructed reader's
      reads of the whole file. */
  lemma FreshIds(f: Factory)
    requires f.SequenceValid() && f.sequence.NotCreated?
    ensures ReadIds(f) == Lift(UInt32Reader.ReadFile(f.sequenceFile.path, f.sequenceFile.data, UInt32Reader.AsWritten))
  {
    var f1 := Force(f);
    assert ReadNextSequenceId(f) == ReadNextSequenceId(f1);
    assert ReadIds(f) == ReadIds(f1);
    if f1.sequence.Created? {
      CreatedIds(f1);
    }
  }

  /** From a new factory, ReadNextSequenceId delivers the positions the
      sequence file holds, as 32-bit little-endian words in file order,
      and then none, when the file's length is a multiple of 4 (the
      factory is then in a state whose reads never fail); on any other
      file it delivers the words of the whole 64 KiB blocks and then
      fails with the argument error. */
  lemma SequenceIdsAreTheWords(files: Files, path: string, c: ClrType, h: Handler)
    ensures var (files', f) := NewFactory(files, path, c, h);
      var data := files'[SequencePath(path)];
      && Reachable(f)
      && (Good(f) <==> |data| % 4 == 0)
      && ReadIds(f) == if |data| % 4 == 0 then (Words(data, 4), None)
           else (Words(data[..|data| / BufferSize * BufferSize], 4), Some(ArgumentError))
  {
    var (files', f) := NewFactory(files, path, c, h);
    ReachedFolded(f);
    FreshIds(f);
    UInt32Reader.ReadFileDelivers(f.sequenceFile.path, f.sequenceFile.data, UInt32Reader.AsWritten);
  }

  /** ReadCount is the sequence file's length divided by four; it
      rethrows the reader constructor's fault: end-of-stream on an empty
      file, the argument error on a file shorter than one block whose
      length is not a multiple of 4. */
  lemma ReadCountIsLengthOverFour(f: Factory)
    requires Reachable(f)
    ensures var n := |f.sequenceFile.data|;
      ReadCount(f).0 == if n == 0 then Err(EndOfStream)
        else if n < BufferSize && n % 4 != 0 then Err(ArgumentError)
        else Ok(n / 4)
  {
    var f1 := Force(f);
    if f.sequence.NotCreated? {
      var n := UInt32Reader.New(f.sequenceFile.path, f.sequenceFile.data, UInt32Reader.AsWritten);
      assert f1.sequence == if n.Ok? then Created(n.value) else Faulted(n.fault);
    }
  }

  // ---------------------------------------------------------------- pooled rows

  /** `n` pooled rows from the factory. */
  function ReadPooledRows(f: Factory, n: nat): (out: (seq<Instance>, Factory))
    ensures |out.0| == n
    decreases n
  {
    if n == 0 then ([], f)
    else
      var (i, f1) := ReadPooled(f);
      var (rest, f2) := ReadPooledRows(f1, n - 1);
      ([i] + rest, f2)
  }

  /** Every pooled row is the same instance, and the row counter has
      moved on by one per row: from a new factory the k-th row (from 0)
      is row k. */
  lemma {:induction false} PooledRowsShareOneInstance(f: Factory, n: nat)
    ensures var (insts, f') := ReadPooledRows(f, n);
      && (forall k :: 0 <= k < n ==> insts[k] == Pooled(f.path))
      && f' == f.(rowId := f.rowId + n)
    decreases n
  {
    if n > 0 {
      PooledRowsShareOneInstance(f.(rowId := f.rowId + 1), n - 1);
    }
  }

  /** `n` rows, reading the bool property of slot `k` once on each. */
  function PooledBools(f: Factory, files: Files, k: nat, n: nat): (out: (seq<bool>, Option<Fault>, Factory))
    requires f.Valid() && k < |f.slots| && f.slots[k].BoolSlot?
    ensures out.2.Valid() && |out.2.slots| == |f.slots| && out.2.slots[k].BoolSlot?
    ensures out.2.slots[k].prop == f.slots[k].prop && out.2.path == f.path
    decreases n
  {
    if n == 0 then ([], None, f)
    else
      var f1 := ReadPooled(f).1;
      var (v, f2) := ReadBoolProperty(f1, files, k);
      if v.Err? then ([], Some(v.fault), f2)
      else
        var (rest, fault, f3) := PooledBools(f2, files, k, n - 1);
        ([v.value] + rest, fault, f3)
  }

  lemma {:induction false} PooledBoolsReadSlot(f: Factory, files: Files, k: nat, n: nat)
    requires f.Valid() && k < |f.slots| && f.slots[k].BoolSlot?
    ensures var provide := MiscReader.CreateStream(files, f.path, f.slots[k].prop);
      var (vs, fault, _) := PooledBools(f, files, k, n);
      (vs, fault) == (PrimitiveReader.ReadSlotMany(f.slots[k].bools, provide, n).0, PrimitiveReader.ReadSlotMany(f.slots[k].bools, provide, n).1)
    decreases n
  {
    if n > 0 {
      var f1 := ReadPooled(f).1;
      var (v, f2) := ReadBoolProperty(f1, files, k);
      if v.Ok? {
        PooledBoolsReadSlot(f2, files, k, n - 1);
      }
    }
  }

  /** The bool getter reads the column one byte per call, whatever the
      row: on pooled rows from a new factory, reading a bool property
      once per row gives the column's bytes in order, and end-of-stream
      once they run out. A missing column file fails the first read. */
  lemma PooledBoolsReadTheColumn(files: Files, path: string, c: ClrType, h: Handler, k: nat, n: nat)
    requires k < |NewFactory(files, path, c, h).1.slots| && NewFactory(files, path, c, h).1.slots[k].BoolSlot?
    ensures var f := NewFactory(files, path, c, h).1;
      var col := path + f.slots[k].prop.name + ".col";
      var (vs, fault, _) := PooledBools(f, files, k, n);
      && (col !in files && n > 0 ==> vs == [] && fault == Some(FileNotFound))
      && (col in files ==>
            var m := Min(n, |files[col]|);
            && vs == PrimitiveReader.Bools(files[col][..m])
            && (fault.Some? <==> n > |files[col]|))
  {
    var f := NewFactory(files, path, c, h).1;
    var p := f.slots[k].prop;
    var col := path + p.name + ".col";
    var provide := MiscReader.CreateStream(files, path, p);
    PooledBoolsReadSlot(f, files, k, n);
    if col in files {
      PrimitiveReader.SlotReadsLikeReader(PrimitiveReader.Boot, provide, n);
      PrimitiveReader.ReadManyFrom(PrimitiveReader.New(provide.value), n);
      assert files[col][0..Min(n, |files[col]|)] == files[col][..Min(n, |files[col]|)];
    }
  }

  /** `n` rows, reading the decimal property of slot `k` once on each:
      the values read, or the first fault. */
  function PooledDecimals(f: Factory, files: Files, k: nat, n: nat): (out: (Result<seq<seq<byte>>>, Factory))
    requires f.Valid() && k < |f.slots| && f.slots[k].DecimalSlot?
    ensures out.1.Valid() && |out.1.slots| == |f.slots| && out.1.slots[k].DecimalSlot?
    ensures out.1.slots[k].prop == f.slots[k].prop && out.1.path == f.path
    ensures out.0.Ok? ==> out.1.rowId == f.rowId + n
    decreases n
  {
    if n == 0 then (Ok([]), f)
    else
      var (vs, f1) := PooledDecimals(f, files, k, n - 1);
      if vs.Err? then (vs, f1)
      else
      var f2 := ReadPooled(f1).1;
      var (v, f3) := ReadDecimalProperty(f2, files, k);
      if v.Err? then (Err(v.fault), f3)
      else (Ok(vs.value + [v.value]), f3)
  }

  lemma {:induction false} PooledDecimalsReadSlot(f: Factory, files: Files, k: nat, n: nat)
    requires f.Valid() && k < |f.slots| && f.slots[k].DecimalSlot? && f.rowId == -1
    ensures var provide := MiscReader.CreateStream(files, f.path, f.slots[k].prop);
      var (vs, f') := PooledDecimals(f, files, k, n);
      (vs.Ok? ==> DecimalReader.ReadSlotRows(f.slots[k].decimals, provide, DecimalReader.Upto(n)).0 == vs)
      && (DecimalReader.ReadSlotRows(f.slots[k].decimals, provide, DecimalReader.Upto(n)).0.Ok? ==> vs.Ok?)
      && f'.slots[k].decimals == DecimalReader.ReadSlotRows(f.slots[k].decimals, provide, DecimalReader.Upto(n)).1
    decreases n
  {
    if n > 0 {
      var provide := MiscReader.CreateStream(files, f.path, f.slots[k].prop);
      var rows := DecimalReader.Upto(n);
      PooledDecimalsReadSlot(f, files, k, n - 1);
      assert rows[..n - 1] == DecimalReader.Upto(n - 1);
      var (vs1, f1) := PooledDecimals(f, files, k, n - 1);
      var (ws1, s1) := DecimalReader.ReadSlotRows(f.slots[k].decimals, provide, rows[..n - 1]);
      assert s1 == f1.slots[k].decimals;
      if vs1.Ok? {
        var f2 := ReadPooled(f1).1;
        assert f2.rowId == rows[n - 1];
        assert MiscReader.CreateStream(files, f2.path, f2.slots[k].prop) == provide;
      }
    }
  }

  /** The decimal getter reads at the factory's row: on pooled rows from
      a new factory over a decimal column of at least `n` values, reading
      the property once per row gives row i the i-th 16-byte value. */
  lemma PooledDecimalsReadTheColumn(files: Files, path: string, c: ClrType, h: Handler, k: nat, n: nat)
    requires k < |NewFactory(files, path, c, h).1.slots| && NewFactory(files, path, c, h).1.slots[k].DecimalSlot?
    requires var col := path + NewFactory(files, path, c, h).1.slots[k].prop.name + ".col";
      col in files && 1 <= n && 16 * n <= |files[col]|
    ensures var f := NewFactory(files, path, c, h).1;
      var col := path + f.slots[k].prop.name + ".col";
      var vs := PooledDecimals(f, files, k, n).0;
      && vs.Ok? && |vs.value| == n
      && forall i :: 0 <= i < n ==> vs.value[i] == files[col][16 * i..16 * i + 16]
  {
    var f := NewFactory(files, path, c, h).1;
    var p := f.slots[k].prop;
    var col := path + p.name + ".col";
    PooledDecimalsReadSlot(f, files, k, n);
    DecimalReader.PooledRowsReadTheirValues(col, files[col], n);
  }
}

=== FILE: uint16reader.dfy ===
/** UInt16Reader: 16-bit type-id tags read from the store-wide log one
    64 KiB block per call. */
module UInt16Reader {
  import opened Base
  import opened Streams

  /** Number of words a full block holds. */
  const WordsPerBlock: nat := BufferSize / 2

  datatype Reader = Reader(stream: Stream) {
    ghost predicate Valid() { stream.Valid() }
  }

  /** What one ReadUInt16s call hands back: the words, and whether they
      sit in the reader's own array, which the next call overwrites. */
  datatype Batch = Batch(values: seq<nat>, sharesBuffer: bool)

  /** The constructor allocates its arrays and reads nothing. */
  function New(path: string, data: seq<byte>): (r: Reader)
    ensures r.Valid() && r.stream.pos == 0 && r.stream.data == data && r.stream.path == path
  {
    Reader(Streams.Open(path, data))
  }

  /** ReadUInt16s: a full block comes back in the reused internal array,
      an empty read as an empty array (the clean end), a short read as a
      fresh array of its words. The block copy into that array throws the
      argument fault when the short block has an odd length, as the array
      then holds one byte less than the block. The block's bytes are
      consumed either way. */
  function ReadUInt16s(r: Reader): (out: (Result<Batch>, Reader))
    requires r.Valid()
    ensures out.1.Valid() && out.1.stream.data == r.stream.data
    ensures var n := Min(BufferSize, r.stream.Remaining());
      && out.1.stream.pos == r.stream.pos + n
      && (out.0.Err? <==> n % 2 == 1)
      && (out.0.Err? ==> out.0.fault == ArgumentError)
      && (out.0.Ok? ==>
           && out.0.value.values == Words(r.stream.data[r.stream.pos..out.1.stream.pos], 2)
           && |out.0.value.values| == n / 2
           && (out.0.value.sharesBuffer <==> n == BufferSize))
  {
    var (chunk, s') := ReadUpTo(r.stream, BufferSize);
    if |chunk| == BufferSize then (Ok(Batch(Words(chunk, 2), true)), Reader(s'))
    else if |chunk| == 0 then (Ok(Batch([], false)), Reader(s'))
    else if |chunk| % 2 != 0 then (Err(ArgumentError), Reader(s'))
    else (Ok(Batch(Words(chunk, 2), false)), Reader(s'))
  }

  /** Dispose closes the stream it was given. */
  function Dispose(r: Reader): seq<Release>
  {
    [CloseStream(r.stream.path)]
  }

  /** The caller's loop: read batches until an empty one, concatenating
      the values; a fault ends it. */
  function ReadAll(r: Reader): Result<seq<nat>>
    requires r.Valid()
    decreases r.stream.Remaining()
  {
    var (batch, r') := ReadUInt16s(r);
    if batch.Err? then Err(batch.fault)
    else if |batch.value.values| == 0 then Ok([])
    else match ReadAll(r')
      case Ok(rest) => Ok(batch.value.values + rest)
      case Err(e) => Err(e)
  }

  ghost predicate OnBoundary(r: Reader)
  {
    r.Valid() && (r.stream.pos % BufferSize == 0 || r.stream.pos == |r.stream.data|)
  }

  /** At the end of the stream the loop gets the empty batch at once. */
  lemma AtEnd(r: Reader)
    requires r.Valid() && r.stream.pos == |r.stream.data|
    ensures ReadAll(r) == Ok([])
  {
    var (batch, r') := ReadUInt16s(r);
    assert batch == Ok(Batch([], false));
  }

  /** A last block shorter than a full one ends the loop: its words and
      then the empty batch, or the fault when its length is odd. */
  lemma ShortBlock(r: Reader)
    requires r.Valid() && r.stream.Remaining() < BufferSize
    ensures var rest := r.stream.data[r.stream.pos..];
      ReadAll(r) == if |rest| % 2 == 0 then Ok(Words(rest, 2)) else Err(ArgumentError)
  {
    var data := r.stream.data;
    var (batch, r') := ReadUInt16s(r);
    assert r'.stream.pos == |data|;
    assert data[r.stream.pos..] == data[r.stream.pos..r'.stream.pos];
    if batch.Ok? && |batch.value.values| > 0 {
      AtEnd(r');
      assert batch.value.values + [] == batch.value.values;
    }
  }

  lemma {:induction false} ReadAllFrom(r: Reader)
    requires OnBoundary(r)
    ensures var rest := r.stream.data[r.stream.pos..];
      ReadAll(r) == if |rest| % 2 == 0 then Ok(Words(rest, 2)) else Err(ArgumentError)
    decreases r.stream.Remaining()
  {
    var data := r.stream.data;
    var pos := r.stream.pos;
    if r.stream.Remaining() < BufferSize {
      ShortBlock(r);
    } else {
      var (batch, r') := ReadUInt16s(r);
      var n := BufferSize;
      WordsSplit(data, pos, n, 2);
      ReadAllFrom(r');
      assert data[pos..pos + n] == data[pos..r'.stream.pos];
      assert |data[pos..]| == n + |data[r'.stream.pos..]|;
    }
  }

  /** Every 16-bit word of a log of even length comes out, in order,
      before the empty batch that ends the loop; a log of odd length ends
      in the block copy's argument fault instead. */
  lemma ReadsAllWords(path: string, data: seq<byte>)
    ensures |data| % 2 == 0 ==> ReadAll(New(path, data)) == Ok(Words(data, 2))
    ensures |data| % 2 == 1 ==> ReadAll(New(path, data)) == Err(ArgumentError)
  {
    ReadAllFrom(New(path, data));
    assert data[0..] == data;
  }
}

=== FILE: uint32reader.dfy ===
/** UInt32Reader: 32-bit global positions read from a type's sequence
    file through a 16384-word buffer refilled 64 KiB at a time. */
module UInt32Reader {
  import opened Base
  import opened Streams

  /** Number of words a full block holds. */
  const WordsPerBlock: nat := BufferSize / 4

  /** The reader as written, or with the copy of a short block corrected
      to keep that block's whole words when its length is not a multiple
      of 4 (and to treat a refill that leaves no word as the end of the
      stream). */
  datatype Build = AsWritten | Corrected

  datatype Reader = Reader(stream: Stream, buffer: seq<nat>, position: nat) {
    ghost predicate Valid() { stream.Valid() && position <= |buffer| }
  }

  /** What a reader still holds back: the unread words of its array and
      the unread bytes of its stream. Every successful read lowers it. */
  function Owed(r: Reader): nat
    requires r.Valid()
  {
    |r.buffer| - r.position + r.stream.Remaining()
  }

  /** ReadUInt32s: one block read. A full block is copied into the
      existing word array, which must still hold 16384 words or the block
      copy fails. An empty read is the end of the stream. A short read is
      copied into a new array of n/4 words, which as written fails with
      an argument error when n is not a multiple of 4 (the copy is told
      to move n bytes into 4*(n/4)). On a fault the array is left as it
      was, with the stream moved past the block. */
  function ReadBlock(r: Reader, b: Build): (out: (Option<Fault>, Reader))
    requires r.Valid()
    ensures out.1.stream.Valid() && out.1.stream.data == r.stream.data && out.1.stream.path == r.stream.path
    ensures out.1.position == r.position
    ensures var n := Min(BufferSize, r.stream.Remaining());
      && out.1.stream.pos == r.stream.pos + n
      && (out.0.None? <==> 0 < n && (n < BufferSize || |r.buffer| == WordsPerBlock) && (b == Corrected || n % 4 == 0))
      && (out.0.Some? ==> out.1.buffer == r.buffer && out.0.value == if n == 0 then EndOfStream else ArgumentError)
      && (out.0.None? ==> out.1.buffer == Words(r.stream.data[r.stream.pos..out.1.stream.pos], 4))
  {
    var (chunk, s') := ReadUpTo(r.stream, BufferSize);
    if |chunk| == BufferSize then
      if |r.buffer| != WordsPerBlock then (Some(ArgumentError), r.(stream := s'))
      else (None, Reader(s', Words(chunk, 4), r.position))
    else if |chunk| == 0 then (Some(EndOfStream), r.(stream := s'))
    else if b == AsWritten && |chunk| % 4 != 0 then (Some(ArgumentError), r.(stream := s'))
    else (None, Reader(s', Words(chunk, 4), r.position))
  }

  /** The constructor: a 16384-word zeroed array, then one eager block
      read, whose fault escapes the constructor: end of stream for an
      empty file, and as written an argument error for a file shorter
      than one block whose length is not a multiple of 4. */
  function New(path: string, data: seq<byte>, b: Build): (r: Result<Reader>)
    ensures r.Err? <==> |data| == 0 || (b == AsWritten && |data| < BufferSize && |data| % 4 != 0)
    ensures r.Err? ==> r.fault == if |data| == 0 then EndOfStream else ArgumentError
    ensures r.Ok? ==>
      && r.value.Valid() && r.value.position == 0
      && r.value.stream.data == data && r.value.stream.path == path
      && r.value.stream.pos == Min(BufferSize, |data|)
      && r.value.buffer == Words(data[..r.value.stream.pos], 4)
  {
    var initial := Reader(Streams.Open(path, data), seq(WordsPerBlock, _ => 0), 0);
    var (f, r') := ReadBlock(initial, b);
    if f.Some? then Err(f.value) else Ok(r')
  }

  /** ReadUInt32: the next word of the array, refilling it first when it
      is used up. A refill fault propagates with the array marked used
      up. A refill that leaves the array empty is indexed at 0 as written
      (IndexOutOfRange), and is the end of the stream when corrected. */
  function Next(r: Reader, b: Build): (out: (Result<nat>, Reader))
    requires r.Valid()
    ensures out.1.Valid() && out.1.stream.data == r.stream.data && out.1.stream.path == r.stream.path
    ensures out.1.stream.pos >= r.stream.pos
    ensures Owed(out.1) <= Owed(r)
    ensures out.0.Ok? ==> Owed(out.1) < Owed(r)
    ensures r.position < |r.buffer| ==> out == (Ok(r.buffer[r.position]), r.(position := r.position + 1))
  {
    if r.position == |r.buffer| then
      var (f, r1) := ReadBlock(r, b);
      if f.Some? then (Err(f.value), r1.(position := |r1.buffer|))
      else if |r1.buffer| == 0 then (Err(if b == AsWritten then IndexOutOfRange else EndOfStream), r1.(position := 0))
      else (Ok(r1.buffer[0]), r1.(position := 1))
    else (Ok(r.buffer[r.position]), r.(position := r.position + 1))
  }

  function ReadUInt32AsWritten(r: Reader): (Result<nat>, Reader)
    requires r.Valid()
  {
    Next(r, AsWritten)
  }

  function ReadUInt32(r: Reader): (Result<nat>, Reader)
    requires r.Valid()
  {
    Next(r, Corrected)
  }

  /** ReadLength: the stream's length in whole words, whatever has been
      read so far. */
  function ReadLength(r: Reader): (n: nat)
    ensures n * 4 <= |r.stream.data| < n * 4 + 4
  {
    |r.stream.data| / 4
  }

  /** Dispose closes the stream it was given. */
  function Dispose(r: Reader): seq<Release>
  {
    [CloseStream(r.stream.path)]
  }

  /** Calls the reader until its first fault: the values delivered, and
      that fault. */
  function ReadAll(r: Reader, b: Build): (out: (seq<nat>, Fault))
    requires r.Valid()
    decreases Owed(r)
  {
    var (v, r') := Next(r, b);
    match v
    case Err(f) => ([], f)
    case Ok(x) =>
      var (rest, f) := ReadAll(r', b);
      ([x] + rest, f)
  }

  /** Constructing a reader over a file and calling it until its first
      fault; a constructor fault delivers nothing. */
  function ReadFile(path: string, data: seq<byte>, b: Build): (out: (seq<nat>, Fault))
  {
    match New(path, data, b)
    case Err(f) => ([], f)
    case Ok(r) => ReadAll(r, b)
  }

  lemma ReadAllUnfold(r: Reader, b: Build)
    requires r.Valid()
    ensures var (v, r') := Next(r, b);
      ReadAll(r, b) == if v.Err? then ([], v.fault)
        else ([v.value] + ReadAll(r', b).0, ReadAll(r', b).1)
  {
  }

  /** Reader states reachable from the constructor: the stream sits on a
      block boundary with a full-size array, or at its end. */
  ghost predicate OnBoundary(r: Reader)
  {
    r.Valid()
    && ((r.stream.pos % BufferSize == 0 && |r.buffer| == WordsPerBlock) || r.stream.pos == |r.stream.data|)
  }

  /** The words a reader still has to deliver. */
  function Pending(r: Reader): seq<nat>
    requires r.Valid()
  {
    r.buffer[r.position..] + Words(r.stream.data[r.stream.pos..], 4)
  }

  /** The bytes of the unread stream that fill whole blocks. */
  function WholeBlocks(r: Reader): (w: nat)
    requires r.Valid()
    ensures w % BufferSize == 0 && w <= r.stream.Remaining() < w + BufferSize
  {
    r.stream.Remaining() / BufferSize * BufferSize
  }

  /** What a reader on a block boundary delivers until its first fault,
      and that fault, in closed form. Corrected, or on a stream whose
      unread length is a multiple of 4: every pending word, then the end
      of the stream. As written on any other stream: the array's unread
      words and those of the whole blocks, then the argument error of the
      short last block. OutcomeTorn and OutcomeWhole open it. */
  function Outcome(r: Reader, b: Build): (seq<nat>, Fault)
    requires r.Valid()
  {
    OutcomeAt(r, b, 1)
  }

  /** Outcome behind `depth` layers of definition, which keep its body
      out of the proofs that only relate one outcome to another. */
  function OutcomeAt(r: Reader, b: Build, depth: nat): (seq<nat>, Fault)
    requires r.Valid()
    decreases depth
  {
    if depth > 0 then OutcomeAt(r, b, depth - 1)
    else if b == AsWritten && r.stream.Remaining() % 4 != 0 then
      (r.buffer[r.position..] + Words(r.stream.data[r.stream.pos..r.stream.pos + WholeBlocks(r)], 4), ArgumentError)
    else (Pending(r), EndOfStream)
  }

  lemma {:induction false} ReadAllDelivers(r: Reader, b: Build)
    requires OnBoundary(r)
    ensures ReadAll(r, b) == Outcome(r, b)
    decreases Owed(r), 1
  {
    if r.position < |r.buffer| {
      var r' := r.(position := r.position + 1);
      ReadAllDelivers(r', b);
      TakeFromArray(r, b);
    } else if r.stream.Remaining() == 0 {
      AtEnd(r, b);
    } else if r.stream.Remaining() >= BufferSize {
      RefillFull(r, b);
    } else if b == AsWritten && r.stream.Remaining() % 4 != 0 {
      RefillUnaligned(r);
    } else if r.stream.Remaining() >= 4 {
      RefillLastWords(r, b);
    } else {
      RefillLastFragment(r);
    }
  }

  /** A word still in the array comes first. */
  lemma TakeFromArray(r: Reader, b: Build)
    requires OnBoundary(r) && r.position < |r.buffer|
    requires ReadAll(r.(position := r.position + 1), b) == Outcome(r.(position := r.position + 1), b)
    ensures ReadAll(r, b) == Outcome(r, b)
  {
    var r' := r.(position := r.position + 1);
    assert Next(r, b) == (Ok(r.buffer[r.position]), r');
    assert ReadAll(r, b) == ([r.buffer[r.position]] + ReadAll(r', b).0, ReadAll(r', b).1);
    OutcomeTake(r, b);
    assert ReadAll(r, b).0 == Outcome(r, b).0;
  }

  lemma OutcomeTake(r: Reader, b: Build)
    requires r.Valid() && r.position < |r.buffer|
    ensures var r' := r.(position := r.position + 1);
      Outcome(r, b).0 == [r.buffer[r.position]] + Outcome(r', b).0 && Outcome(r, b).1 == Outcome(r', b).1
  {
    var r' := r.(position := r.position + 1);
    var data := r.stream.data;
    var pos := r.stream.pos;
    if b == AsWritten && r.stream.Remaining() % 4 != 0 {
      OutcomeTorn(r);
      OutcomeTorn(r');
      DropOne(r.buffer, r.position, Words(data[pos..pos + WholeBlocks(r)], 4));
    } else {
      OutcomeWhole(r, b);
      OutcomeWhole(r', b);
      DropOne(r.buffer, r.position, Words(data[pos..], 4));
    }
  }

  lemma DropOne(a: seq<nat>, p: nat, t: seq<nat>)
    requires p < |a|
    ensures a[p..] + t == [a[p]] + (a[p + 1..] + t)
  {
    assert a[p..] == [a[p]] + a[p + 1..];
  }

  /** With the array used up and nothing left to read: the end of the
      stream. */
  lemma AtEnd(r: Reader, b: Build)
    requires OnBoundary(r) && r.position == |r.buffer| && r.stream.Remaining() == 0
    ensures ReadAll(r, b) == Outcome(r, b)
  {
    ReadAllUnfold(r, b);
    OutcomeWhole(r, b);
    assert r.stream.data[r.stream.pos..] == [];
    assert r.buffer[r.position..] == [];
    assert ReadAll(r, b).0 == Outcome(r, b).0;
  }

  /** As written, a short last block whose length is not a multiple of 4
      fails at once. */
  lemma RefillUnaligned(r: Reader)
    requires OnBoundary(r) && r.position == |r.buffer|
    requires 0 < r.stream.Remaining() < BufferSize && r.stream.Remaining() % 4 != 0
    ensures ReadAll(r, AsWritten) == Outcome(r, AsWritten)
  {
    ReadAllUnfold(r, AsWritten);
    OutcomeTorn(r);
    assert Next(r, AsWritten).0 == Err(ArgumentError);
    assert WholeBlocks(r) == 0;
    assert r.buffer[r.position..] == [];
    assert r.stream.data[r.stream.pos..r.stream.pos + WholeBlocks(r)] == [];
    assert ReadAll(r, AsWritten).0 == Outcome(r, AsWritten).0;
  }

  /** Corrected, a last block of 1 to 3 bytes leaves no word: the end of
      the stream. */
  lemma RefillLastFragment(r: Reader)
    requires OnBoundary(r) && r.position == |r.buffer| && 0 < r.stream.Remaining() < 4
    ensures ReadAll(r, Corrected) == Outcome(r, Corrected)
  {
    LastBlock(r, Corrected);
    ReadAllUnfold(r, Corrected);
    OutcomeWhole(r, Corrected);
    assert Pending(r) == [];
    assert ReadAll(r, Corrected).0 == Outcome(r, Corrected).0;
  }

  /** The refill of a full block. */
  lemma FullBlock(r: Reader, b: Build)
    requires OnBoundary(r) && r.position == |r.buffer| && r.stream.Remaining() >= BufferSize
    ensures var r1 := ReadBlock(r, b).1;
      var chunk := r.stream.data[r.stream.pos..r.stream.pos + BufferSize];
      && ReadBlock(r, b).0.None?
      && r1.buffer == Words(chunk, 4)
      && |r1.buffer| == WordsPerBlock
      && r1.stream.pos == r.stream.pos + BufferSize
      && Pending(r) == r1.buffer + Words(r.stream.data[r1.stream.pos..], 4)
  {
    var data := r.stream.data;
    var pos := r.stream.pos;
    assert r.buffer[r.position..] == [];
    WordsSplit(data, pos, BufferSize, 4);
  }

  /** Moving one block on: the whole blocks shrink by one, the length
      modulo 4 stays. */
  lemma BlockShift(len: nat)
    requires len >= BufferSize
    ensures (len - BufferSize) / BufferSize * BufferSize == len / BufferSize * BufferSize - BufferSize
    ensures (len - BufferSize) % 4 == len % 4
  {
    DivStep(len, BufferSize);
  }

  /** The words of the bytes from `pos` to `pos + w`, split at the end of
      the first block. */
  lemma WholeSplit(data: seq<byte>, pos: nat, w: nat)
    requires BufferSize <= w && pos + w <= |data|
    ensures Words(data[pos..pos + w], 4)
      == Words(data[pos..pos + BufferSize], 4) + Words(data[pos + BufferSize..pos + w], 4)
  {
    var d := data[..pos + w];
    WordsSplit(d, pos, BufferSize, 4);
    assert d[pos..] == data[pos..pos + w];
    assert d[pos..pos + BufferSize] == data[pos..pos + BufferSize];
    assert d[pos + BufferSize..] == data[pos + BufferSize..pos + w];
  }

  lemma {:induction false} RefillFull(r: Reader, b: Build)
    requires OnBoundary(r) && r.position == |r.buffer| && r.stream.Remaining() >= BufferSize
    ensures ReadAll(r, b) == Outcome(r, b)
    decreases Owed(r), 0
  {
    FullBlock(r, b);
    var data := r.stream.data;
    var pos := r.stream.pos;
    var r1 := ReadBlock(r, b).1;
    var r' := r1.(position := 1);
    NextRefill(r, b);
    assert r'.stream.pos % BufferSize == 0;
    assert OnBoundary(r');
    ReadAllUnfold(r, b);
    ReadAllDelivers(r', b);
    if b == AsWritten && r.stream.Remaining() % 4 != 0 {
      FullBlockWhole(r, r');
    } else {
      FullBlockShift(r, r');
      OutcomeWhole(r, b);
      OutcomeWhole(r', b);
      assert Pending(r') == r1.buffer[1..] + Words(data[r1.stream.pos..], 4);
      ConsSplit(r1.buffer, Words(data[r1.stream.pos..], 4));
      assert ReadAll(r, b).0 == Outcome(r, b).0;
    }
  }

  /** As written, over a stream whose unread length is not a multiple
      of 4: what a full refill delivers first, and what the refilled
      reader still delivers, make up what the reader before it
      delivers. */
  lemma FullBlockWhole(r: Reader, r': Reader)
    requires r.Valid() && r.position == |r.buffer| && r.stream.Remaining() >= BufferSize
    requires r.stream.Remaining() % 4 != 0
    requires r'.stream == r.stream.(pos := r.stream.pos + BufferSize) && r'.position == 1
    requires r'.buffer == Words(r.stream.data[r.stream.pos..r.stream.pos + BufferSize], 4)
    ensures |r'.buffer| > 0
    ensures Outcome(r, AsWritten).0 == [r'.buffer[0]] + Outcome(r', AsWritten).0
    ensures Outcome(r, AsWritten).1 == Outcome(r', AsWritten).1
  {
    var data := r.stream.data;
    var pos := r.stream.pos;
    FullBlockShift(r, r');
    var w := WholeBlocks(r);
    var w' := WholeBlocks(r');
    OutcomeTorn(r);
    OutcomeTorn(r');
    FirstBlockWords(data, pos, w);
    assert r.buffer[r.position..] == [];
    var first := r'.buffer;
    var tail := Words(data[pos + BufferSize..pos + w], 4);
    assert r'.stream.data[r'.stream.pos..r'.stream.pos + w'] == data[pos + BufferSize..pos + w];
    assert r'.buffer[r'.position..] == first[1..];
  }

  /** One full block on: the unread length keeps its remainder modulo 4
      and loses one whole block. */
  lemma FullBlockShift(r: Reader, r': Reader)
    requires r.Valid() && r.stream.Remaining() >= BufferSize
    requires r'.stream == r.stream.(pos := r.stream.pos + BufferSize) && r'.position <= |r'.buffer|
    ensures r'.stream.Remaining() % 4 == r.stream.Remaining() % 4
    ensures WholeBlocks(r') + BufferSize == WholeBlocks(r)
    ensures r'.stream.data[r'.stream.pos..r'.stream.pos + WholeBlocks(r')]
      == r.stream.data[r.stream.pos + BufferSize..r.stream.pos + WholeBlocks(r)]
  {
    BlockShift(r.stream.Remaining());
  }

  /** The words of whole blocks: those of the first block, first of all. */
  lemma FirstBlockWords(data: seq<byte>, pos: nat, w: nat)
    requires BufferSize <= w && pos + w <= |data|
    ensures var first := Words(data[pos..pos + BufferSize], 4);
      && |first| == WordsPerBlock
      && Words(data[pos..pos + w], 4) == [first[0]] + (first[1..] + Words(data[pos + BufferSize..pos + w], 4))
  {
    WholeSplit(data, pos, w);
    ConsSplit(Words(data[pos..pos + BufferSize], 4), Words(data[pos + BufferSize..pos + w], 4));
  }

  lemma ConsSplit(a: seq<nat>, b: seq<nat>)
    requires |a| > 0
    ensures a + b == [a[0]] + (a[1..] + b)
  {
    assert a == [a[0]] + a[1..];
  }

  /** As written on an unread length that is not a multiple of 4: the
      array's unread words and those of the whole blocks, then the
      argument error. */
  lemma OutcomeTorn(r: Reader)
    requires r.Valid() && r.stream.Remaining() % 4 != 0
    ensures Outcome(r, AsWritten).0 == r.buffer[r.position..] + Words(r.stream.data[r.stream.pos..r.stream.pos + WholeBlocks(r)], 4)
    ensures Outcome(r, AsWritten).1 == ArgumentError
  {
    assert Outcome(r, AsWritten) == OutcomeAt(r, AsWritten, 0);
  }

  /** The refill of the last, short block when its copy succeeds. */
  lemma LastBlock(r: Reader, b: Build)
    requires OnBoundary(r) && r.position == |r.buffer| && 0 < r.stream.Remaining() < BufferSize
    requires b == Corrected || r.stream.Remaining() % 4 == 0
    ensures var r1 := ReadBlock(r, b).1;
      && ReadBlock(r, b).0.None?
      && r1.buffer == Words(r.stream.data[r.stream.pos..], 4)
      && r1.stream.pos == |r.stream.data|
      && Pending(r) == r1.buffer
  {
    var data := r.stream.data;
    assert data[r.stream.pos..|data|] == data[r.stream.pos..];
    assert r.buffer[r.position..] == [];
    assert data[|data|..] == [];
  }

  lemma {:induction false} RefillLastWords(r: Reader, b: Build)
    requires OnBoundary(r) && r.position == |r.buffer| && 4 <= r.stream.Remaining() < BufferSize
    requires b == Corrected || r.stream.Remaining() % 4 == 0
    ensures ReadAll(r, b) == Outcome(r, b)
    decreases Owed(r), 0
  {
    LastBlock(r, b);
    var r1 := ReadBlock(r, b).1;
    var r' := r1.(position := 1);
    NextRefill(r, b);
    assert r'.stream.Remaining() == 0;
    assert r'.stream.data[r'.stream.pos..] == [];
    assert Pending(r') == r1.buffer[1..];
    ReadAllUnfold(r, b);
    ReadAllDelivers(r', b);
    OutcomeWhole(r, b);
    OutcomeWhole(r', b);
    assert r1.buffer == [r1.buffer[0]] + r1.buffer[1..];
    assert ReadAll(r, b).0 == Outcome(r, b).0;
  }

  /** A refill that copies at least one word hands out the first. */
  lemma NextRefill(r: Reader, b: Build)
    requires r.Valid() && r.position == |r.buffer|
    requires ReadBlock(r, b).0.None? && |ReadBlock(r, b).1.buffer| > 0
    ensures var r1 := ReadBlock(r, b).1;
      Next(r, b).0 == Ok(r1.buffer[0]) && Next(r, b).1 == r1.(position := 1)
  {
  }

  /** A freshly constructed reader sits on a block boundary and still
      has every word of the file to deliver. */
  lemma NewPendsAllWords(path: string, data: seq<byte>, b: Build)
    requires New(path, data, b).Ok?
    ensures OnBoundary(New(path, data, b).value) && Pending(New(path, data, b).value) == Words(data, 4)
  {
    var r := New(path, data, b).value;
    var n := r.stream.pos;
    assert r.buffer[0..] == r.buffer;
    if |data| >= BufferSize {
      assert |r.buffer| == WordsPerBlock;
      WordsSplit(data, 0, n, 4);
      assert data[0..] == data;
      assert data[..n] == data[0..n];
    } else {
      assert data[..n] == data;
      assert data[n..] == [];
    }
  }

  /** What a freshly constructed reader delivers, in terms of the file:
      as written on a file whose length is not a multiple of 4, the
      words of its whole blocks and then the argument error; otherwise
      every word and then the end of the stream. */
  lemma NewOutcome(path: string, data: seq<byte>, b: Build)
    requires New(path, data, b).Ok?
    ensures Outcome(New(path, data, b).value, b)
      == if b == AsWritten && |data| % 4 != 0 then (Words(data[..|data| / BufferSize * BufferSize], 4), ArgumentError)
         else (Words(data, 4), EndOfStream)
  {
    if b == AsWritten && |data| % 4 != 0 {
      NewOutcomeUnaligned(path, data);
    } else {
      NewOutcomeWhole(path, data, b);
    }
  }

  lemma NewOutcomeUnaligned(path: string, data: seq<byte>)
    requires New(path, data, AsWritten).Ok? && |data| % 4 != 0
    ensures Outcome(New(path, data, AsWritten).value, AsWritten).0 == Words(data[..|data| / BufferSize * BufferSize], 4)
    ensures Outcome(New(path, data, AsWritten).value, AsWritten).1 == ArgumentError
  {
    var r := New(path, data, AsWritten).value;
    NewWholeBlocks(path, data);
    assert |data| >= BufferSize && r.stream.pos == BufferSize;
    SubKeepsMod(|data|, BufferSize);
    assert r.stream.Remaining() % 4 != 0;
    OutcomeTorn(r);
  }

  lemma NewOutcomeWhole(path: string, data: seq<byte>, b: Build)
    requires New(path, data, b).Ok? && (b == Corrected || |data| % 4 == 0)
    ensures Outcome(New(path, data, b).value, b).0 == Words(data, 4)
    ensures Outcome(New(path, data, b).value, b).1 == EndOfStream
  {
    var r := New(path, data, b).value;
    NewPendsAllWords(path, data, b);
    if b == AsWritten {
      NewAligned(path, data);
    }
    OutcomeWhole(r, b);
  }

  /** On a file whose length is a multiple of 4, the constructor leaves
      an unread length that is one too. */
  lemma NewAligned(path: string, data: seq<byte>)
    requires New(path, data, AsWritten).Ok? && |data| % 4 == 0
    ensures New(path, data, AsWritten).value.stream.Remaining() % 4 == 0
  {
    var pos := New(path, data, AsWritten).value.stream.pos;
    assert pos == BufferSize || pos == |data|;
    SubKeepsMod(|data|, pos);
  }

  lemma OutcomeWhole(r: Reader, b: Build)
    requires r.Valid() && (b == Corrected || r.stream.Remaining() % 4 == 0)
    ensures Outcome(r, b).0 == Pending(r) && Outcome(r, b).1 == EndOfStream
  {
    assert Outcome(r, b) == OutcomeAt(r, b, 0);
  }

  lemma NewWholeBlocks(path: string, data: seq<byte>)
    requires New(path, data, AsWritten).Ok? && |data| % 4 != 0
    ensures var r := New(path, data, AsWritten).value;
      r.buffer[r.position..] + Words(r.stream.data[r.stream.pos..r.stream.pos + WholeBlocks(r)], 4)
        == Words(data[..|data| / BufferSize * BufferSize], 4)
  {
    var r := New(path, data, AsWritten).value;
    assert |data| >= BufferSize && r.stream.pos == BufferSize;
    BlockShift(|data|);
    var w := WholeBlocks(r);
    assert BufferSize + w == |data| / BufferSize * BufferSize;
    assert r.buffer[0..] == r.buffer;
    var front := data[..BufferSize];
    var back := data[BufferSize..BufferSize + w];
    assert front + back == data[..BufferSize + w];
    WordsAppend(front, back, 4);
  }

  /** Every file read through the reader, in closed form. */
  lemma ReadFileDelivers(path: string, data: seq<byte>, b: Build)
    ensures ReadFile(path, data, b)
      == if |data| == 0 then ([], EndOfStream)
         else if b == AsWritten && |data| % 4 != 0 then (Words(data[..|data| / BufferSize * BufferSize], 4), ArgumentError)
         else (Words(data, 4), EndOfStream)
  {
    if New(path, data, b).Ok? {
      NewOutcome(path, data, b);
      NewPendsAllWords(path, data, b);
      ReadAllDelivers(New(path, data, b).value, b);
    } else if |data| > 0 {
      assert |data| / BufferSize == 0;
      assert data[..0] == [];
    }
  }

  /** As written: a file whose length is a multiple of 4 delivers all
      its words and then the end of the stream; any other non-empty file
      delivers the words of its whole 64 KiB blocks and then fails with
      an argument error. */
  lemma AsWrittenReadsAllWords(path: string, data: seq<byte>)
    requires |data| > 0
    ensures |data| % 4 == 0 ==> ReadFile(path, data, AsWritten) == (Words(data, 4), EndOfStream)
    ensures |data| % 4 != 0 ==>
      ReadFile(path, data, AsWritten) == (Words(data[..|data| / BufferSize * BufferSize], 4), ArgumentError)
  {
    ReadFileDelivers(path, data, AsWritten);
  }

  /** The corrected reader: exactly floor(n/4) little-endian words, then
      end-of-stream, for every non-empty file. */
  lemma ReadsAllWords(path: string, data: seq<byte>)
    requires |data| > 0
    ensures New(path, data, Corrected).Ok?
    ensures ReadFile(path, data, Corrected) == (Words(data, 4), EndOfStream)
  {
    ReadFileDelivers(path, data, Corrected);
  }

  /** The inputs that show the as-written fault. A 65537-byte file
      delivers its 16384 words and then fails with an argument error
      where the corrected reader ends the stream; a 5-byte file fails in
      the constructor where the corrected reader delivers its one
      word. */
  lemma OneByteTailFails(path: string)
    ensures var data := seq(BufferSize + 1, _ => 0 as byte);
      && ReadFile(path, data, AsWritten) == (Words(data, 4), ArgumentError)
      && ReadFile(path, data, Corrected) == (Words(data, 4), EndOfStream)
      && |Words(data, 4)| == WordsPerBlock
    ensures var data: seq<byte> := [1, 0, 0, 0, 7];
      && New(path, data, AsWritten) == Err(ArgumentError)
      && ReadFile(path, data, AsWritten) == ([], ArgumentError)
      && ReadFile(path, data, Corrected) == (Words(data, 4), EndOfStream)
      && |Words(data, 4)| == 1
  {
    var data := seq(BufferSize + 1, _ => 0 as byte);
    ReadFileDelivers(path, data, AsWritten);
    ReadFileDelivers(path, data, Corrected);
    TailWords(data);
    var five: seq<byte> := [1, 0, 0, 0, 7];
    ReadFileDelivers(path, five, Corrected);
  }

  lemma TailWords(data: seq<byte>)
    requires |data| == BufferSize + 1
    ensures |data| / BufferSize * BufferSize == BufferSize
    ensures Words(data[..BufferSize], 4) == Words(data, 4)
  {
    WordsSplit(data, 0, BufferSize, 4);
    assert data[0..] == data;
    assert data[..BufferSize] == data[0..BufferSize];
    assert Words(data[BufferSize..], 4) == [];
  }

  /** Reading from a reader on a block boundary: the corrected ReadUInt32
      hands out the first pending word and leaves the rest pending, on a
      boundary again; with nothing pending it reports end-of-stream and
      stays exhausted. */
  lemma ReadUInt32Pops(r: Reader)
    requires OnBoundary(r)
    ensures var (v, r') := ReadUInt32(r);
      && OnBoundary(r') && r'.stream.data == r.stream.data && r'.stream.path == r.stream.path
      && (v.Err? <==> Pending(r) == [])
      && (v.Err? ==> v.fault == EndOfStream && Pending(r') == [])
      && (v.Ok? ==> v.value == Pending(r)[0] && Pending(r') == Pending(r)[1..])
  {
    var (v, r') := ReadUInt32(r);
    AsWrittenStep(r);
    BoundaryKept(r, Corrected);
    ReadAllDelivers(r, Corrected);
    ReadAllDelivers(r', Corrected);
    ReadAllUnfold(r, Corrected);
  }

  lemma BoundaryKept(r: Reader, b: Build)
    requires OnBoundary(r)
    ensures OnBoundary(Next(r, b).1)
  {
    if r.position == |r.buffer| {
      var n := Min(BufferSize, r.stream.Remaining());
      if n == BufferSize {
        assert r.stream.pos % BufferSize == 0 && |r.buffer| == WordsPerBlock;
        assert (r.stream.pos + BufferSize) % BufferSize == 0;
      }
    }
  }

  /** On a stream whose length is a multiple of 4, the reader as written
      and the corrected one agree from every boundary state. */
  lemma AlignedAgree(r: Reader)
    requires OnBoundary(r) && |r.stream.data| % 4 == 0
    ensures Next(r, AsWritten) == Next(r, Corrected)
  {
    if r.position == |r.buffer| {
      AlignedBlock(r);
      var (f, r1) := ReadBlock(r, Corrected);
      assert Next(r, AsWritten).0 == Next(r, Corrected).0;
      assert Next(r, AsWritten).1 == Next(r, Corrected).1;
    }
  }

  /** On a stream whose length is a multiple of 4, a block read from a
      boundary is the same in both builds, and a successful one leaves
      at least one word. */
  lemma AlignedBlock(r: Reader)
    requires OnBoundary(r) && |r.stream.data| % 4 == 0
    ensures ReadBlock(r, AsWritten).0 == ReadBlock(r, Corrected).0
    ensures ReadBlock(r, AsWritten).1 == ReadBlock(r, Corrected).1
    ensures ReadBlock(r, Corrected).0.None? ==> |ReadBlock(r, Corrected).1.buffer| > 0
  {
    var n := Min(BufferSize, r.stream.Remaining());
    if r.stream.pos % BufferSize == 0 {
      DivMultiple(r.stream.pos);
    }
    assert r.stream.pos % 4 == 0;
    assert n % 4 == 0;
  }

  /** A multiple of the block size is a multiple of 4. */
  lemma DivMultiple(k: nat)
    requires k % BufferSize == 0
    ensures k % 4 == 0
  {
    var q := k / BufferSize;
    assert k == q * BufferSize;
    assert k == (q * 16384) * 4;
  }

  /** One as-written read from a boundary state: the state stays on a
      boundary, the only faults are the end of the stream (with nothing
      left unread) and the argument error (never the index error of the
      empty refill) when the file's length is not a multiple of 4, and a
      read that succeeds keeps the unread length modulo 4. */
  lemma AsWrittenStep(r: Reader)
    requires OnBoundary(r)
    ensures var (v, r') := ReadUInt32AsWritten(r);
      && OnBoundary(r')
      && (v.Err? ==> v.fault == EndOfStream || v.fault == ArgumentError)
      && (v == Err(EndOfStream) ==> r.stream.Remaining() == 0)
      && (v == Err(ArgumentError) ==> |r.stream.data| % 4 != 0)
      && (v.Ok? ==> r'.stream.Remaining() % 4 == r.stream.Remaining() % 4)
  {
    BoundaryKept(r, AsWritten);
    if r.position == |r.buffer| {
      AsWrittenBlock(r);
    }
  }

  /** As written, a block read from a boundary: a successful one leaves
      at least one word and the unread length's remainder modulo 4; the
      end of the stream comes only at its end, and the argument error
      only on a file whose length is not a multiple of 4. */
  lemma AsWrittenBlock(r: Reader)
    requires OnBoundary(r)
    ensures var (f, r1) := ReadBlock(r, AsWritten);
      && (f.None? ==> |r1.buffer| > 0 && r1.stream.Remaining() % 4 == r.stream.Remaining() % 4)
      && (f == Some(EndOfStream) ==> r.stream.Remaining() == 0)
      && (f == Some(ArgumentError) ==> |r.stream.data| % 4 != 0)
  {
    var rem := r.stream.Remaining();
    var n := Min(BufferSize, rem);
    var (f, r1) := ReadBlock(r, AsWritten);
    assert r1.stream.Remaining() == rem - n;
    if f.None? {
      assert n % 4 == 0 && n > 0;
      assert |r1.buffer| == n / 4;
      SubKeepsMod(rem, n);
    } else if f.value == ArgumentError {
      assert n > 0 && r.stream.pos < |r.stream.data|;
      assert r.stream.pos % BufferSize == 0 && |r.buffer| == WordsPerBlock;
      assert n < BufferSize && n == rem && rem % 4 != 0;
      TornLength(r.stream.pos, rem);
      assert |r.stream.data| == r.stream.pos + rem;
    }
  }

  /** A block boundary followed by a length that is not a multiple of 4
      is not a multiple of 4. */
  lemma TornLength(pos: nat, rem: nat)
    requires pos % BufferSize == 0 && rem % 4 != 0
    ensures (pos + rem) % 4 != 0
  {
    DivMultiple(pos);
    var a := pos / 4;
    assert pos == 4 * a;
    var q := rem / 4;
    assert rem == 4 * q + rem % 4;
    assert pos + rem == 4 * (a + q) + rem % 4;
  }

  /** Taking a multiple of 4 off a length leaves its remainder modulo 4. */
  lemma SubKeepsMod(len: nat, n: nat)
    requires n <= len && n % 4 == 0
    ensures (len - n) % 4 == len % 4
  {
    var q := n / 4;
    assert n == 4 * q;
    var a := len / 4;
    var b := len % 4;
    assert len - n == 4 * (a - q) + b;
  }
}

=== FILE: words.dfy ===
/** Byte streams read in fixed 64 KiB blocks, and the reinterpretation of
    a block of bytes as consecutive fixed-width little-endian words. */
module Streams {
  import opened Base

  /** The block size every buffered reader asks the stream for. */
  const BufferSize: nat := 65536

  /** A read-only file stream: the file it was opened on, the file's
      bytes and the current read position. */
  datatype Stream = Stream(path: string, data: seq<byte>, pos: nat) {
    ghost predicate Valid() { pos <= |data| }
    function Remaining(): nat
      requires Valid()
    {
      |data| - pos
    }
  }

  function Open(path: string, data: seq<byte>): (s: Stream)
    ensures s.Valid() && s.pos == 0 && s.data == data && s.path == path
  {
    Stream(path, data, 0)
  }

  /** The store's directory tree: every file by its path. */
  type Files = map<string, seq<byte>>

  /** Opening a file in a mode that creates it: a missing file appears
      empty, an existing one keeps its bytes. */
  function Touch(files: Files, path: string): (fs: Files)
    ensures path in fs && fs.Keys == files.Keys + {path}
    ensures forall q :: q in files ==> fs[q] == files[q]
    ensures path !in files ==> fs[path] == []
  {
    if path in files then files else files[path := []]
  }

  /** Opening a file with FileMode.Open: a missing file is an error. */
  function OpenExisting(files: Files, path: string): (r: Result<Stream>)
    ensures r.Ok? <==> path in files
    ensures r.Ok? ==> r.value == Open(path, files[path])
    ensures r.Err? ==> r.fault == FileNotFound
  {
    if path in files then Ok(Open(path, files[path])) else Err(FileNotFound)
  }

  /** A release of an OS-backed resource, as a Dispose or Close call
      makes it: a binary reader/writer wrapping a file, or the file
      stream itself. */
  datatype Release = CloseWrapper(path: string) | CloseStream(path: string)

  /** What a run of Dispose calls did: the releases made, in order, and
      the fault that ended the run if one did. A Dispose that throws ends
      the loop it is called from, so nothing after it is released. */
  datatype Disposal = Disposal(released: seq<Release>, fault: Option<Fault>)

  /** A Dispose that cannot throw. */
  function Releasing(rs: seq<Release>): Disposal { Disposal(rs, None) }

  /** One Dispose call, then the next unless the first threw. */
  function Then(a: Disposal, b: Disposal): (d: Disposal)
    ensures a.fault.Some? ==> d == a
    ensures a.fault.None? ==> d.released == a.released + b.released && d.fault == b.fault
  {
    if a.fault.Some? then a else Disposal(a.released + b.released, b.fault)
  }

  function Min(a: nat, b: nat): nat { if a <= b then a else b }

  /** Stream.Read(buffer, 0, count) on a file: the stream hands back
      min(count, remaining) bytes and moves past them. */
  function ReadUpTo(s: Stream, count: nat): (r: (seq<byte>, Stream))
    requires s.Valid()
    ensures r.1.Valid() && r.1.data == s.data && r.1.path == s.path
    ensures |r.0| == Min(count, s.Remaining())
    ensures r.1.pos == s.pos + |r.0|
    ensures r.0 == s.data[s.pos..r.1.pos]
  {
    var n := Min(count, s.Remaining());
    (s.data[s.pos..s.pos + n], s.(pos := s.pos + n))
  }

  /** Multiplying by a non-negative factor keeps order. */
  lemma MulLe(a: int, b: int, w: int)
    requires a <= b && w >= 0
    ensures a * w <= b * w
  {
    assert b * w - a * w == (b - a) * w;
  }

  /** Euclidean division is determined by any quotient/remainder pair. */
  lemma DivUnique(n: int, w: int, q: int, r: int)
    requires w > 0 && 0 <= r < w && n == q * w + r
    ensures n / w == q && n % w == r
  {
    var q0 := n / w;
    var r0 := n % w;
    assert n == q0 * w + r0;
    if q0 > q {
      assert (q + 1) * w == q * w + w;
      MulLe(q + 1, q0, w);
    } else if q0 < q {
      assert (q0 + 1) * w == q0 * w + w;
      MulLe(q0 + 1, q, w);
    }
  }

  lemma DivStep(n: nat, w: nat)
    requires 0 < w <= n
    ensures (n - w) / w + 1 == n / w
    ensures (n - w) % w == n % w
  {
    var q := (n - w) / w;
    var r := (n - w) % w;
    assert n - w == q * w + r;
    assert n == (q + 1) * w + r;
    DivUnique(n, w, q + 1, r);
  }

  lemma DivSmall(n: nat, w: nat)
    requires n < w
    ensures n / w == 0
  {
  }

  /** The complete `width`-byte little-endian words of `bs`, in order; a
      trailing fragment shorter than `width` contributes nothing. This is
      what Buffer.BlockCopy into a word array amounts to on a
      little-endian host. */
  function Words(bs: seq<byte>, width: nat): (ws: seq<nat>)
    requires width > 0
    ensures |ws| == |bs| / width
    ensures forall k :: 0 <= k < |ws| ==> ws[k] < Pow256(width)
    decreases |bs|
  {
    if |bs| < width then DivSmall(|bs|, width); []
    else
      DivStep(|bs|, width);
      [DecodeLE(bs[..width])] + Words(bs[width..], width)
  }

  lemma {:induction false} WordsAt(bs: seq<byte>, width: nat, k: nat)
    requires width > 0 && k < |bs| / width
    ensures k * width + width <= |bs|
    ensures Words(bs, width)[k] == DecodeLE(bs[k * width..k * width + width])
    decreases k
  {
    WordsLong(bs, width);
    if k == 0 {
      assert k * width == 0;
    } else {
      var t := bs[width..];
      WordsAt(t, width, k - 1);
      var j := (k - 1) * width;
      MulPred(k, width);
      assert Words(bs, width)[k] == Words(t, width)[k - 1];
      assert t[j..j + width] == bs[k * width..k * width + width];
    }
  }

  /** A byte string with at least one whole word: the first word, then
      the words of the rest. */
  lemma WordsLong(bs: seq<byte>, width: nat)
    requires width > 0 && 0 < |bs| / width
    ensures width <= |bs| && |bs[width..]| / width == |bs| / width - 1
    ensures Words(bs, width) == [DecodeLE(bs[..width])] + Words(bs[width..], width)
  {
    if |bs| < width {
      DivSmall(|bs|, width);
    }
    DivStep(|bs|, width);
  }

  lemma MulPred(k: nat, w: nat)
    requires k > 0
    ensures (k - 1) * w + w == k * w
  {
  }

  lemma {:induction false} WordsAppend(a: seq<byte>, b: seq<byte>, width: nat)
    requires width > 0 && |a| % width == 0
    ensures Words(a + b, width) == Words(a, width) + Words(b, width)
    decreases |a|
  {
    if |a| > 0 {
      assert |a| >= width by {
        if |a| < width { DivSmall(|a|, width); }
      }
      DivStep(|a|, width);
      assert (a + b)[..width] == a[..width];
      assert (a + b)[width..] == a[width..] + b;
      WordsAppend(a[width..], b, width);
    } else {
      assert a + b == b;
    }
  }

  /** Splitting a stream's remaining bytes at the end of a block. */
  lemma WordsSplit(data: seq<byte>, pos: nat, n: nat, width: nat)
    requires width > 0 && n % width == 0 && pos + n <= |data|
    ensures Words(data[pos..], width) == Words(data[pos..pos + n], width) + Words(data[pos + n..], width)
  {
    assert data[pos..] == data[pos..pos + n] + data[pos + n..];
    WordsAppend(data[pos..pos + n], data[pos + n..], width);
  }
}

=== FILE: writers.dfy ===
/** TypeWriter and ColumnWriter: one sequence file per event type and one
    column file per property, with the encoder of each column chosen
    once, from the property's type, when the writer is built. Building a
    writer for an array, list or reference property builds a nested
    TypeWriter rooted at `<path><Name>.`, so the two are defined together. */
module Writers {
  import opened Base
  import opened Streams
  import opened Schema

  /** A writer registered for an exact property type: the bytes it puts
      in the column for a value. */
  type CustomWriter = Value -> seq<byte>
  type CustomWriters = map<FieldType, CustomWriter>

  /** The encoder ColumnWriter.CreateWriter picks for a column. */
  datatype Encoder =
    | Custom(write: CustomWriter)
    | ScalarEnc(scalar: Scalar)
    | NullableEnc(scalar: Scalar)
    | EnumEnc(kind: IntKind)
    | NullableEnumEnc(kind: IntKind)
    | TextEnc
    | SequenceEnc(element: TypeWriter)  // arrays, List<T> and Collection<T>
    | ReferenceEnc(nested: TypeWriter)

  /** A column: its file, the position of its property in the class,
      and its encoder. */
  datatype Column = Column(file: string, index: nat, enc: Encoder)

  /** A type writer: its root path, the write position of its sequence
      file (opened without truncation, so writes start at offset 0), and
      its columns in property order. */
  datatype TypeWriter = TypeWriter(path: string, sequencePos: nat, columns: seq<Column>)

  function SequenceFile(path: string): string { path + "sequence.log" }
  function ColumnFile(path: string, name: string): string { path + name + ".col" }
  function NestedPath(path: string, name: string): string { path + name + "." }

  /** One write call on a file: an append (column files are opened for
      appending) or a write at a handle's position. */
  datatype FileWrite = Append(file: string, bytes: seq<byte>) | WriteAt(file: string, offset: nat, bytes: seq<byte>)

  /** The writes a call made, and the exception that ended it, if any:
      writes made before the exception stay in the files. */
  datatype Outcome = Outcome(writes: seq<FileWrite>, fault: Option<Fault>)

  function Done(writes: seq<FileWrite>): Outcome { Outcome(writes, None) }
  function Fail(f: Fault): Outcome { Outcome([], Some(f)) }

  /** `a`, then `b` unless `a` failed. */
  function Then(a: Outcome, b: Outcome): (o: Outcome)
    ensures a.fault.Some? ==> o == a
    ensures a.fault.None? ==> o == Outcome(a.writes + b.writes, b.fault)
  {
    if a.fault.Some? then a else Outcome(a.writes + b.writes, b.fault)
  }

  /** A column file: its name ends in `.col`. */
  predicate IsColumnFile(f: string)
  {
    |f| >= 4 && f[|f| - 4..] == ".col"
  }

  /** Every column of a writer, nested writers' columns included, writes
      into a column file. */
  predicate ColumnFiles(w: TypeWriter)
    decreases w, 2
  {
    forall k :: 0 <= k < |w.columns| ==> ColumnOk(w.columns[k])
  }

  predicate ColumnOk(c: Column)
    decreases c, 1
  {
    IsColumnFile(c.file) && EncoderOk(c.enc)
  }

  predicate EncoderOk(e: Encoder)
    decreases e, 0
  {
    match e
    case SequenceEnc(n) => ColumnFiles(n)
    case ReferenceEnc(n) => ColumnFiles(n)
    case _ => true
  }

  /** Writes that only append to column files. */
  predicate ColumnAppends(ws: seq<FileWrite>)
  {
    forall k :: 0 <= k < |ws| ==> ws[k].Append? && IsColumnFile(ws[k].file)
  }

  lemma ColumnFileName(path: string, name: string)
    ensures IsColumnFile(ColumnFile(path, name))
  {
    var f := ColumnFile(path, name);
    assert f[|f| - 4..] == ".col";
  }

  // ---------------------------------------------------------------- construction

  /** Whether CreateWriter accepts a property type: a registered custom
      writer, any built-in scalar, an enum of byte, short or int, a
      string, or an array, list or reference type all of whose own column
      types are accepted in turn. */
  predicate Writable(custom: CustomWriters, t: FieldType)
    decreases t, 0
  {
    t in custom ||
    match t
    case Enum(k) => k.EnumWidth()
    case NullableEnum(k) => k.EnumWidth()
    case ArrayOf(c) => AllWritable(custom, c)
    case ListOf(c) => AllWritable(custom, c)
    case Ref(c) => AllWritable(custom, c)
    case OtherValue(_) => false
    case _ => true
  }

  predicate AllWritable(custom: CustomWriters, c: ClrType)
    decreases c, 1
  {
    forall i :: 0 <= i < |c.props| && IsColumn(c.props[i]) ==> Writable(custom, c.props[i].ftype)
  }

  /** ColumnWriter.CreateWriter: the encoder for a property and the files
      the nested writers it builds open. A custom writer for the exact
      type wins over every built-in encoding; an enum of another width
      fails with the enum message, while a nullable enum of another width
      falls through every later test and fails with the generic one. */
  function CreateWriter(custom: CustomWriters, path: string, p: Property): (out: (seq<string>, Result<Encoder>))
    ensures out.1.Ok? <==> Writable(custom, p.ftype)
    ensures p.ftype in custom ==> out == ([], Ok(Custom(custom[p.ftype])))
    ensures out.1.Ok? ==> EncoderOk(out.1.value)
    ensures out.1.Err? && p.ftype.Enum? && p.ftype !in custom ==> out.1.fault == NotSupported(true)
    ensures out.1.Err? && p.ftype.NullableEnum? && p.ftype !in custom ==> out.1.fault == NotSupported(false)
    decreases p, 2
  {
    var t := p.ftype;
    if t in custom then ([], Ok(Custom(custom[t])))
    else match t
      case Plain(s) => ([], Ok(ScalarEnc(s)))
      case Nullable(s) => ([], Ok(NullableEnc(s)))
      case Enum(k) => if k.EnumWidth() then ([], Ok(EnumEnc(k))) else ([], Err(NotSupported(true)))
      case NullableEnum(k) => if k.EnumWidth() then ([], Ok(NullableEnumEnc(k))) else ([], Err(NotSupported(false)))
      case Str => ([], Ok(TextEnc))
      case ArrayOf(c) => NestedWriter(custom, path, p, c, false)
      case ListOf(c) => NestedWriter(custom, path, p, c, false)
      case Ref(c) => NestedWriter(custom, path, p, c, true)
      case OtherValue(_) => ([], Err(NotSupported(false)))
  }

  /** The nested TypeWriter of an array, list or reference column,
      rooted at `<path><Name>.`, and the encoder that uses it. */
  function NestedWriter(custom: CustomWriters, path: string, p: Property, c: ClrType, reference: bool): (out: (seq<string>, Result<Encoder>))
    requires c < p
    ensures out.1.Ok? <==> AllWritable(custom, c)
    ensures out.1.Ok? ==> EncoderOk(out.1.value)
    decreases p, 1
  {
    var (touched, w) := NewTypeWriter(custom, NestedPath(path, p.name), c);
    (touched, if w.Err? then Err(w.fault) else if reference then Ok(ReferenceEnc(w.value)) else Ok(SequenceEnc(w.value)))
  }

  /** new ColumnWriter: the column file is opened (and so created)
      before the encoder is chosen. */
  function NewColumn(custom: CustomWriters, path: string, c: ClrType, i: nat): (out: (seq<string>, Result<Column>))
    requires i < |c.props|
    ensures |out.0| >= 1 && out.0[0] == ColumnFile(path, c.props[i].name)
    ensures out.1.Ok? <==> Writable(custom, c.props[i].ftype)
    ensures out.1.Ok? ==> out.1.value.file == ColumnFile(path, c.props[i].name) && out.1.value.index == i
    ensures out.1.Ok? ==> ColumnOk(out.1.value)
    decreases c, 0, 0
  {
    var p := c.props[i];
    ColumnFileName(path, p.name);
    var (touched, e) := CreateWriter(custom, path, p);
    ([ColumnFile(path, p.name)] + touched,
     if e.Ok? then Ok(Column(ColumnFile(path, p.name), i, e.value)) else Err(e.fault))
  }

  /** The columns for the selected properties ix[k..], built in order up
      to the first failure. */
  function NewColumns(custom: CustomWriters, path: string, c: ClrType, ix: seq<nat>, k: nat): (out: (seq<string>, Result<seq<Column>>))
    requires k <= |ix| && forall j :: 0 <= j < |ix| ==> ix[j] < |c.props|
    ensures out.1.Ok? <==> forall j :: k <= j < |ix| ==> Writable(custom, c.props[ix[j]].ftype)
    ensures out.1.Ok? ==> |out.1.value| == |ix| - k
    ensures out.1.Ok? ==> forall j :: 0 <= j < |out.1.value| ==>
      out.1.value[j].index == ix[k + j] && out.1.value[j].file == ColumnFile(path, c.props[ix[k + j]].name)
    ensures out.1.Ok? ==> forall j :: 0 <= j < |out.1.value| ==> ColumnOk(out.1.value[j])
    decreases c, 0, |ix| - k
  {
    if k == |ix| then ([], Ok([]))
    else
      var (touched, col) := NewColumn(custom, path, c, ix[k]);
      if col.Err? then (touched, Err(col.fault))
      else
        var (touched', rest) := NewColumns(custom, path, c, ix, k + 1);
        (touched + touched', if rest.Ok? then Ok([col.value] + rest.value) else Err(rest.fault))
  }

  /** The positions of a class's column properties, in order. */
  function ColumnIndices(c: ClrType): (ix: seq<nat>)
    ensures forall j :: 0 <= j < |ix| ==> ix[j] < |c.props| && IsColumn(c.props[ix[j]])
    ensures forall i :: 0 <= i < |c.props| && IsColumn(c.props[i]) ==> i in ix
    ensures forall j, l :: 0 <= j < l < |ix| ==> ix[j] < ix[l]
  {
    Select(c.props, IsColumn)
  }

  /** new TypeWriter: the sequence file is opened first, then one column
      per public instance read/write property, in declaration order. Any
      column whose type cannot be written makes the constructor throw;
      the files opened up to then stay created. */
  function NewTypeWriter(custom: CustomWriters, path: string, c: ClrType): (out: (seq<string>, Result<TypeWriter>))
    ensures |out.0| >= 1 && out.0[0] == SequenceFile(path)
    ensures out.1.Ok? <==> AllWritable(custom, c)
    ensures out.1.Ok? ==> var w := out.1.value;
      && w.path == path && w.sequencePos == 0
      && |w.columns| == |ColumnIndices(c)|
      && forall j :: 0 <= j < |w.columns| ==>
           w.columns[j].index == ColumnIndices(c)[j] && w.columns[j].file == ColumnFile(path, c.props[w.columns[j].index].name)
    ensures out.1.Ok? ==> ColumnFiles(out.1.value)
    decreases c, 1
  {
    var ix := ColumnIndices(c);
    var (touched, cols) := NewColumns(custom, path, c, ix, 0);
    assert cols.Ok? <==> AllWritable(custom, c) by {
      if cols.Ok? {
        forall i | 0 <= i < |c.props| && IsColumn(c.props[i])
          ensures Writable(custom, c.props[i].ftype)
        {
          var j :| 0 <= j < |ix| && ix[j] == i;
        }
      }
    }
    ([SequenceFile(path)] + touched, if cols.Ok? then Ok(TypeWriter(path, 0, cols.value)) else Err(cols.fault))
  }

  // ---------------------------------------------------------------- writing

  /** Two's complement little-endian bytes of an integer of kind `k`. */
  function IntBytes(k: IntKind, i: int): (bs: seq<byte>)
    requires k.InRange(i)
    ensures |bs| == k.Width()
  {
    var w := k.Width();
    if k.Signed() then EncodeLE(ToUnsigned(i, w), w) else EncodeLE(i, w)
  }

  function Int64Bytes(i: int): (bs: seq<byte>)
    requires -(Pow256(8) / 2) <= i < Pow256(8) / 2
    ensures |bs| == 8
  {
    EncodeLE(ToUnsigned(i, 8), 8)
  }

  /** DateTimeOffset.TimeOfDay.Ticks: the clock time's ticks since
      midnight. */
  function TimeOfDay(clockTicks: int): int
  {
    clockTicks % TicksPerDay
  }

  /** The bytes BinaryWriter writes for a scalar: one byte 1/0 for a
      bool, the integer in its width, the 16 or 8 raw bytes of a Guid,
      decimal or double, the tick count of a DateTime, and for a
      DateTimeOffset its clock ticks followed by its time of day. A value
      of another shape is an invalid cast. */
  function ScalarBytes(s: Scalar, v: Value): (r: Result<seq<byte>>)
    ensures r.Ok? <==> FitsScalar(s, v)
    ensures r.Ok? && s == Bool ==> r.value == [if v.b then 1 else 0]
    ensures r.Ok? && s.Int? ==> |r.value| == s.kind.Width()
    ensures r.Ok? && s in {Guid, Decimal, Double} ==> r.value == v.bytes
    ensures r.Ok? && s == DateTimeOffset ==> |r.value| == 16
  {
    if !FitsScalar(s, v) then Err(InvalidCast)
    else match s
      case Bool => Ok([if v.b then 1 else 0])
      case Int(k) => Ok(IntBytes(k, v.i))
      case Guid => Ok(v.bytes)
      case Decimal => Ok(v.bytes)
      case Double => Ok(v.bytes)
      case DateTime => Ok(Int64Bytes(v.ticks))
      case DateTimeOffset => Ok(Int64Bytes(v.clockTicks) + Int64Bytes(TimeOfDay(v.clockTicks)))
  }

  /** The column write for one value, on a column that writes into a
      single file: every encoder but the nested ones. */
  function FlatBytes(e: Encoder, v: Value): (r: Result<seq<byte>>)
    requires !e.SequenceEnc? && !e.ReferenceEnc?
  {
    match e
    case Custom(write) => Ok(write(v))
    case ScalarEnc(s) => ScalarBytes(s, v)
    case NullableEnc(s) =>
      if v.Null? then Ok([0])
      else var bs :- ScalarBytes(s, v); Ok([1 as byte] + bs)
    case EnumEnc(k) => if v.IntV? && k.InRange(v.i) then Ok(IntBytes(k, v.i)) else Err(InvalidCast)
    case NullableEnumEnc(k) =>
      if v.Null? then Ok([0])
      else if v.IntV? && k.InRange(v.i) then Ok([1 as byte] + IntBytes(k, v.i))
      else Err(InvalidCast)
    case TextEnc =>
      if v.Null? then Err(ArgumentNull)
      else if v.Text? then Ok(Encode7Bit(|v.bytes|) + v.bytes)
      else Err(InvalidCast)
  }

  /** The write Columns[i].Write makes for value `v` of its property. */
  function WriteColumn(col: Column, v: Value): (o: Outcome)
    ensures ColumnOk(col) ==> ColumnAppends(o.writes)
    decreases col, 1
  {
    match col.enc
    case SequenceEnc(w) =>
      if v.Null? then Done([Append(col.file, [0])])
      else if v.Many? then
        var head := Done([Append(col.file, [1]), Append(col.file, EncodeLE(|v.items| % TwoTo16, 2))]);
        var rest := WriteItems(w, v.items, 0);
        NestedAppends(col, w, head, rest);
        Then(head, rest)
      else Fail(InvalidCast)
    case ReferenceEnc(w) =>
      if v.Null? then Done([Append(col.file, [0])])
      else
        var head := Done([Append(col.file, [1])]);
        var rest := WriteObject(w, v);
        NestedAppends(col, w, head, rest);
        Then(head, rest)
    case _ =>
      var bs := FlatBytes(col.enc, v);
      if bs.Err? then Fail(bs.fault) else Done([Append(col.file, bs.value)])
  }

  /** A nested column's own appends, then its nested writer's writes. */
  lemma NestedAppends(col: Column, w: TypeWriter, head: Outcome, rest: Outcome)
    requires col.enc == SequenceEnc(w) || col.enc == ReferenceEnc(w)
    requires forall k :: 0 <= k < |head.writes| ==> head.writes[k] == Append(col.file, head.writes[k].bytes)
    requires ColumnFiles(w) ==> ColumnAppends(rest.writes)
    ensures ColumnOk(col) ==> ColumnAppends(Then(head, rest).writes)
  {
    if ColumnOk(col) {
      assert EncoderOk(col.enc);
      assert ColumnFiles(w);
    }
  }

  /** The nested writer's Write for items[k..], one item after another. */
  function WriteItems(w: TypeWriter, items: seq<Value>, k: nat): (o: Outcome)
    requires k <= |items|
    ensures ColumnFiles(w) ==> ColumnAppends(o.writes)
    decreases w, 1, |items| - k
  {
    if k == |items| then Done([])
    else Then(WriteObject(w, items[k]), WriteItems(w, items, k + 1))
  }

  /** TypeWriter.Write(o): every column once, in column order, and no
      sequence entry. Reading a property of a null object fails. */
  function WriteObject(w: TypeWriter, o: Value): (out: Outcome)
    ensures ColumnFiles(w) ==> ColumnAppends(out.writes)
    decreases w, 0
  {
    WriteColumnsFrom(w, o, 0)
  }

  function WriteColumnsFrom(w: TypeWriter, o: Value, k: nat): (out: Outcome)
    requires k <= |w.columns|
    ensures ColumnFiles(w) ==> ColumnAppends(out.writes)
    decreases w, 0, |w.columns| - k
  {
    if k == |w.columns| then Done([])
    else
      var col := w.columns[k];
      var first :=
        if o.Null? then Fail(TargetMissing)
        else if !o.Nested? || col.index >= |o.fields| then Fail(InvalidCast)
        else WriteColumn(col, o.fields[col.index]);
      Then(first, WriteColumnsFrom(w, o, k + 1))
  }

  /** TypeWriter.Write(o, index): the 32-bit index into the sequence file
      at the writer's position, then the columns. */
  function WriteRow(w: TypeWriter, o: Value, index: nat): (out: (Outcome, TypeWriter))
    requires index < TwoTo32
    ensures out.0 == Then(Done([WriteAt(SequenceFile(w.path), w.sequencePos, EncodeLE(index, 4))]), WriteObject(w, o))
    ensures out.1 == w.(sequencePos := w.sequencePos + 4)
  {
    (Then(Done([WriteAt(SequenceFile(w.path), w.sequencePos, EncodeLE(index, 4))]), WriteObject(w, o)),
     w.(sequencePos := w.sequencePos + 4))
  }

  /** TypeWriter.Dispose: each column's writer and stream, in column
      order, then the sequence file's. The nested writers of array, list
      and reference columns are not disposed. */
  function Dispose(w: TypeWriter): (rs: seq<Release>)
    ensures |rs| == 2 * |w.columns| + 2
    ensures forall k :: 0 <= k < |w.columns| ==>
      rs[2 * k] == CloseWrapper(w.columns[k].file) && rs[2 * k + 1] == CloseStream(w.columns[k].file)
    ensures rs[|rs| - 2..] == [CloseWrapper(SequenceFile(w.path)), CloseStream(SequenceFile(w.path))]
  {
    DisposeColumns(w.columns) + [CloseWrapper(SequenceFile(w.path)), CloseStream(SequenceFile(w.path))]
  }

  function DisposeColumns(cols: seq<Column>): (rs: seq<Release>)
    ensures |rs| == 2 * |cols|
    ensures forall k :: 0 <= k < |cols| ==> rs[2 * k] == CloseWrapper(cols[k].file) && rs[2 * k + 1] == CloseStream(cols[k].file)
  {
    if |cols| == 0 then []
    else [CloseWrapper(cols[0].file), CloseStream(cols[0].file)] + DisposeColumns(cols[1..])
  }

  // ---------------------------------------------------------------- files

  /** The bytes of `prior` after writing `bs` at `offset`: bytes past the
      end of the file extend it, with a zero gap if the offset lies beyond
      the end. */
  function Splice(prior: seq<byte>, offset: nat, bs: seq<byte>): (r: seq<byte>)
    ensures |r| >= offset + |bs| && r[offset..offset + |bs|] == bs
    ensures offset <= |prior| ==> r[..offset] == prior[..offset]
    ensures offset + |bs| <= |prior| ==> |r| == |prior| && r[offset + |bs|..] == prior[offset + |bs|..]
    ensures offset + |bs| >= |prior| ==> |r| == offset + |bs|
  {
    var front := if offset <= |prior| then prior[..offset] else prior + seq(offset - |prior|, _ => 0 as byte);
    var back := if offset + |bs| < |prior| then prior[offset + |bs|..] else [];
    front + bs + back
  }

  /** A write applied to the files. */
  function ApplyWrite(files: Files, w: FileWrite): (fs: Files)
    ensures fs.Keys == files.Keys + {w.file}
    ensures forall q :: q in files && q != w.file ==> fs[q] == files[q]
  {
    var prior := if w.file in files then files[w.file] else [];
    match w
    case Append(f, bs) => files[f := prior + bs]
    case WriteAt(f, off, bs) => files[f := Splice(prior, off, bs)]
  }

  function Apply(files: Files, ws: seq<FileWrite>): (fs: Files)
    ensures fs.Keys == files.Keys + set k | 0 <= k < |ws| :: ws[k].file
    decreases |ws|
  {
    if |ws| == 0 then files else Apply(ApplyWrite(files, ws[0]), ws[1..])
  }

  /** Touching every path in turn. */
  function TouchAll(files: Files, paths: seq<string>): (fs: Files)
    ensures fs.Keys == files.Keys + set k | 0 <= k < |paths| :: paths[k]
    ensures forall q :: q in files ==> fs[q] == files[q]
    ensures forall q :: q in fs && q !in files ==> fs[q] == []
    decreases |paths|
  {
    if |paths| == 0 then files else TouchAll(Touch(files, paths[0]), paths[1..])
  }
}
